=== FILE: README.md ===
# Tender management core in Dafny

This project models the pure logic at the centre of a desktop tender-management application, an Electron and React program written in TypeScript and JavaScript. The application prices tender bills of quantities, tracks project and administrative costs, scores bid/no-bid decisions, keeps competitor and market data, checks tender documents for quality, and guards desktop file operations and local storage. The model covers the parts of sixteen source files that compute something: the normalisation and editing of BOQ (bill of quantities) rows, the workflow rule engine, decision scoring, competitor metrics, quality scores, the desktop security policy, the pricing wizard's state machine, the cost views, the comparison and market-intelligence services, the storage helpers, and the expense, development-goal and dashboard summaries.

## Layout

Each source file is modelled by one module, and five shared modules model the JavaScript behaviour the others rely on.

- `Wrappers` (wrappers.dfy): `Option` and `Result`, for absent values and error paths
- `Numbers` (numbers.dfy): numbers that may be NaN or infinite (`Num`); `Math.round`, `toFixed`, `parseFloat`, `Number(s)` and `String(n)`; clamps and sums
- `Text` (text.dfy): JavaScript white space and `trim`, lower-casing, `includes`, `split`/`join`, `replace` with a global pattern, decimal text of naturals
- `Js` (js.dfy): dynamic values (`JsValue`): `typeof`, truthiness, `===`, `Number(v)`, `String(v)`, property lookup, `JSON.stringify`
- `Lists` (lists.dfy): `filter`, `findIndex`, counting, `slice` caps, `[...new Set(xs)]`, a stable descending sort, ranking, set toggling
- `TenderPricing` (tender_pricing.dfy): src/components/TenderPricingProcess.tsx
- `Workflow` (workflow.dfy): src/services/workflowAutomationService.ts
- `DecisionSupport` (decision_support.dfy): src/services/decisionSupportService.ts
- `Competitors` (competitors.dfy): src/services/competitorDatabaseService.ts
- `Quality` (quality.dfy): src/services/qualityAssuranceService.ts
- `DesktopSecurity` (desktop_security.dfy): src/electron/main.cjs
- `PricingWizard` (pricing_wizard.dfy): src/features/tenders/pricing/TenderPricingWizard.tsx
- `ProjectCost` (project_cost.dfy): src/components/cost/ProjectCostView.tsx
- `SimplifiedCost` (simplified_cost.dfy): src/components/cost/SimplifiedProjectCostView.tsx
- `TenderDetails` (tender_details.dfy): src/components/TenderDetails.tsx
- `BidComparison` (bid_comparison.dfy): src/services/bidComparisonService.ts
- `MarketIntelligence` (market_intelligence.dfy): src/application/services/marketIntelligenceService.ts
- `Storage` (storage.dfy): src/utils/storage.ts
- `Expenses` (expenses.dfy): src/components/ExpenseManagement.tsx
- `Development` (development.dfy): src/presentation/pages/Development/DevelopmentPage.tsx
- `Dashboard` (dashboard.dfy): src/features/dashboard/AdvancedDashboard.tsx

Modelling conventions:

- Money, quantities and percentages are exact `real`s. Where the code guards against NaN or infinity, or where NaN decides the outcome, values are `Num` (a finite real, NaN, or ±infinity).
- A service method that reads a stored list, changes it and writes it back becomes a pure function from the stored list to the result and the new list. A thrown error becomes a `Result` failure.
- Clocks, generated ids, date parsing, `JSON.parse`, currency formatting and lookups into catalogues that are not part of this model become function parameters.
- React state updates become functions from the old state to the new state.

## Model

| member | source | states |
|---|---|---|
| BidComparison.GetAll | src/services/bidComparisonService.ts:419-473 | without filters the stored list itself; with filters exactly the stored comparisons that pass every given filter, never more than stored |
| BidComparison.EmptyFiltersKeepAll | src/services/bidComparisonService.ts:419-473 | a filter object with no criteria keeps every stored comparison, in order |
| BidComparison.StatusFilterNarrows | src/services/bidComparisonService.ts:439-442 | adding a status filter keeps exactly the comparisons that passed before and carry one of the statuses |
| BidComparison.GetComparison | src/services/bidComparisonService.ts:409-417 | absent iff no stored comparison has the id; otherwise the first stored comparison with that id, as `find` returns |
| BidComparison.UpdateComparison | src/services/bidComparisonService.ts:367-390 | not found iff no stored comparison has the id; otherwise the first match is replaced by the patched copy stamped with the update time and the list keeps its length |
| BidComparison.UpdateThenGet | src/services/bidComparisonService.ts:367-417 | when patches keep the id, reading back the updated id gives the updated comparison |
| BidComparison.DeleteComparison | src/services/bidComparisonService.ts:392-407 | reports true iff some comparison had the id; the remaining list is exactly the stored comparisons with another id, unchanged when none matched |
| BidComparison.DeleteTwice | src/services/bidComparisonService.ts:392-407 | deleting the same id again reports false and changes nothing |
| BidComparison.RangeOf | src/services/bidComparisonService.ts:1053-1068 | min and max are values of the list bounding every value, and the average is the sum divided by the count, between min and max |
| BidComparison.Prices | src/services/bidComparisonService.ts:1048 | one price per bid, a missing or zero price read as 0 |
| BidComparison.Timelines | src/services/bidComparisonService.ts:1049 | one timeline per bid, a missing or zero timeline read as 0 |
| BidComparison.Qualities | src/services/bidComparisonService.ts:1050 | one quality score per bid, a missing or zero score read as 0 |
| BidComparison.CompareBids | src/services/bidComparisonService.ts:1047-1068 | fails iff fewer than two bids; otherwise counts every bid, and the price, timeline and quality ranges each span their per-bid values with the average between min and max (also lines 481-489) |
| BidComparison.Mean | src/services/bidComparisonService.ts:838 | absent iff there are no competitors, where bidComparisonService.ts divides 0 by 0 (also lines 845, 852) |
| BidComparison.LowerIsBetterMonotone | src/services/bidComparisonService.ts:838-842 | a higher own price never earns more from the price factor |
| BidComparison.WinProbability | src/services/bidComparisonService.ts:825-861 | always within [0, 100]; 50 when the bid is missing or there are no competitors |
| BidComparison.CheaperNotWorse | src/services/bidComparisonService.ts:838-842 | lowering a bid's price never lowers its win probability |
| BidComparison.AverageBidEven | src/services/bidComparisonService.ts:836-858 | a bid equal to the competitors' averages has exactly 50 % |
| BidComparison.SuperiorBidFavoured | src/services/bidComparisonService.ts:825-861 | a bid cheaper and better than average, and not slower, has a win probability above 50 % (also lines 1527-1540) |
| BidComparison.RelativePosition | src/services/bidComparisonService.ts:1527-1540 | superior iff cheaper and better than average, cheaper iff cheaper but not better, better quality iff better but not cheaper, average otherwise |
| BidComparison.AllRecommendations | src/services/bidComparisonService.ts:1417-1419 | a recommendation is collected iff some gap lists it |
| BidComparison.GapRecommendations | src/services/bidComparisonService.ts:1414-1428 | no duplicates; a recommendation appears iff a gap lists it or it is one of the three general ones; the gaps' recommendations come first in order of first mention, followed by the general ones that no gap already listed, in their order |
| BidComparison.NoGapsGeneralOnly | src/services/bidComparisonService.ts:1422-1427 | without gaps only the three general recommendations remain |
| BidComparison.GapAction | src/services/bidComparisonService.ts:1436-1444 | a gap's action is high priority iff the gap is urgent, medium otherwise |
| BidComparison.OpportunityAction | src/services/bidComparisonService.ts:1447-1456 | an opportunity's action is medium priority |
| BidComparison.GapActions | src/services/bidComparisonService.ts:1434-1445 | one action per critical or urgent gap |
| BidComparison.GapActionsArePressing | src/services/bidComparisonService.ts:1434-1445 | an action is listed iff it is the action of some critical or urgent gap |
| BidComparison.ActionPlan | src/services/bidComparisonService.ts:1430-1459 | the gap actions, exactly as GapActions lists them, followed by the actions of at most the first three opportunities, in order |
| BidComparison.NameOf | src/services/bidComparisonService.ts:1638-1646 | a name is found iff the table has the key, and it is that key's name |
| BidComparison.TranslatePriority | src/services/bidComparisonService.ts:1638-1646 | a known priority becomes its name and any other text comes back unchanged |
| BidComparison.TranslateIdempotent | src/services/bidComparisonService.ts:1638-1646 | translating a translated priority changes nothing more |
| Competitors.MissingIffBlank | src/services/competitorDatabaseService.ts:424-430 | a name or headquarters is missing iff absent or blank after trimming |
| Competitors.Errors | src/services/competitorDatabaseService.ts:424-438 | an error is reported iff its rule fails |
| Competitors.Warnings | src/services/competitorDatabaseService.ts:441-451 | a warning is reported iff its field is lacking |
| Competitors.Validate | src/services/competitorDatabaseService.ts:419-457 | valid iff name and headquarters are present and given market share and win rate lie in [0, 100]; errors and warnings are exactly the failing rules |
| Competitors.WarningsDoNotAffectValidity | src/services/competitorDatabaseService.ts:441-456 | changing website, specialisations or segments never changes validity |
| Competitors.Create | src/services/competitorDatabaseService.ts:247-262 | fails with the validation errors iff invalid; otherwise an active competitor with the given data, win rate 0, no projects and share defaulting to 0 |
| Competitors.AddRecentProject | src/services/competitorDatabaseService.ts:478-484 | the new project comes first, followed by the old ones, at most 10 in all |
| Competitors.NewestFirst | src/services/competitorDatabaseService.ts:478-479 | of two added projects the later one is first |
| Competitors.RecentProjectsCapped | src/services/competitorDatabaseService.ts:481-484 | any number of additions keeps at most 10 recent projects |
| Competitors.AverageBid | src/services/competitorDatabaseService.ts:849-852 | the average bid is non-negative, and positive iff some project has a positive bid |
| Competitors.Recalculate | src/services/competitorDatabaseService.ts:840-855 | projects completed counts won projects; win rate and average bid are recomputed from the recent projects |
| Competitors.WinRateAllOrNothing | src/services/competitorDatabaseService.ts:843-846 | the two filters coincide, so the win rate is 0 or 100, and 100 iff some project was won |
| Competitors.DecidedWinRate | src/services/competitorDatabaseService.ts:843-846 | corrected: won over decided (won or lost) projects, in [0, 100], 100 iff some project was won and none lost, 0 without decided projects |
| Competitors.LostProjectIgnored | src/services/competitorDatabaseService.ts:843-846 | one won and one lost project: 100 as written, 50 over decided projects |
| Competitors.Balance | src/services/competitorDatabaseService.ts:885-888 | the strengths share lies in [0, 1] and is 1 with strengths and no weaknesses |
| Competitors.StrengthBounds | src/services/competitorDatabaseService.ts:872-892 | for in-range share and win rate the rounded strength lies in [0, 100] |
| Competitors.StrengthMonotone | src/services/competitorDatabaseService.ts:872-892 | a larger share or win rate never lowers the strength |
| Competitors.DominantStrength | src/services/competitorDatabaseService.ts:872-892 | full share, win rate and experience with only strengths give strength 100 |
| Competitors.Threat | src/services/competitorDatabaseService.ts:894-903 | critical iff strength > 80 and share > 20, high iff not critical with strength > 60 and share > 10, low iff none of the bands applies |
| Competitors.ThreatMonotone | src/services/competitorDatabaseService.ts:894-903 | larger strength, share and win rate never lower the threat |
| Competitors.ByShare | src/services/competitorDatabaseService.ts:859-861 | exactly the competitors with positive share, by descending share |
| Competitors.Band | src/services/competitorDatabaseService.ts:866-869 | leader iff rank 0, otherwise challenger iff the rank is below 20 % of the list |
| Competitors.MarketPositionOf | src/services/competitorDatabaseService.ts:858-870 | corrected: a competitor missing from the positive-share ranking is niche |
| Competitors.NoShareIsChallenger | src/services/competitorDatabaseService.ts:863-867 | as written a competitor without share gets findIndex −1 and is ranked challenger |
| Competitors.MarketPositionAsWritten | src/services/competitorDatabaseService.ts:858-869 | as written, a competitor missing from the share ranking is always a challenger; NoShareIsChallenger and RankedPositionAgrees relate it to the corrected MarketPositionOf |
| Competitors.RankedPositionAgrees | src/services/competitorDatabaseService.ts:858-870 | for a ranked competitor the corrected position equals the as-written one |
| Competitors.LeaderHasLargestShare | src/services/competitorDatabaseService.ts:858-866 | a leader is in the ranking and no ranked competitor has a larger share |
| Competitors.BandMonotone | src/services/competitorDatabaseService.ts:866-869 | a later rank never gives a better position |
| Competitors.ConcentrationBounds | src/services/competitorDatabaseService.ts:968-972 | with non-negative shares summing to at most 100 the HHI lies in [0, 10000] |
| Competitors.Concentration | src/services/competitorDatabaseService.ts:968-972 | the rounded sum of squared shares is never negative; ConcentrationBounds and MonopolyConcentration give its upper bound and the monopoly value |
| Competitors.MonopolyConcentration | src/services/competitorDatabaseService.ts:968-972 | a single competitor with all of the market has HHI 10000 |
| Competitors.SumSquaresBelowSquare | src/services/competitorDatabaseService.ts:970 | the sum of squared shares lies between 0 and the square of their sum |
| Competitors.RankMetric | src/services/competitorDatabaseService.ts:669-674 | a permutation of the metric values in descending order, ranked 1..n |
| Dashboard.TrendFromSeries | src/features/dashboard/AdvancedDashboard.tsx:148-165 | no trend with fewer than two months, a non-finite net or a previous net of 0; otherwise up iff the current net is at least the previous one |
| Dashboard.TrendIgnoresHistory | src/features/dashboard/AdvancedDashboard.tsx:152 | only the last two months matter: earlier months never change the trend |
| Dashboard.TrendSignAgrees | src/features/dashboard/AdvancedDashboard.tsx:158-162 | an upward trend never shows a negative percentage and a downward one never a positive one |
| Dashboard.DoublingIsHundredPercent | src/features/dashboard/AdvancedDashboard.tsx:158-159 | a net that doubles from a positive value is an upward trend of exactly 100 % |
| Dashboard.TimelineStatusOf | src/features/dashboard/AdvancedDashboard.tsx:167-175 | completed iff no days are left; in progress iff days are left and the priority is critical or at most 3 days remain; upcoming otherwise |
| Dashboard.CalendarStatusOf | src/features/dashboard/AdvancedDashboard.tsx:177-185 | never success; critical iff no days are left; warning iff days are left and the item is critical or at most 3 days away |
| Dashboard.CalendarFollowsTimeline | src/features/dashboard/AdvancedDashboard.tsx:167-185 | the calendar status is the timeline status mapped completed→critical, in progress→warning, upcoming→default |
| Dashboard.TimelineMonotone | src/features/dashboard/AdvancedDashboard.tsx:167-175 | fewer days left never gives a less urgent timeline status |
| Dashboard.InvoiceCalendarStatus | src/features/dashboard/AdvancedDashboard.tsx:187-195 | success iff paid, critical iff overdue, warning for every other status |
| Dashboard.CountShown | src/features/dashboard/AdvancedDashboard.tsx:381-393 | the count of invoices shown with one status is at most the number of invoices |
| Dashboard.InvoiceStatusCounts | src/features/dashboard/AdvancedDashboard.tsx:381-393 | sent + overdue + paid is the number of invoices, and each count is the number of invoices the calendar shows with the matching status |
| DecisionSupport.Clamp100 | src/services/decisionSupportService.ts:366-370 | `Math.max(0, Math.min(100, n))` propagates NaN and otherwise lands in [0, 100] |
| DecisionSupport.RangeScoreAsWritten | src/services/decisionSupportService.ts:366-368 | as written: the min/max normalisation is NaN iff the value is NaN or it sits on a zero-width range (0/0) |
| DecisionSupport.ZeroWidthRangeIsNaN | src/services/decisionSupportService.ts:366-368 | min == max and value == min gives NaN as written, 100 in the corrected model |
| DecisionSupport.RangeScore | src/services/decisionSupportService.ts:366-368 | corrected: lies in [0, 100], NaN scores 0, a zero-width range scores 100 at or above it and 0 below |
| DecisionSupport.PercentScore | src/services/decisionSupportService.ts:370 | a plain numeric value is clamped to [0, 100] and passes unchanged inside it |
| DecisionSupport.PositionScore | src/services/decisionSupportService.ts:371-376 | lies in [0, 100], an unknown value scores 0, the last option scores 100 |
| DecisionSupport.PositionScoreAsWritten | src/services/decisionSupportService.ts:371-376 | as written: NaN exactly for the one option of a single-option list, otherwise a number in [0, 100]; PositionAgrees relates it to PositionScore |
| DecisionSupport.Normalize | src/services/decisionSupportService.ts:361-380 | lies in [0, 100]; a boolean scores 100 iff truthy and 0 otherwise; text scores 50 |
| DecisionSupport.NormalizeAsWritten | src/services/decisionSupportService.ts:361-380 | as written every normalised value is NaN or a number in [0, 100]; SingleOptionIsNaN shows the NaN and NormalizeAgrees relates it to Normalize |
| DecisionSupport.NormalizeAgrees | src/services/decisionSupportService.ts:361-380 | wherever the as-written normalisation is not NaN it equals the corrected one |
| DecisionSupport.SingleOptionIsNaN | src/services/decisionSupportService.ts:373 | a categorical criterion with a single option normalises to 0/0 = NaN as written, 100 corrected |
| DecisionSupport.RangeAgrees | src/services/decisionSupportService.ts:366-368 | the as-written range score is NaN or the corrected one |
| DecisionSupport.PercentAgrees | src/services/decisionSupportService.ts:370 | the as-written clamp is NaN or the corrected one |
| DecisionSupport.PositionAgrees | src/services/decisionSupportService.ts:371-376 | the as-written position score is NaN or the corrected one |
| DecisionSupport.RangeScoreMonotone | src/services/decisionSupportService.ts:366-368 | on a proper range a larger value never scores lower |
| DecisionSupport.PositionOrder | src/services/decisionSupportService.ts:372-374 | among distinct options a later option scores strictly higher |
| DecisionSupport.Scored | src/services/decisionSupportService.ts:346-356 | one (score, weight) pair per valued criterion, each score in [0, 100]; nothing when no criterion has a value |
| DecisionSupport.AccumulateBounds | src/services/decisionSupportService.ts:346-356 | the weighted total lies between 0 and 100 times the total weight |
| DecisionSupport.CategoryScore | src/services/decisionSupportService.ts:342-359 | corrected: with non-negative weights the category score lies in [0, 100] |
| DecisionSupport.UnscoredCategoryIsZero | src/services/decisionSupportService.ts:342-359 | a category with no criteria, or none valued, scores 0 |
| DecisionSupport.UnvaluedCriterionIgnored | src/services/decisionSupportService.ts:350-351 | a criterion without a value does not change the category score |
| DecisionSupport.ScoredAsWritten | src/services/decisionSupportService.ts:346-356 | as written: the per-criterion scores are numbers or NaN |
| DecisionSupport.AddScore | src/services/decisionSupportService.ts:353 | the running total is NaN iff the total or the score is, and otherwise adds score times weight |
| DecisionSupport.ScoredAgrees | src/services/decisionSupportService.ts:346-356 | the as-written and corrected pairs agree in number and weight, and each score is NaN or the corrected one |
| DecisionSupport.AccumulateAgrees | src/services/decisionSupportService.ts:346-358 | the as-written total is NaN iff some score is NaN, and otherwise equals the corrected total |
| DecisionSupport.CategoryScoreAsWritten | src/services/decisionSupportService.ts:342-359 | as written: the category score is a number or NaN |
| DecisionSupport.CategoryScoreAgrees | src/services/decisionSupportService.ts:342-359 | the as-written category score is NaN or equals the corrected one |
| DecisionSupport.CategoryNaNHasCause | src/services/decisionSupportService.ts:352-353 | a NaN category score comes from a valued criterion that normalises to NaN |
| DecisionSupport.CategoryNaNWithPositiveWeights | src/services/decisionSupportService.ts:352-358 | with positive weights one NaN-normalising criterion makes the category score NaN |
| DecisionSupport.SingleOptionCategoryIsNaN | src/services/decisionSupportService.ts:352-353 | a single-option categorical criterion makes the as-written category NaN, while the corrected one scores 100 |
| DecisionSupport.OverallScoreBounds | src/services/decisionSupportService.ts:298-304 | with scores and weights in range and weights summing to 100 the overall score lies in [0, 100] |
| DecisionSupport.OverallScore | src/services/decisionSupportService.ts:298-304 | with scores in [0, 100] and non-negative weights, the overall score lies between 0 and the weight total; OverallScoreBounds and OverallScoreUniform specialise it to weights summing to 100 |
| DecisionSupport.OverallScoreUniform | src/services/decisionSupportService.ts:298-304 | equal category scores give that score overall when the weights sum to 100 |
| DecisionSupport.Recommend | src/services/decisionSupportService.ts:307-315 | bid iff at or above the bid threshold, no-bid iff below it and at or under the no-bid threshold, conditional only strictly between |
| DecisionSupport.RecommendMonotone | src/services/decisionSupportService.ts:307-315 | a higher score never gives a weaker recommendation |
| DecisionSupport.InvertedThresholdsNeverConditional | src/services/decisionSupportService.ts:307-315 | with the bid threshold at or below the no-bid threshold, conditional is never recommended |
| DecisionSupport.RiskLevelOf | src/services/decisionSupportService.ts:382-390 | critical iff combined risk ≥ 80, high iff in [60, 80), low iff below 40 |
| DecisionSupport.RiskMonotone | src/services/decisionSupportService.ts:382-390 | higher risk and overall scores never raise the risk level |
| DecisionSupport.Analyse | src/services/decisionSupportService.ts:288-338 | corrected: each of the five category scores is that category's weighted score, the recommendation is the threshold band of the unrounded overall score, the risk level uses the risk category, the reported score is rounded to cents |
| DecisionSupport.AnalyseBounds | src/services/decisionSupportService.ts:288-338 | with well-formed weights every category score and the overall score lie in [0, 100] |
| DecisionSupport.OverallScoreAsWritten | src/services/decisionSupportService.ts:298-304 | the weighted sum is NaN iff some category score is NaN, and otherwise the corrected sum |
| DecisionSupport.RecommendAsWritten | src/services/decisionSupportService.ts:307-315 | a NaN score fails both comparisons and is recommended conditional_bid |
| DecisionSupport.RiskLevelAsWritten | src/services/decisionSupportService.ts:382-390 | a NaN input fails every band comparison and gives low risk |
| DecisionSupport.Round2AsWritten | src/services/decisionSupportService.ts:329 | rounding keeps NaN and rounds finite scores to cents |
| DecisionSupport.AnalyseAsWritten | src/services/decisionSupportService.ts:288-338 | as written: any NaN category makes the overall score NaN, the recommendation conditional_bid and the risk low |
| DecisionSupport.AnalyseAgrees | src/services/decisionSupportService.ts:288-338 | without NaN categories the as-written analysis equals the corrected one |
| DecisionSupport.SingleOptionScenarioIsConditional | src/services/decisionSupportService.ts:307-315 | a framework whose only criterion is single-option categorical is recommended conditional_bid with low risk |
| DecisionSupport.Validate | src/services/decisionSupportService.ts:925-960 | valid iff weights sum to 100 ± 0.01, criteria are non-empty and bid threshold > no-bid threshold, each error present iff its condition; fewer than 5 criteria warns, and the missing-risk suggestion appears iff no criterion is in the risk category |
| DecisionSupport.ValidFrameworkBands | src/services/decisionSupportService.ts:307-315 | under a valid framework conditional_bid is given exactly strictly between the thresholds |
| DecisionSupport.Rankings | src/services/decisionSupportService.ts:546-556 | a permutation of the scenarios, by descending score, ranked 1..n |
| DecisionSupport.WinRate | src/services/decisionSupportService.ts:777-780 | lies in [0, 100], and is 0 when no decision has an outcome |
| DecisionSupport.UndecidedIgnored | src/services/decisionSupportService.ts:777-780 | a pending decision does not change the win rate |
| DecisionSupport.DecisionCountsPartition | src/services/decisionSupportService.ts:772-775 | bid, no-bid and conditional counts add up to the number of decisions |
| DesktopSecurity.ReplaceForbidden | src/electron/main.cjs:487 | each of `<>:"/\|?*` and each control character becomes '_', every other character is kept |
| DesktopSecurity.DropTrailingDots | src/electron/main.cjs:497-499 | a prefix of the name that does not end in '.', having dropped only dots |
| DesktopSecurity.CleanName | src/electron/main.cjs:486-505 | with a safe fallback the result is safe (no forbidden character, 1 to 120 characters, no trailing '.'); a safe trimmed name is kept |
| DesktopSecurity.SanitizeFilename | src/electron/main.cjs:485-506 | with a safe fallback the sanitised filename is safe |
| DesktopSecurity.FallbacksSafe | src/electron/main.cjs:525 | the fallbacks "file", "export", "unspecified" and "global" are safe names (also lines 571, 646, 681) |
| DesktopSecurity.SafeNameUnchanged | src/electron/main.cjs:485-506 | a safe, trimmed name comes back unchanged |
| DesktopSecurity.UnsafeFallbackLeaks | src/electron/main.cjs:497-505 | with an empty fallback a name of dots sanitises to the empty string |
| DesktopSecurity.Entries | src/electron/main.cjs:387-393 | an object's own entries; no entries for a non-object |
| DesktopSecurity.MetadataText | src/electron/main.cjs:407-421 | a string value is kept as it is |
| DesktopSecurity.Truncate | src/electron/main.cjs:421-424 | at most 256 characters; short text is kept, longer text keeps its first 253 characters |
| DesktopSecurity.KeyOf | src/electron/main.cjs:398 | the trimmed key cut to at most 64 characters, non-empty when the raw key is not blank (also line 426) |
| DesktopSecurity.Survive | src/electron/main.cjs:393-426 | an entry survives iff its key is not blank and its value is not null or undefined, and a survivor fits the caps |
| DesktopSecurity.Survivors | src/electron/main.cjs:393-427 | every survivor fits the key and value caps |
| DesktopSecurity.SurvivorsEmptyIff | src/electron/main.cjs:393-427 | no survivor iff no entry is kept |
| DesktopSecurity.Collect | src/electron/main.cjs:426 | every surviving key is in the map, each mapping comes from an entry, and the map is empty iff there are no survivors |
| DesktopSecurity.LastWins | src/electron/main.cjs:426 | when two entries share a key, the later one's value is kept |
| DesktopSecurity.SanitizeMetadata | src/electron/main.cjs:386-430 | undefined for a non-object or when no entry survives; otherwise non-empty with every key 1 to 64 and every value at most 256 characters |
| DesktopSecurity.SanitizeEntries | src/electron/main.cjs:391-429 | the same caps and emptiness condition over an entry list |
| DesktopSecurity.EnvelopeRecognised | src/electron/main.cjs:190-201 | an envelope built from four strings is recognised |
| DesktopSecurity.EnvelopeShape | src/electron/main.cjs:190-201 | a value is a secure envelope iff it is an object whose version, iv, ciphertext and authTag are strings |
| DesktopSecurity.NormalizedSize | src/electron/main.cjs:526 | a finite non-negative size is floored; anything else counts as 0 |
| DesktopSecurity.Describe | src/electron/main.cjs:524-558 | a file is allowed iff its type is whitelisted and its size at most 10 MB; the reason is absent iff allowed; the name is safe |
| DesktopSecurity.DescribeAll | src/electron/main.cjs:524 | one descriptor per dropped file, in order |
| DesktopSecurity.BlockAll | src/electron/main.cjs:561-566 | every file is blocked for the aggregate limit, keeping its name and size |
| DesktopSecurity.Admit | src/electron/main.cjs:561-621 | the intent is allowed iff the total is at most 50 MB and some file is allowed; over the limit every file is blocked, otherwise the descriptors pass unchanged |
| DesktopSecurity.AggregateLimitRefusesAcceptableFiles | src/electron/main.cjs:561-592 | five 10 MB files are admitted and six are refused, though each is acceptable alone |
| DesktopSecurity.DragIntent | src/electron/main.cjs:508-622 | a null file throws; a payload without a file array is refused as invalid-files; otherwise the admission decision over the described files |
| DesktopSecurity.DragAllowedFilesAdmissible | src/electron/main.cjs:508-622 | every file an intent allows has a safe name, a whitelisted type and a size within 10 MB |
| DesktopSecurity.TooLargeNumbers | src/electron/main.cjs:639 | a finite byte count is too large iff over 20 MB, and undefined, object or NaN byte counts are never too large |
| DesktopSecurity.Put | src/electron/main.cjs:663-666 | the spread sets filename and keeps every other property |
| DesktopSecurity.Refusal | src/electron/main.cjs:624-644 | no refusal iff the payload is an object with an allowed format that is not too large; invalid-payload iff not an object; unsupported-format iff the format is not allowed |
| DesktopSecurity.Export | src/electron/main.cjs:624-668 | allowed iff not refused, with the refusal reason otherwise; an allowed export has a safe filename and keeps every other property |
| DesktopSecurity.Notify | src/electron/main.cjs:670-695 | allowed iff the payload is an object, and then returned as given |
| DesktopSecurity.SecureAction | src/electron/main.cjs:697-723 | invalid-request iff the request is not an object; unsupported-action iff it is an object with an unknown action |
| DesktopSecurity.StoredEvents | src/electron/main.cjs:434-447 | an array is taken as the event list, and a non-object gives none |
| DesktopSecurity.MakeEvent | src/electron/main.cjs:449-464 | every field is set, with "ipc" and "error" as category and status defaults, and metadata only when non-empty |
| DesktopSecurity.AppendEvent | src/electron/main.cjs:466-469 | the new event is last and at most 500 events are kept, the newest ones, in order |
| DesktopSecurity.CapEachTime | src/electron/main.cjs:466-469 | capping after every append equals keeping the last 500 of the whole history |
| Development.TargetForYear | src/presentation/pages/Development/DevelopmentPage.tsx:95-98 | the goal's target for the year, 0 when missing |
| Development.TargetsIndependent | src/presentation/pages/Development/DevelopmentPage.tsx:95-98 | setting one year's target does not change the other years' |
| Development.ActualValue | src/presentation/pages/Development/DevelopmentPage.tsx:152-173 | a yearly goal in the tenders, projects, revenue, profit or performance category reads the matching KPI metric; every other goal reads its current value, 0 when missing |
| Development.YearlyKpiIgnoresCurrentValue | src/presentation/pages/Development/DevelopmentPage.tsx:152-173 | a yearly goal in a KPI category is measured by the metrics alone, whatever its own current value |
| Development.FormatValue | src/presentation/pages/Development/DevelopmentPage.tsx:100-111 | currency through the formatter, percentage as the number's text plus '%', anything else as the number's text |
| Development.FormattedNumberReadsBack | src/presentation/pages/Development/DevelopmentPage.tsx:106-109 | a formatted integer reads back as that integer |
| Development.ResolveProgressColor | src/presentation/pages/Development/DevelopmentPage.tsx:113-118 | success iff ≥ 100, primary iff in [80, 100), warning iff in [60, 80), destructive iff below 60 |
| Development.ColorMonotone | src/presentation/pages/Development/DevelopmentPage.tsx:113-118 | more progress never gives a worse colour |
| Development.Share | src/presentation/pages/Development/DevelopmentPage.tsx:200-205 | the ratio is clamped to [0, 1]; a target ≤ 0 counts 1 iff the actual is positive |
| Development.ShareSum | src/presentation/pages/Development/DevelopmentPage.tsx:197-206 | the summed shares lie between 0 and the number of goals |
| Development.YearReadiness | src/presentation/pages/Development/DevelopmentPage.tsx:189-210 | a whole percentage in [0, 100], and 0 without goals |
| Development.AllMetFullyReady | src/presentation/pages/Development/DevelopmentPage.tsx:189-210 | when every goal meets a positive target the year is 100 % ready |
| Development.AllMetShareSum | src/presentation/pages/Development/DevelopmentPage.tsx:197-206 | when every goal meets a positive target the shares sum to the number of goals |
| Development.YearProgressMap | src/presentation/pages/Development/DevelopmentPage.tsx:189-210 | one entry for each of 2025, 2026 and 2027, each that year's readiness |
| Development.Progress | src/presentation/pages/Development/DevelopmentPage.tsx:220-225 | the clamped progress lies in [0, 1] and is 1 for an achieved goal |
| Development.ProgressIsShare | src/presentation/pages/Development/DevelopmentPage.tsx:200-205 | the summary's progress equals the readiness share (also lines 220-225) |
| Development.Pending | src/presentation/pages/Development/DevelopmentPage.tsx:229-240 | each pending entry is an unachieved goal with non-negative gap and target |
| Development.AchievedOrPending | src/presentation/pages/Development/DevelopmentPage.tsx:229-240 | every goal is either achieved or pending |
| Development.ProgressSum | src/presentation/pages/Development/DevelopmentPage.tsx:227 | the progress sum lies between 0 and the number of goals |
| Development.GapOrderTies | src/presentation/pages/Development/DevelopmentPage.tsx:272-274 | goals with equal gaps keep their pending order |
| Development.TopGaps | src/presentation/pages/Development/DevelopmentPage.tsx:272-275 | the first three (or fewer) of the positive-target pending goals ordered by descending gap |
| Development.TopGapsQualify | src/presentation/pages/Development/DevelopmentPage.tsx:272-275 | every top gap is a pending goal with a positive target |
| Development.TopGapsLargest | src/presentation/pages/Development/DevelopmentPage.tsx:272-275 | a qualifying goal left out means three goals were listed, each with a gap at least as large |
| Development.Ratio | src/presentation/pages/Development/DevelopmentPage.tsx:277-278 | lies in [0, 1], 0 without goals, 1 when all count |
| Development.MonthlyCountIsCount | src/presentation/pages/Development/DevelopmentPage.tsx:244-245 | the monthly count is the number of goals of monthly type |
| Development.Summarize | src/presentation/pages/Development/DevelopmentPage.tsx:212-290 | pending = total − achieved; monthly = the number of monthly goals and monthly + yearly = total; average progress = progress sum / total and completion rate = achieved / total, both 0 without goals; the top gaps as above |
| Expenses.Coerce | src/components/ExpenseManagement.tsx:132-138 | a known id is kept and an unknown one becomes the default |
| Expenses.CoerceKnown | src/components/ExpenseManagement.tsx:132-138 | with a known default the coerced id is always known, and coercing twice equals coercing once |
| Expenses.ParseAmountField | src/components/ExpenseManagement.tsx:140-147 | never NaN; blank or unparsable text reads as 0, otherwise the parsed value of the trimmed text |
| Expenses.WholeAmountRead | src/components/ExpenseManagement.tsx:140-147 | the text of a whole number reads back as that number |
| Expenses.ProjectOf | src/components/ExpenseManagement.tsx:242-244 | a project id is attached iff the form is a project form and the selection is valid, and it is then the selection itself (also line 149) |
| Expenses.NoProjectWithoutSelection | src/components/ExpenseManagement.tsx:242-244 | an administrative form or the default selection never attaches a project (also line 149) |
| Expenses.EmptyAsNone | src/components/ExpenseManagement.tsx:236-238 | empty text is stored as absent and anything else as itself (also line 250) |
| Expenses.Submit | src/components/ExpenseManagement.tsx:213-262 | missing fields iff the trimmed title, amount or category is blank; invalid category iff the fields are present but the category is unknown; otherwise the trimmed title, parsed amount, coerced ids, paid date iff completed, the category's kind, and the edited expense's id and creation time or a fresh id |
| Expenses.FormTypeOf | src/components/ExpenseManagement.tsx:231-233 | an edited expense keeps its own kind of form, a new one takes the open tab |
| Expenses.SubmitRecordsForm | src/components/ExpenseManagement.tsx:235-262 | a submitted expense carries the project that its form type and selection allow, the trimmed description, the subcategory and due date with empty text as absent, today's date as the payment date when completed, the current time as update time, and as creation time when new |
| Expenses.SubmittedIdsKnown | src/components/ExpenseManagement.tsx:239-241 | with a well-formed catalogue a submitted expense only carries known status, frequency and method ids |
| Expenses.FilterExpenses | src/components/ExpenseManagement.tsx:395-410 | an expense is listed iff it is of the requested kind, matches the lower-cased trimmed search in its title or description, and matches the project filter |
| Expenses.UnfilteredKeepsKind | src/components/ExpenseManagement.tsx:395-410 | a blank search with all projects lists exactly the expenses of the requested kind, in order |
| Expenses.ExcludedIsCancelled | src/components/ExpenseManagement.tsx:434-441 | an expense falls outside the three status totals iff its coerced status is cancelled |
| Expenses.StatsOf | src/components/ExpenseManagement.tsx:423-456 | the expense count is the number of expenses summarised |
| Expenses.CalculateStats | src/components/ExpenseManagement.tsx:421-456 | the expense count is the number of expenses the filter lists |
| Expenses.StatsPartition | src/components/ExpenseManagement.tsx:431-441 | with finite amounts the total is the sum of the completed, pending, overdue and excluded buckets, and each status total is its bucket's sum |
| Expenses.StatusTotalsBounded | src/components/ExpenseManagement.tsx:431-441 | with non-negative amounts the three status totals together never exceed the total |
| MarketIntelligence.GetMaterialCosts | src/application/services/marketIntelligenceService.ts:277-327 | without filters the stored list; with filters exactly the stored materials that pass every given filter |
| MarketIntelligence.PriceRangeBounds | src/application/services/marketIntelligenceService.ts:295-300 | a price-range filter alone keeps exactly the materials priced within the inclusive range |
| MarketIntelligence.DeleteMaterialCost | src/application/services/marketIntelligenceService.ts:369-380 | reports true iff some material had the id; the remaining list is exactly the stored materials with another id, unchanged when none matched |
| MarketIntelligence.DeleteTwice | src/application/services/marketIntelligenceService.ts:369-380 | deleting the same id again reports false and changes nothing |
| MarketIntelligence.Acknowledge | src/application/services/marketIntelligenceService.ts:806-825 | reports true iff some alert has the id; then only the first such alert changes, marked acknowledged by the user at the given time; otherwise nothing changes |
| MarketIntelligence.AcknowledgeLowersCritical | src/application/services/marketIntelligenceService.ts:806-825 | acknowledging an alert never raises the number of open critical alerts (also lines 742-744) |
| MarketIntelligence.TrendOf | src/application/services/marketIntelligenceService.ts:747-750 | increasing iff the change exceeds 2, decreasing iff it is below −2, stable otherwise |
| MarketIntelligence.TrendMonotone | src/application/services/marketIntelligenceService.ts:747-750 | a larger change never gives a lower trend |
| MarketIntelligence.CompetitionOf | src/application/services/marketIntelligenceService.ts:761-762 | high iff more than 10 active opportunities, medium iff 6 to 10, low otherwise |
| MarketIntelligence.SentimentOf | src/application/services/marketIntelligenceService.ts:753-758 | positive iff more than 5 active opportunities and fewer than 3 open critical alerts; negative iff not positive and more than 5 open critical alerts or an average price change above 10 |
| MarketIntelligence.AveragePriceChange | src/application/services/marketIntelligenceService.ts:722-725 | 0 without materials, otherwise the mean: the average times the count is the sum of the price changes |
| MarketIntelligence.AveragePriceBetween | src/application/services/marketIntelligenceService.ts:722-725 | the mean price change lies between any lower and upper bound of the individual changes |
| MarketIntelligence.RateChange | src/application/services/marketIntelligenceService.ts:731-736 | 0 with fewer than two history entries; otherwise finite after a non-zero rate, and after a recorded 0 an infinity of the rise's sign, or NaN for 0/0 |
| MarketIntelligence.RateChangeIsPercentage | src/application/services/marketIntelligenceService.ts:734-735 | a finite change is the percentage by which the second-to-last rate grew to the current rate |
| MarketIntelligence.AverageRateChange | src/application/services/marketIntelligenceService.ts:728-739 | 0 without rates; NaN as soon as one change is NaN or infinite changes of both signs occur; the infinity itself when the only non-finite changes are infinities of one sign (a rise or fall from a recorded 0); with finite changes, their sum divided by the number of rates |
| MarketIntelligence.TrendOfNum | src/application/services/marketIntelligenceService.ts:749-750 | the ±2 bands on finite changes, increasing for +Infinity, decreasing for −Infinity, and stable for NaN because both comparisons fail |
| Numbers.SumNum | src/application/services/marketIntelligenceService.ts:730-738 | `reduce` with `+` from 0: the real sum when every term is finite; NaN as soon as one term is NaN or both infinities occur; finite terms and infinities of one sign give that infinity, and an infinity present always gives itself or NaN |
| Numbers.AddNum | src/application/services/marketIntelligenceService.ts:734 | JavaScript `+`: finite terms add, NaN wins, an infinity plus a finite number is that infinity, equal infinities give themselves and opposite ones NaN |
| MarketIntelligence.MarketAnalysis | src/application/services/marketIntelligenceService.ts:711-762 | competition and sentiment follow the active-opportunity and open-critical-alert counts, the material trend is the band of the mean price change, and the labour trend is the band of the mean rate change computed from the rate histories |
| MarketIntelligence.NonZeroRatesFiniteTrend | src/application/services/marketIntelligenceService.ts:728-750 | with no recorded previous rate of 0 the mean rate change is finite and the labour trend is the band of the real mean |
| MarketIntelligence.RiseFromZeroIsIncreasing | src/application/services/marketIntelligenceService.ts:731-750 | a rate that rose from a recorded 0 divides by zero and makes the labour trend increasing even when another rate halved |
| MarketIntelligence.ZeroOverZeroIsStable | src/application/services/marketIntelligenceService.ts:731-750 | a rate recorded at 0 twice gives 0/0, so the mean is NaN and the labour trend is stable even when another rate doubled |
| MarketIntelligence.AcknowledgeKeepsPositive | src/application/services/marketIntelligenceService.ts:806-825 | acknowledging an alert never turns a positive sentiment into another one (also lines 753-758) |
| MarketIntelligence.ImportKey | src/application/services/marketIntelligenceService.ts:854-859 | materials go to market_materials, labour to market_labor, anything else to market_indicators |
| MarketIntelligence.SetProp | src/application/services/marketIntelligenceService.ts:866-871 | the set property reads back the value and every other property is unchanged |
| MarketIntelligence.FillFields | src/application/services/marketIntelligenceService.ts:865-872 | a falsy id becomes a fresh id and a falsy lastUpdated the current time; truthy ones and every other property are kept |
| MarketIntelligence.FillItem | src/application/services/marketIntelligenceService.ts:864-872 | an object gets its fields filled, an array passes through unchanged, and any other value fails |
| MarketIntelligence.FillAll | src/application/services/marketIntelligenceService.ts:864-873 | fails iff some item cannot carry properties, naming such an item; otherwise one filled item per input item |
| MarketIntelligence.ImportMarketData | src/application/services/marketIntelligenceService.ts:852-881 | a non-array fails; otherwise every item is filled and stored under the kind's key, or the import fails iff some item cannot carry properties |
| MarketIntelligence.ImportedRecordsComplete | src/application/services/marketIntelligenceService.ts:864-872 | with non-empty ids and time every imported object ends with a truthy id and lastUpdated |
| MarketIntelligence.FillTwice | src/application/services/marketIntelligenceService.ts:864-872 | filling an already filled record changes nothing |
| MarketIntelligence.QuoteCell | src/application/services/marketIntelligenceService.ts:913 | a string cell is wrapped in double quotes |
| MarketIntelligence.Cells | src/application/services/marketIntelligenceService.ts:911-914 | one cell per property value, in property order |
| MarketIntelligence.Keys | src/application/services/marketIntelligenceService.ts:910 | one header per property of the first record, in order |
| MarketIntelligence.ExportCsv | src/application/services/marketIntelligenceService.ts:907-917 | no records give the empty text |
| MarketIntelligence.ExportCsvLines | src/application/services/marketIntelligenceService.ts:907-917 | without newlines in cells the export splits into one header line (the first record's keys joined by commas) and one line per record (its cells joined by commas) |
| MarketIntelligence.UnescapeEscape | src/application/services/marketIntelligenceService.ts:913 | doubling every quote can be undone |
| MarketIntelligence.QuoteRoundTrip | src/application/services/marketIntelligenceService.ts:913 | unwrapping and unescaping a quoted cell gives the original text back |
| PricingWizard.StepIndex | src/features/tenders/pricing/TenderPricingWizard.tsx:781-786 | each step's index is within the five steps and locates that step |
| PricingWizard.ChecklistUpdates | src/features/tenders/pricing/TenderPricingWizard.tsx:297-299 | an empty checklist is complete, ticking an entry keeps a complete checklist complete, an unticked entry makes it incomplete |
| PricingWizard.Status | src/features/tenders/pricing/TenderPricingWizard.tsx:301-309 | a step is done iff there is a draft whose completedSteps flag for it is set; pending otherwise |
| PricingWizard.ActiveIndex | src/features/tenders/pricing/TenderPricingWizard.tsx:327-328 | findIndex: −1 when absent, otherwise the first position of the active step |
| PricingWizard.ClickableSteps | src/features/tenders/pricing/TenderPricingWizard.tsx:325-328 | a step is clickable iff it is done or its index is at most the active index |
| PricingWizard.MarkCompleted | src/features/tenders/pricing/TenderPricingWizard.tsx:497-508 | the given step becomes done, every other step's status and every other draft field is unchanged |
| PricingWizard.MarkIdempotent | src/features/tenders/pricing/TenderPricingWizard.tsx:497-508 | marking a step twice is the same as once |
| PricingWizard.AfterValidation | src/features/tenders/pricing/TenderPricingWizard.tsx:564 | a passing validator marks its own step done (the submit step has none) and leaves the others (also lines 712, 732, 745) |
| PricingWizard.Next | src/features/tenders/pricing/TenderPricingWizard.tsx:788-814 | moves at most one step, only when the current step's validator passes (registration needs name, client and deadline; technical needs uploaded files and a complete checklist), and never past the last step |
| PricingWizard.Back | src/features/tenders/pricing/TenderPricingWizard.tsx:817-819 | one step back, never below index 0, draft unchanged |
| PricingWizard.GoToStep | src/features/tenders/pricing/TenderPricingWizard.tsx:781-786 | jumps to the named step, keeping the draft |
| PricingWizard.BackUndoesNext | src/features/tenders/pricing/TenderPricingWizard.tsx:788-819 | Back after a successful Next returns to the same index, and Next on the last step stays there |
| PricingWizard.RunBounded | src/features/tenders/pricing/TenderPricingWizard.tsx:788-814 | any sequence of Next presses stays within the steps and advances at most once per press |
| PricingWizard.PersistDraft | src/features/tenders/pricing/TenderPricingWizard.tsx:219-223 | stores the tender's draft and keeps every other tender's draft |
| PricingWizard.ClearDraft | src/features/tenders/pricing/TenderPricingWizard.tsx:225-232 | removes exactly the tender's key, and changes nothing when it is absent |
| PricingWizard.ClearUndoesPersist | src/features/tenders/pricing/TenderPricingWizard.tsx:219-232 | clearing after persisting is clearing the original map, and clearing twice is clearing once |
| ProjectCost.Westernize | src/components/cost/ProjectCostView.tsx:90-93 | an Arabic-Indic digit becomes the ASCII digit of the same value; other characters are kept |
| ProjectCost.WesternDigits | src/components/cost/ProjectCostView.tsx:90-93 | every character is westernised in place |
| ProjectCost.Commas | src/components/cost/ProjectCostView.tsx:94-100 | after the comma rule no comma is left |
| ProjectCost.Normalize | src/components/cost/ProjectCostView.tsx:86-101 | the normalised text holds only digits, '-' and '.' |
| ProjectCost.ParseNumericInput | src/components/cost/ProjectCostView.tsx:81-104 | a finite number passes and a non-finite one gives 0; empty text gives 0; otherwise the parse of the normalised text, or 0 when that is not finite |
| ProjectCost.PreparedPlain | src/components/cost/ProjectCostView.tsx:86-93 | text with nothing to strip or translate is unchanged by the first pass |
| ProjectCost.NormalizeKeepsPlain | src/components/cost/ProjectCostView.tsx:86-101 | text of digits, '-' and '.' is unchanged by normalisation |
| ProjectCost.NormalizeIdempotent | src/components/cost/ProjectCostView.tsx:86-101 | normalising twice is normalising once |
| ProjectCost.IntegersRead | src/components/cost/ProjectCostView.tsx:81-104 | the decimal text of any integer reads back as that integer |
| ProjectCost.ArabicDigitsRead | src/components/cost/ProjectCostView.tsx:81-104 | a natural number written in Arabic-Indic digits reads as that number |
| ProjectCost.DecimalComma | src/components/cost/ProjectCostView.tsx:96-97 | without a '.', a comma is the decimal point: "x,y" normalises to "x.y" |
| ProjectCost.CommaBeforePoint | src/components/cost/ProjectCostView.tsx:94-95 | with a '.', commas are dropped |
| ProjectCost.ThousandsSeparators | src/components/cost/ProjectCostView.tsx:94-95 | "x,y.z" normalises to "xy.z" |
| ProjectCost.ItemIndex | src/components/cost/ProjectCostView.tsx:188 | find: −1 when no item has the id, else the first such item |
| ProjectCost.SetField | src/components/cost/ProjectCostView.tsx:205-210 | only the edited field changes, and the total becomes quantity × unit price rounded by toFixed(2) to within half a cent |
| ProjectCost.ActualEdit | src/components/cost/ProjectCostView.tsx:187-215 | changes the items iff the item exists with actual data and the value moves by at least 0.0001; then only that item changes, by the field edit, marked modified |
| ProjectCost.ActualEditIdempotent | src/components/cost/ProjectCostView.tsx:187-215 | repeating the same edit changes nothing more |
| ProjectCost.AsPercentages | src/components/cost/ProjectCostView.tsx:334 | copied defaults match the defaults |
| ProjectCost.ApplyDefaults | src/components/cost/ProjectCostView.tsx:320-340 | an item with custom percentages is untouched; every other item receives the new defaults and nothing else changes but its actual's percentages and its modified flag; an item with actual data is marked modified, and an item without gets a zero actual and is marked modified only when the current defaults all read as 0 |
| ProjectCost.ApplyAll | src/components/cost/ProjectCostView.tsx:320 | the rule is applied to every item in place |
| ProjectCost.PercentagesChange | src/components/cost/ProjectCostView.tsx:309-344 | no change iff the defaults are unchanged within 0.0001; otherwise the new defaults are stored, exactly the non-custom items follow them, and no item changes in any other field than its actual's percentages and its modified flag |
| ProjectCost.FollowersKeepFollowing | src/components/cost/ProjectCostView.tsx:309-344 | an item that followed the defaults follows a second change too, and an item custom against both stays untouched |
| ProjectCost.ToggleBreakdown | src/components/cost/ProjectCostView.tsx:355-365 | flips membership of exactly the given id |
| ProjectCost.ToggleBreakdownTwice | src/components/cost/ProjectCostView.tsx:355-365 | toggling twice restores the set |
| ProjectCost.FilterByStatus | src/components/cost/ProjectCostView.tsx:433-441 | 'all' keeps every item, 'completed' keeps those with a positive actual total, 'pending' those with a zero total |
| ProjectCost.StatusPartition | src/components/cost/ProjectCostView.tsx:437-441 | completed, pending and negative-total items partition the list, so a negative total is in neither filter |
| ProjectCost.ActualOnlyItem | src/components/cost/ProjectCostView.tsx:276-301 | refused iff the trimmed description is blank or the amount is not positive; otherwise one actual-only item of quantity 1 priced at the amount to the cent, with the default percentages |
| Quality.FindField | src/services/qualityAssuranceService.ts:750 | the first document field with the required name, every field before it having another name, or none when no field has it |
| Quality.Percent | src/services/qualityAssuranceService.ts:761-763 | the rounded share lies in [0, 100], is 100 when all are complete and 0 when none is |
| Quality.CheckSection | src/services/qualityAssuranceService.ts:744-773 | a field is missing iff absent, not present, or required with an empty value; complete + missing = required; complete iff nothing is missing |
| Quality.AbsentFieldMissing | src/services/qualityAssuranceService.ts:752 | a required field absent from the document makes the section incomplete at 0 % |
| Quality.AlmostCompleteRoundsUp | src/services/qualityAssuranceService.ts:761-763 | 199 of 200 fields round to 100 %, so 100 % does not imply completeness |
| Quality.ComponentBounds | src/services/qualityAssuranceService.ts:787-789 | each completeness component lies in [0, 100] and is 100 when everything is present |
| Quality.CompletenessBounds | src/services/qualityAssuranceService.ts:775-796 | the weighted completeness score lies in [0, 100] and is 100 when everything is present |
| Quality.CompletenessScore | src/services/qualityAssuranceService.ts:775-796 | with no sections, fields or attachments expected the score is 100; CompletenessBounds bounds it in [0, 100] |
| Quality.NothingExpectedIsComplete | src/services/qualityAssuranceService.ts:787-789 | with nothing expected every component counts as 100 and so does the score |
| Quality.ShareKept | src/services/qualityAssuranceService.ts:1530-1531 | the clamped score lies in [0, 100], is 100 with no penalty and 0 when the penalty reaches the maximum |
| Quality.QualityScore | src/services/qualityAssuranceService.ts:1521-1533 | lies in [0, 100]; 100 without checks or penalties; 0 once the penalty reaches ten per check |
| Quality.ShareKeptMonotone | src/services/qualityAssuranceService.ts:1530-1531 | a larger penalty never raises the score |
| Quality.PenaltySnoc | src/services/qualityAssuranceService.ts:1522-1527 | one more error never lowers the penalty, and a critical one adds 10 |
| Quality.QualityMonotone | src/services/qualityAssuranceService.ts:1521-1533 | one more error never raises the quality score |
| Quality.ConsistencyScoreAsWritten | src/services/qualityAssuranceService.ts:1704-1708 | as written: at most 100, and 100 with no inconsistencies |
| Quality.ConsistencyGoesNegative | src/services/qualityAssuranceService.ts:1704-1708 | one rule with three inconsistencies scores −200 as written |
| Quality.ConsistencyScore | src/services/qualityAssuranceService.ts:1704-1708 | corrected: lies in [0, 100], 100 with no inconsistencies, 0 once they reach the rule count |
| Quality.ConsistencyAgrees | src/services/qualityAssuranceService.ts:1704-1708 | whenever the as-written score is non-negative the corrected score equals it, which is always so with no more inconsistencies than rules |
| Quality.EstimatedFixTime | src/services/qualityAssuranceService.ts:1501-1519 | the loop's total is 5, 15 and 45 minutes per simple, moderate and complex error |
| Quality.FixTimeCounts | src/services/qualityAssuranceService.ts:1501-1519 | the fix time is 5, 15 and 45 times the counts of simple, moderate and complex errors |
| Quality.Bump | src/services/qualityAssuranceService.ts:1484-1486 | counting one more error adds one to the total and adds the type as a key only if new |
| Quality.BumpGet | src/services/qualityAssuranceService.ts:1484-1486 | only the bumped type's count grows, by one |
| Quality.Group | src/services/qualityAssuranceService.ts:1481-1489 | the group counts add up to the number of errors, and the keys are exactly the error types, without duplicates |
| Quality.GroupCounts | src/services/qualityAssuranceService.ts:1481-1489 | each type's count is the number of errors of that type |
| Quality.GroupByType | src/services/qualityAssuranceService.ts:1481-1489 | the counts add up to the number of errors, with one key for each error type that occurs |
| Quality.GroupBySeverity | src/services/qualityAssuranceService.ts:1491-1499 | the counts add up to the number of errors, with one key for each severity name that occurs |
| Quality.SaveHistory | src/services/qualityAssuranceService.ts:580-588 | the record is appended and only the last 1000 are kept, in order |
| Quality.ValidEmailIsShape | src/services/qualityAssuranceService.ts:1453-1456 | an accepted e-mail has non-space, non-@ text, one @, and a dot with text on both sides after it |
| Quality.ValidEmail | src/services/qualityAssuranceService.ts:1453-1456 | an accepted address has at least five characters, an '@' and no white space; ValidEmailIsShape and ShapeIsValidEmail pin it to the pattern |
| Quality.ShapeIsValidEmail | src/services/qualityAssuranceService.ts:1453-1456 | every string of that shape is accepted |
| Quality.ValidDate | src/services/qualityAssuranceService.ts:1458-1461 | an accepted date is ten characters with '-' at positions 4 and 7, and a string without the digit shape is refused |
| Quality.References | src/services/qualityAssuranceService.ts:1468-1479 | every reference found is a non-empty run of [A-Za-z0-9_-] |
| Quality.NoMarkerNoReferences | src/services/qualityAssuranceService.ts:1468-1479 | text without any 'r' holds no reference |
| Quality.ReferenceFound | src/services/qualityAssuranceService.ts:1468-1479 | "ref:" followed by a name and a non-name character yields that name, then the rest's references |
| SimplifiedCost.WithRows | src/components/cost/SimplifiedProjectCostView.tsx:346 | replaces one breakdown section's rows and leaves the other sections |
| SimplifiedCost.NumMul | src/components/cost/SimplifiedProjectCostView.tsx:140 | multiplication of numbers propagates NaN (also line 362) |
| SimplifiedCost.ToFixed2Num | src/components/cost/SimplifiedProjectCostView.tsx:362 | `+x.toFixed(2)` of a finite number is whole cents within half a cent of it; NaN stays NaN |
| SimplifiedCost.SumRows | src/components/cost/SimplifiedProjectCostView.tsx:136-144 | 0 for a missing or empty list, otherwise the sum of the row contributions |
| SimplifiedCost.SumTotalsAppend | src/components/cost/SimplifiedProjectCostView.tsx:139-143 | the sum over a concatenation is the sum of the sums |
| SimplifiedCost.SkipsNonFinite | src/components/cost/SimplifiedProjectCostView.tsx:140-142 | a row whose total (totalCost, else quantity × unit cost) is not finite contributes nothing |
| SimplifiedCost.SumNonNegative | src/components/cost/SimplifiedProjectCostView.tsx:136-144 | non-negative contributions give a non-negative sum |
| SimplifiedCost.ParseInput | src/components/cost/SimplifiedProjectCostView.tsx:146-149 | the parseFloat result when finite, 0 otherwise |
| SimplifiedCost.ParseInputIntegers | src/components/cost/SimplifiedProjectCostView.tsx:146-149 | the text of an integer parses to that integer |
| SimplifiedCost.ParseInputInfinity | src/components/cost/SimplifiedProjectCostView.tsx:146-149 | `parseFloat("Infinity")` is +Infinity, which is not finite, so the input reads as 0 |
| SimplifiedCost.ResolveRowId | src/components/cost/SimplifiedProjectCostView.tsx:151-159 | the trimmed id when non-empty, else `{prefix}-{index}-{name}` with a non-empty name |
| SimplifiedCost.FallbackIdsDistinct | src/components/cost/SimplifiedProjectCostView.tsx:151-159 | fallback ids for different indices never collide, whatever the names |
| SimplifiedCost.Resolved | src/components/cost/SimplifiedProjectCostView.tsx:243-245 | each percentage is the item's own when present, else the default |
| SimplifiedCost.Grossed | src/components/cost/SimplifiedProjectCostView.tsx:247-250 | base plus the three percentage shares is base × (1 + Σpct/100) |
| SimplifiedCost.Consistent | src/components/cost/SimplifiedProjectCostView.tsx:162-181 | as written: true without a breakdown, otherwise iff base × (1 + Σpct/100), missing percentages read as 0, is within 0.01 of the total price |
| SimplifiedCost.ConsistentWithDefaults | src/components/cost/SimplifiedProjectCostView.tsx:162-181 | corrected: the same check with missing percentages read from the defaults, as the recalculation reads them |
| SimplifiedCost.NormalizedQuantity | src/components/cost/SimplifiedProjectCostView.tsx:253-254 | the quantity when positive, else 1; always positive |
| SimplifiedCost.Priced | src/components/cost/SimplifiedProjectCostView.tsx:242-269 | the total price is the grossed base to the cent and the unit price is total ÷ quantity to four decimals; breakdown and percentages are kept |
| SimplifiedCost.Recalculate | src/components/cost/SimplifiedProjectCostView.tsx:208-298 | no breakdown: unchanged; otherwise marked modified and clean, repriced only when the base is positive |
| SimplifiedCost.RecalculatedConsistent | src/components/cost/SimplifiedProjectCostView.tsx:162-269 | with all three percentages set, a recalculated item passes the as-written check |
| SimplifiedCost.RecalculatedConsistentWithDefaults | src/components/cost/SimplifiedProjectCostView.tsx:162-269 | every recalculated item with a positive base passes the corrected check |
| SimplifiedCost.MissingPercentagesFlagged | src/components/cost/SimplifiedProjectCostView.tsx:172-174 | a recalculated item without percentages fails the as-written check though it passes the corrected one |
| SimplifiedCost.RowIndex | src/components/cost/SimplifiedProjectCostView.tsx:346 | −1 when no row has the id, else the first such row (also line 463) |
| SimplifiedCost.Costed | src/components/cost/SimplifiedProjectCostView.tsx:355-362 | a quantity or unit-cost edit sets totalCost to quantity × unit cost within half a cent |
| SimplifiedCost.SetRowField | src/components/cost/SimplifiedProjectCostView.tsx:355-375 | a name or unit edit sets only that field; a quantity or unit-cost edit parses the value and recomputes the total |
| SimplifiedCost.EditRow | src/components/cost/SimplifiedProjectCostView.tsx:346-375 | edits only the matching row; an unknown id appends a new row with the edit applied; the id is then present |
| SimplifiedCost.DeleteRow | src/components/cost/SimplifiedProjectCostView.tsx:462-467 | removes only the first matching row, keeping the order; no-op when the id is absent |
| SimplifiedCost.DeleteUndoesAdd | src/components/cost/SimplifiedProjectCostView.tsx:346-467 | deleting a row just added by an edit restores the rows |
| SimplifiedCost.ItemIndex | src/components/cost/SimplifiedProjectCostView.tsx:343 | −1 when no item has the id, else the first such item |
| SimplifiedCost.BreakdownRowChange | src/components/cost/SimplifiedProjectCostView.tsx:337-379 | only the item's one section changes, by the row edit, marked modified and dirty; an unknown item is a no-op; an item without breakdown throws |
| SimplifiedCost.DeleteBreakdownRow | src/components/cost/SimplifiedProjectCostView.tsx:456-469 | removes the row from the item's section, marking it modified and dirty; a no-op for an unknown item or row |
| SimplifiedCost.SectionName | src/components/cost/SimplifiedProjectCostView.tsx:195-196 | section names are non-empty and contain no ':' |
| SimplifiedCost.SectionKeyInjective | src/components/cost/SimplifiedProjectCostView.tsx:195-196 | `{itemId}:{section}` keys of different (item, section) pairs differ |
| SimplifiedCost.ToggleSection | src/components/cost/SimplifiedProjectCostView.tsx:195-206 | flips exactly the one key, every other (item, section) key is unchanged |
| SimplifiedCost.ToggleSectionTwice | src/components/cost/SimplifiedProjectCostView.tsx:195-206 | toggling twice restores the set |
| Storage.ShouldLog | src/utils/storage.ts:93-97 | a key is logged iff it is neither the pricing-data key nor a pricing backup key |
| Storage.BackupsNotLogged | src/utils/storage.ts:95 | no key under the backup-tender-pricing- prefix is logged |
| Storage.SensitiveKeysLogged | src/utils/storage.ts:91-97 | a sensitive key other than pricing data and outside the backup prefix is logged |
| Storage.ToJsonString | src/utils/storage.ts:192-197 | a string is stored as itself and anything else as its JSON text |
| Storage.ParseStoredValue | src/utils/storage.ts:199-209 | a non-string reads as itself, or null when nullish; a string reads as its parse, or as itself when it does not parse |
| Storage.StoredRoundTrip | src/utils/storage.ts:192-209 | for JSON-safe values (no NaN or infinity) and strings that do not parse as JSON, storing then reading gives the value back |
| Storage.NonFiniteStoredAsNull | src/utils/storage.ts:192-209 | a NaN or infinite number is written as null and reads back as null |
| Storage.NaNAndNullWrittenAlike | src/utils/storage.ts:192-197 | NaN and null have the same JSON text, so no reader can tell them apart |
| Storage.FlushTarget | src/utils/storage.ts:837 | secure iff the key is sensitive; Electron iff not sensitive and running in Electron; the browser otherwise |
| Storage.PersistCachedEntry | src/utils/storage.ts:836-884 | keeps the key and its target; an undefined value is skipped as no-cached-value; persisted iff defined, encodable, the browser storage exists when it is the target, and the write succeeds; an error is reported iff not persisted |
| Storage.SensitiveStaysSecure | src/utils/storage.ts:837 | a sensitive key is always written to the secure store |
| Storage.Tally | src/utils/storage.ts:904-918 | total = persisted + skipped + errors, and the per-target counts add up to the persisted and failed entries |
| Storage.Attempted | src/utils/storage.ts:910-917 | the number of attempts at one target is at most the number of entries |
| Storage.TallyTargets | src/utils/storage.ts:910-917 | each target's count is the number of persisted or failed entries aimed at it |
| Storage.TallyStatuses | src/utils/storage.ts:908-917 | the persisted, skipped and error counts are the numbers of entries with that status |
| Storage.FlushCache | src/utils/storage.ts:891-926 | one entry per cached key, in cache order, each as persisting that key would give; the statistics are the tally of those entries: each target's count is its number of attempted writes and each outcome count is its number of entries |
| Storage.LegacyPrefixBlocked | src/utils/storage.ts:1175-1176 | every key under the construction_app_ prefix is blocked |
| Storage.LogOnce | src/utils/storage.ts:1181-1186 | warns iff not in production and the key was not warned about before, and then remembers the key |
| Storage.LogOnceTwice | src/utils/storage.ts:1181-1186 | the same key is never warned about twice |
| Storage.Apply | src/utils/storage.ts:1195-1228 | a write or removal of a blocked key leaves the store unchanged; any other key goes through |
| Storage.GetItem | src/utils/storage.ts:1207-1215 | a blocked key reads as null; any other key reads its stored value, or null when absent |
| Storage.GuardFiltersLegacy | src/utils/storage.ts:1195-1228 | a run of operations behind the guard acts as the same run with the blocked-key operations removed |
| Storage.LegacyKeysUntouched | src/utils/storage.ts:1195-1228 | no run of operations changes a blocked key's presence or value |
| Storage.SensitiveKeysBlocked | src/utils/storage.ts:1175-1176 | every sensitive key is one of the catalogue's keys and so is blocked in browser storage (also line 1151) |
| Storage.PricingDataSecureAndSilent | src/utils/storage.ts:94 | the pricing data is always written to the secure store and never logged (also line 837) |
| Storage.WriteThenRead | src/utils/storage.ts:1195-1215 | writing an unblocked key and then reading it gives the written value |
| Storage.InitializeCache | src/utils/storage.ts:228-236 | after the cache is loaded storage is ready, in Electron or not (also lines 1238-1240) |
| Storage.NotReadyBeforeLoad | src/utils/storage.ts:1238-1240 | inside Electron storage is not ready until the cache is loaded |
| TenderDetails.ToNumber | src/components/TenderDetails.tsx:233-248 | finite numbers pass and non-finite ones give null; a string keeps only [0-9.-] and gives null when that is empty or does not parse; anything else gives null |
| TenderDetails.CleanedReadsAlike | src/components/TenderDetails.tsx:239 | reading a string equals reading its cleaned form |
| TenderDetails.NoiseIgnored | src/components/TenderDetails.tsx:239 | a character outside [0-9.-] inside a number is ignored, so "1,250" reads as 1250 |
| TenderDetails.IntegersRead | src/components/TenderDetails.tsx:233-248 | the text of an integer reads back as that integer |
| TenderDetails.CleanTextRead | src/components/TenderDetails.tsx:238-245 | clean text that parses to a finite number reads as that number |
| TenderDetails.SumResourceTotals | src/components/TenderDetails.tsx:250-251 | 0 for a missing or empty list, otherwise the sum of the readable totals |
| TenderDetails.SumTotalsAppend | src/components/TenderDetails.tsx:250-251 | the sum over a concatenation is the sum of the sums |
| TenderDetails.UnreadableSkipped | src/components/TenderDetails.tsx:251 | an unreadable total counts as 0 |
| TenderDetails.SumTotalsNonNegative | src/components/TenderDetails.tsx:250-251 | non-negative totals give a non-negative sum |
| TenderDetails.PickNumeric | src/components/TenderDetails.tsx:263-264 | the first argument that is not undefined, null or '', or undefined when there is none |
| TenderDetails.PickSkipsAbsent | src/components/TenderDetails.tsx:263-264 | leading absent arguments are skipped |
| TenderDetails.Collect | src/components/TenderDetails.tsx:273-283 | exactly the known keys whose value reads as a number, with those numbers |
| TenderDetails.NormalizeTotals | src/components/TenderDetails.tsx:266-286 | null for a non-record or when no known key reads; otherwise exactly the readable known keys with their numbers |
| TenderDetails.NormalizeTwice | src/components/TenderDetails.tsx:266-286 | normalising the normalised totals gives them back |
| TenderDetails.WithFlag | src/components/TenderDetails.tsx:318 | sets one section flag and keeps the other three |
| TenderDetails.ToggleCollapse | src/components/TenderDetails.tsx:311-322 | flips exactly one section flag of one item; every other flag is unchanged |
| TenderDetails.ToggleCollapseTwice | src/components/TenderDetails.tsx:311-322 | toggling twice shows every section as before |
| TenderDetails.ReadinessRule | src/components/TenderDetails.tsx:447-454 | pricing is complete iff total > 0 and priced ≥ total, never with a missing count; ready also needs the flag or a stored file |
| TenderDetails.Identifier | src/components/TenderDetails.tsx:625 | id, else itemNumber, else the index |
| TenderDetails.Occurrences | src/components/TenderDetails.tsx:627 | the occurrence count is 0 iff the key has not been seen |
| TenderDetails.RenderKeysAsWritten | src/components/TenderDetails.tsx:623-630 | as written: one key per item; a first occurrence keeps its id unless the id is a name the `{}` counter inherits from the Object prototype, and every occurrence of such a name gets `{id}__dupNaN` |
| TenderDetails.RunningCounts | src/components/TenderDetails.tsx:623-630 | each row's count is the number of rows up to it with its id, and 1 exactly where the id first appears |
| TenderDetails.DuplicateRenderKeys | src/components/TenderDetails.tsx:623-630 | ids ["a", "a", "a__dup1"] produce "a__dup1" twice |
| TenderDetails.PrototypeNameKeysCollide | src/components/TenderDetails.tsx:623-630 | two rows with the id "constructor" both get "constructor__dupNaN" as written, while the corrected keys are "constructor" and "constructor__dup1" |
| TenderDetails.NextKey | src/components/TenderDetails.tsx:626-629 | corrected: an unused key extending the id, the id itself when free, and `{id}__dup{k-1}` when that is free |
| TenderDetails.RenderKeys | src/components/TenderDetails.tsx:623-630 | corrected: one key per item |
| TenderDetails.RenderKeysStep | src/components/TenderDetails.tsx:623-630 | each new key is fresh, extends its id, and is the id itself when that is unused |
| TenderDetails.RenderKeysDistinct | src/components/TenderDetails.tsx:619-630 | all corrected keys are distinct, each extends its id, and an id not yet used is kept |
| TenderDetails.FirstOccurrencesAgree | src/components/TenderDetails.tsx:623-630 | on a first occurrence the corrected key is the id when no earlier key took it, and the as-written key is the id exactly when the id is not an inherited name |
| TenderPricing.ParseView | src/components/TenderPricingProcess.tsx:216-217 | a view name is accepted exactly when it is "summary", "pricing" or "technical" |
| TenderPricing.EncodedPricingAccepted | src/components/TenderPricingProcess.tsx:183-214 | every encoded pricing record passes isPricingData, and a (string key, record) pair passes isPricingEntry |
| TenderPricing.RecordAccepted | src/components/TenderPricingProcess.tsx:183-205 | a record with four arrays, numeric percentages and string notes passes isPricingData, whatever its other field values |
| TenderPricing.PercentagesAccepted | src/components/TenderPricingProcess.tsx:190-195 | encoded additional percentages always satisfy the three-numbers check |
| TenderPricing.MalformedEntriesRefused | src/components/TenderPricingProcess.tsx:207-214 | a pair whose key is not a string, and any array of length three, is refused as a pricing entry |
| TenderPricing.ToTrimmedString | src/components/TenderPricingProcess.tsx:370-374 | absent exactly for null, undefined or text that trims to empty; a present result has no edge whitespace |
| TenderPricing.ToTrimmedStringOfTrimmed | src/components/TenderPricingProcess.tsx:370-374 | an already trimmed non-empty string comes back unchanged |
| TenderPricing.FirstPresent | src/components/TenderPricingProcess.tsx:497-512 | the `??` chain yields the first present option, and the fallback when none is present |
| TenderPricing.ToNumberOr | src/components/TenderPricingProcess.tsx:376-383 | finite numbers pass, numeric strings parse, anything else gives the fallback |
| TenderPricing.ItemId | src/components/TenderPricingProcess.tsx:495-501 | the id is the first present of id, itemId, number, else `item-{index+1}`; never empty |
| TenderPricing.ItemNumber | src/components/TenderPricingProcess.tsx:503-506 | the item number is itemNumber, else number, else the index+1 padded to at least two digits |
| TenderPricing.NormalizeItem | src/components/TenderPricingProcess.tsx:495-530 | a normalised item has non-empty id, number, unit and specifications |
| TenderPricing.ScopeItems | src/components/TenderPricingProcess.tsx:385-392 | a falsy, string or array scope gives no items |
| TenderPricing.CandidateSources | src/components/TenderPricingProcess.tsx:397-404 | the six quantity sources in their fixed priority order |
| TenderPricing.FirstNonEmpty | src/components/TenderPricingProcess.tsx:406-407 | the result is empty iff no source is a non-empty array, otherwise it is the first non-empty source |
| TenderPricing.FindQuantityAttachment | src/components/TenderPricingProcess.tsx:409-422 | the first attachment typed as quantity or named with a quantity keyword, or none when no attachment is one |
| TenderPricing.DefaultItems | src/components/TenderPricingProcess.tsx:430-493 | four default items for a building tender, two otherwise |
| TenderPricing.RawQuantityData | src/components/TenderPricingProcess.tsx:406-493 | never empty, and equal to the first non-empty source when there is one |
| TenderPricing.QuantityItems | src/components/TenderPricingProcess.tsx:495-532 | one normalised item per raw item, in order |
| TenderPricing.QuantityTableFirst | src/components/TenderPricingProcess.tsx:397-407 | a non-empty quantityTable wins over every other source |
| TenderPricing.NoSourceGivesDefaults | src/components/TenderPricingProcess.tsx:425-493 | without any source or quantity attachment the default items are used |
| TenderPricing.NonNegative | src/components/TenderPricingProcess.tsx:1539-1545 | a finite non-negative number passes unchanged, anything else becomes 0 |
| TenderPricing.NonNegativeIdempotent | src/components/TenderPricingProcess.tsx:1539-1545 | making a value non-negative twice is the same as once |
| TenderPricing.WastePercent | src/components/TenderPricingProcess.tsx:1557-1560 | the waste percentage lies in [0, 100] and is 0 without hasWaste |
| TenderPricing.Multiplier | src/components/TenderPricingProcess.tsx:1561 | the waste multiplier lies in [1, 2] and is 1 without hasWaste |
| TenderPricing.CostOf | src/components/TenderPricingProcess.tsx:1549-1566 | a row total is non-negative, whole cents, and the rounded amount when no waste applies |
| TenderPricing.RowTotal | src/components/TenderPricingProcess.tsx:1549-1566 | a row total is never negative |
| TenderPricing.Amount | src/components/TenderPricingProcess.tsx:1553-1555 | quantity times price after both are made non-negative is non-negative |
| TenderPricing.WasteBounds | src/components/TenderPricingProcess.tsx:1556-1566 | a materials row costs at least the same row in another section and at most twice as much, up to rounding |
| TenderPricing.NoWasteLikeOtherSections | src/components/TenderPricingProcess.tsx:1556-1566 | without hasWaste a materials row totals like any other section |
| TenderPricing.Recalculate | src/components/TenderPricingProcess.tsx:1568-1574 | only the total changes, and it becomes the row's computed total |
| TenderPricing.RecalculateIdempotent | src/components/TenderPricingProcess.tsx:1568-1574 | recalculating twice is the same as once |
| TenderPricing.Sanitize | src/components/TenderPricingProcess.tsx:1576-1591 | quantity and price become non-negative, the materials waste percentage is clamped to [0, 100], every other field is unchanged |
| TenderPricing.SanitizeIdempotent | src/components/TenderPricingProcess.tsx:1576-1591 | sanitising twice is the same as once |
| TenderPricing.EditRow | src/components/TenderPricingProcess.tsx:1676-1692 | the id is kept, the total is recomputed, and unchecking hasWaste forces the percentage to 0 |
| TenderPricing.WithRows | src/components/TenderPricingProcess.tsx:1593-1610 | only the named section's rows are replaced |
| TenderPricing.UpdateRow | src/components/TenderPricingProcess.tsx:1664-1699 | only rows with the matching id change, each by the single-row edit; other sections and fields are unchanged |
| TenderPricing.UpdatePreservesNonNegativeTotals | src/components/TenderPricingProcess.tsx:1664-1699 | an update keeps every row total non-negative |
| TenderPricing.DeleteRow | src/components/TenderPricingProcess.tsx:1656-1660 | exactly the rows with the given id disappear from that section; other sections are unchanged |
| TenderPricing.DeleteAbsentIsNoop | src/components/TenderPricingProcess.tsx:1656-1660 | deleting an absent id changes nothing |
| TenderPricing.EmptyRow | src/components/TenderPricingProcess.tsx:1613-1635 | a new row has the given id, total 0, quantity 1, and for materials no waste with a 10 % default |
| TenderPricing.AddRow | src/components/TenderPricingProcess.tsx:1637-1651 | appends one row with the new id and a consistent total, keeping every existing row and section |
| TenderPricing.NormalizeString | src/components/TenderPricingProcess.tsx:840-843 | null and undefined give "", and any non-empty result is trimmed |
| TenderPricing.ChooseDescription | src/components/TenderPricingProcess.tsx:910-917 | the upstream text if meaningful, else the specifications if meaningful, else the numbered fallback label |
| TenderPricing.ChooseDescriptionStable | src/components/TenderPricingProcess.tsx:910-917 | feeding a chosen description back as upstream text chooses it again |
| TenderPricing.NumberLabelNotMeaningful | src/components/TenderPricingProcess.tsx:846-847 | a label "البند n" is never a meaningful description |
| TenderPricing.CanonicalDescription | src/components/TenderPricingProcess.tsx:910-917 | the canonical description is never empty |
| TenderPricing.CanonicalDescriptionStable | src/components/TenderPricingProcess.tsx:910-917 | a canonical description read back as the canonical field is chosen again, whatever the other description |
| TenderPricing.ChosenIsTrimmed | src/components/TenderPricingProcess.tsx:840-917 | from trimmed inputs the chosen description is trimmed |
| TenderPricing.UnitPrice | src/components/TenderPricingProcess.tsx:871 | unit price times a positive quantity gives the total back; otherwise the unit price is the total |
| TenderPricing.DeriveStatus | src/components/TenderPricingProcess.tsx:1241-1256 | ready to submit iff progress is exactly 100 with files, i.e. all items completed; pricing completed iff ready; progress 0 without items |
| TenderPricing.StatusAsWritten | src/components/TenderPricingProcess.tsx:1240-1256 | ready iff the count of completed entries over the whole pricing map equals the item count, with files |
| TenderPricing.Status | src/components/TenderPricingProcess.tsx:1240-1256 | the completed count taken over the current items; progress stays in [0, 100] |
| TenderPricing.StatusReadyIffAllPriced | src/components/TenderPricingProcess.tsx:1240-1256 | the corrected status is ready iff there are items, files, and every current item is completed |
| TenderPricing.StaleEntryReportsReady | src/components/TenderPricingProcess.tsx:1240-1241 | a stale completed entry makes the as-written status ready while an item is unpriced |
| TenderPricing.ShouldPersist | src/components/TenderPricingProcess.tsx:1264-1273 | a snapshot is skipped iff the last one has the same status and total and a progress within 0.0001 |
| TenderPricing.RepeatNotPersisted | src/components/TenderPricingProcess.tsx:1264-1273 | repeating the same snapshot is never persisted |
| Workflow.GetPath | src/services/workflowAutomationService.ts:493-506 | an empty path gives the subject itself, and a missing first segment gives undefined |
| Workflow.GetPathAppend | src/services/workflowAutomationService.ts:493-506 | following a path p then q is following p + q, so a missing segment anywhere yields undefined |
| Workflow.FieldValue | src/services/workflowAutomationService.ts:493-506 | the field value is the dotted path, split at '.', followed from the subject |
| Workflow.PlainField | src/services/workflowAutomationService.ts:493-506 | a field name without dots reads the property directly, undefined when absent |
| Workflow.ParseOperator | src/services/workflowAutomationService.ts:470-490 | an operator name maps to its operator, and only names outside the eight known ones map to unknown |
| Workflow.ParseOperatorName | src/services/workflowAutomationService.ts:470-490 | parsing a known operator's name gives that operator back |
| Workflow.Test | src/services/workflowAutomationService.ts:470-490 | unknown operators fail, 'in'/'not_in' fail on a non-array value, and 'in' holds iff some element is SameValueZero-equal |
| Workflow.EqualsComplement | src/services/workflowAutomationService.ts:472-475 | 'not_equals' is the negation of 'equals' |
| Workflow.ContainsComplement | src/services/workflowAutomationService.ts:476-479 | 'not_contains' is the negation of 'contains' |
| Workflow.ContainsIgnoresCase | src/services/workflowAutomationService.ts:476-477 | lower-casing both sides does not change 'contains' |
| Workflow.InComplement | src/services/workflowAutomationService.ts:484-487 | on an array value 'not_in' is the negation of 'in' |
| Workflow.OrderingExclusive | src/services/workflowAutomationService.ts:480-483 | 'greater_than' and 'less_than' never both hold |
| Workflow.MissingFieldUnordered | src/services/workflowAutomationService.ts:480-483 | a missing field (NaN as a number) is neither greater nor less than anything |
| Workflow.EqualsOnText | src/services/workflowAutomationService.ts:472-473 | on strings 'equals' is string equality |
| Workflow.StatusField | src/services/workflowAutomationService.ts:493-506 | the "status" path of a task reads its status |
| Workflow.StatusCondition | src/services/workflowAutomationService.ts:466-473 | a status-equals condition holds on a task iff its status is the given one |
| Workflow.TaskObject | src/services/workflowAutomationService.ts:409-425 | a task seen as an object carries its status under "status" |
| Workflow.Combine | src/services/workflowAutomationService.ts:451-457 | "and" combines by conjunction, anything else by disjunction |
| Workflow.FoldConditions | src/services/workflowAutomationService.ts:439-465 | an empty list holds, and a single condition holds iff it does |
| Workflow.EvaluateConditions | src/services/workflowAutomationService.ts:439-465 | the loop computes the left-to-right fold in which each step uses the previous condition's operator, defaulting to "and" |
| Workflow.AllAndIsConjunction | src/services/workflowAutomationService.ts:443-465 | with only "and" or absent operators the fold prefix is the conjunction |
| Workflow.AllOrIsDisjunction | src/services/workflowAutomationService.ts:443-465 | with "or" on every condition but the last the fold prefix is the disjunction |
| Workflow.ConjunctiveRule | src/services/workflowAutomationService.ts:439-465 | a rule without "or" holds iff every condition holds |
| Workflow.DisjunctiveRule | src/services/workflowAutomationService.ts:439-465 | a rule chained with "or" holds iff some condition holds |
| Workflow.ApplyAction | src/services/workflowAutomationService.ts:508-535 | each action changes only its own field, set_due_date prefers daysFromNow, and add_tag adds at most the given tag without duplicates |
| Workflow.AddTagIdempotent | src/services/workflowAutomationService.ts:527-531 | adding the same tag twice is the same as once |
| Workflow.ApplyActions | src/services/workflowAutomationService.ts:508-538 | a sequence of actions keeps the task's identity, never drops a tag and never introduces a duplicate |
| Workflow.ActiveByPriority | src/services/workflowAutomationService.ts:412-413 | exactly the active rules, as a permutation, in descending priority |
| Workflow.RunRules | src/services/workflowAutomationService.ts:417-421 | applying the matching rules in order keeps identity and tags, and introduces no duplicate tag |
| Workflow.ExecuteRules | src/services/workflowAutomationService.ts:409-436 | corrected: the updated task is compared with the original, so an unsaved run leaves the task unchanged |
| Workflow.ExecuteRulesAsWritten | src/services/workflowAutomationService.ts:415-425 | as written: the same task, but a change is saved only when it also shows against the shared tags |
| Workflow.InactiveRulesIgnored | src/services/workflowAutomationService.ts:412 | inactive rules have no effect |
| Workflow.TagOnlyChangeNotSaved | src/services/workflowAutomationService.ts:415-425 | a rule that only adds a tag changes the task but the as-written comparison does not save it |
| Workflow.GetTasks | src/services/workflowAutomationService.ts:240-257 | without filters every task is returned; with filters a task is kept iff it meets every given criterion |
| Workflow.EmptyFilterKeepsAll | src/services/workflowAutomationService.ts:244-255 | a filter object with no criterion keeps every task |
| Workflow.Tally | src/services/workflowAutomationService.ts:617-645 | the counters add up to the number of rules, and critical issues are among the failures |
| Workflow.TallyCounts | src/services/workflowAutomationService.ts:625-645 | each counter is the number of results of its kind, and critical counts critical failures |
| Workflow.ComplianceScore | src/services/workflowAutomationService.ts:647-648 | the score lies in [0, 100], is 100 with no rules or all passed, and 0 when none passed |
| Workflow.Status | src/services/workflowAutomationService.ts:665 | failed iff any failure, else warning iff any warning, else passed |
| Workflow.Outcome | src/services/workflowAutomationService.ts:625-667 | the score is within [0, 100] and the compliance check failed iff some rule failed |
| Workflow.FillsEveryPlaceholder | src/services/workflowAutomationService.ts:1141-1150 | every occurrence of `{{key}}` is replaced by the variable's text |
| Workflow.ProcessTemplate | src/services/workflowAutomationService.ts:1141-1150 | a template without '{' comes back unchanged; FillsEveryPlaceholder shows each `{{key}}` replaced |
| Workflow.PlainTemplateUnchanged | src/services/workflowAutomationService.ts:1141-1150 | a template without braces is left unchanged |
| Numbers.Round | src/features/dashboard/AdvancedDashboard.tsx:159 | `Math.round`: the integer r with r ≤ x + 0.5 < r + 1, so halves go up |
| Numbers.RoundUnique | src/features/dashboard/AdvancedDashboard.tsx:159 | any integer k with k ≤ x + 0.5 < k + 1 is the rounding of x |
| Numbers.RoundMonotone | src/features/dashboard/AdvancedDashboard.tsx:159 | rounding never reverses order |
| Numbers.Round2 | src/components/TenderPricingProcess.tsx:1547 | within half a cent of x (above on a tie), a whole number of cents, non-negative for non-negative x |
| Numbers.Round2Idempotent | src/components/TenderPricingProcess.tsx:1547 | rounding to cents twice equals rounding once |
| Numbers.Round2Monotone | src/components/TenderPricingProcess.tsx:1547 | rounding to cents never reverses order |
| Numbers.Round2OfCents | src/components/TenderPricingProcess.tsx:1547 | a whole number of cents is left unchanged |
| Numbers.ToFixed2 | src/components/cost/ProjectCostView.tsx:212 | `+x.toFixed(2)`: whole cents within half a cent of x, a tie going away from zero, the sign kept |
| Numbers.ToFixed2Odd | src/components/cost/ProjectCostView.tsx:212 | negating the input negates the result |
| Numbers.ToFixed2AwayFromZero | src/components/cost/ProjectCostView.tsx:212 | −0.125 becomes −0.13 with `toFixed` but −0.12 with `Math.round`, so the two differ on negative ties |
| Numbers.ToFixed4 | src/components/cost/SimplifiedProjectCostView.tsx:257 | `+x.toFixed(4)`: within half a ten-thousandth of x, the sign kept |
| Numbers.ParseFloat | src/components/ExpenseManagement.tsx:145 | `Number.parseFloat`: NaN iff no decimal literal starts the text after leading white space |
| Numbers.ParseFloatSkipsSpace | src/components/ExpenseManagement.tsx:145 | leading white space never changes what is read |
| Numbers.StringToNumber | src/components/TenderPricingProcess.tsx:376-383 | `Number(s)`: blank text is 0; NaN iff the trimmed text is neither a radix literal nor wholly one decimal literal |
| Numbers.NumText | src/presentation/pages/Development/DevelopmentPage.tsx:108 | `String(n)`: never empty, and an integer prints as its digits |
| Numbers.IntNumTextRoundTrip | src/presentation/pages/Development/DevelopmentPage.tsx:108 | an integer's text reads back as that integer with both `Number` and `parseFloat` |
| Text.Trim | src/components/ExpenseManagement.tsx:141 | never longer, and non-empty output neither starts nor ends with white space |
| Text.BlankIffAllSpace | src/components/ExpenseManagement.tsx:216-218 | text trims to empty iff every character is white space |
| Text.Lower | src/components/ExpenseManagement.tsx:396 | same length, each character lower-cased (ASCII letters only) |
| Text.LowerIdempotent | src/components/ExpenseManagement.tsx:396 | lower-casing twice equals lower-casing once |
| Text.NatTextInjective | src/components/TenderPricingProcess.tsx:506 | different numbers have different decimal texts |
| Text.PadStart2 | src/components/TenderPricingProcess.tsx:506 | `padStart(2, '0')`: at least two characters, and a number from 10 up is its own text |
| Text.KeepChars | src/components/TenderDetails.tsx:239 | removing the characters a pattern rejects: never longer, only kept characters remain, and text of kept characters is unchanged |
| Text.ReplaceAllIdentity | src/application/services/marketIntelligenceService.ts:913 | replacing a pattern with itself changes nothing |
| Text.Split | src/services/workflowAutomationService.ts:494 | at least one part, and no part contains the separator |
| Text.JoinSplit | src/application/services/marketIntelligenceService.ts:917 | joining the parts of a split with the separator gives the text back |
| Text.SplitJoin | src/application/services/marketIntelligenceService.ts:917 | splitting a join of separator-free parts gives the parts back |
| Js.TypeOf | src/services/workflowAutomationService.ts:493-506 | `typeof` is "object" iff the value is null, an array or an object |
| Js.IndexOf | src/services/decisionSupportService.ts:373 | `indexOf`: −1 or the first position holding a strictly equal value |
| Js.ToNumber | src/components/TenderDetails.tsx:233-248 | `Number(v)`: a number is itself, undefined and objects are NaN, null is 0 |
| Js.IntegerTextRoundTrip | src/components/TenderDetails.tsx:233-248 | an integer's text converts back to that integer |
| Js.LookupFound | src/services/bidComparisonService.ts:1645 | a property is found iff the object has the key, and it is that key's value |
| Js.Get | src/services/workflowAutomationService.ts:493-506 | property access yields nothing on primitives and the property's value on objects |
| Js.Stringify | src/electron/main.cjs:208 | `JSON.stringify`: no text iff the value is undefined, and a string becomes its quoted form |
| Lists.Filter | src/services/bidComparisonService.ts:395 | `filter`: never longer, and an element is kept iff it is in the input and passes |
| Lists.FilterConcat | src/services/bidComparisonService.ts:395 | filtering a concatenation filters each part in order, so input order is kept |
| Lists.FilterKeepsAll | src/services/bidComparisonService.ts:395-398 | the filtered list is as long as the input iff every element passes, and is then the input itself |
| Lists.CountComplement | src/features/dashboard/AdvancedDashboard.tsx:381-393 | the counts of a predicate and its negation add up to the length |
| Lists.AppendCapped | src/electron/main.cjs:466-469 | appending under a cap keeps the new element last and the newest earlier elements, up to the cap |
| Lists.TakeLast | src/electron/main.cjs:468 | `slice(length − n)`: the last n elements, in order |
| Lists.TakeFirst | src/presentation/pages/Development/DevelopmentPage.tsx:275 | `slice(0, n)`: the first n elements, in order |
| Lists.Dedupe | src/services/bidComparisonService.ts:1427 | `[...new Set(xs)]`: no duplicates and the same members, never longer |
| Lists.DedupeDistinct | src/services/bidComparisonService.ts:1427 | a list already without duplicates is kept as it is |
| Lists.DedupeConcat | src/services/bidComparisonService.ts:1427 | deduplicating a concatenation gives the first occurrences of the front part in order, followed by those of the back part that the front part does not hold, in order |
| Lists.DedupeAfterConcat | src/services/bidComparisonService.ts:1427 | deduplication goes through a concatenation: the back part is deduplicated with everything in the front part already seen |
| Lists.DedupeAfterIsFilter | src/services/bidComparisonService.ts:1427 | skipping the members of a set while deduplicating equals filtering them out afterwards |
| Lists.SortDesc | src/presentation/pages/Development/DevelopmentPage.tsx:274 | a descending sort: sorted by the key and a permutation of the input |
| Lists.SortDescSorted | src/presentation/pages/Development/DevelopmentPage.tsx:274 | an already sorted list is left as it is |
| Lists.SortDescStable | src/presentation/pages/Development/DevelopmentPage.tsx:274 | elements with equal keys keep their input order |
| Lists.Rank | src/services/decisionSupportService.ts:546-556 | ranks 1, 2, … in descending key order over a permutation of the input |
| Lists.FindIndex | src/services/qualityAssuranceService.ts:544 | `findIndex`: −1 or the first position that passes |
| Lists.Toggle | src/components/cost/ProjectCostView.tsx:355-365 | the toggled element's membership flips and every other element's is kept |
| Lists.ToggleTwice | src/components/cost/ProjectCostView.tsx:355-365 | toggling twice restores the set |

## Left out

- Numbers.Round, Numbers.Round2, Numbers.ToFixed2, Numbers.ToFixed4: numbers are exact reals, not IEEE doubles. In JavaScript `Math.round(1.005 * 100) / 100` is 1, because 1.005 is stored slightly below itself, while `Round2(1.005)` is 1.01. Every rounded money figure in the model inherits this difference on such inputs.
- ProjectCost.SetField, SimplifiedCost.Priced: the rounded total is promised within half a cent of the exact product, inclusive at both ends, rather than strictly above the lower end. `toFixed` rounds a negative tie away from zero, so −0.125 becomes −0.13, exactly half a cent below.
- Numbers.NumText, Development.FormatValue, MarketIntelligence.Cell: `String(n)` is modelled without the exponent form. JavaScript prints 1e21 as "1e+21" and 1e-7 as "1e-7", and the model prints plain digits.
- MarketIntelligence.MarketAnalysis: only the four trend fields of the result are modelled. The summary figures, the recommendation texts, the ten unacknowledged alerts and the analysis time are not (src/application/services/marketIntelligenceService.ts:765-790). Stored price changes and hourly rates are reals, so a NaN or infinite stored value is not modelled; the infinities and NaN that a recorded rate of 0 produces are.
- Text.Lower, Expenses.FilterExpenses, BidComparison.GetAll, MarketIntelligence.GetMaterialCosts, Workflow.GetTasks, Workflow.Test: lower-casing covers ASCII letters only. JavaScript `toLowerCase` is Unicode-wide, so a search that differs from the text only in the case of a non-ASCII letter matches in the application and not in the model.
- DesktopSecurity.SanitizeFilename, DesktopSecurity.SanitizeMetadata: the 120-, 64- and 256-character caps count Unicode characters. JavaScript counts UTF-16 code units, so text with characters outside the Basic Multilingual Plane is cut earlier in the application, and possibly in the middle of a surrogate pair.
- BidComparison.TranslatePriority, Js.Get, Workflow.GetPath: objects have only their own properties. JavaScript also finds inherited ones, so `translatePriority("constructor")` returns the `Object` function, where the model's contract says an unknown priority comes back unchanged, and `in` in the workflow's field lookup also sees inherited names.
- DesktopSecurity.SanitizeMetadata: a "__proto__" key is kept as an ordinary key. In JavaScript the assignment changes the result's prototype instead of adding the key.
- Workflow.ProcessTemplate: variable names and values are taken literally. The application builds a regular expression from each name and uses each value as replacement text, so regex metacharacters in a name and `$` patterns in a value behave differently there.
- Competitors.Recalculate: keeps the win rate as written, 0 or 100. The type listing a project's statuses is not part of this model, so the corrected Competitors.DecidedWinRate takes the status 'lost' as the lost outcome and is not wired into the recalculation.
- Competitors.Validate: shares and win rates are reals, so NaN cannot occur. In the application a NaN share or win rate fails both range comparisons and passes validation.
- ProjectCost.FilterByStatus: only the status filter of `filteredItems` is modelled. The sort by the chosen column (src/components/cost/ProjectCostView.tsx:425-431) and the text query (:444-450) are not.
- The default percentages derived from the items' averages when none are stored (src/components/cost/ProjectCostView.tsx:111-140) are not modelled.
- The breakdown-row editor of the project cost view, which rounds a row's total with `toFixed(2)` (src/components/cost/ProjectCostView.tsx:244-272), is not modelled.
- The per-category statistics of the development summary (src/presentation/pages/Development/DevelopmentPage.tsx:248-270) are not modelled; Development.Summarize covers every other field.
- Persistence is left out. The local-storage, electron-store, secure-store and keytar calls and the AES-GCM encryption are not modelled; the stored lists are parameters and results.
- The Electron shell is left out: IPC registration, windows, menus, the content security policy, the updater and power events.
- Timing and concurrency are left out: timers, debouncing, lifecycle acknowledgements, `Promise.all` and every `await`. Each asynchronous service method is modelled as one atomic step.
- Non-determinism is left out. `Date.now`, `new Date()` and `Math.random` ids are parameters (a clock, a fresh id or a `now` text). The random win probabilities and the mocked bid data of the comparison summary are not modelled.
- Expenses.FilterExpenses, Expenses.CalculateStats: `getExpensesByType` comes from a hook that is not part of this model (src/components/ExpenseManagement.tsx:174, :397); the model takes it to keep the expenses whose `isAdministrative` flag matches the tab, in stored order.
- TenderPricing.NormalizeItem, TenderPricing.QuantityItems, TenderPricing.FindQuantityAttachment: a null or undefined entry in the quantity list or among the attachments makes `item.id` or `att.name` throw a TypeError in the view, and so does an attachment name that is neither a string nor nullish, through `toLowerCase`. The model reads every property of such an entry as undefined and writes a non-string name as text, so it returns a result where the view throws.
- Storage.ParseStoredValue, Storage.StoredRoundTrip: `JSON.parse` is a parameter. The round trip is proved for every parser that reads back what `JSON.stringify` writes for JSON-safe values. The storage key catalogue and the set of sensitive keys are also parameters, because the file defining them is not part of this model.
- Expenses.Submit, Expenses.CalculateStats: the expense catalogues, category lookup and `calculateAmounts` are not part of this model. They are parameters, and the model requires only that the catalogue be well formed.
- Currency, date and `Intl` number formatting are parameters (Development.FormatValue) or are left out where only display text depends on them.
- JSX rendering, toasts, dialogs, file downloads and other presentation-only code are left out, as are the services' helpers that only fill mocked or simulated data.

## Findings

| source | as written | input that shows it | evidently intended | confidence | as-written member | corrected member |
|---|---|---|---|---|---|---|
| src/components/TenderDetails.tsx:623-630 | a repeated id gets `{id}__dup{k}` without checking that key against the ids already used | ids ["a", "a", "a__dup1"] give "a", "a__dup1", "a__dup1"; ids ["constructor", "constructor"] give "constructor__dupNaN" twice, because the counter `{}` inherits `constructor` | every render key distinct, as the comment at :619-622 says | high, not executed | TenderDetails.RenderKeysAsWritten, shown by TenderDetails.DuplicateRenderKeys and TenderDetails.PrototypeNameKeysCollide | TenderDetails.RenderKeys, proved by TenderDetails.RenderKeysDistinct |
| src/services/competitorDatabaseService.ts:858-869 | the position is looked up with `findIndex` in the list of competitors with a positive share, and −1 falls through to the bands | a competitor with market share 0 is missing from the ranking, gets index −1 and is a challenger | a competitor outside the ranking is niche | high, not executed | Competitors.MarketPositionAsWritten, shown by Competitors.NoShareIsChallenger | Competitors.MarketPositionOf, which Competitors.RankedPositionAgrees shows equal to the as-written one on every ranked competitor |
| src/services/decisionSupportService.ts:373 | a categorical value scores index/(n−1)·100 | a criterion with the single possible value "x", scored on "x", gives 0/0 = NaN | the only value scores 100 | high, not executed | DecisionSupport.NormalizeAsWritten, shown by DecisionSupport.SingleOptionIsNaN | DecisionSupport.Normalize, which DecisionSupport.NormalizeAgrees shows equal wherever the as-written score is a number |
| src/services/decisionSupportService.ts:352-353 | the category score adds the normalised value times the weight with no NaN guard, and the recommendation (:307-315) and risk band (:382-390) then compare NaN | the criterion above gives a NaN category score; the overall score is then NaN, both thresholds fail and the recommendation is a conditional bid | the category score stays within [0, 100] | high, not executed | DecisionSupport.CategoryScoreAsWritten and DecisionSupport.AnalyseAsWritten, shown by DecisionSupport.SingleOptionCategoryIsNaN and DecisionSupport.SingleOptionScenarioIsConditional | DecisionSupport.CategoryScore and DecisionSupport.Analyse, proved by DecisionSupport.CategoryScoreAgrees and DecisionSupport.AnalyseAgrees |
| src/components/TenderPricingProcess.tsx:1241 | the completed count is taken over every stored pricing entry, not over the current items | items a and b, with completed pricing stored for a and for a removed item, count 2 of 2 as priced and report ready to submit while b has no price | ready to submit iff every current item is priced | high, not executed | TenderPricing.StatusAsWritten, shown by TenderPricing.StaleEntryReportsReady | TenderPricing.Status, proved by TenderPricing.StatusReadyIffAllPriced |
| src/services/workflowAutomationService.ts:415-425 | the updated task is a shallow copy, so `add_tag` pushes onto the tags array it shares with the original, and the JSON comparison then sees no change | a rule whose only action adds a tag: the task is not saved | a tag-only change is saved | high, not executed | Workflow.ExecuteRulesAsWritten, shown by Workflow.TagOnlyChangeNotSaved | Workflow.ExecuteRules, with Workflow.InactiveRulesIgnored |
| src/services/qualityAssuranceService.ts:1704-1708 | the score is (rules − inconsistencies)/rules·100, but one rule can report several inconsistencies | 1 rule with 3 inconsistencies scores −200 | a score within [0, 100] | high, not executed | Quality.ConsistencyScoreAsWritten, shown by Quality.ConsistencyGoesNegative | Quality.ConsistencyScore, which Quality.ConsistencyAgrees shows equal whenever the as-written score is within range |
| src/services/competitorDatabaseService.ts:843-846 | `completedProjects` and `wonProjects` filter on the same two statuses, 'completed' and 'awarded', so the win rate divides a count by itself | one awarded and one lost project: the win rate is 100 | won projects over projects with a known outcome, so that a lost bid lowers the rate | plausible, not executed | Competitors.WinRateOf, shown by Competitors.WinRateAllOrNothing and Competitors.LostProjectIgnored | Competitors.DecidedWinRate, proved in its own contract |
| src/components/cost/SimplifiedProjectCostView.tsx:172-174 | the consistency check reads missing percentages as 0, while the recalculation at :243-245 fills them from the defaults | an item with no stored percentages and a breakdown base of 100, recalculated with a 10 % administrative default, is flagged inconsistent | the consistency check uses the same defaults as the recalculation | plausible, not executed | SimplifiedCost.Consistent, shown by SimplifiedCost.MissingPercentagesFlagged | SimplifiedCost.ConsistentWithDefaults, proved by SimplifiedCost.RecalculatedConsistentWithDefaults |

=== FILE: bid_comparison.dfy ===
/**
 * The bid comparison service: the stored list of comparisons with its
 * filters, update, delete and lookup by id; the precondition and summary
 * ranges of a comparison of bids; the win probability and relative
 * position of a bid against its competitors; and the recommendations and
 * action plan built from competitive gaps. Storage, the clock, the bid
 * store and the randomised mock figures are outside.
 */
module BidComparison {
  import opened Wrappers
  import opened Numbers
  import opened Text
  import opened Lists

  datatype Comparison = Comparison(
    id: string,
    name: string,
    nameEn: Option<string>,
    description: string,
    projectId: string,
    projectName: string,
    createdAt: string,
    updatedAt: string,
    createdBy: string,
    bidIds: seq<string>,
    comparisonType: string,
    status: string)

  /** The optional filters of getAllComparisons; a list that is present must contain the value. */
  datatype Filters = Filters(
    projectIds: Option<seq<string>>,
    bidIds: Option<seq<string>>,
    comparisonTypes: Option<seq<string>>,
    statuses: Option<seq<string>>,
    dateRange: Option<(string, string)>,
    createdBy: Option<seq<string>>,
    searchTerm: Option<string>)

  const NoFilters := Filters(None, None, None, None, None, None, None)

  // ----------------------------------------------------------------- filters

  predicate Allows(list: Option<seq<string>>, x: string) {
    list.None? || x in list.value
  }

  /** Some bid of the comparison is among the wanted bids. */
  predicate AllowsAnyBid(list: Option<seq<string>>, bidIds: seq<string>) {
    list.None? || exists i :: 0 <= i < |bidIds| && bidIds[i] in list.value
  }

  /**
   * The creation date lies in the range. Dates are compared as the numbers
   * `new Date(text)` gives, so an unreadable date (NaN) is never outside.
   */
  predicate InDateRange(range: Option<(string, string)>, createdAt: string, parseDate: string -> Num) {
    range.None? ||
      var d := parseDate(createdAt);
      !(NumLess(d, parseDate(range.value.0)) || NumLess(parseDate(range.value.1), d))
  }

  /** `field && field.toLowerCase().includes(term)`: an empty field never matches. */
  predicate FieldMatches(field: string, term: string) {
    field != "" && ContainsIgnoringCase(field, term)
  }

  /** The search term, when one is given, appears in the name, English name, description or project name. */
  predicate SearchMatches(term: Option<string>, c: Comparison) {
    term.None? || term.value == "" ||
      FieldMatches(c.name, term.value)
      || (c.nameEn.Some? && ContainsIgnoringCase(c.nameEn.value, term.value))
      || FieldMatches(c.description, term.value)
      || FieldMatches(c.projectName, term.value)
  }

  /** Every filter that is given holds of the comparison. */
  predicate Matches(f: Filters, c: Comparison, parseDate: string -> Num) {
    Allows(f.projectIds, c.projectId)
    && AllowsAnyBid(f.bidIds, c.bidIds)
    && Allows(f.comparisonTypes, c.comparisonType)
    && Allows(f.statuses, c.status)
    && InDateRange(f.dateRange, c.createdAt, parseDate)
    && Allows(f.createdBy, c.createdBy)
    && SearchMatches(f.searchTerm, c)
  }

  /** getAllComparisons: every stored comparison without filters, otherwise those every given filter admits, in stored order. */
  function GetAll(stored: seq<Comparison>, filters: Option<Filters>, parseDate: string -> Num): (r: seq<Comparison>)
    ensures filters.None? ==> r == stored
    ensures filters.Some? ==> forall c :: c in r <==> c in stored && Matches(filters.value, c, parseDate)
    ensures |r| <= |stored|
  {
    if filters.None? then stored else Filter(stored, c => Matches(filters.value, c, parseDate))
  }

  /** A filter object that gives no filter returns every comparison. */
  lemma EmptyFiltersKeepAll(stored: seq<Comparison>, parseDate: string -> Num)
    ensures GetAll(stored, Some(NoFilters), parseDate) == stored
  {
    FilterAll(stored, c => Matches(NoFilters, c, parseDate));
  }

  /** Adding a status filter only narrows the result, and what remains has one of the statuses. */
  lemma StatusFilterNarrows(stored: seq<Comparison>, f: Filters, statuses: seq<string>, parseDate: string -> Num)
    requires f.statuses.None?
    ensures forall c :: c in GetAll(stored, Some(f.(statuses := Some(statuses))), parseDate) <==>
      c in GetAll(stored, Some(f), parseDate) && c.status in statuses
  {
  }

  // ------------------------------------------------------- update and delete

  predicate HasId(c: Comparison, id: string) {
    c.id == id
  }

  /** getComparison: the first comparison with the id, or null. */
  function GetComparison(stored: seq<Comparison>, id: string): (r: Option<Comparison>)
    ensures r.None? <==> forall i :: 0 <= i < |stored| ==> stored[i].id != id
    ensures r.Some? ==> r.value in stored && r.value.id == id
    ensures r.Some? ==> exists k :: (0 <= k < |stored| && r.value == stored[k]
      && (forall j :: 0 <= j < k ==> stored[j].id != id))
  {
    var k := FindIndex(stored, c => HasId(c, id));
    if k < 0 then None else Some(stored[k])
  }

  datatype NotFound = NotFound(id: string)

  /**
   * updateComparison: an absent id throws; otherwise the first comparison
   * with the id is overwritten by the patch, stamped with the time, and
   * returned with the new list.
   */
  function UpdateComparison(stored: seq<Comparison>, id: string, patch: Comparison -> Comparison, now: string): (r: Result<(seq<Comparison>, Comparison), NotFound>)
    ensures r.Failure? <==> forall i :: 0 <= i < |stored| ==> stored[i].id != id
    ensures r.Failure? ==> r.error == NotFound(id)
    ensures r.Success? ==> |r.value.0| == |stored|
    ensures r.Success? ==> exists k :: (0 <= k < |stored| && stored[k].id == id
      && (forall j :: 0 <= j < k ==> stored[j].id != id)
      && r.value.1 == patch(stored[k]).(updatedAt := now)
      && r.value.0 == stored[k := r.value.1])
  {
    var k := FindIndex(stored, c => HasId(c, id));
    if k < 0 then Failure(NotFound(id))
    else
      var updated := patch(stored[k]).(updatedAt := now);
      Success((stored[k := updated], updated))
  }

  /** After an update that keeps the id, looking the id up finds the updated comparison. */
  lemma UpdateThenGet(stored: seq<Comparison>, id: string, patch: Comparison -> Comparison, now: string)
    requires forall c :: patch(c).id == c.id
    ensures UpdateComparison(stored, id, patch, now).Success? ==>
      var u := UpdateComparison(stored, id, patch, now).value;
      GetComparison(u.0, id) == Some(u.1)
  {
    if UpdateComparison(stored, id, patch, now).Success? {
      var u := UpdateComparison(stored, id, patch, now).value;
      var k :| 0 <= k < |stored| && stored[k].id == id
        && (forall j :: 0 <= j < k ==> stored[j].id != id)
        && u.1 == patch(stored[k]).(updatedAt := now)
        && u.0 == stored[k := u.1];
      var g := FindIndex(u.0, c => HasId(c, id));
      assert u.0[k].id == id;
      assert g == k;
    }
  }

  /**
   * deleteComparison: every comparison with the id is removed and true is
   * returned; when none has it, false is returned and the stored list is
   * left as it is.
   */
  function DeleteComparison(stored: seq<Comparison>, id: string): (r: (bool, seq<Comparison>))
    ensures r.0 <==> exists i :: 0 <= i < |stored| && stored[i].id == id
    ensures !r.0 ==> r.1 == stored
    ensures forall c :: c in r.1 <==> c in stored && c.id != id
  {
    var kept := Filter(stored, c => !HasId(c, id));
    FilterKeepsAll(stored, c => !HasId(c, id));
    if |kept| == |stored| then (false, stored) else (true, kept)
  }

  /** Deleting twice: the second delete finds nothing and changes nothing. */
  lemma DeleteTwice(stored: seq<Comparison>, id: string)
    ensures var once := DeleteComparison(stored, id).1;
      DeleteComparison(once, id) == (false, once)
  {
    var once := DeleteComparison(stored, id).1;
    forall i | 0 <= i < |once| ensures once[i].id != id {
      assert once[i] in once;
    }
  }

  // -------------------------------------------------------------- compareBids

  /** The figures of a bid the analyses read; a missing figure is None. */
  datatype BidFigures = BidFigures(totalPrice: Option<real>, qualityScore: Option<real>, timeline: Option<real>)

  /** `x || 0`. */
  function OrZero(x: Option<real>): real {
    x.GetOr(0.0)
  }

  /** `!!x` for a number that may be missing. */
  predicate Given(x: Option<real>) {
    x.Some? && x.value != 0.0
  }

  function SeqMin(xs: seq<real>): (m: real)
    requires |xs| > 0
    ensures m in xs && forall i :: 0 <= i < |xs| ==> m <= xs[i]
    decreases |xs|
  {
    if |xs| == 1 then xs[0]
    else
      var rest := SeqMin(xs[..|xs| - 1]);
      assert forall i :: 0 <= i < |xs| - 1 ==> xs[i] == xs[..|xs| - 1][i];
      Min(rest, xs[|xs| - 1])
  }

  function SeqMax(xs: seq<real>): (m: real)
    requires |xs| > 0
    ensures m in xs && forall i :: 0 <= i < |xs| ==> xs[i] <= m
    decreases |xs|
  {
    if |xs| == 1 then xs[0]
    else
      var rest := SeqMax(xs[..|xs| - 1]);
      assert forall i :: 0 <= i < |xs| - 1 ==> xs[i] == xs[..|xs| - 1][i];
      Max(rest, xs[|xs| - 1])
  }

  /** A total between n·lo and n·hi has its mean between lo and hi. */
  lemma MeanBetween(total: real, n: real, lo: real, hi: real)
    requires n > 0.0 && n * lo <= total <= n * hi
    ensures lo <= total / n <= hi
  {
    var m := total / n;
    assert m * n == total;
    if m < lo {
      QuotientStrictMonotone(total, n * lo, n);
    }
    if m > hi {
      QuotientStrictMonotone(n * hi, total, n);
    }
  }

  datatype Range = Range(min: real, max: real, average: real)

  /** The range is the smallest, largest and mean figure of a non-empty list. */
  predicate Spans(r: Range, xs: seq<real>) {
    && |xs| > 0
    && r.min in xs && r.max in xs
    && (forall i :: 0 <= i < |xs| ==> r.min <= xs[i] <= r.max)
    && r.average == Sum(xs) / |xs| as real
  }

  /** The minimum, maximum and mean of a non-empty list. */
  function RangeOf(xs: seq<real>): (r: Range)
    requires |xs| > 0
    ensures r.min in xs && r.max in xs
    ensures forall i :: 0 <= i < |xs| ==> r.min <= xs[i] <= r.max
    ensures r.average == Sum(xs) / |xs| as real
    ensures r.min <= r.average <= r.max
  {
    var lo := SeqMin(xs);
    var hi := SeqMax(xs);
    var n := |xs| as real;
    SumBetween(xs, lo, hi);
    MeanBetween(Sum(xs), n, lo, hi);
    Range(lo, hi, Sum(xs) / n)
  }

  datatype Summary = Summary(totalBids: nat, priceRange: Range, timelineRange: Range, qualityScoreRange: Range)

  datatype CompareError = TooFewBids

  function Prices(bids: seq<BidFigures>): (r: seq<real>)
    ensures |r| == |bids| && forall i :: 0 <= i < |bids| ==> r[i] == OrZero(bids[i].totalPrice)
  {
    seq(|bids|, i requires 0 <= i < |bids| => OrZero(bids[i].totalPrice))
  }

  function Timelines(bids: seq<BidFigures>): (r: seq<real>)
    ensures |r| == |bids| && forall i :: 0 <= i < |bids| ==> r[i] == OrZero(bids[i].timeline)
  {
    seq(|bids|, i requires 0 <= i < |bids| => OrZero(bids[i].timeline))
  }

  function Qualities(bids: seq<BidFigures>): (r: seq<real>)
    ensures |r| == |bids| && forall i :: 0 <= i < |bids| ==> r[i] == OrZero(bids[i].qualityScore)
  {
    seq(|bids|, i requires 0 <= i < |bids| => OrZero(bids[i].qualityScore))
  }

  /**
   * compareBids: fewer than two bids throw; otherwise the summary holds the
   * number of bids and, for price, timeline and quality, the smallest,
   * largest and mean figure, a missing figure counting as 0.
   */
  function CompareBids(bids: seq<BidFigures>): (r: Result<Summary, CompareError>)
    ensures r.Failure? <==> |bids| < 2
    ensures r.Success? ==> r.value.totalBids == |bids|
    ensures r.Success? ==> forall i :: 0 <= i < |bids| ==>
      r.value.priceRange.min <= OrZero(bids[i].totalPrice) <= r.value.priceRange.max
    ensures r.Success? ==> r.value.priceRange.min <= r.value.priceRange.average <= r.value.priceRange.max
    ensures r.Success? ==> r.value.timelineRange.min <= r.value.timelineRange.average <= r.value.timelineRange.max
    ensures r.Success? ==> r.value.qualityScoreRange.min <= r.value.qualityScoreRange.average <= r.value.qualityScoreRange.max
    ensures r.Success? ==> Spans(r.value.priceRange, Prices(bids))
    ensures r.Success? ==> Spans(r.value.timelineRange, Timelines(bids))
    ensures r.Success? ==> Spans(r.value.qualityScoreRange, Qualities(bids))
  {
    if |bids| < 2 then Failure(TooFewBids)
    else Success(Summary(|bids|, RangeOf(Prices(bids)), RangeOf(Timelines(bids)), RangeOf(Qualities(bids))))
  }

  // ---------------------------------------------------------- win probability

  /** The competitors' mean of one figure; NaN (None) when there are no competitors. */
  function Mean(xs: seq<real>): (r: Option<real>)
    ensures r.None? <==> |xs| == 0
  {
    if |xs| == 0 then None else Some(Sum(xs) / |xs| as real)
  }

  /** The competitors' mean is positive: NaN is not. */
  predicate PositiveMean(m: Option<real>) {
    m.Some? && m.value > 0.0
  }

  /** `(avg - own) / avg * weight`: the advantage of a figure where less is better. */
  function LowerIsBetter(own: real, avg: real, weight: real): real
    requires avg > 0.0
  {
    (avg - own) / avg * weight
  }

  lemma LowerIsBetterMonotone(a: real, b: real, avg: real, weight: real)
    requires avg > 0.0 && a <= b && weight >= 0.0
    ensures LowerIsBetter(b, avg, weight) <= LowerIsBetter(a, avg, weight)
  {
    assert (avg - b) / avg <= (avg - a) / avg by {
      if avg - b < avg - a {
        QuotientStrictMonotone(avg - b, avg - a, avg);
      }
    }
    MulMonotone(weight, (avg - b) / avg, (avg - a) / avg);
  }

  /** The probability before it is clamped. */
  function RawProbability(bid: BidFigures, competitors: seq<BidFigures>): real {
    var avgPrice := Mean(Prices(competitors));
    var avgQuality := Mean(Qualities(competitors));
    var avgTimeline := Mean(Timelines(competitors));
    var p := 50.0;
    var p := if Given(bid.totalPrice) && PositiveMean(avgPrice) then p + LowerIsBetter(bid.totalPrice.value, avgPrice.value, 30.0) else p;
    var p := if Given(bid.qualityScore) && PositiveMean(avgQuality) then p + (bid.qualityScore.value - avgQuality.value) / 10.0 * 20.0 else p;
    if Given(bid.timeline) && PositiveMean(avgTimeline) then p + LowerIsBetter(bid.timeline.value, avgTimeline.value, 15.0) else p
  }

  /**
   * calculateWinProbability: 50 adjusted for price, quality and timeline
   * against the competitors' means, clamped into [0, 100]. A missing bid
   * throws inside the try block, whose handler answers 50.
   */
  function WinProbability(bid: Option<BidFigures>, competitors: seq<BidFigures>): (r: real)
    ensures 0.0 <= r <= 100.0
    ensures bid.None? ==> r == 50.0
    ensures |competitors| == 0 ==> r == 50.0
  {
    if bid.None? then 50.0 else Max(0.0, Min(100.0, RawProbability(bid.value, competitors)))
  }

  /** A cheaper bid, all else equal, never has a lower win probability. */
  lemma CheaperNotWorse(bid: BidFigures, cheaper: real, competitors: seq<BidFigures>)
    requires Given(bid.totalPrice) && cheaper != 0.0 && cheaper <= bid.totalPrice.value
    ensures WinProbability(Some(bid), competitors) <= WinProbability(Some(bid.(totalPrice := Some(cheaper))), competitors)
  {
    var avgPrice := Mean(Prices(competitors));
    if PositiveMean(avgPrice) {
      LowerIsBetterMonotone(cheaper, bid.totalPrice.value, avgPrice.value, 30.0);
    }
  }

  /** A bid exactly at the competitors' means on every figure is given even odds. */
  lemma AverageBidEven(competitors: seq<BidFigures>)
    requires |competitors| > 0
    ensures var bid := BidFigures(Mean(Prices(competitors)), Mean(Qualities(competitors)), Mean(Timelines(competitors)));
      WinProbability(Some(bid), competitors) == 50.0
  {
  }

  // --------------------------------------------------------- relative position

  datatype Position = Superior | CheaperPosition | BetterQualityPosition | AveragePosition

  /** `own < avg` and `own > avg` with a missing figure or a NaN mean comparing false. */
  predicate Below(own: Option<real>, avg: Option<real>) {
    own.Some? && avg.Some? && own.value < avg.value
  }

  predicate Above(own: Option<real>, avg: Option<real>) {
    own.Some? && avg.Some? && own.value > avg.value
  }

  /** calculateRelativePosition: cheaper and better, cheaper, better, or average. */
  function RelativePosition(bid: BidFigures, competitors: seq<BidFigures>): (r: Position)
    ensures r == Superior <==> Below(bid.totalPrice, Mean(Prices(competitors))) && Above(bid.qualityScore, Mean(Qualities(competitors)))
    ensures r == CheaperPosition <==> Below(bid.totalPrice, Mean(Prices(competitors))) && !Above(bid.qualityScore, Mean(Qualities(competitors)))
    ensures r == BetterQualityPosition <==> !Below(bid.totalPrice, Mean(Prices(competitors))) && Above(bid.qualityScore, Mean(Qualities(competitors)))
    ensures |competitors| == 0 ==> r == AveragePosition
  {
    var cheaper := Below(bid.totalPrice, Mean(Prices(competitors)));
    var better := Above(bid.qualityScore, Mean(Qualities(competitors)));
    if cheaper && better then Superior
    else if cheaper then CheaperPosition
    else if better then BetterQualityPosition
    else AveragePosition
  }

  /**
   * The two analyses agree: a bid placed as superior, priced and scored, no
   * slower than the competitors on average, and facing positive mean price
   * and quality, has better than even odds.
   */
  lemma SuperiorBidFavoured(bid: BidFigures, competitors: seq<BidFigures>)
    requires RelativePosition(bid, competitors) == Superior
    requires Given(bid.totalPrice) && Given(bid.qualityScore)
    requires PositiveMean(Mean(Prices(competitors))) && PositiveMean(Mean(Qualities(competitors)))
    requires !Given(bid.timeline) || bid.timeline.value <= Mean(Timelines(competitors)).value
    ensures WinProbability(Some(bid), competitors) > 50.0
  {
    var avgPrice := Mean(Prices(competitors)).value;
    var avgQuality := Mean(Qualities(competitors)).value;
    var avgTimeline := Mean(Timelines(competitors));
    assert LowerIsBetter(bid.totalPrice.value, avgPrice, 30.0) > 0.0 by {
      QuotientStrictMonotone(0.0, avgPrice - bid.totalPrice.value, avgPrice);
    }
    if Given(bid.timeline) && PositiveMean(avgTimeline) {
      assert LowerIsBetter(bid.timeline.value, avgTimeline.value, 15.0) >= 0.0 by {
        LowerIsBetterMonotone(bid.timeline.value, avgTimeline.value, avgTimeline.value, 15.0);
      }
    }
  }

  // ------------------------------------------------------ gaps and action plan

  datatype Severity = Minor | Moderate | Significant | Critical
  datatype Urgency = LowUrgency | MediumUrgency | HighUrgency

  datatype Gap = Gap(category: string, description: string, severity: Severity, urgency: Urgency, recommendations: seq<string>)

  /** The three general recommendations added after the gaps' own. */
  const GeneralRecommendations: seq<string> := [
    "إجراء مراجعة شاملة للعرض مع فريق متخصص",
    "تطوير خطة تحسين مستمر للعمليات",
    "الاستثمار في التدريب وتطوير المهارات"]

  /** Every gap's recommendations, in order. */
  function AllRecommendations(gaps: seq<Gap>): (r: seq<string>)
    ensures forall x :: x in r <==> exists i :: 0 <= i < |gaps| && x in gaps[i].recommendations
    decreases |gaps|
  {
    if |gaps| == 0 then []
    else
      var rest := AllRecommendations(gaps[1..]);
      assert forall i :: 1 <= i < |gaps| ==> gaps[i] == gaps[1..][i - 1];
      assert forall x, i :: 1 <= i < |gaps| && x in gaps[i].recommendations ==> x in rest by {
        forall x, i | 1 <= i < |gaps| && x in gaps[i].recommendations
          ensures x in rest
        {
          assert x in gaps[1..][i - 1].recommendations;
        }
      }
      assert forall x :: x in rest ==> exists i :: 1 <= i < |gaps| && x in gaps[i].recommendations by {
        forall x | x in rest
          ensures exists i :: 1 <= i < |gaps| && x in gaps[i].recommendations
        {
          var i :| 0 <= i < |gaps[1..]| && x in gaps[1..][i].recommendations;
          assert x in gaps[i + 1].recommendations;
        }
      }
      gaps[0].recommendations + rest
  }

  /**
   * generateGapRecommendations: every gap's recommendations followed by the
   * three general ones, each recommendation kept once.
   */
  function GapRecommendations(gaps: seq<Gap>): (r: seq<string>)
    ensures NoDuplicates(r)
    ensures forall x :: x in r <==> x in GeneralRecommendations || exists i :: 0 <= i < |gaps| && x in gaps[i].recommendations
    ensures var own := AllRecommendations(gaps);
      r == Dedupe(own) + Filter(GeneralRecommendations, x => x !in own)
  {
    var own := AllRecommendations(gaps);
    DedupeConcat(own, GeneralRecommendations);
    GeneralRecommendationsDistinct();
    Dedupe(own + GeneralRecommendations)
  }

  /** The general recommendations are three different texts, so deduplicating keeps them all. */
  lemma GeneralRecommendationsDistinct()
    ensures NoDuplicates(GeneralRecommendations)
    ensures Dedupe(GeneralRecommendations) == GeneralRecommendations
  {
    assert NoDuplicates(GeneralRecommendations);
    DedupeDistinct(GeneralRecommendations, {});
  }

  /** Without gaps only the three general recommendations remain, once each and in order. */
  lemma NoGapsGeneralOnly()
    ensures GapRecommendations([]) == GeneralRecommendations
  {
    assert AllRecommendations([]) + GeneralRecommendations == GeneralRecommendations;
    GeneralRecommendationsDistinct();
  }

  datatype Priority = LowPriority | MediumPriority | HighPriority | CriticalPriority

  datatype Action = Action(action: string, priority: Priority, timeline: string, expectedOutcome: string)

  predicate Pressing(g: Gap) {
    g.severity == Critical || g.urgency == HighUrgency
  }

  /** The action that addresses one pressing gap: high priority and one to two weeks when it is urgent. */
  function GapAction(g: Gap): (a: Action)
    ensures a.priority == (if g.urgency == HighUrgency then HighPriority else MediumPriority)
  {
    Action("معالجة " + g.description,
      if g.urgency == HighUrgency then HighPriority else MediumPriority,
      if g.urgency == HighUrgency then "1-2 أسابيع" else "2-4 أسابيع",
      "تحسين " + g.category + " بنسبة 20-30%")
  }

  function OpportunityAction(opportunity: string): (a: Action)
    ensures a.priority == MediumPriority
  {
    Action("الاستفادة من " + opportunity, MediumPriority, "4-8 أسابيع", "تعزيز الموقف التنافسي")
  }

  function GapActions(gaps: seq<Gap>): (r: seq<Action>)
    ensures |r| == Count(gaps, Pressing)
    decreases |gaps|
  {
    if |gaps| == 0 then []
    else (if Pressing(gaps[0]) then [GapAction(gaps[0])] else []) + GapActions(gaps[1..])
  }

  /**
   * createActionPlan: one action per critical or urgent gap, in order,
   * followed by one medium-priority action for each of the first three
   * opportunities.
   */
  function ActionPlan(gaps: seq<Gap>, opportunities: seq<string>): (r: seq<Action>)
    ensures |r| == Count(gaps, Pressing) + (if |opportunities| < 3 then |opportunities| else 3)
    ensures forall i :: 0 <= i < Count(gaps, Pressing) ==> r[i] == GapActions(gaps)[i]
    ensures forall i :: Count(gaps, Pressing) <= i < |r| ==>
      r[i] == OpportunityAction(opportunities[i - Count(gaps, Pressing)])
  {
    var first := TakeFirst(opportunities, 3);
    var own := GapActions(gaps);
    own + seq(|first|, i requires 0 <= i < |first| => OpportunityAction(first[i]))
  }

  /** The gap actions are exactly the pressing gaps' actions: a gap that is neither critical nor urgent adds none. */
  lemma {:induction false} GapActionsArePressing(gaps: seq<Gap>)
    ensures forall a :: a in GapActions(gaps) <==> exists i :: 0 <= i < |gaps| && Pressing(gaps[i]) && a == GapAction(gaps[i])
    decreases |gaps|
  {
    if |gaps| > 0 {
      GapActionsArePressing(gaps[1..]);
      assert forall i :: 1 <= i < |gaps| ==> gaps[i] == gaps[1..][i - 1];
      forall a | exists i :: 0 <= i < |gaps| && Pressing(gaps[i]) && a == GapAction(gaps[i])
        ensures a in GapActions(gaps)
      {
        var i :| 0 <= i < |gaps| && Pressing(gaps[i]) && a == GapAction(gaps[i]);
        if i > 0 {
          assert gaps[1..][i - 1] == gaps[i];
        }
      }
    }
  }

  // -------------------------------------------------------------- translation

  /** The Arabic names of the four priorities. */
  const PriorityNames: seq<(string, string)> := [
    ("low", "منخفضة"), ("medium", "متوسطة"), ("high", "عالية"), ("critical", "حرجة")]

  function NameOf(table: seq<(string, string)>, key: string): (r: Option<string>)
    ensures r.Some? <==> exists i :: 0 <= i < |table| && table[i].0 == key
    ensures r.Some? ==> exists i :: 0 <= i < |table| && table[i] == (key, r.value)
    decreases |table|
  {
    if |table| == 0 then None
    else if table[0].0 == key then Some(table[0].1)
    else
      var r := NameOf(table[1..], key);
      assert forall i :: 1 <= i < |table| ==> table[i] == table[1..][i - 1];
      if r.Some? then
        var i :| 0 <= i < |table[1..]| && table[1..][i] == (key, r.value);
        assert table[i + 1] == (key, r.value);
        r
      else r
  }

  /** translatePriority: a known priority becomes its Arabic name; anything else is returned unchanged. */
  function TranslatePriority(priority: string): (r: string)
    ensures (exists i :: 0 <= i < |PriorityNames| && PriorityNames[i].0 == priority) ==>
      exists i :: 0 <= i < |PriorityNames| && PriorityNames[i] == (priority, r)
    ensures (forall i :: 0 <= i < |PriorityNames| ==> PriorityNames[i].0 != priority) ==> r == priority
  {
    match NameOf(PriorityNames, priority)
    case Some(name) => if name != "" then name else priority
    case None => priority
  }

  /** An Arabic name is no priority key, so translating twice is translating once. */
  lemma TranslateIdempotent(priority: string)
    ensures TranslatePriority(TranslatePriority(priority)) == TranslatePriority(priority)
  {
    var r := TranslatePriority(priority);
    if r != priority {
      var i :| 0 <= i < |PriorityNames| && PriorityNames[i] == (priority, r);
      assert r[0] != 'l' && r[0] != 'm' && r[0] != 'h' && r[0] != 'c' by {
        assert r == PriorityNames[i].1;
      }
      forall j | 0 <= j < |PriorityNames| ensures PriorityNames[j].0 != r {
        assert PriorityNames[j].0[0] in "lmhc";
      }
    }
  }
}

=== FILE: competitors.dfy ===
/**
 * The competitor database's pure logic: validating and creating competitor
 * records, the recent-projects list and the metrics recomputed from it,
 * the competitive strength score, threat and market-position bands, the
 * Herfindahl-Hirschman concentration index and the per-metric rankings.
 */
module Competitors {
  import opened Wrappers
  import opened Text
  import opened Numbers
  import opened Lists

  // ------------------------------------------------------------ validation

  /** The fields of a create or update request; every one may be missing. */
  datatype CompetitorData = CompetitorData(
    name: Option<string>,
    headquarters: Option<string>,
    website: Option<string>,
    specializations: Option<seq<string>>,
    marketSegments: Option<seq<string>>,
    marketShare: Option<real>,
    winRate: Option<real>,
    strengths: Option<seq<string>>,
    weaknesses: Option<seq<string>>)

  datatype CompetitorError = MissingName | MissingHeadquarters | MarketShareOutOfRange | WinRateOutOfRange

  datatype CompetitorWarning = NoWebsite | NoSpecializations | NoMarketSegments

  datatype Validation = Validation(isValid: bool, errors: seq<CompetitorError>, warnings: seq<CompetitorWarning>)

  /**
   * `!s || s.trim().length === 0`: absent, or white space only (a string
   * trims to nothing exactly when it is all white space, Text.BlankIffAllSpace).
   */
  predicate Missing(s: Option<string>) {
    s.None? || forall i :: 0 <= i < |s.value| ==> IsSpace(s.value[i])
  }

  lemma MissingIffBlank(s: Option<string>)
    ensures Missing(s) <==> s.None? || IsBlank(s.value)
  {
    if s.Some? {
      BlankIffAllSpace(s.value);
    }
  }

  /** An absent percentage is fine; a present one must lie in [0, 100]. */
  predicate PercentOk(x: Option<real>) {
    x.None? || 0.0 <= x.value <= 100.0
  }

  predicate Empty(s: Option<seq<string>>) {
    s.None? || |s.value| == 0
  }

  /** Whether the data fails the check behind an error. */
  predicate Fails(data: CompetitorData, e: CompetitorError) {
    match e
    case MissingName => Missing(data.name)
    case MissingHeadquarters => Missing(data.headquarters)
    case MarketShareOutOfRange => !PercentOk(data.marketShare)
    case WinRateOutOfRange => !PercentOk(data.winRate)
  }

  /** Whether the data lacks what a warning is about. */
  predicate Lacks(data: CompetitorData, w: CompetitorWarning) {
    match w
    case NoWebsite => data.website.None? || data.website.value == ""
    case NoSpecializations => Empty(data.specializations)
    case NoMarketSegments => Empty(data.marketSegments)
  }

  /** `[x]` when `b` holds, else nothing: one conditional `push`. */
  function When<T(!new)>(b: bool, x: T): (r: seq<T>)
    ensures forall y :: y in r <==> b && y == x
  {
    if b then [x] else []
  }

  /** The errors validateCompetitorData collects, in the order it checks them. */
  function Errors(data: CompetitorData): (r: seq<CompetitorError>)
    ensures forall e :: e in r <==> Fails(data, e)
  {
    When(Missing(data.name), MissingName) + When(Missing(data.headquarters), MissingHeadquarters)
    + When(!PercentOk(data.marketShare), MarketShareOutOfRange) + When(!PercentOk(data.winRate), WinRateOutOfRange)
  }

  /** The warnings validateCompetitorData collects. */
  function Warnings(data: CompetitorData): (r: seq<CompetitorWarning>)
    ensures forall w :: w in r <==> Lacks(data, w)
  {
    When(Lacks(data, NoWebsite), NoWebsite) + When(Lacks(data, NoSpecializations), NoSpecializations)
    + When(Lacks(data, NoMarketSegments), NoMarketSegments)
  }

  /**
   * validateCompetitorData: errors for a blank name or headquarters and
   * for a market share or win rate outside [0, 100]; warnings for a
   * missing website, specialisations or market segments. Only errors
   * make the data invalid.
   */
  function Validate(data: CompetitorData): (r: Validation)
    ensures r.isValid <==> !Missing(data.name) && !Missing(data.headquarters)
                           && PercentOk(data.marketShare) && PercentOk(data.winRate)
    ensures forall e :: e in r.errors <==> Fails(data, e)
    ensures forall w :: w in r.warnings <==> Lacks(data, w)
  {
    var errors := Errors(data);
    assert |errors| > 0 ==> errors[0] in errors;
    assert Fails(data, MissingName) ==> MissingName in errors;
    assert Fails(data, MissingHeadquarters) ==> MissingHeadquarters in errors;
    assert Fails(data, MarketShareOutOfRange) ==> MarketShareOutOfRange in errors;
    assert Fails(data, WinRateOutOfRange) ==> WinRateOutOfRange in errors;
    Validation(|errors| == 0, errors, Warnings(data))
  }

  /** Warnings never decide validity: the website, specialisations and segments play no part in it. */
  lemma WarningsDoNotAffectValidity(data: CompetitorData, website: Option<string>,
                                    specializations: Option<seq<string>>, segments: Option<seq<string>>)
    ensures Validate(data.(website := website, specializations := specializations, marketSegments := segments)).isValid
         == Validate(data).isValid
  {
  }

  // --------------------------------------------------------------- records

  datatype CompetitorStatus = Active | Inactive

  /** A project's status; the two the metrics look at, and every other one by name. */
  datatype ProjectStatus = Awarded | Completed | OtherStatus(name: string)

  /** A project a competitor bid on. */
  datatype Project = Project(id: string, status: ProjectStatus, bidValue: real)

  datatype Competitor = Competitor(
    id: string,
    name: string,
    headquarters: string,
    status: CompetitorStatus,
    marketShare: real,
    winRate: real,
    averageBidValue: real,
    projectsCompleted: Option<real>,
    recentProjects: seq<Project>,
    specializations: seq<string>,
    marketSegments: seq<string>,
    strengths: seq<string>,
    weaknesses: seq<string>)

  /**
   * createCompetitor: invalid data is refused with the validation errors;
   * otherwise the record starts active, with no win rate, bid value or
   * recent projects, a market share of 0 unless one is given, and empty
   * lists for the lists not given. The id generator is a parameter.
   */
  function Create(data: CompetitorData, id: string): (r: Result<Competitor, seq<CompetitorError>>)
    ensures r.Failure? <==> !Validate(data).isValid
    ensures r.Failure? ==> r.error == Validate(data).errors && |r.error| > 0
    ensures r.Success? ==> var c := r.value;
      c.id == id && Some(c.name) == data.name && Some(c.headquarters) == data.headquarters
      && c.status == Active && c.winRate == 0.0 && c.averageBidValue == 0.0 && c.recentProjects == []
      && c.marketShare == data.marketShare.GetOr(0.0) && 0.0 <= c.marketShare <= 100.0
      && c.specializations == data.specializations.GetOr([])
      && c.strengths == data.strengths.GetOr([]) && c.weaknesses == data.weaknesses.GetOr([])
  {
    var v := Validate(data);
    if !v.isValid then Failure(v.errors)
    else
      Success(Competitor(id, data.name.value, data.headquarters.value, Active,
        data.marketShare.GetOr(0.0), 0.0, 0.0, None, [],
        data.specializations.GetOr([]), data.marketSegments.GetOr([]),
        data.strengths.GetOr([]), data.weaknesses.GetOr([])))
  }

  // ------------------------------------------------------- recent projects

  const MaxRecentProjects: nat := 10

  /** addCompetitorProject's list update: the new project goes first and only the ten newest stay. */
  function AddRecentProject(recent: seq<Project>, p: Project): (r: seq<Project>)
    ensures |r| == if |recent| < MaxRecentProjects then |recent| + 1 else MaxRecentProjects
    ensures r[0] == p
    ensures forall i :: 1 <= i < |r| ==> r[i] == recent[i - 1]
  {
    TakeFirst([p] + recent, MaxRecentProjects)
  }

  /** Adding two projects in turn leaves the later one first and the earlier one second. */
  lemma NewestFirst(recent: seq<Project>, p: Project, q: Project)
    ensures var r := AddRecentProject(AddRecentProject(recent, p), q); r[0] == q && r[1] == p
  {
  }

  /** However many projects are added, the list never holds more than ten. */
  lemma {:induction false} RecentProjectsCapped(recent: seq<Project>, ps: seq<Project>)
    requires |recent| <= MaxRecentProjects
    ensures |AddAll(recent, ps)| <= MaxRecentProjects
    decreases |ps|
  {
    if |ps| > 0 {
      RecentProjectsCapped(AddRecentProject(recent, ps[0]), ps[1..]);
    }
  }

  function AddAll(recent: seq<Project>, ps: seq<Project>): seq<Project>
    decreases |ps|
  {
    if |ps| == 0 then recent else AddAll(AddRecentProject(recent, ps[0]), ps[1..])
  }

  /** The metrics recalculateCompetitorMetrics derives from the recent projects. */
  datatype Metrics = Metrics(winRate: real, averageBidValue: real, projectsCompleted: nat)

  predicate IsWon(p: Project) {
    p.status == Awarded || p.status == Completed
  }

  /** The finished projects, filtered as the code does: on 'completed' or 'awarded'. */
  predicate IsFinished(p: Project) {
    p.status == Completed || p.status == Awarded
  }

  predicate HasBid(p: Project) {
    p.bidValue > 0.0
  }

  function Bids(ps: seq<Project>): seq<real> {
    seq(|ps|, i requires 0 <= i < |ps| => ps[i].bidValue)
  }

  /** The win rate as recalculateCompetitorMetrics computes it: won over finished projects, in percent. */
  function WinRateOf(projects: seq<Project>): real {
    var finished := Filter(projects, IsFinished);
    var won := Filter(projects, IsWon);
    if |finished| > 0 then |won| as real / |finished| as real * 100.0 else 0.0
  }

  /** The mean of the positive bid values, 0 without any. */
  function AverageBid(projects: seq<Project>): (r: real)
    ensures r >= 0.0
    ensures r > 0.0 <==> exists i :: 0 <= i < |projects| && HasBid(projects[i])
  {
    var withBids := Filter(projects, HasBid);
    assert |withBids| > 0 <==> exists i :: 0 <= i < |projects| && HasBid(projects[i]) by {
      if |withBids| > 0 {
        assert withBids[0] in projects;
      }
    }
    if |withBids| > 0 then
      BidsPositive(withBids);
      Sum(Bids(withBids)) / |withBids| as real
    else 0.0
  }

  /**
   * recalculateCompetitorMetrics: the share of finished projects that were
   * won, the mean of the positive bid values, and the number of won projects.
   */
  function Recalculate(projects: seq<Project>): (m: Metrics)
    ensures m.projectsCompleted == Count(projects, IsWon)
    ensures m.winRate == WinRateOf(projects) && m.averageBidValue == AverageBid(projects)
  {
    CountFilter(projects, IsWon);
    Metrics(WinRateOf(projects), AverageBid(projects), |Filter(projects, IsWon)|)
  }

  /** Positive bids have a positive sum. */
  lemma BidsPositive(ps: seq<Project>)
    requires |ps| > 0 && forall p :: p in ps ==> HasBid(p)
    ensures Sum(Bids(ps)) > 0.0
  {
    var b := Bids(ps);
    assert b[..|b| - 1] == Bids(ps[..|ps| - 1]);
    assert ps[|ps| - 1] in ps;
    assert forall i :: 0 <= i < |b| - 1 ==> ps[i] in ps;
    SumNonNegative(b[..|b| - 1]);
  }

  /**
   * Because the finished and the won projects are filtered on the same two
   * statuses, the recomputed win rate is always 0 or 100: 100 exactly
   * when some recent project was awarded or completed.
   */
  lemma WinRateAllOrNothing(projects: seq<Project>)
    ensures WinRateOf(projects) == 0.0 || WinRateOf(projects) == 100.0
    ensures WinRateOf(projects) == 100.0 <==> exists i :: 0 <= i < |projects| && IsWon(projects[i])
  {
    var won := Filter(projects, IsWon);
    SameFilter(projects, IsFinished, IsWon);
    if |won| > 0 {
      WholePercent(|won|);
      assert won[0] in projects;
    } else {
      assert forall i :: 0 <= i < |projects| ==> projects[i] !in won;
    }
  }

  /** A project the competitor lost: an outcome the two filters above never look at. */
  predicate IsLost(p: Project) {
    p.status == OtherStatus("lost")
  }

  /** A project whose outcome is known, won or lost. */
  predicate IsDecided(p: Project) {
    IsWon(p) || IsLost(p)
  }

  /**
   * The win rate with the denominator its name asks for: won projects over
   * decided ones, in percent, so that a lost project lowers it.
   */
  function DecidedWinRate(projects: seq<Project>): (r: real)
    ensures 0.0 <= r <= 100.0
    ensures r == 100.0 <==> (exists i :: 0 <= i < |projects| && IsWon(projects[i]))
                            && forall i :: 0 <= i < |projects| ==> !IsLost(projects[i])
    ensures (forall i :: 0 <= i < |projects| ==> !IsDecided(projects[i])) ==> r == 0.0
  {
    var won := Count(projects, IsWon);
    var decided := Count(projects, IsDecided);
    CountDisjoint(projects, IsWon, IsLost, IsDecided);
    if decided > 0 then
      WinShare(won, Count(projects, IsLost));
      won as real / decided as real * 100.0
    else 0.0
  }

  /** The share of wins among wins and losses, in percent, is in [0, 100] and is 100 exactly without losses. */
  lemma WinShare(won: nat, lost: nat)
    requires won + lost > 0
    ensures 0.0 <= won as real / (won + lost) as real * 100.0 <= 100.0
    ensures won as real / (won + lost) as real * 100.0 == 100.0 <==> lost == 0
  {
    var d := (won + lost) as real;
    QuotientBounds(won as real, d, 1.0);
    if won as real / d * 100.0 == 100.0 {
      assert won as real / d == 1.0;
      assert won as real == d;
    }
  }

  /** One won and one lost project: as written the rate is 100, over decided projects it is 50. */
  lemma LostProjectIgnored()
    ensures WinRateOf([Project("a", Awarded, 0.0), Project("b", OtherStatus("lost"), 0.0)]) == 100.0
    ensures DecidedWinRate([Project("a", Awarded, 0.0), Project("b", OtherStatus("lost"), 0.0)]) == 50.0
  {
    var ps := [Project("a", Awarded, 0.0), Project("b", OtherStatus("lost"), 0.0)];
    assert ps[1..][1..] == [];
    assert Filter(ps, IsFinished) == [ps[0]];
    assert Filter(ps, IsWon) == [ps[0]];
    assert Count(ps, IsWon) == 1;
    assert Count(ps, IsDecided) == 2;
  }

  lemma WholePercent(n: nat)
    requires n > 0
    ensures n as real / n as real * 100.0 == 100.0
  {
  }

  lemma {:induction false} SameFilter<T(!new)>(s: seq<T>, p: T -> bool, q: T -> bool)
    requires forall x :: p(x) == q(x)
    ensures Filter(s, p) == Filter(s, q)
  {
    if |s| > 0 {
      SameFilter(s[1..], p, q);
    }
  }

  // --------------------------------------------------------------- strength

  /** strengths / (strengths + weaknesses), 0 without strengths. */
  function Balance(strengths: nat, weaknesses: nat): (r: real)
    ensures 0.0 <= r <= 1.0
    ensures strengths > 0 && weaknesses == 0 ==> r == 1.0
  {
    if strengths > 0 then
      QuotientBounds(strengths as real, (strengths + weaknesses) as real, 1.0);
      strengths as real / (strengths + weaknesses) as real
    else 0.0
  }

  /** The unrounded strength: 40% market share, 30% win rate, 20% experience and 10% balance. */
  function RawStrength(c: Competitor): real {
    c.marketShare / 100.0 * 40.0 + c.winRate / 100.0 * 30.0
    + Min(c.projectsCompleted.GetOr(0.0) / 100.0, 1.0) * 20.0
    + Balance(|c.strengths|, |c.weaknesses|) * 10.0
  }

  /** calculateCompetitiveStrength: the weighted strength rounded to a whole number. */
  function Strength(c: Competitor): int {
    Round(RawStrength(c))
  }

  predicate InRange(c: Competitor) {
    0.0 <= c.marketShare <= 100.0 && 0.0 <= c.winRate <= 100.0 && c.projectsCompleted.GetOr(0.0) >= 0.0
  }

  /** For in-range inputs the strength lies in [0, 100]. */
  lemma StrengthBounds(c: Competitor)
    requires InRange(c)
    ensures 0 <= Strength(c) <= 100
  {
    RoundWithin(RawStrength(c), 0, 100);
  }

  /** A larger market share or win rate never lowers the strength. */
  lemma StrengthMonotone(c: Competitor, share: real, winRate: real)
    requires c.marketShare <= share && c.winRate <= winRate
    ensures Strength(c) <= Strength(c.(marketShare := share, winRate := winRate))
  {
    RoundMonotone(RawStrength(c), RawStrength(c.(marketShare := share, winRate := winRate)));
  }

  /** An established competitor: full share, full win rate, 100 projects and only strengths. */
  lemma DominantStrength(c: Competitor)
    requires c.marketShare == 100.0 && c.winRate == 100.0 && c.projectsCompleted == Some(100.0)
    requires |c.strengths| > 0 && |c.weaknesses| == 0
    ensures Strength(c) == 100
  {
    RoundUnique(RawStrength(c), 100);
  }

  datatype ThreatLevel = LowThreat | MediumThreat | HighThreat | CriticalThreat

  function ThreatRank(t: ThreatLevel): nat {
    match t
    case LowThreat => 0
    case MediumThreat => 1
    case HighThreat => 2
    case CriticalThreat => 3
  }

  /** assessThreatLevel on a strength, a market share and a win rate. */
  function Threat(strength: int, share: real, winRate: real): (t: ThreatLevel)
    ensures t == CriticalThreat <==> strength > 80 && share > 20.0
    ensures t == HighThreat <==> !(strength > 80 && share > 20.0) && strength > 60 && share > 10.0
    ensures t == LowThreat <==> strength <= 40 && winRate <= 50.0 && !(strength > 60 && share > 10.0)
  {
    if strength > 80 && share > 20.0 then CriticalThreat
    else if strength > 60 && share > 10.0 then HighThreat
    else if strength > 40 || winRate > 50.0 then MediumThreat
    else LowThreat
  }

  function ThreatOf(c: Competitor): ThreatLevel {
    Threat(Strength(c), c.marketShare, c.winRate)
  }

  /** A stronger competitor with a larger share and win rate is never less of a threat. */
  lemma ThreatMonotone(s1: int, share1: real, win1: real, s2: int, share2: real, win2: real)
    requires s1 <= s2 && share1 <= share2 && win1 <= win2
    ensures ThreatRank(Threat(s1, share1, win1)) <= ThreatRank(Threat(s2, share2, win2))
  {
  }

  // ------------------------------------------------------- market position

  datatype MarketPosition = Leader | Challenger | Follower | Niche

  function PositionRank(p: MarketPosition): nat {
    match p
    case Leader => 0
    case Challenger => 1
    case Follower => 2
    case Niche => 3
  }

  function Share(c: Competitor): real {
    c.marketShare
  }

  predicate HasShare(c: Competitor) {
    c.marketShare > 0.0
  }

  /** The competitors with a positive share, largest share first. */
  function ByShare(all: seq<Competitor>): (r: seq<Competitor>)
    ensures SortedDesc(r, Share)
    ensures forall d :: d in r <==> d in all && HasShare(d)
  {
    var r := SortDesc(Filter(all, HasShare), Share);
    SameMembers(r, Filter(all, HasShare));
    r
  }

  /** Where `c` stands in the share ranking, -1 when it is not in it. */
  function PositionOf(c: Competitor, all: seq<Competitor>): int {
    FindIndex(ByShare(all), (d: Competitor) => d.id == c.id)
  }

  /** The bands: first is the leader, then the first 20% and 80% of the ranking. */
  function Band(position: int, total: nat): (p: MarketPosition)
    ensures p == Leader <==> position == 0
    ensures position > 0 ==> (p == Challenger <==> position as real < total as real * 0.2)
  {
    if position == 0 then Leader
    else if (position as real) < total as real * 0.2 then Challenger
    else if (position as real) < total as real * 0.8 then Follower
    else Niche
  }

  /** calculateMarketPosition as written: a competitor missing from the ranking gets position -1. */
  function MarketPositionAsWritten(c: Competitor, all: seq<Competitor>): (p: MarketPosition)
    ensures (forall d :: d in all && d.id == c.id ==> !HasShare(d)) ==> p == Challenger
  {
    var position := PositionOf(c, all);
    assert (forall d :: d in all && d.id == c.id ==> !HasShare(d)) ==> position < 0 by {
      if position >= 0 {
        assert ByShare(all)[position] in ByShare(all);
      }
    }
    Band(position, |ByShare(all)|)
  }

  /** calculateMarketPosition, with a competitor missing from the share ranking placed as niche. */
  function MarketPositionOf(c: Competitor, all: seq<Competitor>): (p: MarketPosition)
    ensures (forall d :: d in all && d.id == c.id ==> !HasShare(d)) ==> p == Niche
  {
    var position := PositionOf(c, all);
    assert (forall d :: d in all && d.id == c.id ==> !HasShare(d)) ==> position < 0 by {
      if position >= 0 {
        assert ByShare(all)[position] in ByShare(all);
      }
    }
    if position < 0 then Niche else Band(position, |ByShare(all)|)
  }

  /** A competitor without market share is ranked a challenger by the code as written, and niche once corrected. */
  lemma NoShareIsChallenger(c: Competitor)
    requires c.marketShare == 0.0
    ensures MarketPositionAsWritten(c, [c]) == Challenger
    ensures MarketPositionOf(c, [c]) == Niche
  {
    assert Filter([c], HasShare) == [];
  }

  /** For every competitor in the share ranking the correction changes nothing. */
  lemma RankedPositionAgrees(c: Competitor, all: seq<Competitor>)
    requires exists d :: d in all && d.id == c.id && HasShare(d)
    ensures MarketPositionOf(c, all) == MarketPositionAsWritten(c, all)
  {
    var d :| d in all && d.id == c.id && HasShare(d);
    assert d in ByShare(all);
  }

  /** The leader holds the largest positive share. */
  lemma LeaderHasLargestShare(c: Competitor, all: seq<Competitor>)
    requires MarketPositionOf(c, all) == Leader
    ensures exists d :: d in all && d.id == c.id && HasShare(d)
                        && forall e :: e in all && HasShare(e) ==> e.marketShare <= d.marketShare
  {
    var ranked := ByShare(all);
    var d := ranked[0];
    assert d in ranked;
    forall e | e in all && HasShare(e) ensures e.marketShare <= d.marketShare {
      assert e in ranked;
      var k :| 0 <= k < |ranked| && ranked[k] == e;
      if k > 0 {
        assert Share(ranked[0]) >= Share(ranked[k]);
      }
    }
  }

  /** Further down the ranking, the band never improves. */
  lemma BandMonotone(p: int, q: int, total: nat)
    requires 0 <= p <= q
    ensures PositionRank(Band(p, total)) <= PositionRank(Band(q, total))
  {
  }

  // ---------------------------------------------------------- concentration

  function SumSquares(shares: seq<real>): real {
    if |shares| == 0 then 0.0
    else SumSquares(shares[..|shares| - 1]) + shares[|shares| - 1] * shares[|shares| - 1]
  }

  /** calculateMarketConcentration: the Herfindahl-Hirschman index, the rounded sum of squared shares. */
  function Concentration(shares: seq<real>): (hhi: int)
    ensures hhi >= 0
  {
    SumSquaresNonNegative(shares);
    Round(SumSquares(shares))
  }

  /** A sum of squares is never negative, whatever the signs of the shares. */
  lemma {:induction false} SumSquaresNonNegative(shares: seq<real>)
    ensures SumSquares(shares) >= 0.0
  {
    if |shares| > 0 {
      SumSquaresNonNegative(shares[..|shares| - 1]);
    }
  }

  /** The sum of squares of non-negative numbers is at most the square of their sum. */
  lemma {:induction false} SumSquaresBelowSquare(shares: seq<real>)
    requires forall i :: 0 <= i < |shares| ==> shares[i] >= 0.0
    ensures 0.0 <= SumSquares(shares) <= Sum(shares) * Sum(shares)
  {
    if |shares| > 0 {
      var init := shares[..|shares| - 1];
      var x := shares[|shares| - 1];
      SumSquaresBelowSquare(init);
      SumNonNegative(init);
      SquareOfSum(Sum(init), x, SumSquares(init));
    }
  }

  lemma SquareOfSum(a: real, x: real, squares: real)
    requires a >= 0.0 && x >= 0.0 && 0.0 <= squares <= a * a
    ensures 0.0 <= squares + x * x <= (a + x) * (a + x)
  {
    MulNonNegative(a, x);
    MulNonNegative(x, x);
    assert (a + x) * (a + x) == a * a + 2.0 * (a * x) + x * x;
  }

  /** Shares in [0, 100] that add up to at most 100 give an index between 0 and 10000. */
  lemma ConcentrationBounds(shares: seq<real>)
    requires forall i :: 0 <= i < |shares| ==> shares[i] >= 0.0
    requires Sum(shares) <= 100.0
    ensures 0 <= Concentration(shares) <= 10000
  {
    SumSquaresBelowSquare(shares);
    SumNonNegative(shares);
    var s := Sum(shares);
    MulMonotone(s, s, 100.0);
    MulMonotone(100.0, s, 100.0);
    assert s * s <= s * 100.0;
    assert s * 100.0 <= 10000.0;
    RoundWithin(SumSquares(shares), 0, 10000);
  }

  /** A monopoly has the maximal index. */
  lemma MonopolyConcentration()
    ensures Concentration([100.0]) == 10000
  {
    assert [100.0][..0] == [];
    RoundUnique(10000.0, 10000);
  }

  // -------------------------------------------------------------- rankings

  datatype Metric = MarketShareMetric | WinRateMetric | AverageBidMetric

  function MetricValue(c: Competitor, m: Metric): real {
    match m
    case MarketShareMetric => c.marketShare
    case WinRateMetric => c.winRate
    case AverageBidMetric => c.averageBidValue
  }

  /**
   * getPerformanceComparison's metric table: each competitor's value of
   * the metric, sorted into descending order and ranked 1, 2, ...
   */
  function RankMetric(cs: seq<Competitor>, m: Metric): (r: seq<((string, real), nat)>)
    ensures |r| == |cs|
    ensures forall i :: 0 <= i < |r| ==> r[i].1 == i + 1
    ensures forall i, j :: 0 <= i < j < |r| ==> r[i].0.1 >= r[j].0.1
    ensures multiset(Unranked(r)) == multiset(seq(|cs|, i requires 0 <= i < |cs| => (cs[i].id, MetricValue(cs[i], m))))
  {
    Rank(seq(|cs|, i requires 0 <= i < |cs| => (cs[i].id, MetricValue(cs[i], m))), PairValue)
  }
}

=== FILE: dashboard.dfy ===
/**
 * The advanced dashboard's pure mappers: the month-over-month cash-flow
 * trend, the statuses deadlines and invoices show on the timeline and the
 * calendar, and the count of invoices by status.
 */
module Dashboard {
  import opened Wrappers
  import opened Numbers

  // ------------------------------------------------------------------ trend

  datatype Direction = Up | Down

  datatype Trend = Trend(direction: Direction, percentage: int)

  /** A month of the cash-flow series; a month without a net figure reads as 0. */
  datatype Month = Month(net: Option<Num>)

  function NetOf(m: Month): Num {
    m.net.GetOr(Fin(0.0))
  }

  /**
   * The trend of the last two months: none with fewer than two months, a
   * net that is not a finite number, or a previous net of 0; otherwise the
   * direction of the change and the change as a rounded percentage of the
   * previous net's magnitude.
   */
  function TrendFromSeries(series: seq<Month>): (r: Option<Trend>)
    ensures |series| < 2 ==> r.None?
    ensures |series| >= 2 ==>
      var previous := NetOf(series[|series| - 2]);
      var current := NetOf(series[|series| - 1]);
      (r.None? <==> !previous.Fin? || !current.Fin? || previous.v == 0.0) &&
      (r.Some? ==> (r.value.direction == Up <==> current.v >= previous.v))
  {
    if |series| < 2 then None
    else
      var previous := NetOf(series[|series| - 2]);
      var current := NetOf(series[|series| - 1]);
      if !previous.Fin? || !current.Fin? || previous.v == 0.0 then None
      else
        var diff := current.v - previous.v;
        Some(Trend(if diff >= 0.0 then Up else Down, Round(diff / Abs(previous.v) * 100.0)))
  }

  /** Only the last two months count: earlier history never changes the trend. */
  lemma TrendIgnoresHistory(history: seq<Month>, series: seq<Month>)
    requires |series| >= 2
    ensures TrendFromSeries(history + series) == TrendFromSeries(series)
  {
    var s := history + series;
    assert s[|s| - 2] == series[|series| - 2] && s[|s| - 1] == series[|series| - 1];
  }

  /** The percentage's sign agrees with the direction. */
  lemma TrendSignAgrees(series: seq<Month>)
    requires TrendFromSeries(series).Some?
    ensures var t := TrendFromSeries(series).value;
      (t.direction == Up ==> t.percentage >= 0) && (t.direction == Down ==> t.percentage <= 0)
  {
    var previous := NetOf(series[|series| - 2]).v;
    var current := NetOf(series[|series| - 1]).v;
    var diff := current - previous;
    QuotientSign(diff, Abs(previous));
    RoundSign(diff / Abs(previous) * 100.0);
  }

  lemma RoundSign(x: real)
    ensures x >= 0.0 ==> Round(x) >= 0
    ensures x < 0.0 ==> Round(x) <= 0
  {
    RoundUnique(0.0, 0);
    if x >= 0.0 {
      RoundMonotone(0.0, x);
    } else {
      RoundMonotone(x, 0.0);
    }
  }

  lemma QuotientSign(a: real, d: real)
    requires d > 0.0
    ensures a >= 0.0 ==> a / d * 100.0 >= 0.0
    ensures a < 0.0 ==> a / d * 100.0 < 0.0
  {
  }

  /** A month that doubles a positive net shows +100%. */
  lemma DoublingIsHundredPercent(previous: real)
    requires previous > 0.0
    ensures TrendFromSeries([Month(Some(Fin(previous))), Month(Some(Fin(2.0 * previous)))]) == Some(Trend(Up, 100))
  {
    assert (2.0 * previous - previous) / previous == 1.0;
    RoundUnique(100.0, 100);
  }

  // --------------------------------------------------------------- statuses

  datatype TimelineStatus = Completed | InProgress | Upcoming

  datatype CalendarStatus = Critical | Warning | Default | Done

  predicate IsCritical(priority: Option<string>) {
    priority == Some("critical")
  }

  /** A deadline on the timeline: past ones are completed, near or critical ones in progress. */
  function TimelineStatusOf(daysLeft: real, priority: Option<string>): (r: TimelineStatus)
    ensures r == Completed <==> daysLeft <= 0.0
    ensures r == InProgress <==> daysLeft > 0.0 && (IsCritical(priority) || daysLeft <= 3.0)
    ensures r == Upcoming <==> daysLeft > 3.0 && !IsCritical(priority)
  {
    if daysLeft <= 0.0 then Completed
    else if IsCritical(priority) || daysLeft <= 3.0 then InProgress
    else Upcoming
  }

  /** The same deadline on the calendar: past ones critical, near or critical ones a warning. */
  function CalendarStatusOf(daysLeft: real, priority: Option<string>): (r: CalendarStatus)
    ensures r != Done
    ensures r == Critical <==> daysLeft <= 0.0
    ensures r == Warning <==> daysLeft > 0.0 && (IsCritical(priority) || daysLeft <= 3.0)
  {
    if daysLeft <= 0.0 then Critical
    else if IsCritical(priority) || daysLeft <= 3.0 then Warning
    else Default
  }

  function OnCalendar(t: TimelineStatus): CalendarStatus {
    match t
    case Completed => Critical
    case InProgress => Warning
    case Upcoming => Default
  }

  /** The calendar always shows the timeline's status under its own name. */
  lemma CalendarFollowsTimeline(daysLeft: real, priority: Option<string>)
    ensures CalendarStatusOf(daysLeft, priority) == OnCalendar(TimelineStatusOf(daysLeft, priority))
  {
  }

  function Urgency(t: TimelineStatus): nat {
    match t
    case Upcoming => 0
    case InProgress => 1
    case Completed => 2
  }

  /** Fewer days left never makes a deadline look less urgent. */
  lemma TimelineMonotone(d1: real, d2: real, priority: Option<string>)
    requires d1 <= d2
    ensures Urgency(TimelineStatusOf(d1, priority)) >= Urgency(TimelineStatusOf(d2, priority))
  {
  }

  /** An invoice on the calendar: paid is a success, overdue critical, anything else a warning. */
  function InvoiceCalendarStatus(status: string): (r: CalendarStatus)
    ensures r == Done <==> status == "paid"
    ensures r == Critical <==> status == "overdue"
    ensures r == Warning <==> status != "paid" && status != "overdue"
  {
    if status == "paid" then Done
    else if status == "overdue" then Critical
    else Warning
  }

  // ----------------------------------------------------------------- counts

  datatype InvoiceCounts = InvoiceCounts(sent: nat, overdue: nat, paid: nat)

  /** The invoices whose calendar status is `c`. */
  function CountShown(statuses: seq<string>, c: CalendarStatus): (n: nat)
    ensures n <= |statuses|
  {
    if statuses == [] then 0
    else
      CountShown(statuses[..|statuses| - 1], c) +
      (if InvoiceCalendarStatus(statuses[|statuses| - 1]) == c then 1 else 0)
  }

  /**
   * The invoice counts by status: every invoice is counted once, as paid,
   * overdue or otherwise sent, just as the calendar shows it.
   */
  method InvoiceStatusCounts(statuses: seq<string>) returns (counts: InvoiceCounts)
    ensures counts.sent + counts.overdue + counts.paid == |statuses|
    ensures counts.paid == CountShown(statuses, Done)
    ensures counts.overdue == CountShown(statuses, Critical)
    ensures counts.sent == CountShown(statuses, Warning)
  {
    counts := InvoiceCounts(0, 0, 0);
    var i := 0;
    while i < |statuses|
      invariant 0 <= i <= |statuses|
      invariant counts.sent + counts.overdue + counts.paid == i
      invariant counts.paid == CountShown(statuses[..i], Done)
      invariant counts.overdue == CountShown(statuses[..i], Critical)
      invariant counts.sent == CountShown(statuses[..i], Warning)
    {
      assert statuses[..i + 1][..i] == statuses[..i];
      if statuses[i] == "paid" {
        counts := counts.(paid := counts.paid + 1);
      } else if statuses[i] == "overdue" {
        counts := counts.(overdue := counts.overdue + 1);
      } else {
        counts := counts.(sent := counts.sent + 1);
      }
      i := i + 1;
    }
    assert statuses[..i] == statuses;
  }
}

=== FILE: decision_support.dfy ===
/**
 * Bid/no-bid decision support: normalising a criterion's value to a 0-100
 * score, the weighted score of a category, the overall score and the
 * recommendation and risk level drawn from it, framework validation,
 * scenario rankings and the win rate over the decision history.
 */
module DecisionSupport {
  import opened Wrappers
  import opened Numbers
  import opened Js
  import opened Lists

  datatype DataType = BooleanType | NumericType | CategoricalType | TextType

  /** A decision criterion of a framework. */
  datatype Criterion = Criterion(
    id: string,
    category: string,
    weight: real,
    dataType: DataType,
    minValue: Option<real>,
    maxValue: Option<real>,
    possibleValues: Option<seq<JsValue>>)

  // ------------------------------------------------------------ normalising

  /** `Math.max(0, Math.min(100, n))` on a JavaScript number. */
  function Clamp100(n: Num): (r: Num)
    ensures n.NaN? <==> r.NaN?
    ensures r.Fin? || r.NaN?
    ensures r.Fin? ==> 0.0 <= r.v <= 100.0
  {
    match n
    case NaN => NaN
    case Inf(negative) => Fin(if negative then 0.0 else 100.0)
    case Fin(v) => Fin(Clamp(v, 0.0, 100.0))
  }

  /**
   * `(x - lo) / (hi - lo) * 100`, clamped, in IEEE terms: a zero-width range
   * divides by zero, giving an infinity, or NaN when `x` equals `lo`.
   */
  function RangeScoreAsWritten(x: Num, lo: real, hi: real): (r: Num)
    ensures r.NaN? <==> x.NaN? || (x == Fin(lo) && hi == lo)
  {
    match x
    case NaN => NaN
    case Inf(negative) => Clamp100(Inf(negative != (hi < lo)))
    case Fin(v) =>
      if hi != lo then Clamp100(Fin((v - lo) / (hi - lo) * 100.0))
      else if v > lo then Clamp100(Inf(false))
      else if v < lo then Clamp100(Inf(true))
      else NaN
  }

  /** The categorical score as written: index / (n - 1) * 100, which divides 0 by 0 when n is 1. */
  function PositionScoreAsWritten(options: seq<JsValue>, value: JsValue): (r: Num)
    ensures r.NaN? <==> |options| == 1 && IndexOf(options, value) == 0
    ensures r.Fin? || r.NaN?
    ensures r.Fin? ==> 0.0 <= r.v <= 100.0
  {
    var index := IndexOf(options, value);
    if index < 0 then Fin(0.0)
    else if |options| == 1 then NaN
    else
      QuotientBounds(index as real, (|options| - 1) as real, 1.0);
      Fin(index as real / (|options| - 1) as real * 100.0)
  }

  /** normalizeCriteriaValue as written: every score is NaN or a number in [0, 100]. */
  function NormalizeAsWritten(value: JsValue, c: Criterion): (r: Num)
    ensures r.Fin? || r.NaN?
    ensures r.Fin? ==> 0.0 <= r.v <= 100.0
  {
    match c.dataType
    case BooleanType => Fin(if Truthy(value) then 100.0 else 0.0)
    case NumericType =>
      if c.minValue.Some? && c.maxValue.Some? then
        RangeScoreAsWritten(ToNumber(value), c.minValue.value, c.maxValue.value)
      else Clamp100(ToNumber(value))
    case CategoricalType =>
      if c.possibleValues.Some? then PositionScoreAsWritten(c.possibleValues.value, value) else Fin(50.0)
    case TextType => Fin(50.0)
  }

  /** A categorical criterion with one possible value scores NaN for that very value. */
  lemma SingleOptionIsNaN(c: Criterion, s: string)
    requires c.dataType == CategoricalType && c.possibleValues == Some([Str(s)])
    ensures NormalizeAsWritten(Str(s), c).NaN?
    ensures Normalize(Str(s), c) == 100.0
  {
    assert IndexOf([Str(s)], Str(s)) == 0;
  }

  /** A numeric criterion whose minimum equals its maximum scores NaN for exactly that value. */
  lemma ZeroWidthRangeIsNaN(c: Criterion, x: real)
    requires c.dataType == NumericType && c.minValue == Some(x) && c.maxValue == Some(x)
    ensures NormalizeAsWritten(Number(Fin(x)), c).NaN?
    ensures Normalize(Number(Fin(x)), c) == 100.0
  {
  }

  /**
   * The score of a number in a range. A zero-width range scores 100 at or
   * above its bound and 0 below it; a value that is not a number scores 0.
   */
  function RangeScore(x: Num, lo: real, hi: real): (r: real)
    ensures 0.0 <= r <= 100.0
    ensures x.NaN? ==> r == 0.0
    ensures x.Fin? && hi == lo ==> (r == 100.0 <==> x.v >= lo) && (r == 0.0 <==> x.v < lo)
  {
    match x
    case NaN => 0.0
    case Inf(negative) => if negative != (hi < lo) then 0.0 else 100.0
    case Fin(v) =>
      if hi != lo then Clamp((v - lo) / (hi - lo) * 100.0, 0.0, 100.0)
      else if v >= lo then 100.0
      else 0.0
  }

  /** A number clamped into [0, 100]; NaN scores 0. */
  function PercentScore(x: Num): (r: real)
    ensures 0.0 <= r <= 100.0
    ensures x.Fin? && 0.0 <= x.v <= 100.0 ==> r == x.v
  {
    match x
    case Fin(v) => Clamp(v, 0.0, 100.0)
    case Inf(negative) => if negative then 0.0 else 100.0
    case NaN => 0.0
  }

  /**
   * The score of a categorical value by its position among the possible
   * values, from 0 for the first to 100 for the last; a single possible
   * value scores 100, and a value not among them scores 0.
   */
  function PositionScore(options: seq<JsValue>, value: JsValue): (r: real)
    ensures 0.0 <= r <= 100.0
    ensures IndexOf(options, value) < 0 ==> r == 0.0
    ensures |options| > 0 && IndexOf(options, value) == |options| - 1 ==> r == 100.0
  {
    var index := IndexOf(options, value);
    if index < 0 then 0.0
    else if |options| == 1 then 100.0
    else
      var n := (|options| - 1) as real;
      assert 0.0 <= index as real / n <= 1.0 by {
        QuotientBounds(index as real, n, 1.0);
      }
      index as real / n * 100.0
  }

  /**
   * normalizeCriteriaValue, corrected so that every value gets a score in
   * [0, 100]: booleans 100/0, numbers placed in their range and clamped,
   * a categorical value by its position among the possible values, and 50
   * for text or for categories without a list.
   */
  function Normalize(value: JsValue, c: Criterion): (r: real)
    ensures 0.0 <= r <= 100.0
    ensures c.dataType == BooleanType ==> (r == 100.0 <==> Truthy(value)) && (r == 0.0 <==> !Truthy(value))
    ensures c.dataType == TextType ==> r == 50.0
  {
    match c.dataType
    case BooleanType => if Truthy(value) then 100.0 else 0.0
    case NumericType =>
      if c.minValue.Some? && c.maxValue.Some? then
        RangeScore(ToNumber(value), c.minValue.value, c.maxValue.value)
      else PercentScore(ToNumber(value))
    case CategoricalType =>
      if c.possibleValues.Some? then PositionScore(c.possibleValues.value, value) else 50.0
    case TextType => 50.0
  }

  /** Wherever the code as written yields a number, the corrected score is that number. */
  lemma NormalizeAgrees(value: JsValue, c: Criterion)
    ensures NormalizeAsWritten(value, c).NaN? || NormalizeAsWritten(value, c) == Fin(Normalize(value, c))
  {
    match c.dataType
    case NumericType =>
      if c.minValue.Some? && c.maxValue.Some? {
        RangeAgrees(ToNumber(value), c.minValue.value, c.maxValue.value);
      } else {
        PercentAgrees(ToNumber(value));
      }
    case CategoricalType =>
      if c.possibleValues.Some? {
        PositionAgrees(c.possibleValues.value, value);
      }
    case _ =>
  }

  lemma RangeAgrees(x: Num, lo: real, hi: real)
    ensures RangeScoreAsWritten(x, lo, hi).NaN? || RangeScoreAsWritten(x, lo, hi) == Fin(RangeScore(x, lo, hi))
  {
  }

  lemma PercentAgrees(x: Num)
    ensures Clamp100(x).NaN? || Clamp100(x) == Fin(PercentScore(x))
  {
  }

  lemma PositionAgrees(options: seq<JsValue>, value: JsValue)
    ensures PositionScoreAsWritten(options, value).NaN? ||
      PositionScoreAsWritten(options, value) == Fin(PositionScore(options, value))
  {
  }

  /** Within a proper range, a larger number never scores lower. */
  lemma RangeScoreMonotone(a: real, b: real, lo: real, hi: real)
    requires a <= b && lo < hi
    ensures RangeScore(Fin(a), lo, hi) <= RangeScore(Fin(b), lo, hi)
  {
    var d := hi - lo;
    assert (a - lo) / d <= (b - lo) / d;
  }

  /** Among distinct texts, a later possible value scores strictly higher. */
  lemma PositionOrder(o: seq<JsValue>, i: nat, j: nat)
    requires i < j < |o| && (forall k :: 0 <= k < |o| ==> o[k].Str?)
    requires forall k, l :: 0 <= k < l < |o| ==> o[k] != o[l]
    ensures PositionScore(o, o[i]) < PositionScore(o, o[j])
  {
    IndexOfDistinct(o, i);
    IndexOfDistinct(o, j);
    QuotientStrictMonotone(i as real, j as real, (|o| - 1) as real);
  }

  /** In a list of distinct texts, indexOf finds each element at its own position. */
  lemma IndexOfDistinct(o: seq<JsValue>, i: nat)
    requires i < |o| && (forall k :: 0 <= k < |o| ==> o[k].Str?)
    requires forall k, l :: 0 <= k < l < |o| ==> o[k] != o[l]
    ensures IndexOf(o, o[i]) == i
  {
    assert StrictEquals(o[i], o[i]);
  }

  // -------------------------------------------------------- category score

  /** The value a scenario gives a criterion, `undefined` when it has none. */
  function ValueOf(values: map<string, JsValue>, id: string): JsValue {
    if id in values then values[id] else Undefined
  }

  /**
   * The (score, weight) pairs of the criteria the scenario gives a value,
   * in order; criteria whose value is undefined or null are skipped.
   */
  function Scored(cs: seq<Criterion>, values: map<string, JsValue>): (r: seq<(real, real)>)
    ensures |r| <= |cs|
    ensures forall i :: 0 <= i < |r| ==> 0.0 <= r[i].0 <= 100.0
    ensures WeightsNonNegative(cs) ==> forall i :: 0 <= i < |r| ==> r[i].1 >= 0.0
    ensures (forall i :: 0 <= i < |cs| ==> IsNullish(ValueOf(values, cs[i].id))) ==> r == []
  {
    if |cs| == 0 then []
    else
      var rest := Scored(cs[1..], values);
      assert WeightsNonNegative(cs) ==> WeightsNonNegative(cs[1..]);
      var v := ValueOf(values, cs[0].id);
      if IsNullish(v) then rest else [(Normalize(v, cs[0]), cs[0].weight)] + rest
  }

  /** The weighted sum of the scores and the sum of the weights. */
  function Accumulate(pairs: seq<(real, real)>): (real, real) {
    if |pairs| == 0 then (0.0, 0.0)
    else
      var rest := Accumulate(pairs[1..]);
      (rest.0 + pairs[0].0 * pairs[0].1, rest.1 + pairs[0].1)
  }

  predicate WeightsNonNegative(cs: seq<Criterion>) {
    forall i :: 0 <= i < |cs| ==> cs[i].weight >= 0.0
  }

  /** With scores in [0, 100] and non-negative weights, the weighted sum lies between 0 and 100 times the total weight. */
  lemma {:induction false} AccumulateBounds(pairs: seq<(real, real)>)
    requires forall i :: 0 <= i < |pairs| ==> 0.0 <= pairs[i].0 <= 100.0 && pairs[i].1 >= 0.0
    ensures var r := Accumulate(pairs); 0.0 <= r.0 <= 100.0 * r.1 && r.1 >= 0.0
  {
    if |pairs| > 0 {
      AccumulateBounds(pairs[1..]);
      var rest := Accumulate(pairs[1..]);
      AddWeighted(rest.0, rest.1, pairs[0].0, pairs[0].1);
    }
  }

  /** Adding a score in [0, 100] with a non-negative weight keeps a weighted sum within 100 times its weight. */
  lemma AddWeighted(total: real, weight: real, score: real, w: real)
    requires 0.0 <= total <= 100.0 * weight && 0.0 <= score <= 100.0 && w >= 0.0
    ensures 0.0 <= total + score * w <= 100.0 * (weight + w)
  {
    ScoreTimesWeight(score, w);
  }

  lemma ScoreTimesWeight(score: real, w: real)
    requires 0.0 <= score <= 100.0
    ensures w >= 0.0 ==> 0.0 <= score * w <= 100.0 * w
  {
    if w >= 0.0 {
      MulNonNegative(w, score);
      MulMonotone(w, score, 100.0);
    }
  }

  predicate InCategory(c: Criterion, category: string) {
    c.category == category
  }

  /**
   * calculateCategoryScore: the weight-averaged score of the category's
   * criteria that have a value; 0 without criteria or without weight.
   */
  function CategoryScore(criteria: seq<Criterion>, values: map<string, JsValue>, category: string): (r: real)
    ensures WeightsNonNegative(criteria) ==> 0.0 <= r <= 100.0
  {
    var cs := Filter(criteria, c => InCategory(c, category));
    if |cs| == 0 then 0.0
    else
      var sums := Accumulate(Scored(cs, values));
      if sums.1 > 0.0 then
        assert WeightsNonNegative(criteria) ==> 0.0 <= sums.0 / sums.1 <= 100.0 by {
          if WeightsNonNegative(criteria) {
            assert forall i :: 0 <= i < |cs| ==> cs[i] in criteria;
            AccumulateBounds(Scored(cs, values));
            QuotientBounds(sums.0, sums.1, 100.0);
          }
        }
        sums.0 / sums.1
      else 0.0
  }

  /** A category without criteria, or whose criteria the scenario gives no value, scores 0. */
  lemma UnscoredCategoryIsZero(criteria: seq<Criterion>, values: map<string, JsValue>, category: string)
    requires forall i :: 0 <= i < |criteria| ==> criteria[i].category != category || IsNullish(ValueOf(values, criteria[i].id))
    ensures CategoryScore(criteria, values, category) == 0.0
  {
    var cs := Filter(criteria, c => InCategory(c, category));
    assert forall i :: 0 <= i < |cs| ==> cs[i] in criteria;
  }

  /** A criterion the scenario gives no value to changes no category score. */
  lemma UnvaluedCriterionIgnored(c: Criterion, criteria: seq<Criterion>, values: map<string, JsValue>, category: string)
    requires c.id !in values
    ensures CategoryScore([c] + criteria, values, category) == CategoryScore(criteria, values, category)
  {
    var p := (x: Criterion) => InCategory(x, category);
    assert ([c] + criteria)[1..] == criteria;
    if InCategory(c, category) {
      var cs := Filter(criteria, p);
      assert Filter([c] + criteria, p) == [c] + cs;
      assert ([c] + cs)[1..] == cs;
      assert Scored([c] + cs, values) == Scored(cs, values);
    }
  }

  // ---------------------------------------------- category score as written

  /** The (score, weight) pairs as written: the scores come from normalizeCriteriaValue as written and may be NaN. */
  function ScoredAsWritten(cs: seq<Criterion>, values: map<string, JsValue>): (r: seq<(Num, real)>)
    ensures |r| <= |cs|
    ensures forall i :: 0 <= i < |r| ==> r[i].0.Fin? || r[i].0.NaN?
  {
    if |cs| == 0 then []
    else
      var rest := ScoredAsWritten(cs[1..], values);
      var v := ValueOf(values, cs[0].id);
      NormalizeAgrees(v, cs[0]);
      if IsNullish(v) then rest else [(NormalizeAsWritten(v, cs[0]), cs[0].weight)] + rest
  }

  /**
   * `totalScore += normalizedScore * weight` on JavaScript numbers, for a
   * score that is finite or NaN: NaN times any weight, zero included, is
   * NaN, and NaN plus anything is NaN.
   */
  function AddScore(total: Num, score: Num, weight: real): (r: Num)
    requires score.Fin? || score.NaN?
    ensures r.NaN? <==> total.NaN? || score.NaN?
    ensures total.Fin? && score.Fin? ==> r == Fin(total.v + score.v * weight)
  {
    match (total, score)
    case (Fin(t), Fin(s)) => Fin(t + s * weight)
    case (Inf(neg), Fin(s)) => Inf(neg)
    case _ => NaN
  }

  /** The weighted sum as written, a JavaScript number, and the sum of the weights. */
  function AccumulateAsWritten(pairs: seq<(Num, real)>): (r: (Num, real))
    requires forall i :: 0 <= i < |pairs| ==> pairs[i].0.Fin? || pairs[i].0.NaN?
  {
    if |pairs| == 0 then (Fin(0.0), 0.0)
    else
      var rest := AccumulateAsWritten(pairs[1..]);
      (AddScore(rest.0, pairs[0].0, pairs[0].1), rest.1 + pairs[0].1)
  }

  /** Where every normalised score as written is a number, the pairs are the corrected ones; otherwise only the scores differ. */
  lemma {:induction false} ScoredAgrees(cs: seq<Criterion>, values: map<string, JsValue>)
    ensures var a := ScoredAsWritten(cs, values); var c := Scored(cs, values);
      && |a| == |c|
      && forall i :: 0 <= i < |a| ==> a[i].1 == c[i].1 && (a[i].0.NaN? || a[i].0 == Fin(c[i].0))
  {
    if |cs| > 0 {
      ScoredAgrees(cs[1..], values);
      var v := ValueOf(values, cs[0].id);
      NormalizeAgrees(v, cs[0]);
      if !IsNullish(v) {
        var a := ScoredAsWritten(cs, values);
        var c := Scored(cs, values);
        assert a == [(NormalizeAsWritten(v, cs[0]), cs[0].weight)] + ScoredAsWritten(cs[1..], values);
        assert c == [(Normalize(v, cs[0]), cs[0].weight)] + Scored(cs[1..], values);
        assert forall i :: 1 <= i < |a| ==> a[i] == ScoredAsWritten(cs[1..], values)[i - 1] && c[i] == Scored(cs[1..], values)[i - 1];
      }
    }
  }

  /** The weighted sum as written is NaN exactly when one of its scores is, and is otherwise the corrected sum; the weights agree. */
  lemma {:induction false} AccumulateAgrees(a: seq<(Num, real)>, c: seq<(real, real)>)
    requires |a| == |c|
    requires forall i :: 0 <= i < |a| ==> a[i].1 == c[i].1 && (a[i].0.NaN? || a[i].0 == Fin(c[i].0))
    ensures AccumulateAsWritten(a).1 == Accumulate(c).1
    ensures AccumulateAsWritten(a).0.NaN? <==> exists i :: 0 <= i < |a| && a[i].0.NaN?
    ensures !AccumulateAsWritten(a).0.NaN? ==> AccumulateAsWritten(a).0 == Fin(Accumulate(c).0)
  {
    if |a| > 0 {
      AccumulateAgrees(a[1..], c[1..]);
      assert (exists i :: 0 <= i < |a| && a[i].0.NaN?) <==> a[0].0.NaN? || exists i :: 0 <= i < |a[1..]| && a[1..][i].0.NaN? by {
        if exists i :: 0 <= i < |a| && a[i].0.NaN? {
          var i :| 0 <= i < |a| && a[i].0.NaN?;
          if i > 0 { assert a[1..][i - 1] == a[i]; }
        }
      }
    }
  }

  /**
   * calculateCategoryScore as written: the sums are JavaScript numbers, so a
   * single NaN score among the valued criteria makes the category NaN
   * whenever the weights add up to more than 0.
   */
  function CategoryScoreAsWritten(criteria: seq<Criterion>, values: map<string, JsValue>, category: string): (r: Num)
    ensures r.Fin? || r.NaN?
  {
    var cs := Filter(criteria, c => InCategory(c, category));
    if |cs| == 0 then Fin(0.0)
    else
      var sums := AccumulateAsWritten(ScoredAsWritten(cs, values));
      if sums.1 > 0.0 then
        (if sums.0.Fin? then Fin(sums.0.v / sums.1) else NaN)
      else Fin(0.0)
  }

  /** The scenario values the criterion, and the value normalises to NaN as written. */
  predicate NaNValued(c: Criterion, values: map<string, JsValue>) {
    !IsNullish(ValueOf(values, c.id)) && NormalizeAsWritten(ValueOf(values, c.id), c).NaN?
  }

  /** A criterion of the category that the scenario values and that normalises to NaN as written. */
  predicate NaNScored(criteria: seq<Criterion>, values: map<string, JsValue>, category: string) {
    exists i :: 0 <= i < |criteria| && InCategory(criteria[i], category) && NaNValued(criteria[i], values)
  }

  predicate WeightsPositive(cs: seq<Criterion>) {
    forall i :: 0 <= i < |cs| ==> cs[i].weight > 0.0
  }

  /** Wherever a category as written is a number, it is the corrected score. */
  lemma CategoryScoreAgrees(criteria: seq<Criterion>, values: map<string, JsValue>, category: string)
    ensures var r := CategoryScoreAsWritten(criteria, values, category);
      r.NaN? || r == Fin(CategoryScore(criteria, values, category))
  {
    var cs := Filter(criteria, c => InCategory(c, category));
    ScoredAgrees(cs, values);
    AccumulateAgrees(ScoredAsWritten(cs, values), Scored(cs, values));
  }

  /** A category as written is NaN only because of a valued criterion that normalises to NaN. */
  lemma CategoryNaNHasCause(criteria: seq<Criterion>, values: map<string, JsValue>, category: string)
    ensures CategoryScoreAsWritten(criteria, values, category).NaN? ==> NaNScored(criteria, values, category)
  {
    var cs := Filter(criteria, c => InCategory(c, category));
    var a := ScoredAsWritten(cs, values);
    if CategoryScoreAsWritten(criteria, values, category).NaN? {
      ScoredAgrees(cs, values);
      AccumulateAgrees(a, Scored(cs, values));
      var i :| 0 <= i < |a| && a[i].0.NaN?;
      NaNPairFrom(cs, values, i);
      var k :| 0 <= k < |cs| && NaNValued(cs[k], values);
      assert cs[k] in criteria;
    }
  }

  /** With positive weights, one valued criterion of the category that normalises to NaN makes the category NaN as written. */
  lemma CategoryNaNWithPositiveWeights(criteria: seq<Criterion>, values: map<string, JsValue>, category: string)
    requires WeightsPositive(criteria) && NaNScored(criteria, values, category)
    ensures CategoryScoreAsWritten(criteria, values, category).NaN?
  {
    var cs := Filter(criteria, c => InCategory(c, category));
    var a := ScoredAsWritten(cs, values);
    var i :| 0 <= i < |criteria| && InCategory(criteria[i], category) && NaNValued(criteria[i], values);
    assert criteria[i] in cs;
    var j :| 0 <= j < |cs| && cs[j] == criteria[i];
    NaNPairTo(cs, values, j);
    assert WeightsPositive(cs) by {
      assert forall k :: 0 <= k < |cs| ==> cs[k] in criteria;
    }
    PositiveWeightSum(cs, values);
    ScoredAgrees(cs, values);
    AccumulateAgrees(a, Scored(cs, values));
  }

  /** A NaN pair comes from a valued criterion that normalises to NaN. */
  lemma {:induction false} NaNPairFrom(cs: seq<Criterion>, values: map<string, JsValue>, i: int)
    requires 0 <= i < |ScoredAsWritten(cs, values)| && ScoredAsWritten(cs, values)[i].0.NaN?
    ensures exists k :: 0 <= k < |cs| && NaNValued(cs[k], values)
  {
    var v := ValueOf(values, cs[0].id);
    var rest := ScoredAsWritten(cs[1..], values);
    if IsNullish(v) || i > 0 {
      var i' := if IsNullish(v) then i else i - 1;
      assert rest[i'] == ScoredAsWritten(cs, values)[i];
      NaNPairFrom(cs[1..], values, i');
      var k :| 0 <= k < |cs[1..]| && NaNValued(cs[1..][k], values);
      assert cs[1..][k] == cs[k + 1];
    } else {
      assert NaNValued(cs[0], values);
    }
  }

  /** A valued criterion that normalises to NaN leaves a NaN pair. */
  lemma {:induction false} NaNPairTo(cs: seq<Criterion>, values: map<string, JsValue>, j: int)
    requires 0 <= j < |cs| && NaNValued(cs[j], values)
    ensures exists i :: 0 <= i < |ScoredAsWritten(cs, values)| && ScoredAsWritten(cs, values)[i].0.NaN?
  {
    var v := ValueOf(values, cs[0].id);
    if j > 0 {
      assert cs[1..][j - 1] == cs[j];
      NaNPairTo(cs[1..], values, j - 1);
      var rest := ScoredAsWritten(cs[1..], values);
      var i :| 0 <= i < |rest| && rest[i].0.NaN?;
      if !IsNullish(v) {
        assert ScoredAsWritten(cs, values)[i + 1] == rest[i];
      } else {
        assert ScoredAsWritten(cs, values) == rest;
      }
    } else {
      assert ScoredAsWritten(cs, values)[0].0.NaN?;
    }
  }

  /** With positive weights, any valued criterion makes the weight sum positive. */
  lemma {:induction false} PositiveWeightSum(cs: seq<Criterion>, values: map<string, JsValue>)
    requires WeightsPositive(cs)
    ensures |Scored(cs, values)| > 0 ==> Accumulate(Scored(cs, values)).1 > 0.0
    ensures Accumulate(Scored(cs, values)).1 >= 0.0
  {
    if |cs| > 0 {
      assert WeightsPositive(cs[1..]);
      PositiveWeightSum(cs[1..], values);
      var rest := Scored(cs[1..], values);
      if !IsNullish(ValueOf(values, cs[0].id)) {
        var p := Scored(cs, values);
        assert p == [(Normalize(ValueOf(values, cs[0].id), cs[0]), cs[0].weight)] + rest;
        assert p[1..] == rest;
        assert Accumulate(p).1 == Accumulate(rest).1 + cs[0].weight;
      }
    }
  }

  /** A category whose only criterion is categorical with one possible value scores NaN for that value as written, and 100 corrected. */
  lemma SingleOptionCategoryIsNaN(c: Criterion, s: string)
    requires c.dataType == CategoricalType && c.possibleValues == Some([Str(s)]) && c.weight > 0.0
    ensures CategoryScoreAsWritten([c], map[c.id := Str(s)], c.category).NaN?
    ensures CategoryScore([c], map[c.id := Str(s)], c.category) == 100.0
  {
    SingleOptionIsNaN(c, s);
    var values := map[c.id := Str(s)];
    assert NaNScored([c], values, c.category) by {
      assert ValueOf(values, c.id) == Str(s);
      assert InCategory([c][0], c.category) && NaNValued([c][0], values);
    }
    assert WeightsPositive([c]);
    CategoryNaNWithPositiveWeights([c], values, c.category);
    var cs := Filter([c], (x: Criterion) => InCategory(x, c.category));
    assert cs == [c];
    assert Scored(cs, values) == [(100.0, c.weight)];
    assert Accumulate([(100.0, c.weight)]) == (100.0 * c.weight, c.weight);
    assert 100.0 * c.weight / c.weight == 100.0;
  }

  // --------------------------------------------------------- overall score

  /** One number per category: financial, strategic, operational, risk and market. */
  datatype Categories = Categories(financial: real, strategic: real, operational: real, risk: real, market: real)

  predicate AllWithin(s: Categories, lo: real, hi: real) {
    lo <= s.financial <= hi && lo <= s.strategic <= hi && lo <= s.operational <= hi
    && lo <= s.risk <= hi && lo <= s.market <= hi
  }

  function WeightTotal(w: Categories): real {
    w.financial + w.strategic + w.operational + w.risk + w.market
  }

  predicate NonNegativeWeights(w: Categories) {
    w.financial >= 0.0 && w.strategic >= 0.0 && w.operational >= 0.0 && w.risk >= 0.0 && w.market >= 0.0
  }

  /** The overall score: category scores weighted by the percentages of the weighting scheme. */
  function OverallScore(s: Categories, w: Categories): (r: real)
    ensures AllWithin(s, 0.0, 100.0) && NonNegativeWeights(w) ==> 0.0 <= r <= WeightTotal(w)
  {
    var total := s.financial * w.financial + s.strategic * w.strategic + s.operational * w.operational
                 + s.risk * w.risk + s.market * w.market;
    assert AllWithin(s, 0.0, 100.0) && NonNegativeWeights(w) ==> 0.0 <= total <= 100.0 * WeightTotal(w) by {
      if AllWithin(s, 0.0, 100.0) && NonNegativeWeights(w) {
        WeightedTotal(s, w);
      }
    }
    total / 100.0
  }

  /** Adding the five weighted scores one at a time keeps the total within 100 times the weights so far. */
  lemma WeightedTotal(s: Categories, w: Categories)
    requires AllWithin(s, 0.0, 100.0)
    requires NonNegativeWeights(w)
    ensures 0.0 <= s.financial * w.financial + s.strategic * w.strategic + s.operational * w.operational
                   + s.risk * w.risk + s.market * w.market <= 100.0 * WeightTotal(w)
  {
    AddWeighted(0.0, 0.0, s.financial, w.financial);
    var t1 := s.financial * w.financial;
    AddWeighted(t1, w.financial, s.strategic, w.strategic);
    var t2 := t1 + s.strategic * w.strategic;
    AddWeighted(t2, w.financial + w.strategic, s.operational, w.operational);
    var t3 := t2 + s.operational * w.operational;
    AddWeighted(t3, w.financial + w.strategic + w.operational, s.risk, w.risk);
    var t4 := t3 + s.risk * w.risk;
    AddWeighted(t4, w.financial + w.strategic + w.operational + w.risk, s.market, w.market);
  }

  /** Scores in [0, 100] weighted by non-negative percentages adding up to 100 give an overall score in [0, 100]. */
  lemma OverallScoreBounds(s: Categories, w: Categories)
    requires AllWithin(s, 0.0, 100.0) && AllWithin(w, 0.0, 100.0) && WeightTotal(w) == 100.0
    ensures 0.0 <= OverallScore(s, w) <= 100.0
  {
    AddWeighted(0.0, 0.0, s.financial, w.financial);
    var t1 := s.financial * w.financial;
    AddWeighted(t1, w.financial, s.strategic, w.strategic);
    var t2 := t1 + s.strategic * w.strategic;
    AddWeighted(t2, w.financial + w.strategic, s.operational, w.operational);
    var t3 := t2 + s.operational * w.operational;
    AddWeighted(t3, w.financial + w.strategic + w.operational, s.risk, w.risk);
    var t4 := t3 + s.risk * w.risk;
    AddWeighted(t4, w.financial + w.strategic + w.operational + w.risk, s.market, w.market);
  }

  /** When every category scores the same, the overall score is that score: the weights are an average. */
  lemma OverallScoreUniform(x: real, w: Categories)
    requires WeightTotal(w) == 100.0
    ensures OverallScore(Categories(x, x, x, x, x), w) == x
  {
    assert x * w.financial + x * w.strategic + x * w.operational + x * w.risk + x * w.market
        == x * WeightTotal(w);
  }

  datatype Recommendation = NoBid | ConditionalBid | Bid

  function RecommendationRank(r: Recommendation): nat {
    match r
    case NoBid => 0
    case ConditionalBid => 1
    case Bid => 2
  }

  /** 'bid' at or above the bid threshold, else 'no_bid' at or below the no-bid threshold, else conditional. */
  function Recommend(score: real, bidThreshold: real, noBidThreshold: real): (r: Recommendation)
    ensures r == Bid <==> score >= bidThreshold
    ensures r == NoBid <==> score < bidThreshold && score <= noBidThreshold
    ensures r == ConditionalBid ==> noBidThreshold < score < bidThreshold
  {
    if score >= bidThreshold then Bid
    else if score <= noBidThreshold then NoBid
    else ConditionalBid
  }

  /** A higher score never gets a weaker recommendation. */
  lemma RecommendMonotone(a: real, b: real, bidThreshold: real, noBidThreshold: real)
    requires a <= b
    ensures RecommendationRank(Recommend(a, bidThreshold, noBidThreshold))
         <= RecommendationRank(Recommend(b, bidThreshold, noBidThreshold))
  {
  }

  /** With the thresholds the wrong way round, a conditional bid is never recommended. */
  lemma InvertedThresholdsNeverConditional(score: real, bidThreshold: real, noBidThreshold: real)
    requires bidThreshold <= noBidThreshold
    ensures Recommend(score, bidThreshold, noBidThreshold) != ConditionalBid
  {
  }

  datatype RiskLevel = LowRisk | MediumRisk | HighRisk | CriticalRisk

  function RiskRank(r: RiskLevel): nat {
    match r
    case LowRisk => 0
    case MediumRisk => 1
    case HighRisk => 2
    case CriticalRisk => 3
  }

  /** The mean of the risk shortfall and the overall shortfall, banded at 80, 60 and 40. */
  function CombinedRisk(riskScore: real, overall: real): real {
    ((100.0 - riskScore) + (100.0 - overall)) / 2.0
  }

  function RiskLevelOf(riskScore: real, overall: real): (r: RiskLevel)
    ensures r == CriticalRisk <==> CombinedRisk(riskScore, overall) >= 80.0
    ensures r == LowRisk <==> CombinedRisk(riskScore, overall) < 40.0
    ensures r == HighRisk <==> 60.0 <= CombinedRisk(riskScore, overall) < 80.0
  {
    var combined := CombinedRisk(riskScore, overall);
    if combined >= 80.0 then CriticalRisk
    else if combined >= 60.0 then HighRisk
    else if combined >= 40.0 then MediumRisk
    else LowRisk
  }

  /** Better scores never raise the risk level. */
  lemma RiskMonotone(risk1: real, overall1: real, risk2: real, overall2: real)
    requires risk1 <= risk2 && overall1 <= overall2
    ensures RiskRank(RiskLevelOf(risk2, overall2)) <= RiskRank(RiskLevelOf(risk1, overall1))
  {
  }

  /** The outcome of analysing a scenario against a framework. */
  datatype Analysis = Analysis(overallScore: real, recommendation: Recommendation, riskLevel: RiskLevel, scores: Categories)

  /** A bid/no-bid framework: criteria, category weights in percent, and the two thresholds. */
  datatype Framework = Framework(criteria: seq<Criterion>, weights: Categories, bidThreshold: real, noBidThreshold: real)

  /**
   * performScenarioAnalysis: category scores, their weighted overall score,
   * and the recommendation and risk level drawn from the unrounded score;
   * the reported score is rounded to cents.
   */
  function Analyse(values: map<string, JsValue>, f: Framework): (a: Analysis)
    ensures a.scores.financial == CategoryScore(f.criteria, values, "financial")
    ensures a.scores.strategic == CategoryScore(f.criteria, values, "strategic")
    ensures a.scores.operational == CategoryScore(f.criteria, values, "operational")
    ensures a.scores.risk == CategoryScore(f.criteria, values, "risk")
    ensures a.scores.market == CategoryScore(f.criteria, values, "market")
    ensures a.recommendation == Recommend(OverallScore(a.scores, f.weights), f.bidThreshold, f.noBidThreshold)
    ensures a.recommendation == Bid <==> OverallScore(a.scores, f.weights) >= f.bidThreshold
    ensures a.riskLevel == RiskLevelOf(a.scores.risk, OverallScore(a.scores, f.weights))
    ensures a.overallScore == Round2(OverallScore(a.scores, f.weights))
  {
    var scores := Categories(
      CategoryScore(f.criteria, values, "financial"),
      CategoryScore(f.criteria, values, "strategic"),
      CategoryScore(f.criteria, values, "operational"),
      CategoryScore(f.criteria, values, "risk"),
      CategoryScore(f.criteria, values, "market"));
    var overall := OverallScore(scores, f.weights);
    Analysis(Round2(overall), Recommend(overall, f.bidThreshold, f.noBidThreshold),
             RiskLevelOf(scores.risk, overall), scores)
  }

  /**
   * With non-negative criterion weights and category percentages that add
   * up to 100, every category score and the reported overall score lie in [0, 100].
   */
  lemma AnalyseBounds(values: map<string, JsValue>, f: Framework)
    requires WeightsNonNegative(f.criteria)
    requires AllWithin(f.weights, 0.0, 100.0) && WeightTotal(f.weights) == 100.0
    ensures AllWithin(Analyse(values, f).scores, 0.0, 100.0)
    ensures 0.0 <= Analyse(values, f).overallScore <= 100.0
  {
    var a := Analyse(values, f);
    assert AllWithin(a.scores, 0.0, 100.0);
    OverallScoreBounds(a.scores, f.weights);
    Round2Within(OverallScore(a.scores, f.weights), 0.0, 100.0);
  }

  // ------------------------------------------ scenario analysis as written

  /** The five category scores as written, each a JavaScript number. */
  datatype NumCategories = NumCategories(financial: Num, strategic: Num, operational: Num, risk: Num, market: Num)

  predicate AnyNaN(s: NumCategories) {
    s.financial.NaN? || s.strategic.NaN? || s.operational.NaN? || s.risk.NaN? || s.market.NaN?
  }

  /** JavaScript `x >= t` against a finite threshold: false when x is NaN. */
  predicate AtLeast(x: Num, t: real) {
    NumLess(Fin(t), x) || x == Fin(t)
  }

  /** JavaScript `x <= t` against a finite threshold: false when x is NaN. */
  predicate AtMost(x: Num, t: real) {
    NumLess(x, Fin(t)) || x == Fin(t)
  }

  /**
   * The overall score as written: each category times its percentage,
   * summed and divided by 100; NaN times any percentage is NaN, so one NaN
   * category makes the overall score NaN.
   */
  function OverallScoreAsWritten(s: NumCategories, w: Categories): (r: Num)
    requires s.financial.Fin? || s.financial.NaN?
    requires s.strategic.Fin? || s.strategic.NaN?
    requires s.operational.Fin? || s.operational.NaN?
    requires s.risk.Fin? || s.risk.NaN?
    requires s.market.Fin? || s.market.NaN?
    ensures r.NaN? <==> AnyNaN(s)
    ensures !AnyNaN(s) ==> r == Fin(OverallScore(Categories(s.financial.v, s.strategic.v, s.operational.v, s.risk.v, s.market.v), w))
  {
    if AnyNaN(s) then NaN
    else Fin(OverallScore(Categories(s.financial.v, s.strategic.v, s.operational.v, s.risk.v, s.market.v), w))
  }

  /** The recommendation drawn from a JavaScript number: both comparisons are false for NaN, which falls through to a conditional bid. */
  function RecommendAsWritten(score: Num, bidThreshold: real, noBidThreshold: real): (r: Recommendation)
    ensures score.Fin? ==> r == Recommend(score.v, bidThreshold, noBidThreshold)
    ensures score.NaN? ==> r == ConditionalBid
  {
    if AtLeast(score, bidThreshold) then Bid
    else if AtMost(score, noBidThreshold) then NoBid
    else ConditionalBid
  }

  /** calculateRiskLevel on JavaScript numbers: a NaN score makes every band comparison false, which falls through to 'low'. */
  function RiskLevelAsWritten(riskScore: Num, overall: Num): (r: RiskLevel)
    ensures riskScore.Fin? && overall.Fin? ==> r == RiskLevelOf(riskScore.v, overall.v)
    ensures riskScore.NaN? || overall.NaN? ==> r == LowRisk
  {
    var combined := if riskScore.Fin? && overall.Fin? then Fin(CombinedRisk(riskScore.v, overall.v)) else NaN;
    if AtLeast(combined, 80.0) then CriticalRisk
    else if AtLeast(combined, 60.0) then HighRisk
    else if AtLeast(combined, 40.0) then MediumRisk
    else LowRisk
  }

  /** `Math.round(x * 100) / 100` on a JavaScript number: NaN and the infinities are kept. */
  function Round2AsWritten(x: Num): (r: Num)
    ensures x.Fin? ==> r == Fin(Round2(x.v))
    ensures !x.Fin? ==> r == x
  {
    if x.Fin? then Fin(Round2(x.v)) else x
  }

  /** The outcome of performScenarioAnalysis as written, its scores JavaScript numbers. */
  datatype AnalysisAsWritten = AnalysisAsWritten(overallScore: Num, recommendation: Recommendation, riskLevel: RiskLevel, scores: NumCategories)

  /**
   * performScenarioAnalysis as written: one NaN category makes the overall
   * score NaN, and a NaN overall score is recommended a conditional bid at
   * low risk whatever the thresholds.
   */
  function AnalyseAsWritten(values: map<string, JsValue>, f: Framework): (a: AnalysisAsWritten)
    ensures a.scores.risk == CategoryScoreAsWritten(f.criteria, values, "risk")
    ensures a.overallScore.NaN? <==> AnyNaN(a.scores)
    ensures AnyNaN(a.scores) ==> a.recommendation == ConditionalBid && a.riskLevel == LowRisk
  {
    var scores := NumCategories(
      CategoryScoreAsWritten(f.criteria, values, "financial"),
      CategoryScoreAsWritten(f.criteria, values, "strategic"),
      CategoryScoreAsWritten(f.criteria, values, "operational"),
      CategoryScoreAsWritten(f.criteria, values, "risk"),
      CategoryScoreAsWritten(f.criteria, values, "market"));
    var overall := OverallScoreAsWritten(scores, f.weights);
    AnalysisAsWritten(Round2AsWritten(overall), RecommendAsWritten(overall, f.bidThreshold, f.noBidThreshold),
                      RiskLevelAsWritten(scores.risk, overall), scores)
  }

  /** Where no category as written is NaN, the analysis as written is the corrected one. */
  lemma AnalyseAgrees(values: map<string, JsValue>, f: Framework)
    ensures var a := AnalyseAsWritten(values, f); var c := Analyse(values, f);
      !AnyNaN(a.scores) ==>
        a.overallScore == Fin(c.overallScore) && a.recommendation == c.recommendation && a.riskLevel == c.riskLevel
  {
    CategoryScoreAgrees(f.criteria, values, "financial");
    CategoryScoreAgrees(f.criteria, values, "strategic");
    CategoryScoreAgrees(f.criteria, values, "operational");
    CategoryScoreAgrees(f.criteria, values, "risk");
    CategoryScoreAgrees(f.criteria, values, "market");
  }

  /**
   * A framework whose one criterion is a weighted categorical with a single
   * possible value, given that value, is recommended a conditional bid at
   * low risk as written, whatever its thresholds; the corrected analysis
   * scores the category 100.
   */
  lemma SingleOptionScenarioIsConditional(c: Criterion, s: string, f: Framework)
    requires c.dataType == CategoricalType && c.possibleValues == Some([Str(s)]) && c.weight > 0.0
    requires f.criteria == [c]
    requires c.category in {"financial", "strategic", "operational", "risk", "market"}
    ensures var a := AnalyseAsWritten(map[c.id := Str(s)], f);
      a.overallScore.NaN? && a.recommendation == ConditionalBid && a.riskLevel == LowRisk
  {
    SingleOptionCategoryIsNaN(c, s);
    var a := AnalyseAsWritten(map[c.id := Str(s)], f);
    assert AnyNaN(a.scores) by {
      if c.category == "financial" { assert a.scores.financial.NaN?; }
      else if c.category == "strategic" { assert a.scores.strategic.NaN?; }
      else if c.category == "operational" { assert a.scores.operational.NaN?; }
      else if c.category == "risk" { assert a.scores.risk.NaN?; }
      else { assert a.scores.market.NaN?; }
    }
  }

  // ------------------------------------------------------------ validation

  datatype FrameworkError = WeightsNotHundred | NoCriteria | ThresholdsNotOrdered

  datatype Validation = Validation(isValid: bool, errors: seq<FrameworkError>, fewCriteria: bool, noRiskCriteria: bool)

  /**
   * validateFramework: an error for weights that do not sum to 100 within
   * 0.01, for no criteria, and for a bid threshold not above the no-bid
   * threshold; a warning for fewer than five criteria and a suggestion when
   * no criterion is about risk.
   */
  function Validate(f: Framework): (r: Validation)
    ensures r.isValid <==> Abs(WeightTotal(f.weights) - 100.0) <= 0.01 && |f.criteria| > 0 && f.bidThreshold > f.noBidThreshold
    ensures WeightsNotHundred in r.errors <==> Abs(WeightTotal(f.weights) - 100.0) > 0.01
    ensures NoCriteria in r.errors <==> |f.criteria| == 0
    ensures ThresholdsNotOrdered in r.errors <==> f.bidThreshold <= f.noBidThreshold
    ensures r.fewCriteria <==> |f.criteria| < 5
    ensures r.noRiskCriteria <==> forall i :: 0 <= i < |f.criteria| ==> f.criteria[i].category != "risk"
  {
    var errors :=
      (if Abs(WeightTotal(f.weights) - 100.0) > 0.01 then [WeightsNotHundred] else [])
      + (if |f.criteria| == 0 then [NoCriteria] else [])
      + (if f.bidThreshold <= f.noBidThreshold then [ThresholdsNotOrdered] else []);
    Validation(|errors| == 0, errors, |f.criteria| < 5,
               Count(f.criteria, c => InCategory(c, "risk")) == 0)
  }

  /** A valid framework recommends a conditional bid exactly strictly between its thresholds. */
  lemma ValidFrameworkBands(f: Framework, score: real)
    requires Validate(f).isValid
    ensures Recommend(score, f.bidThreshold, f.noBidThreshold) == ConditionalBid
            <==> f.noBidThreshold < score < f.bidThreshold
  {
  }

  // -------------------------------------------------------------- rankings

  datatype Ranked = Ranked(scenarioId: string, rank: nat, score: real)

  /**
   * createComparisonMatrix's rankings: scenarios sorted by descending
   * overall score, ranked 1, 2, ... in that order.
   */
  function Rankings(scenarios: seq<(string, real)>): (r: seq<Ranked>)
    ensures |r| == |scenarios|
    ensures forall i :: 0 <= i < |r| ==> r[i].rank == i + 1
    ensures forall i, j :: 0 <= i < j < |r| ==> r[i].score >= r[j].score
    ensures multiset(seq(|r|, i requires 0 <= i < |r| => (r[i].scenarioId, r[i].score))) == multiset(scenarios)
  {
    var ranked := Rank(scenarios, PairValue);
    var r := seq(|ranked|, i requires 0 <= i < |ranked| => Ranked(ranked[i].0.0, ranked[i].1, ranked[i].0.1));
    assert seq(|r|, i requires 0 <= i < |r| => (r[i].scenarioId, r[i].score)) == Unranked(ranked);
    r
  }

  // ------------------------------------------------------------- analytics

  datatype Decision = BidDecision | NoBidDecision | ConditionalDecision

  /** A recorded decision and its outcome ('won', 'lost', 'pending', ...), None when not set. */
  datatype HistoryEntry = HistoryEntry(decision: Decision, outcome: Option<string>)

  /** A decision whose outcome is known: set, non-empty and not 'pending'. */
  predicate Decided(h: HistoryEntry) {
    h.outcome.Some? && h.outcome.value != "" && h.outcome.value != "pending"
  }

  predicate Won(h: HistoryEntry) {
    h.outcome == Some("won")
  }

  /** The percentage of decided entries that were won; 0 when none is decided. */
  function WinRate(history: seq<HistoryEntry>): (r: real)
    ensures 0.0 <= r <= 100.0
    ensures (forall i :: 0 <= i < |history| ==> !Decided(history[i])) ==> r == 0.0
  {
    var decided := Filter(history, Decided);
    assert (forall i :: 0 <= i < |history| ==> !Decided(history[i])) ==> |decided| == 0 by {
      if forall i :: 0 <= i < |history| ==> !Decided(history[i]) {
        FilterNone(history, Decided);
      }
    }
    if |decided| > 0 then
      var won := Count(decided, Won);
      QuotientBounds(won as real, |decided| as real, 1.0);
      won as real / |decided| as real * 100.0
    else 0.0
  }

  /** An entry without a known outcome does not move the win rate. */
  lemma UndecidedIgnored(e: HistoryEntry, history: seq<HistoryEntry>)
    requires !Decided(e)
    ensures WinRate([e] + history) == WinRate(history)
  {
    assert ([e] + history)[1..] == history;
  }

  predicate IsBidDecision(h: HistoryEntry) { h.decision == BidDecision }
  predicate IsNoBidDecision(h: HistoryEntry) { h.decision == NoBidDecision }
  predicate IsConditionalDecision(h: HistoryEntry) { h.decision == ConditionalDecision }

  /** The bid, no-bid and conditional counts partition the history. */
  lemma {:induction false} DecisionCountsPartition(history: seq<HistoryEntry>)
    ensures Count(history, IsBidDecision) + Count(history, IsNoBidDecision)
            + Count(history, IsConditionalDecision) == |history|
  {
    if |history| > 0 {
      DecisionCountsPartition(history[1..]);
    }
  }
}

=== FILE: desktop_security.dfy ===
/**
 * The desktop shell's security policy: sanitising file names and audit
 * metadata, recognising encrypted envelopes, admitting dragged files and
 * exports, dispatching secure actions, and keeping the audit log capped.
 * Encryption, the secure store and the audit log's persistence are I/O and
 * stay outside; event ids and timestamps are parameters.
 */
module DesktopSecurity {
  import opened Wrappers
  import opened Text
  import opened Numbers
  import opened Js
  import opened Lists

  // ------------------------------------------------------------------ file names

  const MaxFilenameLength: nat := 120

  /** A character file names may not hold: `<>:"/\|?*` and the control characters. */
  predicate Forbidden(c: char) {
    c == '<' || c == '>' || c == ':' || c == '"' || c == '/' || c == '\\'
    || c == '|' || c == '?' || c == '*' || c <= '\U{1F}'
  }

  /** A name the sanitiser hands out: non-empty, at most 120 characters, free of forbidden characters, not ending in '.'. */
  predicate SafeName(s: string) {
    0 < |s| <= MaxFilenameLength && s[|s| - 1] != '.' && forall i :: 0 <= i < |s| ==> !Forbidden(s[i])
  }

  /** Every forbidden character becomes '_'. */
  function ReplaceForbidden(s: string): (r: string)
    ensures |r| == |s|
    ensures forall i :: 0 <= i < |s| ==> r[i] == if Forbidden(s[i]) then '_' else s[i]
  {
    seq(|s|, i requires 0 <= i < |s| => if Forbidden(s[i]) then '_' else s[i])
  }

  /** The longest prefix that does not end in '.'. */
  function DropTrailingDots(s: string): (r: string)
    ensures r <= s
    ensures |r| == 0 || r[|r| - 1] != '.'
    ensures forall i :: |r| <= i < |s| ==> s[i] == '.'
  {
    if |s| > 0 && s[|s| - 1] == '.' then DropTrailingDots(s[..|s| - 1]) else s
  }

  /**
   * The steps after trimming: replace forbidden characters, fall back when
   * nothing is left, cut to 120 characters, drop trailing dots, and fall
   * back again when that empties the name.
   */
  function CleanName(trimmed: string, fallback: string): (r: string)
    ensures SafeName(fallback) ==> SafeName(r)
    ensures SafeName(trimmed) ==> r == trimmed
  {
    var replaced := ReplaceForbidden(trimmed);
    var named := if replaced == "" then fallback else replaced;
    var cut := if |named| > MaxFilenameLength then named[..MaxFilenameLength] else named;
    var stripped := DropTrailingDots(cut);
    if stripped == "" then fallback else stripped
  }

  /** sanitizeDesktopFilename: `String(value)` (the fallback for null or undefined), trimmed, then cleaned. */
  function SanitizeFilename(value: JsValue, fallback: string): (r: string)
    ensures SafeName(fallback) ==> SafeName(r)
  {
    var raw := if IsNullish(value) then fallback else ToText(value);
    CleanName(Trim(raw), fallback)
  }

  /** The fallbacks the handlers pass are themselves safe names. */
  lemma FallbacksSafe()
    ensures SafeName("file") && SafeName("export") && SafeName("unspecified") && SafeName("global")
  {
  }

  /** A safe name without surrounding white space comes back unchanged. */
  lemma SafeNameUnchanged(s: string, fallback: string)
    requires SafeName(s) && !IsSpace(s[0]) && !IsSpace(s[|s| - 1])
    ensures SanitizeFilename(Str(s), fallback) == s
  {
    TrimNoOuterSpace(s);
  }

  /** The guarantee rests on the fallback: with an empty fallback a name of dots comes back empty. */
  lemma UnsafeFallbackLeaks()
    ensures CleanName("..", "") == ""
  {
    assert ReplaceForbidden("..") == "..";
    assert DropTrailingDots("..") == "";
  }

  // ------------------------------------------------------------- audit metadata

  const MaxKeyLength: nat := 64
  const MaxValueLength: nat := 256
  const KeptValueLength: nat := 253

  /** `Object.entries`: an object's own properties, or an array's elements under their index keys. */
  function Entries(v: JsValue): (r: seq<(string, JsValue)>)
    ensures v.Obj? ==> r == v.fields
    ensures !IsObjectLike(v) ==> r == []
  {
    match v
    case Obj(fields) => fields
    case Arr(items) => seq(|items|, i requires 0 <= i < |items| => (NatText(i), items[i]))
    case _ => []
  }

  /** A value as text: strings as they are, numbers and booleans through `String`, anything else through `JSON.stringify`. */
  function MetadataText(v: JsValue): (r: string)
    ensures v.Str? ==> r == v.s
  {
    match v
    case Str(s) => s
    case Number(_) => ToText(v)
    case Bool(_) => ToText(v)
    case _ =>
      match Stringify(v)
      case Some(t) => t
      case None => ToText(v)
  }

  /** Texts over 256 characters keep their first 253 and gain '...'. */
  function Truncate(t: string): (r: string)
    ensures |r| <= MaxValueLength
    ensures |t| <= MaxValueLength ==> r == t
    ensures |t| > MaxValueLength ==> |r| == MaxValueLength && r[..KeptValueLength] == t[..KeptValueLength]
  {
    if |t| > MaxValueLength then t[..KeptValueLength] + "..." else t
  }

  /** An entry survives when its trimmed key is not empty and its value is neither null nor undefined. */
  predicate Kept(e: (string, JsValue)) {
    !IsBlank(e.0) && !IsNullish(e.1)
  }

  /** The key an entry is stored under: trimmed and cut to 64 characters. */
  function KeyOf(rawKey: string): (k: string)
    ensures |k| <= MaxKeyLength
    ensures !IsBlank(rawKey) ==> |k| > 0
  {
    var t := Trim(rawKey);
    if |t| > MaxKeyLength then t[..MaxKeyLength] else t
  }

  /** A stored pair within the length limits: a non-empty key of at most 64 characters, a text of at most 256. */
  predicate Fits(p: (string, string)) {
    0 < |p.0| <= MaxKeyLength && |p.1| <= MaxValueLength
  }

  /** The stored key and text of an entry that survives, nothing for one that does not. */
  function Survive(e: (string, JsValue)): (r: Option<(string, string)>)
    ensures r.Some? <==> Kept(e)
    ensures r.Some? ==> Fits(r.value)
  {
    if Kept(e) then Some((KeyOf(e.0), Truncate(MetadataText(e.1)))) else None
  }

  /** The surviving entries as stored key and text, in order. */
  function Survivors(entries: seq<(string, JsValue)>): (r: seq<(string, string)>)
    ensures |r| <= |entries|
    ensures forall j :: 0 <= j < |r| ==> Fits(r[j])
  {
    var r := FilterMap(entries, Survive);
    FilterMapFrom(entries, Survive);
    r
  }

  /** Nothing survives exactly when no entry is kept. */
  lemma SurvivorsEmptyIff(entries: seq<(string, JsValue)>)
    ensures |Survivors(entries)| == 0 <==> forall i :: 0 <= i < |entries| ==> !Kept(entries[i])
  {
    FilterMapEmpty(entries, Survive);
  }

  /** Survivors are written one after another into an object, a later key overwriting an earlier one. */
  function Collect(pairs: seq<(string, string)>): (m: map<string, string>)
    ensures forall j :: 0 <= j < |pairs| ==> pairs[j].0 in m
    ensures forall k :: k in m ==> exists j :: 0 <= j < |pairs| && pairs[j] == (k, m[k])
    ensures |m| == 0 <==> |pairs| == 0
  {
    if |pairs| == 0 then map[]
    else
      var init := pairs[..|pairs| - 1];
      var last := pairs[|pairs| - 1];
      var m := Collect(init);
      assert forall j :: 0 <= j < |init| ==> init[j] == pairs[j];
      m[last.0 := last.1]
  }

  /** The value under a key is the one of the last pair with that key. */
  lemma {:induction false} LastWins(pairs: seq<(string, string)>, j: nat)
    requires j < |pairs|
    requires forall l :: j < l < |pairs| ==> pairs[l].0 != pairs[j].0
    ensures Collect(pairs)[pairs[j].0] == pairs[j].1
  {
    if j < |pairs| - 1 {
      var init := pairs[..|pairs| - 1];
      assert init[j] == pairs[j];
      LastWins(init, j);
    }
  }

  /**
   * sanitizeAuditMetadata: nothing for a value that is not an object; else
   * the surviving entries, or nothing when none survives.
   */
  function SanitizeMetadata(metadata: JsValue): (r: Option<map<string, string>>)
    ensures r.Some? ==> IsObjectLike(metadata) && |r.value| > 0
    ensures r.None? <==> !IsObjectLike(metadata) || forall i :: 0 <= i < |Entries(metadata)| ==> !Kept(Entries(metadata)[i])
    ensures r.Some? ==> forall k :: k in r.value ==> 0 < |k| <= MaxKeyLength && |r.value[k]| <= MaxValueLength
  {
    if !Truthy(metadata) || TypeOf(metadata) != "object" then None
    else SanitizeEntries(Entries(metadata))
  }

  /** The object built from the surviving entries, or nothing when none survives. */
  function SanitizeEntries(entries: seq<(string, JsValue)>): (r: Option<map<string, string>>)
    ensures r.Some? ==> |r.value| > 0
    ensures r.None? <==> forall i :: 0 <= i < |entries| ==> !Kept(entries[i])
    ensures r.Some? ==> forall k :: k in r.value ==> 0 < |k| <= MaxKeyLength && |r.value[k]| <= MaxValueLength
  {
    var pairs := Survivors(entries);
    SurvivorsEmptyIff(entries);
    var m := Collect(pairs);
    if |m| > 0 then Some(m) else None
  }

  // ------------------------------------------------------------------ envelopes

  /** isSecureEnvelope: an object whose version, iv, ciphertext and authTag are all strings. */
  predicate IsSecureEnvelope(v: JsValue) {
    Truthy(v) && TypeOf(v) == "object"
    && TypeOf(Prop(v, "version")) == "string" && TypeOf(Prop(v, "iv")) == "string"
    && TypeOf(Prop(v, "ciphertext")) == "string" && TypeOf(Prop(v, "authTag")) == "string"
  }

  /** The envelope the encryption step writes. */
  function Envelope(version: string, iv: string, ciphertext: string, authTag: string): JsValue {
    Obj([("version", Str(version)), ("iv", Str(iv)), ("ciphertext", Str(ciphertext)), ("authTag", Str(authTag))])
  }

  /** What the encryption step writes is recognised. */
  lemma EnvelopeRecognised(version: string, iv: string, ciphertext: string, authTag: string)
    ensures IsSecureEnvelope(Envelope(version, iv, ciphertext, authTag))
  {
    var fields := Envelope(version, iv, ciphertext, authTag).fields;
    LookupFirst(fields, "version", 0);
    LookupFirst(fields, "iv", 1);
    LookupFirst(fields, "ciphertext", 2);
    LookupFirst(fields, "authTag", 3);
  }

  /** Only objects whose four fields are strings are envelopes; arrays and primitives never are. */
  lemma EnvelopeShape(v: JsValue)
    ensures IsSecureEnvelope(v) <==> v.Obj? && Lookup(v.fields, "version").Some? && Lookup(v.fields, "version").value.Str?
                                       && Lookup(v.fields, "iv").Some? && Lookup(v.fields, "iv").value.Str?
                                       && Lookup(v.fields, "ciphertext").Some? && Lookup(v.fields, "ciphertext").value.Str?
                                       && Lookup(v.fields, "authTag").Some? && Lookup(v.fields, "authTag").value.Str?
  {
    if v.Arr? {
      assert !IsDigit('v') && !IsDigit('i') && !IsDigit('c') && !IsDigit('a');
      assert IndexKey("version").None? && IndexKey("iv").None?;
    }
  }

  // -------------------------------------------------------------- dragged files

  /** The technical-document MIME types a drag may carry. */
  const TechnicalFileTypes: set<string> := {
    "application/pdf",
    "application/vnd.openxmlformats-officedocument.wordprocessingml.document",
    "application/msword",
    "application/vnd.openxmlformats-officedocument.spreadsheetml.sheet",
    "application/vnd.ms-excel",
    "application/vnd.openxmlformats-officedocument.presentationml.presentation",
    "application/vnd.ms-powerpoint"
  }

  const TechnicalFileMaxBytes: nat := 10 * 1024 * 1024
  const DragTotalLimit: nat := 50 * 1024 * 1024

  datatype FileRefusal = UnsupportedType | FileTooLarge | AggregateLimitExceeded

  datatype FileDescriptor = FileDescriptor(name: string, fileType: JsValue, size: nat, allowed: bool,
                                           reason: Option<FileRefusal>, metadata: JsValue)

  datatype DragRefusal = InvalidFiles | AggregateLimit | NoFilesAllowed

  datatype DragResponse = DragResponse(allowed: bool, reason: Option<DragRefusal>, intent: JsValue, source: JsValue,
                                       tenderId: JsValue, files: seq<FileDescriptor>)

  /** Reading a property of `null` or `undefined` throws a TypeError. */
  datatype Thrown = TypeError

  /** A finite, non-negative number of bytes rounded down; anything else counts as 0. */
  function NormalizedSize(size: JsValue): (r: nat)
    ensures IsFiniteNumber(size) && size.n.v >= 0.0 ==> r as real <= size.n.v < r as real + 1.0
    ensures !(IsFiniteNumber(size) && size.n.v >= 0.0) ==> r == 0
  {
    if size.Number? && size.n.Fin? && size.n.v >= 0.0 then size.n.v.Floor else 0
  }

  predicate TypeAllowed(fileType: JsValue) {
    fileType.Str? && fileType.s in TechnicalFileTypes
  }

  /** The properties of a dragged file the handler reads. */
  datatype DraggedFile = DraggedFile(name: JsValue, fileType: JsValue, size: JsValue, metadata: JsValue)

  function ReadFile(file: JsValue): DraggedFile {
    DraggedFile(Prop(file, "name"), Prop(file, "type"), Prop(file, "size"), Prop(file, "metadata"))
  }

  /** One dragged file judged on its own: an allowed type and at most 10 MB. */
  function Describe(f: DraggedFile): (d: FileDescriptor)
    ensures d.allowed <==> TypeAllowed(f.fileType) && NormalizedSize(f.size) <= TechnicalFileMaxBytes
    ensures d.reason.None? <==> d.allowed
    ensures d.reason == Some(UnsupportedType) <==> !TypeAllowed(f.fileType)
    ensures d.size == NormalizedSize(f.size) && d.fileType == f.fileType
    ensures SafeName(d.name)
  {
    var name := SanitizeFilename(f.name, "file");
    assert SafeName(name) by {
      FallbacksSafe();
    }
    var size := NormalizedSize(f.size);
    var typeAllowed := TypeAllowed(f.fileType);
    var sizeAllowed := size <= TechnicalFileMaxBytes;
    var reason := if !typeAllowed then Some(UnsupportedType) else if !sizeAllowed then Some(FileTooLarge) else None;
    FileDescriptor(name, f.fileType, size, typeAllowed && sizeAllowed, reason, f.metadata)
  }

  function DescribeAll(files: seq<JsValue>): (r: seq<FileDescriptor>)
    ensures |r| == |files|
    ensures forall i :: 0 <= i < |files| ==> r[i] == Describe(ReadFile(files[i]))
  {
    seq(|files|, i requires 0 <= i < |files| => Describe(ReadFile(files[i])))
  }

  function TotalSize(ds: seq<FileDescriptor>): nat {
    if |ds| == 0 then 0 else TotalSize(ds[..|ds| - 1]) + ds[|ds| - 1].size
  }

  function Block(d: FileDescriptor): FileDescriptor {
    d.(allowed := false, reason := Some(AggregateLimitExceeded))
  }

  function BlockAll(ds: seq<FileDescriptor>): (r: seq<FileDescriptor>)
    ensures |r| == |ds|
    ensures forall i :: 0 <= i < |ds| ==> !r[i].allowed && r[i].reason == Some(AggregateLimitExceeded)
    ensures forall i :: 0 <= i < |ds| ==> r[i].name == ds[i].name && r[i].size == ds[i].size
  {
    seq(|ds|, i requires 0 <= i < |ds| => Block(ds[i]))
  }

  predicate SomeAllowed(ds: seq<FileDescriptor>) {
    exists i :: 0 <= i < |ds| && ds[i].allowed
  }

  /** The verdict on described files: all blocked over 50 MB in total, else allowed when some file is. */
  datatype Admission = Admission(allowed: bool, reason: Option<DragRefusal>, files: seq<FileDescriptor>)

  function Admit(ds: seq<FileDescriptor>): (r: Admission)
    ensures r.allowed <==> TotalSize(ds) <= DragTotalLimit && SomeAllowed(ds)
    ensures r.allowed <==> r.reason.None?
    ensures |r.files| == |ds|
    ensures TotalSize(ds) > DragTotalLimit ==> r.reason == Some(AggregateLimit) && forall i :: 0 <= i < |ds| ==> !r.files[i].allowed
    ensures TotalSize(ds) <= DragTotalLimit ==> r.files == ds
    ensures forall i :: 0 <= i < |ds| && r.files[i].allowed ==> ds[i].allowed
    ensures forall i :: 0 <= i < |ds| ==> r.files[i].name == ds[i].name && r.files[i].size == ds[i].size && r.files[i].fileType == ds[i].fileType
  {
    if TotalSize(ds) > DragTotalLimit then Admission(false, Some(AggregateLimit), BlockAll(ds))
    else
      var allowed := SomeAllowed(ds);
      Admission(allowed, if allowed then None else Some(NoFilesAllowed), ds)
  }

  /** The total size of `n` copies of one file. */
  lemma {:induction false} TotalSizeCopies(d: FileDescriptor, n: nat)
    ensures TotalSize(seq(n, _ => d)) == n * d.size
  {
    if n > 0 {
      TotalSizeCopies(d, n - 1);
      assert seq(n, _ => d)[..n - 1] == seq(n - 1, _ => d);
    }
  }

  /** Five files at the 10 MB limit are admitted; a sixth tips the total over 50 MB and blocks them all. */
  lemma AggregateLimitRefusesAcceptableFiles(d: FileDescriptor)
    requires d.allowed && d.size == TechnicalFileMaxBytes
    ensures Admit(seq(5, _ => d)).allowed
    ensures !Admit(seq(6, _ => d)).allowed
  {
    TotalSizeCopies(d, 5);
    TotalSizeCopies(d, 6);
    assert seq(5, _ => d)[0].allowed;
  }

  /**
   * handleDesktopDragIntent: without a file array the intent is refused
   * with no files; a null or undefined file throws; otherwise the described
   * files are admitted or refused together.
   */
  function DragIntent(payload: JsValue): (r: Result<DragResponse, Thrown>)
    ensures r.Failure? <==> Prop(payload, "files").Arr? && exists i :: 0 <= i < |Prop(payload, "files").items| && IsNullish(Prop(payload, "files").items[i])
    ensures r.Success? && !Prop(payload, "files").Arr? ==> !r.value.allowed && r.value.reason == Some(InvalidFiles) && r.value.files == []
    ensures r.Success? && Prop(payload, "files").Arr? ==>
              var a := Admit(DescribeAll(Prop(payload, "files").items));
              r.value.allowed == a.allowed && r.value.reason == a.reason && r.value.files == a.files
    ensures r.Success? ==> r.value.intent == Prop(payload, "intent") && r.value.tenderId == Prop(payload, "tenderId")
  {
    var files := Prop(payload, "files");
    var intent := Prop(payload, "intent");
    var source := Prop(payload, "source");
    var tenderId := Prop(payload, "tenderId");
    if !files.Arr? then Success(DragResponse(false, Some(InvalidFiles), intent, source, tenderId, []))
    else if exists i :: 0 <= i < |files.items| && IsNullish(files.items[i]) then Failure(TypeError)
    else
      var a := Admit(DescribeAll(files.items));
      Success(DragResponse(a.allowed, a.reason, intent, source, tenderId, a.files))
  }

  /** Every file a drag lets through has a safe name, an allowed type and at most 10 MB. */
  lemma DragAllowedFilesAdmissible(payload: JsValue, i: nat)
    ensures DragIntent(payload).Success? && i < |DragIntent(payload).value.files| && DragIntent(payload).value.files[i].allowed ==>
      var f := DragIntent(payload).value.files[i];
      SafeName(f.name) && TypeAllowed(f.fileType) && f.size <= TechnicalFileMaxBytes
  {
    if DragIntent(payload).Success? && i < |DragIntent(payload).value.files| && DragIntent(payload).value.files[i].allowed {
      var items := Prop(payload, "files").items;
      var ds := DescribeAll(items);
      assert Describe(ReadFile(items[i])) == ds[i];
    }
  }

  // ------------------------------------------------------------------- exports

  const ExportFormats: set<string> := {"csv", "json", "xlsx", "xls", "pdf", "docx", "doc", "pptx", "ppt", "binary"}
  const MaxExportBytes: nat := 20 * 1024 * 1024

  datatype ExportRefusal = InvalidPayload | UnsupportedFormat | PayloadTooLarge

  datatype ExportResponse = ExportAllowed(payload: JsValue, filename: string) | ExportRefused(reason: ExportRefusal)

  predicate FormatAllowed(format: JsValue) {
    format.Str? && format.s in ExportFormats
  }

  /** `bytes !== undefined && bytes > 20 MB`, with JavaScript's numeric comparison. */
  predicate TooLarge(bytes: JsValue) {
    !bytes.Undefined? && NumLess(Fin(MaxExportBytes as real), ToNumber(bytes))
  }

  lemma TooLargeNumbers(bytes: JsValue)
    ensures IsFiniteNumber(bytes) ==> (TooLarge(bytes) <==> bytes.n.v > MaxExportBytes as real)
    ensures bytes.Undefined? || bytes.Obj? || (bytes.Number? && bytes.n.NaN?) ==> !TooLarge(bytes)
  {
  }

  /** A property list with `key` set to `value`: in place when present, appended otherwise, as an object spread does. */
  function Put(fields: seq<(string, JsValue)>, key: string, value: JsValue): (r: seq<(string, JsValue)>)
    ensures Lookup(r, key) == Some(value)
    ensures forall k :: k != key ==> Lookup(r, k) == Lookup(fields, k)
  {
    if |fields| == 0 then [(key, value)]
    else if fields[0].0 == key then [(key, value)] + fields[1..]
    else
      var rest := Put(fields[1..], key, value);
      assert ([fields[0]] + rest)[1..] == rest;
      [fields[0]] + rest
  }

  /** `payload = {}`: an omitted argument becomes an empty object. */
  function Defaulted(payload: JsValue): JsValue {
    if payload.Undefined? then Obj([]) else payload
  }

  /** Why an export is refused, checked in order: not an object, a format off the list, more than 20 MB. */
  function Refusal(p: JsValue): (r: Option<ExportRefusal>)
    ensures r.None? <==> IsObjectLike(p) && FormatAllowed(Prop(p, "format")) && !TooLarge(Prop(p, "bytes"))
    ensures r == Some(InvalidPayload) <==> !IsObjectLike(p)
    ensures r == Some(UnsupportedFormat) <==> IsObjectLike(p) && !FormatAllowed(Prop(p, "format"))
  {
    if !Truthy(p) || TypeOf(p) != "object" then Some(InvalidPayload)
    else if !FormatAllowed(Prop(p, "format")) then Some(UnsupportedFormat)
    else if TooLarge(Prop(p, "bytes")) then Some(PayloadTooLarge)
    else None
  }

  /**
   * handleDesktopExport: a refused export carries its reason; an accepted
   * one passes the payload on with its file name sanitised.
   */
  function Export(payload: JsValue): (r: ExportResponse)
    ensures r.ExportAllowed? <==> Refusal(Defaulted(payload)).None?
    ensures r.ExportRefused? ==> Some(r.reason) == Refusal(Defaulted(payload))
    ensures r.ExportAllowed? ==> SafeName(r.filename) && r.payload.Obj?
    ensures r.ExportAllowed? ==> Lookup(r.payload.fields, "filename") == Some(Str(r.filename))
    ensures r.ExportAllowed? ==> forall k :: k != "filename" ==> Lookup(r.payload.fields, k) == Lookup(Entries(payload), k)
  {
    var p := Defaulted(payload);
    match Refusal(p)
    case Some(e) => ExportRefused(e)
    case None =>
      var filename := SanitizeFilename(Prop(p, "filename"), "export");
      assert SafeName(filename) by {
        FallbacksSafe();
      }
      ExportAllowed(Obj(Put(Entries(p), "filename", Str(filename))), filename)
  }

  /** handleDesktopNotify: any object is passed on. */
  function Notify(payload: JsValue): (r: (bool, JsValue))
    ensures r.0 <==> IsObjectLike(Defaulted(payload))
    ensures r.0 ==> r.1 == Defaulted(payload)
  {
    var p := Defaulted(payload);
    if !Truthy(p) || TypeOf(p) != "object" then (false, Undefined) else (true, p)
  }

  // ---------------------------------------------------------------- dispatch

  datatype ActionRefusal = InvalidRequest | UnsupportedAction

  datatype SecureResponse =
    | DragReply(drag: DragResponse)
    | ExportReply(exported: ExportResponse)
    | NotifyReply(notified: bool, payload: JsValue)
    | Refused(refusal: ActionRefusal)

  /** handleDesktopSecureAction: route by the action name; anything else is unsupported. */
  function SecureAction(request: JsValue): (r: Result<SecureResponse, Thrown>)
    ensures r == Success(Refused(InvalidRequest)) <==> !IsObjectLike(Defaulted(request))
    ensures r == Success(Refused(UnsupportedAction)) <==>
              IsObjectLike(Defaulted(request))
              && Prop(request, "action") !in {Str("drag-intent"), Str("export"), Str("notify")}
    ensures r.Failure? ==> Prop(request, "action") == Str("drag-intent")
    ensures Prop(request, "action") == Str("export") && IsObjectLike(request) ==> r == Success(ExportReply(Export(Prop(request, "payload"))))
  {
    var q := Defaulted(request);
    if !Truthy(q) || TypeOf(q) != "object" then Success(Refused(InvalidRequest))
    else
      var action := Prop(q, "action");
      var payload := Prop(q, "payload");
      if action == Str("drag-intent") then
        match DragIntent(payload)
        case Success(d) => Success(DragReply(d))
        case Failure(e) => Failure(e)
      else if action == Str("export") then Success(ExportReply(Export(payload)))
      else if action == Str("notify") then
        var n := Notify(payload);
        Success(NotifyReply(n.0, n.1))
      else Success(Refused(UnsupportedAction))
  }

  // ---------------------------------------------------------------- audit log

  const MaxAuditLogEntries: nat := 500

  /** The events already stored: the `data` array of an envelope, a bare array, or none. */
  function StoredEvents(current: JsValue): (r: seq<JsValue>)
    ensures current.Arr? ==> r == current.items
    ensures !IsObjectLike(current) ==> r == []
  {
    if !Truthy(current) || TypeOf(current) != "object" then []
    else if Prop(current, "data").Arr? then Prop(current, "data").items
    else if current.Arr? then current.items
    else []
  }

  /** An audit event; the fields default through `??`, metadata only when some survives. */
  datatype AuditEvent = AuditEvent(id: string, timestamp: string, category: JsValue, action: JsValue, key: JsValue,
                                   status: JsValue, level: JsValue, actor: JsValue, origin: JsValue,
                                   metadata: Option<map<string, string>>)

  function OrDefault(v: JsValue, fallback: string): (r: JsValue)
    ensures !IsNullish(r)
    ensures !IsNullish(v) ==> r == v
  {
    if IsNullish(v) then Str(fallback) else v
  }

  /** The event appendAuditLogEvent builds from its details; id and time come from the caller. */
  function MakeEvent(details: JsValue, id: string, timestamp: string): (e: AuditEvent)
    ensures !IsNullish(e.category) && !IsNullish(e.action) && !IsNullish(e.key) && !IsNullish(e.status)
    ensures !IsNullish(e.level) && !IsNullish(e.actor) && !IsNullish(e.origin)
    ensures IsNullish(Prop(details, "category")) ==> e.category == Str("ipc")
    ensures IsNullish(Prop(details, "status")) ==> e.status == Str("error")
    ensures e.metadata.Some? ==> |e.metadata.value| > 0
  {
    AuditEvent(id, timestamp,
               OrDefault(Prop(details, "category"), "ipc"),
               OrDefault(Prop(details, "action"), "payload-rejected"),
               OrDefault(Prop(details, "key"), "unknown"),
               OrDefault(Prop(details, "status"), "error"),
               OrDefault(Prop(details, "level"), "warning"),
               OrDefault(Prop(details, "actor"), "renderer"),
               OrDefault(Prop(details, "origin"), "main-process"),
               SanitizeMetadata(Prop(details, "metadata")))
  }

  /** Appending to the audit log: the new event last, and only the newest 500 kept. */
  function AppendEvent<E>(events: seq<E>, e: E): (r: seq<E>)
    ensures |r| <= MaxAuditLogEntries
    ensures |r| == if |events| < MaxAuditLogEntries then |events| + 1 else MaxAuditLogEntries
    ensures r[|r| - 1] == e
    ensures forall i :: 0 <= i < |r| - 1 ==> r[i] == events[|events| - |r| + 1 + i]
  {
    AppendCapped(events, e, MaxAuditLogEntries)
  }

  /** Capping after every append keeps exactly the newest 500 of the whole history. */
  lemma CapEachTime<E>(history: seq<E>, e: E)
    ensures AppendEvent(TakeLast(history, MaxAuditLogEntries), e) == TakeLast(history + [e], MaxAuditLogEntries)
  {
    CapBeforeAppend(history, e, MaxAuditLogEntries);
  }
}

=== FILE: development.dfy ===
/**
 * The development page's goal arithmetic: the target of a goal for a year,
 * how a value is formatted, the progress colour bands, the readiness of
 * each year and the summary of achieved and pending goals with the largest
 * gaps. The KPI metrics and the currency formatter are parameters.
 */
module Development {
  import opened Wrappers
  import opened Numbers
  import opened Text
  import opened Lists

  datatype Year = Y2025 | Y2026 | Y2027

  const Years: seq<Year> := [Y2025, Y2026, Y2027]

  datatype GoalType = Monthly | Yearly

  datatype Goal = Goal(
    id: string,
    goalType: GoalType,
    category: Option<string>,
    currentValue: Option<real>,
    target2025: Option<real>,
    target2026: Option<real>,
    target2027: Option<real>)

  /** The KPI figures yearly goals of the known categories are measured against. */
  datatype Metrics = Metrics(
    totalTenders: real,
    totalProjects: real,
    totalRevenueMillions: real,
    totalProfitMillions: real,
    averageProgress: real)

  /** A goal's target for a year; a missing target reads as 0. */
  function TargetForYear(goal: Goal, year: Year): (r: real)
    ensures year == Y2025 ==> r == goal.target2025.GetOr(0.0)
    ensures year == Y2026 ==> r == goal.target2026.GetOr(0.0)
    ensures year == Y2027 ==> r == goal.target2027.GetOr(0.0)
  {
    var field := match year
      case Y2025 => goal.target2025
      case Y2026 => goal.target2026
      case Y2027 => goal.target2027;
    field.GetOr(0.0)
  }

  /** Setting one year's target leaves the other years' targets alone. */
  lemma TargetsIndependent(goal: Goal, v: real)
    ensures TargetForYear(goal.(target2026 := Some(v)), Y2026) == v
    ensures TargetForYear(goal.(target2026 := Some(v)), Y2025) == TargetForYear(goal, Y2025)
    ensures TargetForYear(goal.(target2026 := Some(v)), Y2027) == TargetForYear(goal, Y2027)
  {
  }

  /** The goal categories a yearly goal reads from the KPI metrics. */
  const KpiCategories: set<string> := {"tenders", "projects", "revenue", "profit", "performance"}

  /**
   * The measured value of a goal: yearly goals of the five known categories
   * read the KPI metrics, every other goal its own current value (0 when
   * it has none).
   */
  function ActualValue(metrics: Metrics, goal: Goal): (r: real)
    ensures goal.goalType == Monthly ==> r == goal.currentValue.GetOr(0.0)
    ensures goal.category.None? ==> r == goal.currentValue.GetOr(0.0)
    ensures goal.category.Some? && goal.category.value !in KpiCategories ==> r == goal.currentValue.GetOr(0.0)
    ensures goal.goalType == Yearly && goal.category == Some("tenders") ==> r == metrics.totalTenders
    ensures goal.goalType == Yearly && goal.category == Some("projects") ==> r == metrics.totalProjects
    ensures goal.goalType == Yearly && goal.category == Some("revenue") ==> r == metrics.totalRevenueMillions
    ensures goal.goalType == Yearly && goal.category == Some("profit") ==> r == metrics.totalProfitMillions
    ensures goal.goalType == Yearly && goal.category == Some("performance") ==> r == metrics.averageProgress
  {
    if goal.goalType == Yearly && goal.category.Some? then
      var c := goal.category.value;
      if c == "tenders" then metrics.totalTenders
      else if c == "projects" then metrics.totalProjects
      else if c == "revenue" then metrics.totalRevenueMillions
      else if c == "profit" then metrics.totalProfitMillions
      else if c == "performance" then metrics.averageProgress
      else goal.currentValue.GetOr(0.0)
    else goal.currentValue.GetOr(0.0)
  }
  /** A yearly goal in a KPI category is measured by the metrics alone: its own current value is ignored. */
  lemma YearlyKpiIgnoresCurrentValue(metrics: Metrics, goal: Goal, v: Option<real>)
    requires goal.goalType == Yearly && goal.category.Some? && goal.category.value in KpiCategories
    ensures ActualValue(metrics, goal.(currentValue := v)) == ActualValue(metrics, goal)
  {
  }


  // ------------------------------------------------------------ formatting

  /** `value` written for its unit: currency by the formatter, percentages with a `%`. */
  function FormatValue(value: real, unit: string, formatCurrency: real -> string): (r: string)
    ensures unit == "currency" ==> r == formatCurrency(value)
    ensures unit == "percentage" ==> r == NumText(Fin(value)) + "%"
    ensures unit != "currency" && unit != "percentage" ==> r == NumText(Fin(value))
  {
    if unit == "currency" then formatCurrency(value)
    else if unit == "percentage" then NumText(Fin(value)) + "%"
    else NumText(Fin(value))
  }

  /** A whole number shown as a plain number reads back as itself. */
  lemma FormattedNumberReadsBack(i: int, formatCurrency: real -> string)
    ensures StringToNumber(FormatValue(i as real, "number", formatCurrency)) == Fin(i as real)
  {
    IntNumTextRoundTrip(i);
  }

  datatype ProgressColor = Destructive | Warning | Primary | Done

  /** The bar colour: 100 and above, 80, 60, and below 60. */
  function ResolveProgressColor(value: real): (r: ProgressColor)
    ensures r == Done <==> value >= 100.0
    ensures r == Primary <==> 80.0 <= value < 100.0
    ensures r == Warning <==> 60.0 <= value < 80.0
    ensures r == Destructive <==> value < 60.0
  {
    if value >= 100.0 then Done
    else if value >= 80.0 then Primary
    else if value >= 60.0 then Warning
    else Destructive
  }

  function ColorRank(c: ProgressColor): nat {
    match c
    case Destructive => 0
    case Warning => 1
    case Primary => 2
    case Done => 3
  }

  /** More progress never gives a worse colour. */
  lemma ColorMonotone(v: real, w: real)
    requires v <= w
    ensures ColorRank(ResolveProgressColor(v)) <= ColorRank(ResolveProgressColor(w))
  {
  }

  // ------------------------------------------------------------- readiness

  /**
   * One goal's share of a year's readiness: the ratio of actual to target
   * clamped to [0, 1], or, without a positive target, 1 exactly when
   * something was achieved.
   */
  function Share(target: real, actual: real): (r: real)
    ensures 0.0 <= r <= 1.0
    ensures target <= 0.0 ==> (r == 1.0 <==> actual > 0.0) && (r == 0.0 <==> actual <= 0.0)
    ensures target > 0.0 && actual >= target ==> r == 1.0
    ensures target > 0.0 && actual <= 0.0 ==> r == 0.0
  {
    if target <= 0.0 then (if actual > 0.0 then 1.0 else 0.0)
    else
      RatioBounds(actual, target);
      Min(Max(actual / target, 0.0), 1.0)
  }

  lemma RatioBounds(a: real, d: real)
    requires d > 0.0
    ensures a >= d ==> a / d >= 1.0
    ensures a <= 0.0 ==> a / d <= 0.0
  {
    if a >= d {
      MulMonotone(d, 1.0, a / d);
    }
  }

  function ShareSum(metrics: Metrics, goals: seq<Goal>, year: Year): (r: real)
    ensures 0.0 <= r <= |goals| as real
  {
    if goals == [] then 0.0
    else
      var last := goals[|goals| - 1];
      ShareSum(metrics, goals[..|goals| - 1], year) + Share(TargetForYear(last, year), ActualValue(metrics, last))
  }

  /** A year's readiness in percent: the mean share, rounded; 0 without goals. */
  function YearReadiness(metrics: Metrics, goals: seq<Goal>, year: Year): (r: int)
    ensures 0 <= r <= 100
    ensures goals == [] ==> r == 0
  {
    if goals == [] then 0
    else
      var mean := ShareSum(metrics, goals, year) / |goals| as real;
      QuotientBounds(ShareSum(metrics, goals, year), |goals| as real, 1.0);
      RoundWithin(mean * 100.0, 0, 100);
      Round(mean * 100.0)
  }

  /** Every goal that met a positive target makes the year fully ready. */
  lemma {:induction false} AllMetFullyReady(metrics: Metrics, goals: seq<Goal>, year: Year)
    requires goals != []
    requires forall i :: 0 <= i < |goals| ==>
      TargetForYear(goals[i], year) > 0.0 && ActualValue(metrics, goals[i]) >= TargetForYear(goals[i], year)
    ensures YearReadiness(metrics, goals, year) == 100
  {
    AllMetShareSum(metrics, goals, year);
    FullMean(ShareSum(metrics, goals, year), |goals| as real);
  }

  lemma FullMean(sum: real, n: real)
    requires n > 0.0 && sum == n
    ensures Round(sum / n * 100.0) == 100
  {
    assert sum / n == 1.0;
    RoundUnique(100.0, 100);
  }

  lemma {:induction false} AllMetShareSum(metrics: Metrics, goals: seq<Goal>, year: Year)
    requires forall i :: 0 <= i < |goals| ==>
      TargetForYear(goals[i], year) > 0.0 && ActualValue(metrics, goals[i]) >= TargetForYear(goals[i], year)
    ensures ShareSum(metrics, goals, year) == |goals| as real
  {
    if goals != [] {
      var init := goals[..|goals| - 1];
      assert forall i :: 0 <= i < |init| ==> init[i] == goals[i];
      AllMetShareSum(metrics, init, year);
    }
  }

  /** The readiness of each of the three years. */
  function YearProgressMap(metrics: Metrics, goals: seq<Goal>): (r: map<Year, int>)
    ensures r.Keys == {Y2025, Y2026, Y2027}
    ensures forall y :: y in r ==> 0 <= r[y] <= 100 && r[y] == YearReadiness(metrics, goals, y)
  {
    map y | y in {Y2025, Y2026, Y2027} :: YearReadiness(metrics, goals, y)
  }

  // --------------------------------------------------------------- summary

  /** A goal is achieved when it met its positive target, or achieved anything without one. */
  predicate Achieved(target: real, actual: real) {
    var t := if target > 0.0 then target else 0.0;
    (t > 0.0 && actual >= t) || (t == 0.0 && actual > 0.0)
  }

  /** The clamped progress the summary averages. */
  function Progress(target: real, actual: real): (r: real)
    ensures 0.0 <= r <= 1.0
    ensures Achieved(target, actual) ==> r == 1.0
  {
    var t := if target > 0.0 then target else 0.0;
    var p := if t > 0.0 then (RatioBounds(actual, t); actual / t) else if actual > 0.0 then 1.0 else 0.0;
    Max(0.0, Min(p, 1.0))
  }

  /** The summary's progress of a goal is its readiness share. */
  lemma ProgressIsShare(target: real, actual: real)
    ensures Progress(target, actual) == Share(target, actual)
  {
  }

  datatype PendingGoal = PendingGoal(goal: Goal, gap: real, target: real)

  function PendingOf(metrics: Metrics, goal: Goal, year: Year): PendingGoal {
    var target := TargetForYear(goal, year);
    var t := if target > 0.0 then target else 0.0;
    PendingGoal(goal, Max(t - ActualValue(metrics, goal), 0.0), t)
  }

  predicate IsAchieved(metrics: Metrics, year: Year, goal: Goal) {
    Achieved(TargetForYear(goal, year), ActualValue(metrics, goal))
  }

  /** The goals not yet achieved with their gaps, in the goals' order. */
  function Pending(metrics: Metrics, goals: seq<Goal>, year: Year): (r: seq<PendingGoal>)
    ensures |r| <= |goals|
    ensures forall p :: p in r ==> p.gap >= 0.0 && p.target >= 0.0 && p.goal in goals && !IsAchieved(metrics, year, p.goal)
  {
    if goals == [] then []
    else
      var last := goals[|goals| - 1];
      var init := Pending(metrics, goals[..|goals| - 1], year);
      if IsAchieved(metrics, year, last) then init else init + [PendingOf(metrics, last, year)]
  }

  function AchievedCount(metrics: Metrics, goals: seq<Goal>, year: Year): (n: nat)
    ensures n <= |goals|
  {
    if goals == [] then 0
    else
      AchievedCount(metrics, goals[..|goals| - 1], year) +
      (if IsAchieved(metrics, year, goals[|goals| - 1]) then 1 else 0)
  }

  /** Every goal is either achieved or pending, never both. */
  lemma {:induction false} AchievedOrPending(metrics: Metrics, goals: seq<Goal>, year: Year)
    ensures AchievedCount(metrics, goals, year) + |Pending(metrics, goals, year)| == |goals|
  {
    if goals != [] {
      AchievedOrPending(metrics, goals[..|goals| - 1], year);
    }
  }

  function ProgressSum(metrics: Metrics, goals: seq<Goal>, year: Year): (r: real)
    ensures 0.0 <= r <= |goals| as real
  {
    if goals == [] then 0.0
    else
      var last := goals[|goals| - 1];
      ProgressSum(metrics, goals[..|goals| - 1], year) + Progress(TargetForYear(last, year), ActualValue(metrics, last))
  }

  predicate IsMonthly(g: Goal) {
    g.goalType == Monthly
  }

  /** The number of monthly goals, counted from the back: the `filter(...).length` of the page. */
  function MonthlyCount(goals: seq<Goal>): (n: nat)
    ensures n <= |goals|
  {
    if goals == [] then 0
    else MonthlyCount(goals[..|goals| - 1]) + (if goals[|goals| - 1].goalType == Monthly then 1 else 0)
  }

  /** Counting monthly goals from the back agrees with counting them with the shared list count. */
  lemma {:induction false} MonthlyCountIsCount(goals: seq<Goal>)
    ensures MonthlyCount(goals) == Count(goals, IsMonthly)
  {
    if goals != [] {
      var init := goals[..|goals| - 1];
      MonthlyCountIsCount(init);
      assert goals == init + [goals[|goals| - 1]];
      CountSnoc(init, goals[|goals| - 1], IsMonthly);
    }
  }

  function Gap(p: PendingGoal): real {
    p.gap
  }

  predicate HasTarget(p: PendingGoal) {
    p.target > 0.0
  }

  /** The pending goals with positive targets, largest gap first. */
  function GapOrder(pending: seq<PendingGoal>): seq<PendingGoal> {
    SortDesc(Filter(pending, HasTarget), Gap)
  }

  /** Goals with equal gaps keep the order in which they are pending. */
  lemma GapOrderTies(pending: seq<PendingGoal>, v: real)
    ensures Filter(GapOrder(pending), KeyIs(Gap, v)) == Filter(Filter(pending, HasTarget), KeyIs(Gap, v))
  {
    SortDescStable(Filter(pending, HasTarget), Gap, v);
  }

  /** The three pending goals with positive targets and the largest gaps. */
  function TopGaps(pending: seq<PendingGoal>): (r: seq<PendingGoal>)
    ensures |r| == if |GapOrder(pending)| <= 3 then |GapOrder(pending)| else 3
    ensures SortedDesc(r, Gap)
    ensures forall i :: 0 <= i < |r| ==> r[i] == GapOrder(pending)[i]
  {
    var order := GapOrder(pending);
    var r := TakeFirst(order, 3);
    assert forall i, j :: 0 <= i < j < |r| ==> Gap(r[i]) == Gap(order[i]) && Gap(r[j]) == Gap(order[j]);
    r
  }

  /** What is listed is pending and has a positive target. */
  lemma TopGapsQualify(pending: seq<PendingGoal>, p: PendingGoal)
    requires p in TopGaps(pending)
    ensures p in pending && HasTarget(p)
  {
    var order := GapOrder(pending);
    var i :| 0 <= i < |TopGaps(pending)| && TopGaps(pending)[i] == p;
    assert order[i] in multiset(order);
  }

  /**
   * Nothing left out has a larger gap: a pending goal with a positive target
   * that is not listed trails every listed one.
   */
  lemma TopGapsLargest(pending: seq<PendingGoal>, p: PendingGoal)
    requires p in pending && HasTarget(p) && p !in TopGaps(pending)
    ensures |TopGaps(pending)| == 3
    ensures forall j :: 0 <= j < 3 ==> TopGaps(pending)[j].gap >= p.gap
  {
    var order := GapOrder(pending);
    var r := TopGaps(pending);
    assert p in Filter(pending, HasTarget);
    assert p in multiset(order);
    var k :| 0 <= k < |order| && order[k] == p;
    assert forall i :: 0 <= i < |r| ==> order[i] == r[i] && r[i] in r;
    assert k >= 3;
  }

  /** `total ? part / total : 0` for a part of at most the whole. */
  function Ratio(part: real, total: nat): (r: real)
    requires 0.0 <= part <= total as real
    ensures 0.0 <= r <= 1.0
    ensures total == 0 ==> r == 0.0
    ensures total > 0 && part == total as real ==> r == 1.0
  {
    if total > 0 then
      QuotientBounds(part, total as real, 1.0);
      if part == total as real then SelfQuotient(part); part / total as real
      else part / total as real
    else 0.0
  }

  lemma SelfQuotient(w: real)
    requires w > 0.0
    ensures w / w == 1.0
  {
  }

  datatype Summary = Summary(
    totalGoals: nat,
    achievedGoals: nat,
    pendingGoals: nat,
    monthlyGoals: nat,
    yearlyGoals: nat,
    averageProgress: real,
    completionRate: real,
    topGaps: seq<PendingGoal>)

  /** The page's summary of the goals for the selected year. */
  function Summarize(metrics: Metrics, goals: seq<Goal>, year: Year): (r: Summary)
    ensures r.totalGoals == |goals| && r.achievedGoals <= r.totalGoals
    ensures r.pendingGoals == r.totalGoals - r.achievedGoals == |Pending(metrics, goals, year)|
    ensures r.monthlyGoals + r.yearlyGoals == r.totalGoals
    ensures r.monthlyGoals == MonthlyCount(goals) == Count(goals, IsMonthly)
    ensures 0.0 <= r.averageProgress <= 1.0 && 0.0 <= r.completionRate <= 1.0
    ensures goals == [] ==> r.averageProgress == 0.0 && r.completionRate == 0.0
    ensures goals != [] ==> r.averageProgress == ProgressSum(metrics, goals, year) / |goals| as real
    ensures goals != [] ==> r.completionRate == r.achievedGoals as real / |goals| as real
    ensures r.achievedGoals == AchievedCount(metrics, goals, year)
    ensures r.topGaps == TopGaps(Pending(metrics, goals, year))
  {
    var total := |goals|;
    var achieved := AchievedCount(metrics, goals, year);
    var pending := Pending(metrics, goals, year);
    AchievedOrPending(metrics, goals, year);
    var monthly := MonthlyCount(goals);
    MonthlyCountIsCount(goals);
    var average := Ratio(ProgressSum(metrics, goals, year), total);
    var rate := Ratio(achieved as real, total);
    Summary(total, achieved, if total - achieved > 0 then total - achieved else 0, monthly, total - monthly,
      average, rate, TopGaps(pending))
  }
}

=== FILE: expenses.dfy ===
/**
 * The expense management screen's logic: coercing stored ids onto the
 * expense catalogue, reading the amount field, validating and building an
 * expense on submit, filtering the list and computing its statistics. The
 * catalogue of frequencies, payment methods and payment statuses lives in a
 * data file outside this model and is a `Catalogue` record here; the
 * category lookup, the clock, the id generator and the per-frequency amount
 * calculation are parameters.
 */
module Expenses {
  import opened Wrappers
  import opened Numbers
  import opened Text
  import opened Lists

  /** The payment status ids the statistics distinguish. */
  datatype StatusIds = StatusIds(pending: string, completed: string, overdue: string, cancelled: string)

  datatype Catalogue = Catalogue(
    frequencyIds: seq<string>,
    methodIds: seq<string>,
    statusIds: seq<string>,
    monthly: string,
    cash: string,
    status: StatusIds)

  /**
   * The defaults are catalogue entries, and the statuses are exactly four
   * distinct ids.
   */
  predicate WellFormed(cat: Catalogue) {
    cat.monthly in cat.frequencyIds && cat.cash in cat.methodIds &&
    cat.statusIds == [cat.status.pending, cat.status.completed, cat.status.overdue, cat.status.cancelled] &&
    NoDuplicates(cat.statusIds)
  }

  /** A known id is kept, anything else becomes the default. */
  function Coerce(ids: seq<string>, default: string, value: string): (r: string)
    ensures value in ids ==> r == value
    ensures value !in ids ==> r == default
  {
    if value in ids then value else default
  }

  /** A coerced id is always a catalogue id, and coercing twice changes nothing. */
  lemma CoerceKnown(ids: seq<string>, default: string, value: string)
    requires default in ids
    ensures Coerce(ids, default, value) in ids
    ensures Coerce(ids, default, Coerce(ids, default, value)) == Coerce(ids, default, value)
  {
  }

  function CoerceFrequency(cat: Catalogue, value: string): string {
    Coerce(cat.frequencyIds, cat.monthly, value)
  }

  function CoerceMethod(cat: Catalogue, value: string): string {
    Coerce(cat.methodIds, cat.cash, value)
  }

  function CoerceStatus(cat: Catalogue, value: string): string {
    Coerce(cat.statusIds, cat.status.pending, value)
  }

  // --------------------------------------------------------------- amount

  /** The amount field: blank text and text parseFloat cannot read are 0. */
  function ParseAmountField(value: string): (r: Num)
    ensures !r.NaN?
    ensures IsBlank(value) ==> r == Fin(0.0)
    ensures !IsBlank(value) && ParseFloat(Trim(value)).NaN? ==> r == Fin(0.0)
    ensures !IsBlank(value) && !ParseFloat(Trim(value)).NaN? ==> r == ParseFloat(Trim(value))
  {
    var trimmed := Trim(value);
    if trimmed == "" then Fin(0.0)
    else
      var n := ParseFloat(trimmed);
      if n.NaN? then Fin(0.0) else n
  }

  lemma DigitNotSpace(c: char)
    requires IsDigit(c)
    ensures !IsSpace(c)
  {
  }

  lemma IntTextNoOuterSpace(i: int)
    ensures var t := IntText(i); !IsSpace(t[0]) && !IsSpace(t[|t| - 1])
  {
    var t := IntText(i);
    var d := NatText(if i < 0 then -i else i);
    assert t[|t| - 1] == d[|d| - 1];
    DigitNotSpace(d[|d| - 1]);
    if i >= 0 {
      DigitNotSpace(d[0]);
    }
  }

  /** An amount typed as a whole number reads back as that number. */
  lemma WholeAmountRead(i: int)
    ensures ParseAmountField(IntText(i)) == Fin(i as real)
  {
    IntTextRoundTrip(i);
    IntTextNoOuterSpace(i);
    TrimNoOuterSpace(IntText(i));
  }

  // --------------------------------------------------------------- submit

  const NoProject: string := "no_project"
  const NoSupplier: string := "no_supplier"
  const AllProjects: string := "all_projects"

  /** A project is selected when the selection is neither the placeholder nor blank. */
  predicate IsProjectSelectionValid(value: string) {
    value != NoProject && !IsBlank(value)
  }

  datatype FormTab = AdministrativeForm | ProjectForm

  datatype Form = Form(
    title: string,
    description: string,
    amount: string,
    categoryId: string,
    subcategoryId: string,
    frequency: string,
    paymentMethod: string,
    paymentStatus: string,
    dueDate: string,
    projectId: string,
    supplierId: string)

  /** The form a new expense starts from. */
  function InitialForm(cat: Catalogue): Form {
    Form("", "", "", "", "", cat.monthly, cat.cash, cat.status.pending, "", NoProject, NoSupplier)
  }

  datatype Expense = Expense(
    id: string,
    title: string,
    description: Option<string>,
    amount: Num,
    categoryId: string,
    subcategoryId: Option<string>,
    frequency: string,
    paymentMethod: string,
    paymentStatus: string,
    dueDate: Option<string>,
    paidDate: Option<string>,
    projectId: Option<string>,
    isAdministrative: bool,
    createdAt: string,
    updatedAt: string)

  /** The project an expense is booked against: only project forms with a selection keep one. */
  function ProjectOf(tab: FormTab, selection: string): (r: Option<string>)
    ensures r.Some? ==> r.value == selection && IsProjectSelectionValid(selection)
    ensures r.None? <==> tab.AdministrativeForm? || !IsProjectSelectionValid(selection)
  {
    if tab.ProjectForm? && IsProjectSelectionValid(selection) then Some(selection) else None
  }

  /** Administrative expenses and the untouched placeholder never carry a project. */
  lemma NoProjectWithoutSelection(cat: Catalogue, tab: FormTab, selection: string)
    ensures ProjectOf(AdministrativeForm, selection) == None
    ensures ProjectOf(tab, InitialForm(cat).projectId) == None
  {
  }

  function EmptyAsNone(s: string): (r: Option<string>)
    ensures r.None? <==> s == ""
    ensures r.Some? ==> r.value == s
  {
    if s == "" then None else Some(s)
  }

  /** The form an expense is submitted from: an edited expense keeps its own kind, a new one takes the open tab. */
  function FormTypeOf(editing: Option<Expense>, tab: FormTab): (r: FormTab)
    ensures editing.Some? ==> (r == AdministrativeForm <==> editing.value.isAdministrative)
    ensures editing.None? ==> r == tab
  {
    match editing
    case Some(e) => if e.isAdministrative then AdministrativeForm else ProjectForm
    case None => tab
  }

  datatype SubmitError = MissingFields | InvalidCategory

  /**
   * The clock and the id generator: today's date, the current time stamp
   * and a fresh id.
   */
  datatype Clock = Clock(today: string, now: string, freshId: string)

  /**
   * Submitting the form. The title, amount and category must not be blank
   * and the category must exist (`categories` gives whether it is
   * administrative). An edited expense keeps its id, creation time and
   * form type.
   */
  function Submit(
    cat: Catalogue, categories: string -> Option<bool>, editing: Option<Expense>,
    tab: FormTab, form: Form, clock: Clock): (r: Result<Expense, SubmitError>)
    ensures r == Failure(MissingFields) <==> IsBlank(form.title) || IsBlank(form.amount) || IsBlank(form.categoryId)
    ensures r == Failure(InvalidCategory) <==>
      !IsBlank(form.title) && !IsBlank(form.amount) && !IsBlank(form.categoryId) && categories(form.categoryId).None?
    ensures r.Success? ==> var e := r.value;
      e.title == Trim(form.title) && e.title != "" &&
      e.amount == ParseAmountField(form.amount) && !e.amount.NaN? &&
      e.categoryId == form.categoryId &&
      e.isAdministrative == categories(form.categoryId).value &&
      e.paymentStatus == CoerceStatus(cat, form.paymentStatus) &&
      e.frequency == CoerceFrequency(cat, form.frequency) &&
      e.paymentMethod == CoerceMethod(cat, form.paymentMethod) &&
      (e.paidDate.Some? <==> e.paymentStatus == cat.status.completed) &&
      (e.projectId.Some? ==> IsProjectSelectionValid(form.projectId) && e.projectId.value == form.projectId)
    ensures r.Success? && editing.Some? ==>
      r.value.id == editing.value.id && r.value.createdAt == editing.value.createdAt &&
      (r.value.projectId.Some? ==> !editing.value.isAdministrative)
    ensures r.Success? && editing.None? ==>
      r.value.id == clock.freshId && (r.value.projectId.Some? ==> tab == ProjectForm)
  {
    var title := Trim(form.title);
    if title == "" || IsBlank(form.amount) || IsBlank(form.categoryId) then Failure(MissingFields)
    else match categories(form.categoryId)
      case None => Failure(InvalidCategory)
      case Some(isAdministrative) =>
        var formType := FormTypeOf(editing, tab);
        var status := CoerceStatus(cat, form.paymentStatus);
        Success(Expense(
          if editing.Some? then editing.value.id else clock.freshId,
          title,
          EmptyAsNone(Trim(form.description)),
          ParseAmountField(form.amount),
          form.categoryId,
          EmptyAsNone(form.subcategoryId),
          CoerceFrequency(cat, form.frequency),
          CoerceMethod(cat, form.paymentMethod),
          status,
          EmptyAsNone(form.dueDate),
          if status == cat.status.completed then Some(clock.today) else None,
          ProjectOf(formType, form.projectId),
          isAdministrative,
          if editing.Some? then editing.value.createdAt else clock.now,
          clock.now))
  }

  /**
   * The remaining fields of a submitted expense: the project the form type
   * and selection allow, the trimmed description, the subcategory and due
   * date with empty text as absent, today's date as the payment date of a
   * completed expense, and the current time as the update time (and as the
   * creation time of a new expense).
   */
  lemma SubmitRecordsForm(
    cat: Catalogue, categories: string -> Option<bool>, editing: Option<Expense>,
    tab: FormTab, form: Form, clock: Clock)
    ensures Submit(cat, categories, editing, tab, form, clock).Success? ==>
      var e := Submit(cat, categories, editing, tab, form, clock).value;
      e.projectId == ProjectOf(FormTypeOf(editing, tab), form.projectId)
      && e.description == EmptyAsNone(Trim(form.description))
      && e.subcategoryId == EmptyAsNone(form.subcategoryId)
      && e.dueDate == EmptyAsNone(form.dueDate)
      && (e.paymentStatus == cat.status.completed ==> e.paidDate == Some(clock.today))
      && e.updatedAt == clock.now
      && (editing.None? ==> e.createdAt == clock.now)
  {
  }

  /** A submitted expense's statuses are catalogue ids, whatever the form held. */
  lemma SubmittedIdsKnown(
    cat: Catalogue, categories: string -> Option<bool>, editing: Option<Expense>,
    tab: FormTab, form: Form, clock: Clock)
    requires WellFormed(cat)
    ensures Submit(cat, categories, editing, tab, form, clock).Success? ==>
      var e := Submit(cat, categories, editing, tab, form, clock).value;
      e.paymentStatus in cat.statusIds && e.frequency in cat.frequencyIds && e.paymentMethod in cat.methodIds
  {
    assert cat.status.pending in cat.statusIds;
  }

  // --------------------------------------------------------------- filter

  /** The search (already trimmed and lower-cased) matches the title or the description. */
  predicate SearchMatches(search: string, e: Expense) {
    search == "" || Contains(Lower(e.title), search) ||
    (e.description.Some? && Contains(Lower(e.description.value), search))
  }

  predicate ProjectMatches(selected: string, e: Expense) {
    selected == AllProjects || e.projectId == Some(selected)
  }

  /**
   * The expenses of one kind (administrative or project) that match the
   * search and the selected project.
   */
  function FilterExpenses(expenses: seq<Expense>, administrative: bool, searchTerm: string, selected: string): (r: seq<Expense>)
    ensures forall e :: e in r <==>
      e in expenses && e.isAdministrative == administrative &&
      SearchMatches(Lower(Trim(searchTerm)), e) && ProjectMatches(selected, e)
  {
    var search := Lower(Trim(searchTerm));
    Filter(expenses, (e: Expense) => e.isAdministrative == administrative && SearchMatches(search, e) && ProjectMatches(selected, e))
  }

  /** With no search and all projects selected, every expense of the kind is listed, in order. */
  lemma {:induction false} UnfilteredKeepsKind(expenses: seq<Expense>, administrative: bool, searchTerm: string)
    requires IsBlank(searchTerm)
    ensures FilterExpenses(expenses, administrative, searchTerm, AllProjects) ==
      Filter(expenses, (e: Expense) => e.isAdministrative == administrative)
  {
    assert Lower(Trim(searchTerm)) == "";
    FilterSame(expenses,
      (e: Expense) => e.isAdministrative == administrative && SearchMatches("", e) && ProjectMatches(AllProjects, e),
      (e: Expense) => e.isAdministrative == administrative);
  }

  lemma {:induction false} FilterSame(s: seq<Expense>, p: Expense -> bool, q: Expense -> bool)
    requires forall e :: p(e) == q(e)
    ensures Filter(s, p) == Filter(s, q)
  {
    if |s| > 0 {
      FilterSame(s[1..], p, q);
    }
  }

  // ---------------------------------------------------------------- stats

  datatype Stats = Stats(
    totalExpenses: nat,
    totalAmount: Num,
    completedAmount: Num,
    pendingAmount: Num,
    overdueAmount: Num,
    monthlyTotal: Num,
    annualTotal: Num)

  datatype Bucket = Completed | Pending | Overdue | Excluded

  /** Which total an expense adds to, after its status is coerced. */
  function BucketOf(cat: Catalogue, e: Expense): Bucket {
    var id := CoerceStatus(cat, e.paymentStatus);
    if id == cat.status.completed then Completed
    else if id == cat.status.pending then Pending
    else if id == cat.status.overdue then Overdue
    else Excluded
  }

  /** Only cancelled expenses are left out of the three status totals. */
  lemma ExcludedIsCancelled(cat: Catalogue, e: Expense)
    requires WellFormed(cat)
    ensures BucketOf(cat, e) == Excluded <==> CoerceStatus(cat, e.paymentStatus) == cat.status.cancelled
  {
    assert cat.status.pending in cat.statusIds;
    var ids := cat.statusIds;
    assert ids[3] != ids[0] && ids[3] != ids[1] && ids[3] != ids[2];
  }

  const NoStats := Stats(0, Fin(0.0), Fin(0.0), Fin(0.0), Fin(0.0), Fin(0.0), Fin(0.0))

  /**
   * `amounts(amount, frequency)` is the monthly and annual equivalent of an
   * amount, computed outside this model.
   */
  function AddExpense(cat: Catalogue, amounts: (Num, string) -> (Num, Num), s: Stats, e: Expense): Stats {
    var bucket := BucketOf(cat, e);
    var a := amounts(e.amount, CoerceFrequency(cat, e.frequency));
    Stats(
      s.totalExpenses + 1,
      AddNum(s.totalAmount, e.amount),
      if bucket == Completed then AddNum(s.completedAmount, e.amount) else s.completedAmount,
      if bucket == Pending then AddNum(s.pendingAmount, e.amount) else s.pendingAmount,
      if bucket == Overdue then AddNum(s.overdueAmount, e.amount) else s.overdueAmount,
      AddNum(s.monthlyTotal, a.0),
      AddNum(s.annualTotal, a.1))
  }

  /** The statistics of a list, accumulated in order. */
  function StatsOf(cat: Catalogue, amounts: (Num, string) -> (Num, Num), expenses: seq<Expense>): (r: Stats)
    ensures r.totalExpenses == |expenses|
  {
    if expenses == [] then NoStats
    else AddExpense(cat, amounts, StatsOf(cat, amounts, expenses[..|expenses| - 1]), expenses[|expenses| - 1])
  }

  /** The statistics shown for one tab: those of the filtered list. */
  function CalculateStats(
    cat: Catalogue, amounts: (Num, string) -> (Num, Num), expenses: seq<Expense>,
    administrative: bool, searchTerm: string, selected: string): (r: Stats)
    ensures r.totalExpenses == |FilterExpenses(expenses, administrative, searchTerm, selected)|
  {
    StatsOf(cat, amounts, FilterExpenses(expenses, administrative, searchTerm, selected))
  }

  predicate AllFinite(expenses: seq<Expense>) {
    forall i :: 0 <= i < |expenses| ==> expenses[i].amount.Fin?
  }

  /** The total of the amounts in one bucket. */
  function BucketSum(cat: Catalogue, expenses: seq<Expense>, b: Bucket): real
    requires AllFinite(expenses)
  {
    if expenses == [] then 0.0
    else
      var last := expenses[|expenses| - 1];
      BucketSum(cat, expenses[..|expenses| - 1], b) + (if BucketOf(cat, last) == b then last.amount.v else 0.0)
  }

  /**
   * With finite amounts the four buckets partition the total: completed,
   * pending and overdue are disjoint, and what they miss is the excluded
   * (cancelled) amount.
   */
  lemma {:induction false} StatsPartition(cat: Catalogue, amounts: (Num, string) -> (Num, Num), expenses: seq<Expense>)
    requires AllFinite(expenses)
    ensures var s := StatsOf(cat, amounts, expenses);
      s.totalAmount.Fin? && s.completedAmount.Fin? && s.pendingAmount.Fin? && s.overdueAmount.Fin? &&
      s.completedAmount.v == BucketSum(cat, expenses, Completed) &&
      s.pendingAmount.v == BucketSum(cat, expenses, Pending) &&
      s.overdueAmount.v == BucketSum(cat, expenses, Overdue) &&
      s.totalAmount.v == s.completedAmount.v + s.pendingAmount.v + s.overdueAmount.v + BucketSum(cat, expenses, Excluded)
  {
    if expenses != [] {
      var init := expenses[..|expenses| - 1];
      assert AllFinite(init) by {
        assert forall i :: 0 <= i < |init| ==> init[i] == expenses[i];
      }
      StatsPartition(cat, amounts, init);
      assert expenses[|expenses| - 1].amount.Fin?;
    }
  }

  lemma {:induction false} BucketSumNonNegative(cat: Catalogue, expenses: seq<Expense>, b: Bucket)
    requires AllFinite(expenses)
    requires forall i :: 0 <= i < |expenses| ==> expenses[i].amount.v >= 0.0
    ensures BucketSum(cat, expenses, b) >= 0.0
  {
    if expenses != [] {
      var init := expenses[..|expenses| - 1];
      assert forall i :: 0 <= i < |init| ==> init[i] == expenses[i];
      BucketSumNonNegative(cat, init, b);
    }
  }

  /** With non-negative amounts the three status totals never exceed the total. */
  lemma StatusTotalsBounded(cat: Catalogue, amounts: (Num, string) -> (Num, Num), expenses: seq<Expense>)
    requires AllFinite(expenses)
    requires forall i :: 0 <= i < |expenses| ==> expenses[i].amount.v >= 0.0
    ensures var s := StatsOf(cat, amounts, expenses);
      s.totalAmount.Fin? && s.completedAmount.Fin? && s.pendingAmount.Fin? && s.overdueAmount.Fin? &&
      s.completedAmount.v + s.pendingAmount.v + s.overdueAmount.v <= s.totalAmount.v
  {
    StatsPartition(cat, amounts, expenses);
    BucketSumNonNegative(cat, expenses, Excluded);
  }
}

=== FILE: js.dfy ===
/**
 * The dynamically typed values the application receives from storage, IPC
 * and loosely typed records, with the JavaScript conversions the code relies
 * on: truthiness, strict equality, `typeof`, `String(v)`, `Number(v)`,
 * own-property lookup and `JSON.stringify`.
 */
module Js {
  import opened Wrappers
  import opened Text
  import opened Numbers

  /**
   * A JavaScript value. An object is the ordered list of its own enumerable
   * properties, in `Object.entries` order.
   */
  datatype JsValue =
    | Undefined
    | Null
    | Bool(b: bool)
    | Number(n: Num)
    | Str(s: string)
    | Arr(items: seq<JsValue>)
    | Obj(fields: seq<(string, JsValue)>)

  /** `!!v`. */
  predicate Truthy(v: JsValue) {
    match v
    case Undefined => false
    case Null => false
    case Bool(b) => b
    case Number(n) => n.Inf? || (n.Fin? && n.v != 0.0)
    case Str(s) => s != ""
    case Arr(_) => true
    case Obj(_) => true
  }

  /** `v === undefined || v === null`: the values `??` skips. */
  predicate IsNullish(v: JsValue) {
    v.Undefined? || v.Null?
  }

  /** `typeof v`. */
  function TypeOf(v: JsValue): (r: string)
    ensures r == "object" <==> v.Null? || v.Arr? || v.Obj?
  {
    match v
    case Undefined => "undefined"
    case Null => "object"
    case Bool(_) => "boolean"
    case Number(_) => "number"
    case Str(_) => "string"
    case Arr(_) => "object"
    case Obj(_) => "object"
  }

  /** `typeof v === 'object' && v !== null`, arrays included. */
  predicate IsObjectLike(v: JsValue) {
    v.Arr? || v.Obj?
  }

  /** `typeof v === 'number' && Number.isFinite(v)`. */
  predicate IsFiniteNumber(v: JsValue) {
    v.Number? && v.n.Fin?
  }

  /**
   * `a === b`. Two arrays or objects are equal only when they are the same
   * reference; the model has no references, so it never calls them equal.
   */
  predicate StrictEquals(a: JsValue, b: JsValue) {
    match (a, b)
    case (Undefined, Undefined) => true
    case (Null, Null) => true
    case (Bool(x), Bool(y)) => x == y
    case (Number(x), Number(y)) => x == y && !x.NaN?
    case (Str(x), Str(y)) => x == y
    case _ => false
  }

  lemma StrictEqualsSymmetric(a: JsValue, b: JsValue)
    ensures StrictEquals(a, b) == StrictEquals(b, a)
  {
  }

  /** `===` is reflexive on every primitive except NaN. */
  lemma StrictEqualsReflexive(a: JsValue)
    ensures StrictEquals(a, a) <==> !(a.Number? && a.n.NaN?) && !a.Arr? && !a.Obj?
  {
  }

  /**
   * SameValueZero, the equality `Array.prototype.includes` uses: `===`,
   * except that NaN equals NaN.
   */
  predicate SameValueZero(a: JsValue, b: JsValue) {
    StrictEquals(a, b) || (a.Number? && b.Number? && a.n.NaN? && b.n.NaN?)
  }

  /** `items.includes(x)`. */
  predicate Includes(items: seq<JsValue>, x: JsValue) {
    exists i :: 0 <= i < |items| && SameValueZero(items[i], x)
  }

  /** `items.indexOf(x)`: the first position holding a value `===` to `x`, or -1. */
  function IndexOf(items: seq<JsValue>, x: JsValue): (r: int)
    ensures -1 <= r < |items|
    ensures r >= 0 ==> StrictEquals(items[r], x)
    ensures forall j :: 0 <= j < |items| && (r < 0 || j < r) ==> !StrictEquals(items[j], x)
  {
    if |items| == 0 then -1
    else if StrictEquals(items[0], x) then 0
    else
      var rest := IndexOf(items[1..], x);
      if rest < 0 then -1 else rest + 1
  }

  /** `String(v)`. */
  function ToText(v: JsValue): (r: string)
    ensures v.Str? ==> r == v.s
    ensures v.Undefined? ==> r == "undefined"
    ensures v.Null? ==> r == "null"
    decreases v, 1
  {
    match v
    case Undefined => "undefined"
    case Null => "null"
    case Bool(b) => if b then "true" else "false"
    case Number(n) => NumText(n)
    case Str(s) => s
    case Arr(items) => JoinItems(v, items)
    case Obj(_) => "[object Object]"
  }

  /** `items.join(',')`, where `undefined` and `null` elements print as nothing. */
  function JoinItems(parent: JsValue, items: seq<JsValue>): string
    requires parent.Arr? && forall i :: 0 <= i < |items| ==> items[i] < parent
    decreases parent, 0, |items|
  {
    if |items| == 0 then ""
    else
      var head := if IsNullish(items[0]) then "" else ToText(items[0]);
      if |items| == 1 then head else head + "," + JoinItems(parent, items[1..])
  }

  /** `Number(v)`: arrays convert through their text, plain objects give NaN. */
  function ToNumber(v: JsValue): (r: Num)
    ensures v.Number? ==> r == v.n
    ensures v.Undefined? || v.Obj? ==> r.NaN?
    ensures v.Null? ==> r == Fin(0.0)
  {
    match v
    case Undefined => NaN
    case Null => Fin(0.0)
    case Bool(b) => Fin(if b then 1.0 else 0.0)
    case Number(n) => n
    case Str(s) => StringToNumber(s)
    case Arr(_) => StringToNumber(ToText(v))
    case Obj(_) => NaN // the text "[object Object]" is not a numeric literal
  }

  /** A number written with String() reads back with Number() when it is an integer. */
  lemma IntegerTextRoundTrip(i: int)
    ensures ToNumber(Str(ToText(Number(Fin(i as real))))) == Fin(i as real)
  {
    IntNumTextRoundTrip(i);
  }

  /** The canonical array index a property key names, if any (`"0"`, `"17"`, not `"07"`). */
  function IndexKey(key: string): (r: Option<nat>)
    ensures r.Some? ==> NatText(r.value) == key
  {
    if |key| > 0 && AllDigits(key) && (|key| == 1 || key[0] != '0') then
      NatTextOfDigits(key);
      Some(DigitsValue(key))
    else None
  }

  /** Canonical digit strings are the texts of their values. */
  lemma {:induction false} NatTextOfDigits(key: string)
    requires |key| > 0 && AllDigits(key) && (|key| == 1 || key[0] != '0')
    ensures NatText(DigitsValue(key)) == key
    decreases |key|
  {
    var n := DigitsValue(key);
    if |key| == 1 {
      assert DigitsValue(key[..0]) == 0;
      assert n == DigitValue(key[0]);
    } else {
      var init := key[..|key| - 1];
      assert init[0] == key[0];
      NatTextOfDigits(init);
      var m := DigitsValue(init);
      var d := DigitValue(key[|key| - 1]);
      assert n == m * 10 + d;
      assert m >= 1 by {
        assert NatText(0) == "0";
      }
      assert n / 10 == m && n % 10 == d;
      assert NatText(n) == NatText(m) + [DigitChar(d)];
      assert key == init + [key[|key| - 1]];
    }
  }

  /** The value of the first own property named `key` in an object's property list. */
  function Lookup(fields: seq<(string, JsValue)>, key: string): Option<JsValue> {
    if |fields| == 0 then None
    else if fields[0].0 == key then Some(fields[0].1)
    else Lookup(fields[1..], key)
  }

  /** A property is found exactly when some entry carries the key, and what is found is such an entry's value. */
  lemma {:induction false} LookupFound(fields: seq<(string, JsValue)>, key: string)
    ensures Lookup(fields, key).Some? <==> exists i :: 0 <= i < |fields| && fields[i].0 == key
    ensures Lookup(fields, key).Some? ==> exists i :: 0 <= i < |fields| && fields[i] == (key, Lookup(fields, key).value)
  {
    if |fields| > 0 && fields[0].0 != key {
      LookupFound(fields[1..], key);
      assert forall i :: 1 <= i < |fields| ==> fields[i] == fields[1..][i - 1];
    }
  }

  /** The property found is the first one carrying the key. */
  lemma {:induction false} LookupFirst(fields: seq<(string, JsValue)>, key: string, i: nat)
    requires i < |fields| && fields[i].0 == key
    requires forall j :: 0 <= j < i ==> fields[j].0 != key
    ensures Lookup(fields, key) == Some(fields[i].1)
  {
    if i > 0 {
      LookupFirst(fields[1..], key, i - 1);
    }
  }

  /**
   * `key in v` together with `v[key]`, for an object or an array: an own
   * property, an array index or an array's `length`. Inherited properties
   * are not modelled.
   */
  function Get(v: JsValue, key: string): (r: Option<JsValue>)
    ensures !IsObjectLike(v) ==> r.None?
    ensures v.Obj? ==> r == Lookup(v.fields, key)
  {
    match v
    case Obj(fields) => Lookup(fields, key)
    case Arr(items) =>
      if key == "length" then Some(Number(Fin(|items| as real)))
      else (
        match IndexKey(key)
        case Some(i) => if i < |items| then Some(items[i]) else None
        case None => None)
    case _ => None
  }

  /** The value of `v[key]`: `undefined` when the property is missing. */
  function Prop(v: JsValue, key: string): JsValue {
    Get(v, key).GetOr(Undefined)
  }

  // ------------------------------------------------------------------ JSON

  /** The JSON escape of one character inside a string literal. */
  function EscapeChar(c: char): (r: string)
    ensures |r| >= 1
    ensures r[0] == '\\' <==> c == '"' || c == '\\' || (c as int) < 0x20
    ensures r[0] != '\\' ==> r == [c]
  {
    var n := c as int;
    if c == '"' then "\\\""
    else if c == '\\' then "\\\\"
    else if n == 0x08 then "\\b"
    else if n == 0x09 then "\\t"
    else if n == 0x0A then "\\n"
    else if n == 0x0C then "\\f"
    else if n == 0x0D then "\\r"
    else if n < 0x20 then "\\u00" + [HexDigit(n / 16), HexDigit(n % 16)]
    else [c]
  }

  function HexDigit(d: nat): (c: char)
    requires d < 16
  {
    if d < 10 then DigitChar(d) else ('a' as int + d - 10) as char
  }

  /** The JSON string literal for `s`. */
  function Quote(s: string): (r: string)
    ensures |r| >= 2 && r[0] == '"' && r[|r| - 1] == '"'
  {
    "\"" + EscapeAll(s) + "\""
  }

  function EscapeAll(s: string): (r: string)
    ensures |r| >= |s|
  {
    if |s| == 0 then "" else EscapeChar(s[0]) + EscapeAll(s[1..])
  }

  /** A character JSON writes as itself. */
  predicate PlainJsonChar(c: char) {
    c != '"' && c != '\\' && (c as int) >= 0x20
  }

  /** Text without quotes, backslashes or control characters is written unchanged. */
  lemma {:induction false} EscapePlain(s: string)
    requires forall i :: 0 <= i < |s| ==> PlainJsonChar(s[i])
    ensures EscapeAll(s) == s
  {
    if |s| > 0 {
      EscapePlain(s[1..]);
      assert s == [s[0]] + s[1..];
    }
  }

  /**
   * A value JSON text carries without loss: no `undefined` anywhere, only
   * finite numbers with at most 20 decimal places (what `NumText` writes
   * exactly), and no key twice in one object.
   */
  predicate JsonSafe(v: JsValue)
    decreases v
  {
    match v
    case Undefined => false
    case Number(n) => n.Fin? && (n.v * Pow10(20) as real).Floor as real == n.v * Pow10(20) as real
    case Arr(items) => forall i :: 0 <= i < |items| ==> JsonSafe(items[i])
    case Obj(fields) =>
      (forall i :: 0 <= i < |fields| ==> JsonSafe(fields[i].1))
      && forall i, j :: 0 <= i < j < |fields| ==> fields[i].0 != fields[j].0
    case _ => true
  }

  /**
   * `JSON.stringify(v)`: None where it returns `undefined` (for `undefined`
   * itself). Non-finite numbers become `null`, `undefined` array elements
   * become `null`, and `undefined` properties are dropped.
   */
  function Stringify(v: JsValue): (r: Option<string>)
    ensures r.None? <==> v.Undefined?
    ensures v.Str? ==> r == Some(Quote(v.s))
    decreases v, 1
  {
    match v
    case Undefined => None
    case Null => Some("null")
    case Bool(b) => Some(if b then "true" else "false")
    case Number(n) => Some(if n.Fin? then NumText(n) else "null")
    case Str(s) => Some(Quote(s))
    case Arr(items) => Some("[" + StringifyItems(v, items) + "]")
    case Obj(fields) => Some("{" + StringifyFields(v, fields, true) + "}")
  }

  function StringifyItems(parent: JsValue, items: seq<JsValue>): string
    requires parent.Arr? && forall i :: 0 <= i < |items| ==> items[i] < parent
    decreases parent, 0, |items|
  {
    if |items| == 0 then ""
    else
      var head := Stringify(items[0]).GetOr("null");
      if |items| == 1 then head else head + "," + StringifyItems(parent, items[1..])
  }

  /** The members of an object; `first` says no member has been written yet. */
  function StringifyFields(parent: JsValue, fields: seq<(string, JsValue)>, first: bool): string
    requires parent.Obj? && forall i :: 0 <= i < |fields| ==> fields[i].1 < parent
    decreases parent, 0, |fields|
  {
    if |fields| == 0 then ""
    else
      match Stringify(fields[0].1)
      case None => StringifyFields(parent, fields[1..], first)
      case Some(t) =>
        (if first then "" else ",") + Quote(fields[0].0) + ":" + t
        + StringifyFields(parent, fields[1..], false)
  }
}

=== FILE: lists.dfy ===
/**
 * Sequence operations the services share: `filter`, counting, keeping the
 * newest entries of a capped log, removing duplicates while keeping the
 * first occurrence, and the stable descending `sort` by a numeric key that
 * every ranking in the application uses.
 */
module Lists {
  import opened Wrappers

  /** `s.filter(p)`. */
  function Filter<T(!new)>(s: seq<T>, p: T -> bool): (r: seq<T>)
    ensures |r| <= |s|
    ensures forall x :: x in r <==> x in s && p(x)
  {
    if |s| == 0 then []
    else
      var rest := Filter(s[1..], p);
      assert forall x :: x in s <==> x == s[0] || x in s[1..];
      if p(s[0]) then [s[0]] + rest else rest
  }

  lemma {:induction false} FilterAll<T(!new)>(s: seq<T>, p: T -> bool)
    requires forall i :: 0 <= i < |s| ==> p(s[i])
    ensures Filter(s, p) == s
  {
    if |s| > 0 {
      FilterAll(s[1..], p);
      assert s == [s[0]] + s[1..];
    }
  }

  lemma {:induction false} FilterNone<T(!new)>(s: seq<T>, p: T -> bool)
    requires forall x :: x in s ==> !p(x)
    ensures Filter(s, p) == []
  {
    if |s| > 0 {
      assert s[0] in s;
      assert forall x :: x in s[1..] ==> x in s;
      FilterNone(s[1..], p);
    }
  }

  /** Filtering a concatenation filters each side and keeps them in order: what passes keeps its relative order. */
  lemma {:induction false} FilterConcat<T(!new)>(a: seq<T>, b: seq<T>, p: T -> bool)
    ensures Filter(a + b, p) == Filter(a, p) + Filter(b, p)
  {
    if |a| == 0 {
      assert a + b == b;
    } else {
      FilterConcat(a[1..], b, p);
      assert (a + b)[0] == a[0] && (a + b)[1..] == a[1..] + b;
      var fa := Filter(a[1..], p);
      var fb := Filter(b, p);
      assert Filter(a + b, p) == if p(a[0]) then [a[0]] + (fa + fb) else fa + fb;
      assert Filter(a, p) == if p(a[0]) then [a[0]] + fa else fa;
      ConcatAssoc([a[0]], fa, fb);
    }
  }

  lemma ConcatAssoc<T>(u: seq<T>, v: seq<T>, w: seq<T>)
    ensures u + (v + w) == (u + v) + w
  {
  }

  /** Filtering one element keeps it exactly when it passes. */
  lemma FilterSingle<T(!new)>(x: T, p: T -> bool)
    ensures Filter([x], p) == if p(x) then [x] else []
  {
    assert [x][1..] == [];
  }

  /** The filter keeps its input whole exactly when every element passes: a length check tells whether anything was removed. */
  lemma {:induction false} FilterKeepsAll<T(!new)>(s: seq<T>, p: T -> bool)
    ensures |Filter(s, p)| == |s| <==> forall i :: 0 <= i < |s| ==> p(s[i])
    ensures |Filter(s, p)| == |s| ==> Filter(s, p) == s
  {
    if |s| > 0 {
      FilterKeepsAll(s[1..], p);
      assert forall i :: 1 <= i < |s| ==> s[i] == s[1..][i - 1];
      assert s == [s[0]] + s[1..];
    }
  }

  /** The present results of `f` over `s`, in order: a filter and a map in one pass. */
  function FilterMap<T, U>(s: seq<T>, f: T -> Option<U>): (r: seq<U>)
    ensures |r| <= |s|
  {
    if |s| == 0 then []
    else FilterMap(s[..|s| - 1], f) + match f(s[|s| - 1]) case Some(u) => [u] case None => []
  }

  /** Nothing comes out exactly when `f` gives nothing for every element. */
  lemma {:induction false} FilterMapEmpty<T, U>(s: seq<T>, f: T -> Option<U>)
    ensures |FilterMap(s, f)| == 0 <==> forall i :: 0 <= i < |s| ==> f(s[i]).None?
  {
    if |s| > 0 {
      var init := s[..|s| - 1];
      FilterMapEmpty(init, f);
      assert forall i :: 0 <= i < |init| ==> init[i] == s[i];
    }
  }

  /** Every result is what `f` gives for some element. */
  lemma {:induction false} FilterMapFrom<T, U>(s: seq<T>, f: T -> Option<U>)
    ensures forall j :: 0 <= j < |FilterMap(s, f)| ==> exists i :: 0 <= i < |s| && f(s[i]) == Some(FilterMap(s, f)[j])
  {
    if |s| > 0 {
      var init := s[..|s| - 1];
      FilterMapFrom(init, f);
      var prior := FilterMap(init, f);
      var r := FilterMap(s, f);
      forall j | 0 <= j < |r| ensures exists i :: 0 <= i < |s| && f(s[i]) == Some(r[j]) {
        if j < |prior| {
          assert r[j] == prior[j];
          var i :| 0 <= i < |init| && f(init[i]) == Some(prior[j]);
          assert s[i] == init[i];
        } else {
          assert f(s[|s| - 1]) == Some(r[j]);
        }
      }
    } else {
      assert FilterMap(s, f) == [];
    }
  }

  /** `s.filter(p).length`. */
  function Count<T>(s: seq<T>, p: T -> bool): (n: nat)
    ensures n <= |s|
    ensures n == 0 <==> forall i :: 0 <= i < |s| ==> !p(s[i])
  {
    if |s| == 0 then 0
    else
      var rest := Count(s[1..], p);
      assert forall i :: 1 <= i < |s| ==> s[i] == s[1..][i - 1];
      (if p(s[0]) then 1 else 0) + rest
  }

  lemma {:induction false} CountFilter<T(!new)>(s: seq<T>, p: T -> bool)
    ensures Count(s, p) == |Filter(s, p)|
  {
    if |s| > 0 {
      CountFilter(s[1..], p);
    }
  }

  /** Counting over a list extended by one element. */
  lemma {:induction false} CountSnoc<T>(s: seq<T>, x: T, p: T -> bool)
    ensures Count(s + [x], p) == Count(s, p) + (if p(x) then 1 else 0)
  {
    if |s| > 0 {
      CountSnoc(s[1..], x, p);
      assert (s + [x])[1..] == s[1..] + [x];
    }
  }

  /** A predicate and its negation split a list: the two counts add up to its length. */
  lemma {:induction false} CountComplement<T>(s: seq<T>, p: T -> bool, q: T -> bool)
    requires forall x :: q(x) == !p(x)
    ensures Count(s, p) + Count(s, q) == |s|
  {
    if |s| > 0 {
      CountComplement(s[1..], p, q);
    }
  }

  /** Two predicates that never hold together count their union separately. */
  lemma {:induction false} CountDisjoint<T>(s: seq<T>, p: T -> bool, q: T -> bool, u: T -> bool)
    requires forall x :: u(x) == (p(x) || q(x))
    requires forall x :: !(p(x) && q(x))
    ensures Count(s, u) == Count(s, p) + Count(s, q)
  {
    if |s| > 0 {
      CountDisjoint(s[1..], p, q, u);
    }
  }

  /** The last `n` entries (all of them when there are fewer): `s.slice(-n)`. */
  function TakeLast<T>(s: seq<T>, n: nat): (r: seq<T>)
    ensures |r| == if |s| <= n then |s| else n
    ensures forall i :: 0 <= i < |r| ==> r[i] == s[|s| - |r| + i]
  {
    if |s| <= n then s else s[|s| - n..]
  }

  /**
   * Appending to a log that keeps only the newest `n` entries: the new entry
   * last, preceded by the newest entries of the old log.
   */
  function AppendCapped<T>(s: seq<T>, x: T, n: nat): (r: seq<T>)
    requires n > 0
    ensures |r| == if |s| < n then |s| + 1 else n
    ensures r[|r| - 1] == x
    ensures forall i :: 0 <= i < |r| - 1 ==> r[i] == s[|s| - |r| + 1 + i]
    ensures r == TakeLast(s + [x], n)
  {
    var r := if |s| < n then s + [x] else s[|s| - n + 1..] + [x];
    CappedShape(s, x, n, r);
    r
  }

  /** Capping before an append changes nothing: the newest `n` stay the newest `n`. */
  lemma CapBeforeAppend<T>(s: seq<T>, x: T, n: nat)
    requires n > 0
    ensures AppendCapped(TakeLast(s, n), x, n) == AppendCapped(s, x, n)
  {
    if |s| > n {
      var kept := TakeLast(s, n);
      assert kept == s[|s| - n..];
      assert kept[|kept| - n + 1..] == s[|s| - n + 1..];
    }
  }

  lemma CappedShape<T>(s: seq<T>, x: T, n: nat, r: seq<T>)
    requires n > 0
    requires r == if |s| < n then s + [x] else s[|s| - n + 1..] + [x]
    ensures |r| == if |s| < n then |s| + 1 else n
    ensures r[|r| - 1] == x
    ensures forall i :: 0 <= i < |r| - 1 ==> r[i] == s[|s| - |r| + 1 + i]
    ensures r == TakeLast(s + [x], n)
  {
    if |s| >= n {
      assert (s + [x])[|s| + 1 - n..] == r;
    }
  }

  /** The first `n` entries (all of them when there are fewer): `s.slice(0, n)`. */
  function TakeFirst<T>(s: seq<T>, n: nat): (r: seq<T>)
    ensures |r| == if |s| <= n then |s| else n
    ensures forall i :: 0 <= i < |r| ==> r[i] == s[i]
  {
    if |s| <= n then s else s[..n]
  }

  predicate NoDuplicates<T(==)>(s: seq<T>) {
    forall i, j :: 0 <= i < j < |s| ==> s[i] != s[j]
  }

  /**
   * The distinct elements of `s` in order of first occurrence, skipping
   * those in `seen`: `Array.from(new Set(s))` when `seen` is empty.
   */
  function DedupeAfter<T(==,!new)>(s: seq<T>, seen: set<T>): (r: seq<T>)
    ensures NoDuplicates(r)
    ensures forall x :: x in r <==> x in s && x !in seen
  {
    if |s| == 0 then []
    else
      assert forall x :: x in s <==> x == s[0] || x in s[1..];
      if s[0] in seen then DedupeAfter(s[1..], seen)
      else [s[0]] + DedupeAfter(s[1..], seen + {s[0]})
  }

  function Dedupe<T(==,!new)>(s: seq<T>): (r: seq<T>)
    ensures NoDuplicates(r)
    ensures forall x :: x in r <==> x in s
    ensures |r| <= |s|
  {
    var r := DedupeAfter(s, {});
    DedupeShorter(s, {});
    r
  }

  lemma {:induction false} DedupeShorter<T(!new)>(s: seq<T>, seen: set<T>)
    ensures |DedupeAfter(s, seen)| <= |s|
  {
    if |s| > 0 {
      DedupeShorter(s[1..], if s[0] in seen then seen else seen + {s[0]});
    }
  }

  /**
   * Deduplicating a concatenation deduplicates the front part, then goes on
   * with everything the front part held already seen.
   */
  lemma {:induction false} DedupeAfterConcat<T(!new)>(a: seq<T>, b: seq<T>, seen: set<T>)
    ensures DedupeAfter(a + b, seen) == DedupeAfter(a, seen) + DedupeAfter(b, seen + (set x | x in a))
  {
    if |a| == 0 {
      assert a + b == b;
      assert seen + (set x | x in a) == seen;
    } else {
      assert (a + b)[0] == a[0] && (a + b)[1..] == a[1..] + b;
      var seen' := if a[0] in seen then seen else seen + {a[0]};
      DedupeAfterConcat(a[1..], b, seen');
      assert seen' + (set x | x in a[1..]) == seen + (set x | x in a) by {
        assert forall x :: x in a <==> x == a[0] || x in a[1..];
      }
      if a[0] !in seen {
        ConcatAssoc([a[0]], DedupeAfter(a[1..], seen'), DedupeAfter(b, seen' + (set x | x in a[1..])));
      }
    }
  }

  /** Skipping the elements of a set while deduplicating is filtering them out of the deduplication afterwards. */
  lemma {:induction false} DedupeAfterIsFilter<T(!new)>(b: seq<T>, seen: set<T>, t: set<T>, p: T -> bool)
    requires forall x :: p(x) <==> x !in seen
    ensures DedupeAfter(b, seen + t) == Filter(DedupeAfter(b, t), p)
  {
    if |b| > 0 {
      var x := b[0];
      if x in t {
        DedupeAfterIsFilter(b[1..], seen, t, p);
      } else {
        DedupeAfterIsFilter(b[1..], seen, t + {x}, p);
        assert seen + (t + {x}) == seen + t + {x};
        FilterConcat([x], DedupeAfter(b[1..], t + {x}), p);
        FilterSingle(x, p);
        if x in seen {
          assert seen + t + {x} == seen + t;
        }
      }
    }
  }

  /**
   * `[...new Set(a.concat(b))]` keeps the first occurrences of `a` in their
   * order, followed by those of `b` that `a` does not hold, in their order.
   */
  lemma DedupeConcat<T(!new)>(a: seq<T>, b: seq<T>)
    ensures Dedupe(a + b) == Dedupe(a) + Filter(Dedupe(b), x => x !in a)
  {
    var s := set x | x in a;
    DedupeAfterConcat(a, b, {});
    assert {} + s == s + {};
    DedupeAfterIsFilter(b, s, {}, x => x !in a);
  }

  /** A list without duplicates is its own deduplication. */
  lemma {:induction false} DedupeDistinct<T(!new)>(s: seq<T>, seen: set<T>)
    requires NoDuplicates(s)
    requires forall i :: 0 <= i < |s| ==> s[i] !in seen
    ensures DedupeAfter(s, seen) == s
  {
    if |s| > 0 {
      DedupeDistinct(s[1..], seen + {s[0]});
      assert s == [s[0]] + s[1..];
    }
  }

  /** Two lists that are permutations of each other have the same members. */
  lemma SameMembers<T>(a: seq<T>, b: seq<T>)
    requires multiset(a) == multiset(b)
    ensures forall x :: x in a <==> x in b
  {
    forall x
      ensures x in a <==> x in b
    {
      assert x in a <==> x in multiset(a);
      assert x in b <==> x in multiset(b);
    }
  }

  // ----------------------------------------------------------------- sorting

  predicate SortedDesc<T>(s: seq<T>, key: T -> real) {
    forall i, j :: 0 <= i < j < |s| ==> key(s[i]) >= key(s[j])
  }

  /** Puts `x` after every element whose key is at least its own. */
  function Insert<T(!new)>(x: T, s: seq<T>, key: T -> real): (r: seq<T>)
    requires SortedDesc(s, key)
    ensures SortedDesc(r, key)
    ensures multiset(r) == multiset(s) + multiset{x}
    ensures |r| == |s| + 1
    ensures forall y :: y in r ==> y == x || y in s
  {
    if |s| == 0 then [x]
    else if key(x) > key(s[0]) then [x] + s
    else
      var rest := Insert(x, s[1..], key);
      assert s == [s[0]] + s[1..];
      InsertHead(x, s[0], rest, s[1..], key);
      [s[0]] + rest
  }

  lemma InsertHead<T(!new)>(x: T, h: T, rest: seq<T>, tail: seq<T>, key: T -> real)
    requires SortedDesc(rest, key) && SortedDesc([h] + tail, key)
    requires key(x) <= key(h)
    requires forall y :: y in rest ==> y == x || y in tail
    ensures SortedDesc([h] + rest, key)
  {
    forall j | 0 <= j < |rest| ensures key(h) >= key(rest[j]) {
      assert rest[j] in rest;
      if rest[j] != x {
        var k :| 0 <= k < |tail| && tail[k] == rest[j];
        assert ([h] + tail)[0] == h && ([h] + tail)[k + 1] == tail[k];
      }
    }
    var r := [h] + rest;
    forall i, j | 0 <= i < j < |r| ensures key(r[i]) >= key(r[j]) {
      if i > 0 {
        assert r[i] == rest[i - 1] && r[j] == rest[j - 1];
      } else {
        assert r[j] == rest[j - 1];
      }
    }
  }

  /**
   * `[...s].sort((a, b) => key(b) - key(a))`: a stable sort into
   * descending key order.
   */
  function SortDesc<T(!new)>(s: seq<T>, key: T -> real): (r: seq<T>)
    ensures SortedDesc(r, key)
    ensures multiset(r) == multiset(s)
    ensures |r| == |s|
  {
    if |s| == 0 then []
    else
      var r := Insert(s[|s| - 1], SortDesc(s[..|s| - 1], key), key);
      assert s == s[..|s| - 1] + [s[|s| - 1]];
      r
  }

  /** Sorting a list that is already in descending order changes nothing. */
  lemma {:induction false} SortDescSorted<T(!new)>(s: seq<T>, key: T -> real)
    requires SortedDesc(s, key)
    ensures SortDesc(s, key) == s
  {
    if |s| > 0 {
      var init := s[..|s| - 1];
      SortDescSorted(init, key);
      InsertLast(s[|s| - 1], init, key);
      assert init + [s[|s| - 1]] == s;
    }
  }

  /** An element no greater than every key of a sorted list goes to its end. */
  lemma {:induction false} InsertLast<T(!new)>(x: T, s: seq<T>, key: T -> real)
    requires SortedDesc(s, key)
    requires forall i :: 0 <= i < |s| ==> key(s[i]) >= key(x)
    ensures Insert(x, s, key) == s + [x]
  {
    if |s| > 0 {
      InsertLast(x, s[1..], key);
      assert s == [s[0]] + s[1..];
    }
  }

  /** The elements whose key is exactly `v`. */
  function KeyIs<T>(key: T -> real, v: real): T -> bool {
    y => key(y) == v
  }

  /** Inserting puts the new element after every element with the same key. */
  lemma {:induction false} InsertAfterEqual<T(!new)>(x: T, s: seq<T>, key: T -> real, v: real)
    requires SortedDesc(s, key)
    ensures Filter(Insert(x, s, key), KeyIs(key, v)) == Filter(s, KeyIs(key, v)) + Filter([x], KeyIs(key, v))
  {
    var p := KeyIs(key, v);
    var fx := Filter([x], p);
    FilterSingle(x, p);
    if |s| == 0 {
      assert Insert(x, s, key) == [x];
      assert Filter(s, p) == [];
    } else if key(x) > key(s[0]) {
      assert Insert(x, s, key) == [x] + s;
      FilterConcat([x], s, p);
      if p(x) {
        FilterNone(s, p);
      }
    } else {
      var tail := Insert(x, s[1..], key);
      assert Insert(x, s, key) == [s[0]] + tail;
      assert SortedDesc(s[1..], key);
      InsertAfterEqual(x, s[1..], key, v);
      FilterConcat([s[0]], tail, p);
      FilterConcat([s[0]], s[1..], p);
      assert [s[0]] + s[1..] == s;
      ConcatAssoc(Filter([s[0]], p), Filter(s[1..], p), fx);
    }
  }

  /** The sort is stable: the elements of any one key come out in their input order. */
  lemma {:induction false} SortDescStable<T(!new)>(s: seq<T>, key: T -> real, v: real)
    ensures Filter(SortDesc(s, key), KeyIs(key, v)) == Filter(s, KeyIs(key, v))
  {
    if |s| > 0 {
      var init := s[..|s| - 1];
      var x := s[|s| - 1];
      SortDescStable(init, key, v);
      InsertAfterEqual(x, SortDesc(init, key), key, v);
      FilterConcat(init, [x], KeyIs(key, v));
      assert init + [x] == s;
    }
  }

  /** The items of a ranking, without their ranks. */
  function Unranked<T>(r: seq<(T, nat)>): seq<T> {
    seq(|r|, i requires 0 <= i < |r| => r[i].0)
  }

  /**
   * Sort by descending key, then number the positions 1, 2, ...: the
   * ranking every comparison table in the application shows.
   */
  function Rank<T(!new)>(s: seq<T>, key: T -> real): (r: seq<(T, nat)>)
    ensures |r| == |s|
    ensures forall i :: 0 <= i < |r| ==> r[i].1 == i + 1
    ensures forall i, j :: 0 <= i < j < |r| ==> key(r[i].0) >= key(r[j].0)
    ensures multiset(Unranked(r)) == multiset(s)
  {
    var sorted := SortDesc(s, key);
    var r := seq(|sorted|, i requires 0 <= i < |sorted| => (sorted[i], i + 1));
    assert Unranked(r) == sorted;
    r
  }

  /** The value of an (id, value) pair, the key rankings sort on. */
  function PairValue<K>(p: (K, real)): real {
    p.1
  }

  /** `s.findIndex(p)`: the first position satisfying `p`, or -1. */
  function FindIndex<T>(s: seq<T>, p: T -> bool): (r: int)
    ensures -1 <= r < |s|
    ensures r >= 0 ==> p(s[r])
    ensures forall j :: 0 <= j < |s| && (r < 0 || j < r) ==> !p(s[j])
  {
    if |s| == 0 then -1
    else if p(s[0]) then 0
    else
      var rest := FindIndex(s[1..], p);
      if rest < 0 then -1 else rest + 1
  }

  /** Adding a member that is absent and removing one that is present: a `Set` toggled in place. */
  function Toggle<T(!new)>(s: set<T>, x: T): (r: set<T>)
    ensures x in r <==> x !in s
    ensures forall y :: y != x ==> (y in r <==> y in s)
  {
    if x in s then s - {x} else s + {x}
  }

  /** Toggling twice gives back the original set. */
  lemma ToggleTwice<T(!new)>(s: set<T>, x: T)
    ensures Toggle(Toggle(s, x), x) == s
  {
  }
}

=== FILE: market_intelligence.dfy ===
/**
 * The market intelligence service: filtering and deleting material costs,
 * acknowledging alerts, the trend, sentiment and competition bands of the
 * market analysis, filling in imported records, and the CSV export. The
 * store, the clock and the id generator are outside: the time and the new
 * ids are parameters.
 */
module MarketIntelligence {
  import opened Wrappers
  import opened Numbers
  import opened Text
  import opened Lists
  import opened Js

  datatype Material = Material(
    id: string,
    materialType: string,
    materialName: string,
    materialNameEn: Option<string>,
    region: string,
    supplier: string,
    currentPrice: real,
    priceChangePercent: real,
    lastUpdated: string)

  /** The filters getMaterialCosts reads. */
  datatype MaterialFilters = MaterialFilters(
    materialTypes: Option<seq<string>>,
    regions: Option<seq<string>>,
    priceRange: Option<(real, real)>,
    dateRange: Option<(string, string)>,
    searchTerm: Option<string>)

  // ----------------------------------------------------------------- filters

  predicate Allows(list: Option<seq<string>>, x: string) {
    list.None? || x in list.value
  }

  predicate InPriceRange(range: Option<(real, real)>, price: real) {
    range.None? || !(price < range.value.0 || price > range.value.1)
  }

  /** The update date in the range, compared as `new Date(text)` numbers: an unreadable date is never outside. */
  predicate InDateRange(range: Option<(string, string)>, lastUpdated: string, parseDate: string -> Num) {
    range.None? ||
      var d := parseDate(lastUpdated);
      !(NumLess(d, parseDate(range.value.0)) || NumLess(parseDate(range.value.1), d))
  }

  /** The search term, when one is given, appears in the name, the English name or the supplier, ignoring case. */
  predicate SearchMatches(term: Option<string>, m: Material) {
    term.None? || term.value == "" ||
      ContainsIgnoringCase(m.materialName, term.value)
      || (m.materialNameEn.Some? && ContainsIgnoringCase(m.materialNameEn.value, term.value))
      || ContainsIgnoringCase(m.supplier, term.value)
  }

  predicate Matches(f: MaterialFilters, m: Material, parseDate: string -> Num) {
    Allows(f.materialTypes, m.materialType)
    && Allows(f.regions, m.region)
    && InPriceRange(f.priceRange, m.currentPrice)
    && InDateRange(f.dateRange, m.lastUpdated, parseDate)
    && SearchMatches(f.searchTerm, m)
  }

  /** getMaterialCosts: all materials without filters, otherwise those every given filter admits, in stored order. */
  function GetMaterialCosts(stored: seq<Material>, filters: Option<MaterialFilters>, parseDate: string -> Num): (r: seq<Material>)
    ensures filters.None? ==> r == stored
    ensures filters.Some? ==> forall m :: m in r <==> m in stored && Matches(filters.value, m, parseDate)
  {
    if filters.None? then stored else Filter(stored, m => Matches(filters.value, m, parseDate))
  }

  /** A price range admits exactly the materials priced within it, bounds included. */
  lemma PriceRangeBounds(stored: seq<Material>, lo: real, hi: real, parseDate: string -> Num)
    ensures var f := MaterialFilters(None, None, Some((lo, hi)), None, None);
      forall m :: m in GetMaterialCosts(stored, Some(f), parseDate) <==> m in stored && lo <= m.currentPrice <= hi
  {
  }

  predicate HasId(m: Material, id: string) {
    m.id == id
  }

  /**
   * deleteMaterialCost: every material with the id is removed and true is
   * returned; when none has it, false is returned and the store is left as
   * it is.
   */
  function DeleteMaterialCost(stored: seq<Material>, id: string): (r: (bool, seq<Material>))
    ensures r.0 <==> exists i :: 0 <= i < |stored| && stored[i].id == id
    ensures !r.0 ==> r.1 == stored
    ensures forall m :: m in r.1 <==> m in stored && m.id != id
  {
    var kept := Filter(stored, m => !HasId(m, id));
    FilterKeepsAll(stored, m => !HasId(m, id));
    if |kept| == |stored| then (false, stored) else (true, kept)
  }

  /** A second delete of the same id finds nothing. */
  lemma DeleteTwice(stored: seq<Material>, id: string)
    ensures var once := DeleteMaterialCost(stored, id).1;
      DeleteMaterialCost(once, id) == (false, once)
  {
    var once := DeleteMaterialCost(stored, id).1;
    forall i | 0 <= i < |once| ensures once[i].id != id {
      assert once[i] in once;
    }
  }

  // ------------------------------------------------------------------ alerts

  datatype Severity = LowSeverity | MediumSeverity | HighSeverity | CriticalSeverity

  datatype Alert = Alert(id: string, severity: Severity, acknowledged: bool, acknowledgedBy: Option<string>, acknowledgedAt: Option<string>)

  predicate AlertHasId(a: Alert, id: string) {
    a.id == id
  }

  /**
   * acknowledgeAlert: an unknown id answers false and changes nothing;
   * otherwise the first alert with the id is marked acknowledged by the user
   * at the time, and nothing else changes.
   */
  function Acknowledge(alerts: seq<Alert>, alertId: string, userId: string, now: string): (r: (bool, seq<Alert>))
    ensures r.0 <==> exists i :: 0 <= i < |alerts| && alerts[i].id == alertId
    ensures !r.0 ==> r.1 == alerts
    ensures |r.1| == |alerts|
    ensures r.0 ==> exists k :: (0 <= k < |alerts| && alerts[k].id == alertId
      && (forall j :: 0 <= j < k ==> alerts[j].id != alertId)
      && r.1 == alerts[k := alerts[k].(acknowledged := true, acknowledgedBy := Some(userId), acknowledgedAt := Some(now))])
  {
    var k := FindIndex(alerts, a => AlertHasId(a, alertId));
    if k < 0 then (false, alerts)
    else (true, alerts[k := alerts[k].(acknowledged := true, acknowledgedBy := Some(userId), acknowledgedAt := Some(now))])
  }

  predicate OpenCritical(a: Alert) {
    a.severity == CriticalSeverity && !a.acknowledged
  }

  /** The critical alerts nobody has acknowledged. */
  function CriticalAlerts(alerts: seq<Alert>): nat {
    Count(alerts, OpenCritical)
  }

  /** Acknowledging an alert never adds an open critical alert, and removes one when it acknowledges one. */
  lemma AcknowledgeLowersCritical(alerts: seq<Alert>, alertId: string, userId: string, now: string)
    ensures CriticalAlerts(Acknowledge(alerts, alertId, userId, now).1) <= CriticalAlerts(alerts)
  {
    var r := Acknowledge(alerts, alertId, userId, now);
    if r.0 {
      var k :| 0 <= k < |alerts| && alerts[k].id == alertId
        && (forall j :: 0 <= j < k ==> alerts[j].id != alertId)
        && r.1 == alerts[k := alerts[k].(acknowledged := true, acknowledgedBy := Some(userId), acknowledgedAt := Some(now))];
      CountUpdateNotOpen(alerts, k, r.1[k]);
    }
  }

  /** Replacing one alert with one that is not open and critical removes at most that one from the count. */
  lemma {:induction false} CountUpdateNotOpen(alerts: seq<Alert>, k: nat, a: Alert)
    requires k < |alerts| && !OpenCritical(a)
    ensures Count(alerts[k := a], OpenCritical) <= Count(alerts, OpenCritical)
    decreases |alerts|
  {
    var s := alerts[k := a];
    if k > 0 {
      assert s[0] == alerts[0];
      assert s[1..] == alerts[1..][k - 1 := a];
      CountUpdateNotOpen(alerts[1..], k - 1, a);
    } else {
      assert s[1..] == alerts[1..];
    }
  }

  // --------------------------------------------------------------- analysis

  datatype Trend = Decreasing | Stable | Increasing

  /** A change above 2 points is increasing, below −2 decreasing, anything between stable. */
  function TrendOf(change: real): (t: Trend)
    ensures t == Increasing <==> change > 2.0
    ensures t == Decreasing <==> change < -2.0
  {
    if change > 2.0 then Increasing else if change < -2.0 then Decreasing else Stable
  }

  function TrendRank(t: Trend): nat {
    match t
    case Decreasing => 0
    case Stable => 1
    case Increasing => 2
  }

  /** A larger change never gives a lower trend. */
  lemma TrendMonotone(a: real, b: real)
    requires a <= b
    ensures TrendRank(TrendOf(a)) <= TrendRank(TrendOf(b))
  {
  }

  datatype Competition = LowCompetition | MediumCompetition | HighCompetition

  /** More than 10 active opportunities is high competition, more than 5 medium. */
  function CompetitionOf(active: nat): (c: Competition)
    ensures c == HighCompetition <==> active > 10
    ensures c == MediumCompetition <==> 5 < active <= 10
  {
    if active > 10 then HighCompetition else if active > 5 then MediumCompetition else LowCompetition
  }

  datatype Sentiment = Positive | Neutral | Negative

  /** Many opportunities and few critical alerts is positive; many critical alerts or steep price rises negative. */
  function SentimentOf(active: nat, critical: nat, avgPriceChange: real): (s: Sentiment)
    ensures s == Positive <==> active > 5 && critical < 3
    ensures s == Negative <==> !(active > 5 && critical < 3) && (critical > 5 || avgPriceChange > 10.0)
  {
    if active > 5 && critical < 3 then Positive
    else if critical > 5 || avgPriceChange > 10.0 then Negative
    else Neutral
  }

  /** The price changes of the materials, in order. */
  function PriceChanges(materials: seq<Material>): (r: seq<real>)
    ensures |r| == |materials|
    ensures forall i :: 0 <= i < |materials| ==> r[i] == materials[i].priceChangePercent
  {
    seq(|materials|, i requires 0 <= i < |materials| => materials[i].priceChangePercent)
  }

  /** The mean price change of the materials, 0 without materials. */
  function AveragePriceChange(materials: seq<Material>): (r: real)
    ensures |materials| == 0 ==> r == 0.0
    ensures |materials| > 0 ==> r * |materials| as real == Sum(PriceChanges(materials))
  {
    if |materials| == 0 then 0.0 else Sum(PriceChanges(materials)) / |materials| as real
  }

  /** The average lies between the smallest and the largest change; equal changes average to that change. */
  lemma AveragePriceBetween(materials: seq<Material>, lo: real, hi: real)
    requires |materials| > 0
    requires forall i :: 0 <= i < |materials| ==> lo <= materials[i].priceChangePercent <= hi
    ensures lo <= AveragePriceChange(materials) <= hi
  {
    var n := |materials| as real;
    SumBetween(PriceChanges(materials), lo, hi);
    DivBetween(Sum(PriceChanges(materials)), n, lo, hi);
    assert AveragePriceChange(materials) == Sum(PriceChanges(materials)) / n;
  }

  /** The rate fields the market analysis reads: the current hourly rate and the hourly rates of the history, oldest first. */
  datatype LaborRate = LaborRate(id: string, hourlyRate: real, rateHistory: seq<real>)

  /**
   * The percentage change from the second-to-last history entry to the
   * current rate, 0 with fewer than two entries. A previous rate of 0
   * divides by zero: an infinity, or NaN when the current rate is 0 too.
   */
  function RateChange(r: LaborRate): (c: Num)
    ensures |r.rateHistory| <= 1 ==> c == Fin(0.0)
    ensures |r.rateHistory| > 1 ==>
      var prev := r.rateHistory[|r.rateHistory| - 2];
      (prev != 0.0 ==> c.Fin?)
      && (prev == 0.0 ==> (c.NaN? <==> r.hourlyRate == 0.0) && (c == Inf(false) <==> r.hourlyRate > 0.0) && (c == Inf(true) <==> r.hourlyRate < 0.0))
  {
    if |r.rateHistory| <= 1 then Fin(0.0)
    else
      var prev := r.rateHistory[|r.rateHistory| - 2];
      if prev != 0.0 then Fin((r.hourlyRate - prev) / prev * 100.0)
      else if r.hourlyRate == 0.0 then NaN
      else Inf(r.hourlyRate < 0.0)
  }

  /** A finite change is the percentage by which the previous rate grew to the current one. */
  lemma RateChangeIsPercentage(r: LaborRate)
    requires |r.rateHistory| > 1 && r.rateHistory[|r.rateHistory| - 2] != 0.0
    ensures var prev := r.rateHistory[|r.rateHistory| - 2];
      prev + prev * RateChange(r).v / 100.0 == r.hourlyRate
  {
    var prev := r.rateHistory[|r.rateHistory| - 2];
    var q := (r.hourlyRate - prev) / prev;
    assert prev * q == r.hourlyRate - prev;
    assert RateChange(r).v == q * 100.0;
  }

  function RateChanges(rates: seq<LaborRate>): (r: seq<Num>)
    ensures |r| == |rates|
    ensures forall i :: 0 <= i < |rates| ==> r[i] == RateChange(rates[i])
  {
    seq(|rates|, i requires 0 <= i < |rates| => RateChange(rates[i]))
  }

  /**
   * The mean rate change over the labour rates, 0 without rates. One NaN
   * change, or infinite changes of both signs, make the mean NaN; infinite
   * changes of one sign among finite ones make it that infinity.
   */
  function AverageRateChange(rates: seq<LaborRate>): (r: Num)
    ensures |rates| == 0 ==> r == Fin(0.0)
    ensures (exists i :: 0 <= i < |rates| && RateChange(rates[i]).NaN?) ==> r.NaN?
    ensures forall negative ::
              SomeInf(RateChanges(rates), negative) && FiniteOrInf(RateChanges(rates), negative) ==> r == Inf(negative)
    ensures SomeInf(RateChanges(rates), false) && SomeInf(RateChanges(rates), true) ==> r.NaN?
    ensures |rates| > 0 && (forall i :: 0 <= i < |rates| ==> RateChange(rates[i]).Fin?) ==>
      r == Fin(Sum(FiniteValues(RateChanges(rates))) / |rates| as real)
  {
    if |rates| == 0 then Fin(0.0)
    else
      RateChangesTotal(rates);
      DivideByCount(SumNum(RateChanges(rates)), |rates|)
  }

  /** The total of the rate changes is NaN as soon as one change is, and their sum when all are finite. */
  lemma RateChangesTotal(rates: seq<LaborRate>)
    ensures (exists i :: 0 <= i < |rates| && RateChange(rates[i]).NaN?) ==> SumNum(RateChanges(rates)).NaN?
    ensures (forall i :: 0 <= i < |rates| ==> RateChange(rates[i]).Fin?) ==>
      SumNum(RateChanges(rates)) == Fin(Sum(FiniteValues(RateChanges(rates))))
  {
    var changes := RateChanges(rates);
    if exists i :: 0 <= i < |rates| && RateChange(rates[i]).NaN? {
      var i :| 0 <= i < |rates| && RateChange(rates[i]).NaN?;
      assert changes[i].NaN?;
    }
    if forall i :: 0 <= i < |rates| ==> RateChange(rates[i]).Fin? {
      assert forall i :: 0 <= i < |changes| ==> changes[i].Fin?;
    }
  }

  /** A number divided by a positive count: NaN and the infinities are kept. */
  function DivideByCount(n: Num, k: nat): (r: Num)
    requires k > 0
    ensures n.Fin? ==> r == Fin(n.v / k as real)
    ensures n.NaN? ==> r.NaN?
    ensures n.Inf? ==> r == n
  {
    match n
    case Fin(x) => Fin(x / k as real)
    case _ => n
  }

  /** The trend bands on a JavaScript number: both comparisons fail on NaN, which is therefore stable. */
  function TrendOfNum(n: Num): (t: Trend)
    ensures n.Fin? ==> t == TrendOf(n.v)
    ensures n.NaN? ==> t == Stable
    ensures n == Inf(false) ==> t == Increasing
    ensures n == Inf(true) ==> t == Decreasing
  {
    if NumLess(Fin(2.0), n) then Increasing else if NumLess(n, Fin(-2.0)) then Decreasing else Stable
  }

  datatype Opportunity = Opportunity(id: string, status: string)

  predicate Active(o: Opportunity) {
    o.status == "active"
  }

  datatype Analysis = Analysis(materialCostTrend: Trend, laborRateTrend: Trend, sentiment: Sentiment, competition: Competition)

  /** The bands of getMarketAnalysis over the stored materials, labour rates, opportunities and alerts. */
  function MarketAnalysis(materials: seq<Material>, rates: seq<LaborRate>, opportunities: seq<Opportunity>, alerts: seq<Alert>): (r: Analysis)
    ensures r.competition == CompetitionOf(Count(opportunities, Active))
    ensures r.sentiment == SentimentOf(Count(opportunities, Active), CriticalAlerts(alerts), AveragePriceChange(materials))
    ensures r.materialCostTrend == TrendOf(AveragePriceChange(materials))
    ensures r.laborRateTrend == TrendOfNum(AverageRateChange(rates))
    ensures |materials| == 0 ==> r.materialCostTrend == Stable
    ensures |rates| == 0 ==> r.laborRateTrend == Stable
  {
    var active := Count(opportunities, Active);
    var critical := CriticalAlerts(alerts);
    var avgPrice := AveragePriceChange(materials);
    Analysis(TrendOf(avgPrice), TrendOfNum(AverageRateChange(rates)), SentimentOf(active, critical, avgPrice), CompetitionOf(active))
  }

  /** With no zero previous rate the labour trend is the band of the real mean of the changes. */
  lemma NonZeroRatesFiniteTrend(materials: seq<Material>, rates: seq<LaborRate>, opportunities: seq<Opportunity>, alerts: seq<Alert>)
    requires |rates| > 0
    requires forall i :: 0 <= i < |rates| && |rates[i].rateHistory| > 1 ==> rates[i].rateHistory[|rates[i].rateHistory| - 2] != 0.0
    ensures AverageRateChange(rates).Fin?
    ensures MarketAnalysis(materials, rates, opportunities, alerts).laborRateTrend
      == TrendOf(Sum(FiniteValues(RateChanges(rates))) / |rates| as real)
  {
    assert forall i :: 0 <= i < |rates| ==> RateChange(rates[i]).Fin?;
    assert AverageRateChange(rates) == Fin(Sum(FiniteValues(RateChanges(rates))) / |rates| as real);
  }

  /** A rate that rose from a recorded 0 makes the labour trend increasing, whatever the other rates did. */
  lemma RiseFromZeroIsIncreasing(materials: seq<Material>, opportunities: seq<Opportunity>, alerts: seq<Alert>)
    ensures var rates := [LaborRate("a", 50.0, [0.0, 50.0]), LaborRate("b", 50.0, [100.0, 50.0])];
      MarketAnalysis(materials, rates, opportunities, alerts).laborRateTrend == Increasing
  {
    var rates := [LaborRate("a", 50.0, [0.0, 50.0]), LaborRate("b", 50.0, [100.0, 50.0])];
    var changes := RateChanges(rates);
    assert changes == [Inf(false), Fin(-50.0)];
    assert changes[..1] == [Inf(false)];
    assert changes[..0] == [];
  }

  /** A rate recorded at 0 twice gives 0/0, and the labour trend is stable even when another rate doubled. */
  lemma ZeroOverZeroIsStable(materials: seq<Material>, opportunities: seq<Opportunity>, alerts: seq<Alert>)
    ensures var rates := [LaborRate("a", 0.0, [0.0, 0.0]), LaborRate("b", 200.0, [100.0, 200.0])];
      AverageRateChange(rates).NaN? && MarketAnalysis(materials, rates, opportunities, alerts).laborRateTrend == Stable
  {
    var rates := [LaborRate("a", 0.0, [0.0, 0.0]), LaborRate("b", 200.0, [100.0, 200.0])];
    assert RateChange(rates[0]).NaN?;
  }

  /** Acknowledging an alert never spoils a positive market sentiment. */
  lemma AcknowledgeKeepsPositive(materials: seq<Material>, rates: seq<LaborRate>, opportunities: seq<Opportunity>, alerts: seq<Alert>, alertId: string, userId: string, now: string)
    requires MarketAnalysis(materials, rates, opportunities, alerts).sentiment == Positive
    ensures MarketAnalysis(materials, rates, opportunities, Acknowledge(alerts, alertId, userId, now).1).sentiment == Positive
  {
    AcknowledgeLowersCritical(alerts, alertId, userId, now);
  }

  // ------------------------------------------------------------------ import

  /** Where an import is stored: materials, labour, and anything else as indicators. */
  function ImportKey(kind: string): (key: string)
    ensures kind == "materials" ==> key == "market_materials"
    ensures kind == "labor" ==> key == "market_labor"
    ensures kind != "materials" && kind != "labor" ==> key == "market_indicators"
  {
    if kind == "materials" then "market_materials" else if kind == "labor" then "market_labor" else "market_indicators"
  }

  /** `obj[key] = v` on an object's property list: the first property with the key is overwritten, or a new one appended. */
  function SetProp(fields: seq<(string, JsValue)>, key: string, v: JsValue): (r: seq<(string, JsValue)>)
    ensures Lookup(r, key) == Some(v)
    ensures forall k :: k != key ==> Lookup(r, k) == Lookup(fields, k)
    decreases |fields|
  {
    if |fields| == 0 then [(key, v)]
    else if fields[0].0 == key then [(key, v)] + fields[1..]
    else [fields[0]] + SetProp(fields[1..], key, v)
  }

  function PropOf(fields: seq<(string, JsValue)>, key: string): JsValue {
    Lookup(fields, key).GetOr(Undefined)
  }

  /** The fill-in of one record: a falsy id gets the new id and a falsy update time the current time. */
  function FillFields(fields: seq<(string, JsValue)>, newId: string, now: string): (r: seq<(string, JsValue)>)
    ensures Truthy(PropOf(fields, "id")) ==> PropOf(r, "id") == PropOf(fields, "id")
    ensures !Truthy(PropOf(fields, "id")) ==> PropOf(r, "id") == Str(newId)
    ensures Truthy(PropOf(fields, "lastUpdated")) ==> PropOf(r, "lastUpdated") == PropOf(fields, "lastUpdated")
    ensures !Truthy(PropOf(fields, "lastUpdated")) ==> PropOf(r, "lastUpdated") == Str(now)
    ensures forall k :: k != "id" && k != "lastUpdated" ==> Lookup(r, k) == Lookup(fields, k)
  {
    var f := if Truthy(PropOf(fields, "id")) then fields else SetProp(fields, "id", Str(newId));
    if Truthy(PropOf(f, "lastUpdated")) then f else SetProp(f, "lastUpdated", Str(now))
  }

  datatype ImportError = NotAnArray | NotAnObject(index: nat)

  /**
   * One imported item: a record is filled in; an array is stored as it is,
   * since the properties set on it do not survive JSON; any other value
   * throws when the loop reads or sets its properties.
   */
  function FillItem(item: JsValue, newId: string, now: string): (r: Option<JsValue>)
    ensures r.None? <==> !item.Obj? && !item.Arr?
    ensures item.Arr? ==> r == Some(item)
    ensures item.Obj? ==> r == Some(Obj(FillFields(item.fields, newId, now)))
  {
    match item
    case Obj(fields) => Some(Obj(FillFields(fields, newId, now)))
    case Arr(_) => Some(item)
    case _ => None
  }

  /** The values the import loop can handle. */
  predicate Fillable(item: JsValue) {
    item.Obj? || item.Arr?
  }

  /** The loop over the items: the first item it cannot handle throws; otherwise each item filled with its own new id. */
  function FillAll(items: seq<JsValue>, newId: nat -> string, now: string): (r: Result<seq<JsValue>, ImportError>)
    ensures r.Failure? <==> exists i :: 0 <= i < |items| && !Fillable(items[i])
    ensures r.Failure? ==> r.error.NotAnObject? && r.error.index < |items| && !Fillable(items[r.error.index])
    ensures r.Success? ==> |r.value| == |items| && forall i :: 0 <= i < |items| ==> Some(r.value[i]) == FillItem(items[i], newId(i), now)
  {
    var bad := FindIndex(items, x => !Fillable(x));
    if bad >= 0 then Failure(NotAnObject(bad))
    else Success(seq(|items|, i requires 0 <= i < |items| => FillItem(items[i], newId(i), now).value))
  }

  /**
   * importMarketData: anything but an array is rejected; otherwise every
   * item is filled in, the i-th new id used for the i-th item, and the
   * result is what the store receives under the kind's key.
   */
  function ImportMarketData(data: JsValue, kind: string, newId: nat -> string, now: string): (r: Result<(string, seq<JsValue>), ImportError>)
    ensures !data.Arr? ==> r == Failure(NotAnArray)
    ensures r.Success? ==> r.value.0 == ImportKey(kind) && |r.value.1| == |data.items|
    ensures r.Success? ==> forall i :: 0 <= i < |data.items| ==> Some(r.value.1[i]) == FillItem(data.items[i], newId(i), now)
    ensures data.Arr? ==> (r.Failure? <==> exists i :: 0 <= i < |data.items| && !Fillable(data.items[i]))
  {
    if !data.Arr? then Failure(NotAnArray)
    else
      var filled := FillAll(data.items, newId, now);
      if filled.Failure? then Failure(filled.error) else Success((ImportKey(kind), filled.value))
  }

  /** Every imported record ends up with a truthy id and update time when the new id and the time are not empty. */
  lemma ImportedRecordsComplete(data: JsValue, kind: string, newId: nat -> string, now: string, i: nat)
    requires forall n :: newId(n) != ""
    requires now != ""
    requires ImportMarketData(data, kind, newId, now).Success?
    requires i < |data.items| && data.items[i].Obj?
    ensures var item := ImportMarketData(data, kind, newId, now).value.1[i];
      item.Obj? && Truthy(PropOf(item.fields, "id")) && Truthy(PropOf(item.fields, "lastUpdated"))
  {
  }

  /** Filling in a record twice is filling it in once. */
  lemma FillTwice(fields: seq<(string, JsValue)>, newId: string, now: string, otherId: string, later: string)
    requires newId != "" && now != ""
    ensures forall k :: Lookup(FillFields(FillFields(fields, newId, now), otherId, later), k) == Lookup(FillFields(fields, newId, now), k)
  {
    var once := FillFields(fields, newId, now);
    assert Truthy(PropOf(once, "id")) && Truthy(PropOf(once, "lastUpdated"));
    var twice := FillFields(once, otherId, later);
    forall k ensures Lookup(twice, k) == Lookup(once, k) {
      if k == "id" || k == "lastUpdated" {
        LookupFound(once, k);
        LookupFound(twice, k);
      }
    }
  }

  // --------------------------------------------------------------------- CSV

  /** `"${value.replace(/"/g, '""')}"`: a string cell quoted, its quotes doubled. */
  function QuoteCell(s: string): (r: string)
    ensures |r| >= 2 && r[0] == '"' && r[|r| - 1] == '"'
  {
    "\"" + ReplaceAll(s, "\"", "\"\"") + "\""
  }

  /** A cell of a row: strings quoted, null and undefined empty, anything else as `String(value)`. */
  function Cell(v: JsValue): string {
    match v
    case Str(s) => QuoteCell(s)
    case Undefined => ""
    case Null => ""
    case _ => ToText(v)
  }

  function Cells(fields: seq<(string, JsValue)>): (r: seq<string>)
    ensures |r| == |fields| && forall i :: 0 <= i < |fields| ==> r[i] == Cell(fields[i].1)
  {
    seq(|fields|, i requires 0 <= i < |fields| => Cell(fields[i].1))
  }

  function Keys(fields: seq<(string, JsValue)>): (r: seq<string>)
    ensures |r| == |fields| && forall i :: 0 <= i < |fields| ==> r[i] == fields[i].0
  {
    seq(|fields|, i requires 0 <= i < |fields| => fields[i].0)
  }

  /**
   * The CSV export: nothing for no records; otherwise the first record's
   * keys as the header line, then one line per record of its values.
   */
  function ExportCsv(records: seq<seq<(string, JsValue)>>): (r: string)
    ensures |records| == 0 ==> r == ""
  {
    if |records| == 0 then ""
    else Join([Join(Keys(records[0]), ",")] + seq(|records|, i requires 0 <= i < |records| => Join(Cells(records[i]), ",")), "\n")
  }

  predicate NoNewline(s: string) {
    forall i :: 0 <= i < |s| ==> s[i] != '\n'
  }

  /**
   * When no header key and no cell holds a line break, the export's lines
   * are the header (the first record's keys joined by commas) and then one
   * line per record, in order, of its cells joined by commas.
   */
  lemma ExportCsvLines(records: seq<seq<(string, JsValue)>>)
    requires |records| > 0
    requires forall j :: 0 <= j < |records[0]| ==> NoNewline(records[0][j].0)
    requires forall i, j :: 0 <= i < |records| && 0 <= j < |records[i]| ==> NoNewline(Cell(records[i][j].1))
    ensures var lines := Split(ExportCsv(records), '\n');
      && |lines| == |records| + 1
      && lines[0] == Join(Keys(records[0]), ",")
      && forall i :: 0 <= i < |records| ==> lines[i + 1] == Join(Cells(records[i]), ",")
  {
    var header := Join(Keys(records[0]), ",");
    var rows := seq(|records|, i requires 0 <= i < |records| => Join(Cells(records[i]), ","));
    var parts := [header] + rows;
    JoinAvoids(Keys(records[0]), ",", '\n');
    forall i | 0 <= i < |records|
      ensures NoNewline(rows[i])
    {
      JoinAvoids(Cells(records[i]), ",", '\n');
    }
    assert forall k :: 1 <= k < |parts| ==> parts[k] == rows[k - 1];
    SplitJoin(parts, '\n');
    assert ExportCsv(records) == Join(parts, "\n");
  }

  /** Reading a quoted cell's inside: each doubled quote stands for one quote. */
  function Unescape(t: string): string
    decreases |t|
  {
    if |t| == 0 then ""
    else if |t| >= 2 && t[0] == '"' && t[1] == '"' then "\"" + Unescape(t[2..])
    else [t[0]] + Unescape(t[1..])
  }

  /** Doubling the quotes and reading them back gives the text again. */
  lemma {:induction false} UnescapeEscape(s: string)
    ensures Unescape(ReplaceAll(s, "\"", "\"\"")) == s
    decreases |s|
  {
    if |s| > 0 {
      var rest := ReplaceAll(s[1..], "\"", "\"\"");
      UnescapeEscape(s[1..]);
      if s[0] == '"' {
        assert s[..1] == "\"";
        assert ReplaceAll(s, "\"", "\"\"") == "\"\"" + rest;
        assert ("\"\"" + rest)[2..] == rest;
        assert s == "\"" + s[1..];
      } else {
        assert s[..1] != "\"";
        assert ReplaceAll(s, "\"", "\"\"") == [s[0]] + rest;
        assert ([s[0]] + rest)[1..] == rest;
        assert s == [s[0]] + s[1..];
      }
    }
  }

  /** A quoted cell gives back its text: strip the outer quotes and undouble the inner ones. */
  lemma QuoteRoundTrip(s: string)
    ensures var q := QuoteCell(s); Unescape(q[1..|q| - 1]) == s
  {
    var q := QuoteCell(s);
    assert q[1..|q| - 1] == ReplaceAll(s, "\"", "\"\"");
    UnescapeEscape(s);
  }
}

=== FILE: numbers.dfy ===
/**
 * Numbers as the application sees them. Money and percentages are exact
 * reals; a JavaScript number is a `Num`, which adds NaN and the two
 * infinities so that the code's `Number.isFinite` guards have something to
 * reject. `Math.round` is modelled exactly on reals, and the two string
 * readers the code uses, `parseFloat` and `Number(string)`, follow the
 * grammar of the ECMAScript string-to-number conversion.
 */
module Numbers {
  import opened Wrappers
  import opened Text

  /** A JavaScript number. Signed zero is not distinguished. */
  datatype Num = Fin(v: real) | NaN | Inf(negative: bool)

  /** `Number.isFinite` for a value already known to be a number. */
  predicate IsFinite(n: Num) {
    n.Fin?
  }

  /** JavaScript `a < b` on numbers: every comparison with NaN is false. */
  predicate NumLess(a: Num, b: Num) {
    match (a, b)
    case (Fin(x), Fin(y)) => x < y
    case (Fin(_), Inf(neg)) => !neg
    case (Inf(neg), Fin(_)) => neg
    case (Inf(m), Inf(n)) => m && !n
    case _ => false
  }

  /** `<` is a strict order on the numbers that are not NaN, and false on NaN. */
  lemma NumLessStrict(a: Num, b: Num)
    ensures NumLess(a, b) ==> !NumLess(b, a) && a != b
    ensures a.NaN? || b.NaN? ==> !NumLess(a, b)
    ensures !a.NaN? && !b.NaN? && a != b ==> NumLess(a, b) || NumLess(b, a)
  {
  }

  /** IEEE addition on the number model: infinities of opposite sign give NaN. */
  function AddNum(a: Num, b: Num): (r: Num)
    ensures a.Fin? && b.Fin? ==> r == Fin(a.v + b.v)
    ensures a.NaN? || b.NaN? ==> r.NaN?
    ensures a.Inf? && b.Fin? ==> r == a
    ensures a.Fin? && b.Inf? ==> r == b
    ensures a.Inf? && b.Inf? ==> (r == a <==> a == b) && (r.NaN? <==> a != b)
  {
    match (a, b)
    case (Fin(x), Fin(y)) => Fin(x + y)
    case (NaN, _) => NaN
    case (_, NaN) => NaN
    case (Inf(p), Inf(q)) => if p == q then Inf(p) else NaN
    case (Inf(p), _) => Inf(p)
    case (_, Inf(q)) => Inf(q)
  }

  // ---------------------------------------------------------------- rounding

  /** `Math.round`: the nearest integer, halves rounded up. */
  function Round(x: real): (r: int)
    ensures r as real <= x + 0.5 < r as real + 1.0
  {
    (x + 0.5).Floor
  }

  /** The bounds above pin Math.round down completely. */
  lemma RoundUnique(x: real, k: int)
    requires k as real <= x + 0.5 < k as real + 1.0
    ensures Round(x) == k
  {
  }

  lemma RoundMonotone(x: real, y: real)
    requires x <= y
    ensures Round(x) <= Round(y)
  {
  }

  /** Rounding a value between two integers stays between them. */
  lemma RoundWithin(x: real, lo: int, hi: int)
    requires lo as real <= x <= hi as real
    ensures lo <= Round(x) <= hi
  {
    RoundMonotone(lo as real, x);
    RoundMonotone(x, hi as real);
    RoundUnique(lo as real, lo);
    RoundUnique(hi as real, hi);
  }

  /** A real that is a whole number of hundredths. */
  predicate IsCents(x: real) {
    (x * 100.0).Floor as real == x * 100.0
  }

  /** `Math.round(x * 100) / 100`: half-way cases go up, towards +Infinity. */
  function Round2(x: real): (r: real)
    ensures x - 0.005 < r <= x + 0.005
    ensures IsCents(r)
    ensures x >= 0.0 ==> r >= 0.0
  {
    Round(x * 100.0) as real / 100.0
  }

  /** Rounding to cents twice is rounding once. */
  lemma Round2Idempotent(x: real)
    ensures Round2(Round2(x)) == Round2(x)
  {
    var k := Round(x * 100.0);
    assert Round2(x) * 100.0 == k as real;
    RoundUnique(k as real, k);
  }

  /** Rounding to cents preserves order. */
  lemma Round2Monotone(x: real, y: real)
    requires x <= y
    ensures Round2(x) <= Round2(y)
  {
    RoundMonotone(x * 100.0, y * 100.0);
  }

  /** Rounding a value in [lo, hi] to cents stays in [lo, hi] when both bounds are whole cents. */
  lemma Round2Within(x: real, lo: real, hi: real)
    requires lo <= x <= hi && IsCents(lo) && IsCents(hi)
    ensures lo <= Round2(x) <= hi
  {
    Round2Monotone(lo, x);
    Round2Monotone(x, hi);
    Round2OfCents(lo);
    Round2OfCents(hi);
  }

  /** A whole number of hundredths is its own rounding. */
  lemma Round2OfCents(x: real)
    requires IsCents(x)
    ensures Round2(x) == x
  {
    RoundUnique(x * 100.0, (x * 100.0).Floor);
  }

  /** `Math.round(x * 10000) / 10000`: rounding to ten-thousandths, half-way cases up. */
  function Round4(x: real): (r: real)
    ensures x - 0.00005 < r <= x + 0.00005
    ensures x >= 0.0 ==> r >= 0.0
  {
    Round(x * 10000.0) as real / 10000.0
  }

  /**
   * `Number(x.toFixed(2))`: the magnitude is rounded to cents with half-way
   * cases going up, and the sign is put back, so a negative half-way case
   * goes down, away from zero, where `Math.round` would go up.
   */
  function ToFixed2(x: real): (r: real)
    ensures x - 0.005 <= r <= x + 0.005
    ensures x >= 0.0 ==> x - 0.005 < r && r >= 0.0
    ensures x <= 0.0 ==> r < x + 0.005 && r <= 0.0
    ensures IsCents(r)
  {
    if x < 0.0 then CentsNegate(Round2(-x)); -Round2(-x) else Round2(x)
  }

  lemma CentsNegate(x: real)
    requires IsCents(x)
    ensures IsCents(-x)
  {
    var k := (x * 100.0).Floor;
    assert -x * 100.0 == (-k) as real;
  }

  /** toFixed is symmetric about zero: negating the input negates the output. */
  lemma ToFixed2Odd(x: real)
    ensures ToFixed2(-x) == -ToFixed2(x)
  {
    if x == 0.0 {
      RoundUnique(0.0, 0);
    }
  }

  /** The two roundings part on negative half-way cases: -0.125 gives -0.13 with toFixed and -0.12 with Math.round. */
  lemma ToFixed2AwayFromZero()
    ensures ToFixed2(-0.125) == -0.13
    ensures Round2(-0.125) == -0.12
  {
    RoundUnique(12.5, 13);
    RoundUnique(-12.5, -12);
  }

  /** `Number(x.toFixed(4))`: the magnitude rounded to ten-thousandths, the sign put back. */
  function ToFixed4(x: real): (r: real)
    ensures x - 0.00005 <= r <= x + 0.00005
    ensures x >= 0.0 ==> r >= 0.0
    ensures x <= 0.0 ==> r <= 0.0
  {
    if x < 0.0 then -Round4(-x) else Round4(x)
  }

  // -------------------------------------------------------- min, max, clamp

  function Min(a: real, b: real): (r: real)
    ensures r <= a && r <= b && (r == a || r == b)
  {
    if a <= b then a else b
  }

  function Max(a: real, b: real): (r: real)
    ensures r >= a && r >= b && (r == a || r == b)
  {
    if a >= b then a else b
  }

  /** `Math.min(hi, Math.max(lo, x))`. */
  function Clamp(x: real, lo: real, hi: real): (r: real)
    requires lo <= hi
    ensures lo <= r <= hi
    ensures lo <= x <= hi ==> r == x
    ensures x < lo ==> r == lo
    ensures x > hi ==> r == hi
  {
    Min(hi, Max(lo, x))
  }

  lemma ClampIdempotent(x: real, lo: real, hi: real)
    requires lo <= hi
    ensures Clamp(Clamp(x, lo, hi), lo, hi) == Clamp(x, lo, hi)
  {
  }

  function Abs(x: real): (r: real)
    ensures r >= 0.0 && (r == x || r == -x)
  {
    if x >= 0.0 then x else -x
  }

  lemma MulNonNegative(a: real, b: real)
    requires a >= 0.0 && b >= 0.0
    ensures a * b >= 0.0
  {
  }

  lemma MulMonotone(a: real, b: real, c: real)
    requires a >= 0.0 && b <= c
    ensures a * b <= a * c
  {
  }

  /** A quotient of a part by a positive whole lies between 0 and the bound the part obeys. */
  lemma QuotientBounds(part: real, whole: real, bound: real)
    requires whole > 0.0 && 0.0 <= part <= bound * whole
    ensures 0.0 <= part / whole <= bound
  {
  }

  /** Dividing by a positive number keeps a strict order. */
  lemma QuotientStrictMonotone(a: real, b: real, d: real)
    requires d > 0.0 && a < b
    ensures a / d < b / d
  {
    var x := a / d;
    var y := b / d;
    assert x * d == a && y * d == b;
    if y <= x {
      MulMonotone(d, y, x);
    }
  }

  /** A sum of reals, left to right as `reduce` adds them. */
  function Sum(xs: seq<real>): real
  {
    if |xs| == 0 then 0.0 else Sum(xs[..|xs| - 1]) + xs[|xs| - 1]
  }

  lemma {:induction false} SumNonNegative(xs: seq<real>)
    requires forall i :: 0 <= i < |xs| ==> xs[i] >= 0.0
    ensures Sum(xs) >= 0.0
  {
    if |xs| > 0 {
      SumNonNegative(xs[..|xs| - 1]);
    }
  }

  lemma {:induction false} SumAppend(xs: seq<real>, ys: seq<real>)
    ensures Sum(xs + ys) == Sum(xs) + Sum(ys)
    decreases |ys|
  {
    if |ys| == 0 {
      assert xs + ys == xs;
    } else {
      assert (xs + ys)[..|xs + ys| - 1] == xs + ys[..|ys| - 1];
      assert (xs + ys)[|xs + ys| - 1] == ys[|ys| - 1];
      SumAppend(xs, ys[..|ys| - 1]);
    }
  }

  /** A sum of values that all lie between two bounds lies between the count times each bound. */
  /** A quotient by a positive number lies between the bounds its dividend lies between, scaled. */
  lemma DivBetween(s: real, n: real, lo: real, hi: real)
    requires n > 0.0 && lo * n <= s <= hi * n
    ensures lo <= s / n <= hi
  {
    assert s / n * n == s;
  }

  /** A sum of numbers each at least lo and at most hi lies between n·lo and n·hi. */
  lemma {:induction false} SumBetween(xs: seq<real>, lo: real, hi: real)
    requires forall i :: 0 <= i < |xs| ==> lo <= xs[i] <= hi
    ensures |xs| as real * lo <= Sum(xs) <= |xs| as real * hi
    decreases |xs|
  {
    if |xs| > 0 {
      var n := |xs| as real;
      var init := xs[..|xs| - 1];
      SumBetween(init, lo, hi);
      assert Sum(xs) == Sum(init) + xs[|xs| - 1];
      assert |init| as real == n - 1.0;
      assert lo <= xs[|xs| - 1] <= hi;
      assert n * lo == (n - 1.0) * lo + lo;
      assert n * hi == (n - 1.0) * hi + hi;
    }
  }

  /** The finite parts of a list of numbers, 0 in place of NaN and the infinities. */
  function FiniteValues(xs: seq<Num>): (r: seq<real>)
    ensures |r| == |xs|
    ensures forall i :: 0 <= i < |xs| && xs[i].Fin? ==> r[i] == xs[i].v
  {
    seq(|xs|, i requires 0 <= i < |xs| => if xs[i].Fin? then xs[i].v else 0.0)
  }

  /** Some term is the infinity of the given sign. */
  predicate SomeInf(xs: seq<Num>, negative: bool) {
    exists i :: 0 <= i < |xs| && xs[i] == Inf(negative)
  }

  /** Every term is finite or the infinity of the given sign. */
  predicate FiniteOrInf(xs: seq<Num>, negative: bool) {
    forall i :: 0 <= i < |xs| ==> xs[i].Fin? || xs[i] == Inf(negative)
  }

  /**
   * `reduce((sum, x) => sum + x, 0)` on numbers: finite when every term is,
   * NaN as soon as one term is or both infinities occur, and otherwise the
   * infinity that occurs.
   */
  function SumNum(xs: seq<Num>): (r: Num)
    ensures (forall i :: 0 <= i < |xs| ==> xs[i].Fin?) ==> r == Fin(Sum(FiniteValues(xs)))
    ensures (exists i :: 0 <= i < |xs| && xs[i].NaN?) ==> r.NaN?
    ensures forall negative :: SomeInf(xs, negative) ==> r == Inf(negative) || r.NaN?
    ensures forall negative :: SomeInf(xs, negative) && FiniteOrInf(xs, negative) ==> r == Inf(negative)
    ensures SomeInf(xs, false) && SomeInf(xs, true) ==> r.NaN?
  {
    if |xs| == 0 then Fin(0.0)
    else
      var init := xs[..|xs| - 1];
      var last := xs[|xs| - 1];
      assert FiniteValues(xs)[..|xs| - 1] == FiniteValues(init);
      assert forall i :: 0 <= i < |init| ==> init[i] == xs[i];
      SumNumInfinities(xs, init, last);
      AddNum(SumNum(init), last)
  }

  /** An infinity of the whole list is one of its front part or its last term. */
  lemma SumNumInfinities(xs: seq<Num>, init: seq<Num>, last: Num)
    requires xs == init + [last]
    ensures forall negative :: SomeInf(xs, negative) <==> SomeInf(init, negative) || last == Inf(negative)
    ensures forall negative :: FiniteOrInf(xs, negative) <==> FiniteOrInf(init, negative) && (last.Fin? || last == Inf(negative))
  {
    forall negative ensures SomeInf(xs, negative) <==> SomeInf(init, negative) || last == Inf(negative) {
      if SomeInf(xs, negative) {
        var i :| 0 <= i < |xs| && xs[i] == Inf(negative);
        if i < |init| {
          assert init[i] == Inf(negative);
        }
      }
      if SomeInf(init, negative) {
        var i :| 0 <= i < |init| && init[i] == Inf(negative);
        assert xs[i] == Inf(negative);
      }
      if last == Inf(negative) {
        assert xs[|xs| - 1] == Inf(negative);
      }
    }
    forall negative ensures FiniteOrInf(xs, negative) <==> FiniteOrInf(init, negative) && (last.Fin? || last == Inf(negative)) {
      if FiniteOrInf(xs, negative) {
        assert xs[|xs| - 1] == last;
        assert forall i :: 0 <= i < |init| ==> init[i] == xs[i];
      }
    }
  }

  function Pow10(n: nat): (r: nat)
    ensures r >= 1
  {
    if n == 0 then 1 else 10 * Pow10(n - 1)
  }

  /** Ten to an integer power, as a real. */
  function Scale(e: int): (r: real)
    ensures r > 0.0
  {
    if e >= 0 then Pow10(e) as real else 1.0 / Pow10(-e) as real
  }

  // --------------------------------------------------------- reading numbers

  /** The length of the run of decimal digits at the start of `s`. */
  function DigitRun(s: string): (n: nat)
    ensures n <= |s|
    ensures AllDigits(s[..n])
    ensures n < |s| ==> !IsDigit(s[n])
  {
    if |s| > 0 && IsDigit(s[0]) then
      var k := DigitRun(s[1..]);
      assert s[..k + 1] == [s[0]] + s[1..][..k];
      k + 1
    else 0
  }

  lemma {:induction false} DigitRunAll(s: string)
    requires AllDigits(s)
    ensures DigitRun(s) == |s|
  {
    if |s| > 0 {
      DigitRunAll(s[1..]);
    }
  }

  /**
   * The exponent part `e[+-]digits` at the start of `s`, as its value and the
   * number of characters it takes; an `e` without digits is not an exponent.
   */
  function Exponent(s: string): (r: (int, nat))
    ensures r.1 <= |s|
    ensures r.1 == 0 ==> r.0 == 0
  {
    if |s| >= 2 && (s[0] == 'e' || s[0] == 'E') then
      var signed := s[1] == '+' || s[1] == '-';
      var start := if signed then 2 else 1;
      var k := DigitRun(s[start..]);
      if k == 0 then (0, 0)
      else
        var mag: int := DigitsValue(s[start..][..k]);
        (if s[1] == '-' then -mag else mag, start + k)
    else (0, 0)
  }

  /**
   * The longest prefix of `s` that is an unsigned decimal literal
   * (`12`, `12.`, `12.5`, `.5`, each optionally followed by an exponent):
   * its value and its length, or None when `s` does not start with one.
   */
  function UnsignedDecimal(s: string): (r: Option<(real, nat)>)
    ensures r.Some? ==> 0 < r.value.1 <= |s|
    ensures r.None? <==> DigitRun(s) == 0 && !(|s| >= 2 && s[0] == '.' && IsDigit(s[1]))
  {
    var a := DigitRun(s);
    var dot := a < |s| && s[a] == '.';
    var b := if dot then DigitRun(s[a + 1..]) else 0;
    if a == 0 && b == 0 then None
    else
      var m := if dot then a + 1 + b else a;
      var whole := DigitsValue(s[..a]) as real;
      var frac := if dot then DigitsValue(s[a + 1..][..b]) as real / Pow10(b) as real else 0.0;
      var e := Exponent(s[m..]);
      Some((DecimalValue(whole, frac, e.0), m + e.1))
  }

  /** The value of a literal's whole part, fraction and decimal exponent. */
  function DecimalValue(whole: real, frac: real, exp: int): (r: real)
    ensures frac == 0.0 && exp == 0 ==> r == whole
  {
    (whole + frac) * Scale(exp)
  }

  /**
   * The longest prefix of `s` that is a signed decimal literal or a signed
   * `Infinity`, with the number it denotes and its length.
   */
  function SignedDecimal(s: string): (r: Option<(Num, nat)>)
    ensures r.Some? ==> 0 < r.value.1 <= |s|
  {
    var signed := |s| > 0 && (s[0] == '+' || s[0] == '-');
    var negative := signed && s[0] == '-';
    var start := if signed then 1 else 0;
    var rest := s[start..];
    if IsPrefix("Infinity", rest) then Some((Inf(negative), start + 8))
    else
      match UnsignedDecimal(rest)
      case None => None
      case Some(d) => Some((Fin(if negative then -d.0 else d.0), start + d.1))
  }

  /** `parseFloat(s)`: leading white space is skipped, then the longest numeric prefix is read. */
  function ParseFloat(s: string): (r: Num)
    ensures r.NaN? <==> SignedDecimal(TrimStart(s)).None?
  {
    match SignedDecimal(TrimStart(s))
    case None => NaN
    case Some(d) => d.0
  }

  /** The value of a digit in base 16 and below, or 16 for any other character. */
  function RadixDigit(c: char): (d: nat)
    ensures d <= 16
  {
    if '0' <= c <= '9' then c as int - '0' as int
    else if 'a' <= c <= 'f' then c as int - 'a' as int + 10
    else if 'A' <= c <= 'F' then c as int - 'A' as int + 10
    else 16
  }

  /** The base named by the letter after a leading `0`: x, o or b; 0 for anything else. */
  function RadixOf(c: char): (b: nat)
    ensures b == 0 || b == 2 || b == 8 || b == 16
  {
    if c == 'x' || c == 'X' then 16
    else if c == 'o' || c == 'O' then 8
    else if c == 'b' || c == 'B' then 2
    else 0
  }

  predicate AllRadixDigits(s: string, base: nat) {
    forall i :: 0 <= i < |s| ==> RadixDigit(s[i]) < base
  }

  function RadixValue(s: string, base: nat): nat
    requires AllRadixDigits(s, base)
  {
    if |s| == 0 then 0
    else RadixValue(s[..|s| - 1], base) * base + RadixDigit(s[|s| - 1])
  }

  /** True when `t` is `0x…`, `0o…` or `0b…` with at least one digit of that base. */
  predicate IsRadixLiteral(t: string) {
    |t| > 2 && t[0] == '0' && RadixOf(t[1]) > 0 && AllRadixDigits(t[2..], RadixOf(t[1]))
  }

  /**
   * `Number(s)` for a string: white space is trimmed, the empty string is 0,
   * and otherwise the WHOLE trimmed text must be one numeric literal, or
   * the result is NaN.
   */
  function StringToNumber(s: string): (r: Num)
    ensures Trim(s) == "" ==> r == Fin(0.0)
    ensures r.NaN? <==>
      Trim(s) != "" && !IsRadixLiteral(Trim(s)) &&
      (SignedDecimal(Trim(s)).None? || SignedDecimal(Trim(s)).value.1 != |Trim(s)|)
  {
    var t := Trim(s);
    if t == "" then Fin(0.0)
    else if IsRadixLiteral(t) then Fin(RadixValue(t[2..], RadixOf(t[1])) as real)
    else
      match SignedDecimal(t)
      case Some(d) => if d.1 == |t| then d.0 else NaN
      case None => NaN
  }

  // ------------------------------------------------------------ round trips

  lemma TrimStartNoLeadingSpace(s: string)
    requires |s| > 0 && !IsSpace(s[0])
    ensures TrimStart(s) == s
  {
  }

  lemma TrimNoOuterSpace(s: string)
    requires |s| > 0 && !IsSpace(s[0]) && !IsSpace(s[|s| - 1])
    ensures Trim(s) == s
  {
  }

  /** Leading white space never changes what parseFloat reads. */
  lemma ParseFloatSkipsSpace(c: char, s: string)
    requires IsSpace(c)
    ensures ParseFloat([c] + s) == ParseFloat(s)
  {
    assert ([c] + s)[1..] == s;
  }

  /** A run of digits followed by nothing else reads as its own value. */
  lemma UnsignedDigits(t: string)
    requires |t| > 0 && AllDigits(t)
    ensures UnsignedDecimal(t) == Some((DigitsValue(t) as real, |t|))
  {
    DigitRunAll(t);
    assert t[..|t|] == t;
    assert Exponent(t[|t|..]) == (0, 0) by { assert t[|t|..] == ""; }
  }

  /** `parseFloat(String(n))` and `Number(String(n))` give back n. */
  lemma {:induction false} NatTextRoundTrip(n: nat)
    ensures ParseFloat(NatText(n)) == Fin(n as real)
    ensures StringToNumber(NatText(n)) == Fin(n as real)
  {
    var t := NatText(n);
    UnsignedDigits(t);
    NatTextValue(n);
    assert !IsPrefix("Infinity", t) by { assert IsDigit(t[0]); }
    assert SignedDecimal(t) == Some((Fin(n as real), |t|));
    TrimNoOuterSpace(t);
    assert !IsRadixLiteral(t);
  }

  /** The same for the text of any integer, negative ones included. */
  lemma {:induction false} IntTextRoundTrip(i: int)
    ensures ParseFloat(IntText(i)) == Fin(i as real)
    ensures StringToNumber(IntText(i)) == Fin(i as real)
  {
    if i >= 0 {
      NatTextRoundTrip(i);
    } else {
      var d := NatText(-i);
      var t := IntText(i);
      assert t == "-" + d;
      assert t[1..] == d;
      UnsignedDigits(d);
      NatTextValue(-i);
      assert !IsPrefix("Infinity", d) by { assert IsDigit(d[0]); }
      assert SignedDecimal(t) == Some((Fin(i as real), |t|));
      TrimNoOuterSpace(t);
      assert !IsRadixLiteral(t);
    }
  }

  // ------------------------------------------------------------ writing numbers

  /** Up to `k` decimal digits of a fraction in [0, 1), stopping when it is exhausted. */
  function FractionDigits(f: real, k: nat): (r: string)
    requires 0.0 <= f < 1.0
    ensures |r| <= k && AllDigits(r)
    decreases k
  {
    if k == 0 || f == 0.0 then ""
    else
      var d := (f * 10.0).Floor;
      [DigitChar(d)] + FractionDigits(f * 10.0 - d as real, k - 1)
  }

  /**
   * `String(x)` for a number: integers exactly, other finite values with
   * their integer part and up to 20 fraction digits.
   */
  function NumText(n: Num): (r: string)
    ensures |r| > 0
    ensures n.Fin? && n.v == n.v.Floor as real ==> r == IntText(n.v.Floor)
  {
    match n
    case NaN => "NaN"
    case Inf(neg) => if neg then "-Infinity" else "Infinity"
    case Fin(x) =>
      if x == x.Floor as real then IntText(x.Floor)
      else
        var a := if x < 0.0 then -x else x;
        var w := a.Floor;
        (if x < 0.0 then "-" else "") + NatText(w) + "." + FractionDigits(a - w as real, 20)
  }

  /** Writing an integer-valued number and reading it back is the identity. */
  lemma IntNumTextRoundTrip(i: int)
    ensures StringToNumber(NumText(Fin(i as real))) == Fin(i as real)
    ensures ParseFloat(NumText(Fin(i as real))) == Fin(i as real)
  {
    IntTextRoundTrip(i);
  }
}

=== FILE: pricing_wizard.dfy ===
/**
 * The tender-pricing wizard as a state machine: five steps, a draft that
 * records which steps are done, the validator each step runs before the
 * wizard moves on, navigation that stays within the steps, and the stored
 * map of drafts per tender. Saving the tender and the clock are outside;
 * whether the registration save succeeds is a parameter.
 */
module PricingWizard {
  import opened Wrappers

  datatype StepId = Registration | Technical | Financial | Review | Submit

  /** The wizard's steps in order. */
  const Steps: seq<StepId> := [Registration, Technical, Financial, Review, Submit]

  const LastStep: nat := 4

  /** `WIZARD_STEPS.findIndex(step => step.id === id)`: every step has its place. */
  function StepIndex(id: StepId): (i: nat)
    ensures i <= LastStep && Steps[i] == id
  {
    match id
    case Registration => 0
    case Technical => 1
    case Financial => 2
    case Review => 3
    case Submit => 4
  }

  datatype RegistrationForm = RegistrationForm(name: string, client: string, deadline: string, kind: string, estimatedValue: string)

  datatype Draft = Draft(
    tenderId: string,
    completedSteps: map<StepId, bool>,
    form: RegistrationForm,
    technicalChecklist: map<string, bool>,
    financialChecklist: map<string, bool>,
    readyForSubmission: bool)

  /** What the wizard needs of the tender being priced. */
  datatype TenderInfo = TenderInfo(id: string, technicalFilesUploaded: bool)

  // ------------------------------------------------------------------ status

  /** isChecklistComplete: every entry of the checklist is ticked. */
  predicate ChecklistComplete(checklist: map<string, bool>) {
    forall k :: k in checklist ==> checklist[k]
  }

  /** An empty checklist is complete; ticking an item keeps a complete list complete; unticking makes it incomplete. */
  lemma ChecklistUpdates(checklist: map<string, bool>, key: string)
    ensures ChecklistComplete(map[])
    ensures ChecklistComplete(checklist) ==> ChecklistComplete(checklist[key := true])
    ensures !ChecklistComplete(checklist[key := false])
  {
    assert key in checklist[key := false];
  }

  datatype StepStatus = Pending | Done

  /** getStepStatus: pending without a draft, done exactly when the draft marks the step completed. */
  function Status(draft: Option<Draft>, step: StepId): (s: StepStatus)
    ensures s == Done <==> draft.Some? && step in draft.value.completedSteps && draft.value.completedSteps[step]
  {
    if draft.None? then Pending
    else if step in draft.value.completedSteps && draft.value.completedSteps[step] then Done
    else Pending
  }

  /** The active step's index in the list, -1 when it is missing. */
  function ActiveIndex(steps: seq<StepId>, active: StepId): (r: int)
    ensures -1 <= r < |steps|
    ensures r >= 0 ==> steps[r] == active
    ensures forall j :: 0 <= j < |steps| && (r < 0 || j < r) ==> steps[j] != active
  {
    if |steps| == 0 then -1
    else if steps[0] == active then 0
    else
      var rest := ActiveIndex(steps[1..], active);
      if rest < 0 then -1 else rest + 1
  }

  /** StepIndicator: a step can be clicked when it is done or comes no later than the active step. */
  predicate Clickable(steps: seq<StepId>, active: StepId, draft: Option<Draft>, index: nat)
    requires index < |steps|
  {
    Status(draft, steps[index]) == Done || index as int <= ActiveIndex(steps, active)
  }

  /** The active step and every step before it can be clicked, and so can every finished step. */
  lemma ClickableSteps(active: StepId, draft: Option<Draft>, index: nat)
    requires index < |Steps|
    ensures index <= StepIndex(active) ==> Clickable(Steps, active, draft, index)
    ensures Status(draft, Steps[index]) == Done ==> Clickable(Steps, active, draft, index)
    ensures Clickable(Steps, active, draft, index) <==> Status(draft, Steps[index]) == Done || index <= StepIndex(active)
  {
    var i := StepIndex(active);
    assert ActiveIndex(Steps, active) == i by {
      assert Steps[i] == active;
      if ActiveIndex(Steps, active) != i {
        assert ActiveIndex(Steps, active) >= 0;
        assert Steps[ActiveIndex(Steps, active)] == active;
      }
    }
  }

  /** markStepCompleted: the step is marked done and no other flag changes. */
  function MarkCompleted(draft: Draft, step: StepId): (d: Draft)
    ensures Status(Some(d), step) == Done
    ensures forall other :: other != step ==> Status(Some(d), other) == Status(Some(draft), other)
    ensures d.(completedSteps := draft.completedSteps) == draft
  {
    draft.(completedSteps := draft.completedSteps[step := true])
  }

  /** Marking a step twice is marking it once. */
  lemma MarkIdempotent(draft: Draft, step: StepId)
    ensures MarkCompleted(MarkCompleted(draft, step), step) == MarkCompleted(draft, step)
  {
    assert MarkCompleted(draft, step).completedSteps[step := true] == MarkCompleted(draft, step).completedSteps;
  }

  // -------------------------------------------------------------- validators

  /** handleRegistrationNext: a draft and a tender, a name, client and deadline, and a save that succeeds. */
  predicate RegistrationOk(draft: Option<Draft>, tender: Option<TenderInfo>, saveSucceeds: bool) {
    draft.Some? && tender.Some?
    && draft.value.form.name != "" && draft.value.form.client != "" && draft.value.form.deadline != ""
    && saveSucceeds
  }

  /** handleTechnicalNext: a draft and a tender whose technical files are uploaded, and a complete checklist. */
  predicate TechnicalOk(draft: Option<Draft>, tender: Option<TenderInfo>) {
    draft.Some? && tender.Some? && tender.value.technicalFilesUploaded && ChecklistComplete(draft.value.technicalChecklist)
  }

  /** handleFinancialNext: a draft with a complete financial checklist. */
  predicate FinancialOk(draft: Option<Draft>) {
    draft.Some? && ChecklistComplete(draft.value.financialChecklist)
  }

  /** handleReviewNext: a draft confirmed ready for submission. */
  predicate ReviewOk(draft: Option<Draft>) {
    draft.Some? && draft.value.readyForSubmission
  }

  /** Whether the step's validator lets the wizard move on; the last step has none. */
  predicate CanProceed(step: StepId, draft: Option<Draft>, tender: Option<TenderInfo>, saveSucceeds: bool) {
    match step
    case Registration => RegistrationOk(draft, tender, saveSucceeds)
    case Technical => TechnicalOk(draft, tender)
    case Financial => FinancialOk(draft)
    case Review => ReviewOk(draft)
    case Submit => true
  }

  /** The draft after a validator that passed: its step marked completed, except the last step, which marks nothing. */
  function AfterValidation(step: StepId, draft: Option<Draft>): (d: Option<Draft>)
    ensures d.Some? <==> draft.Some?
    ensures d.Some? && step != Submit ==> Status(d, step) == Done
    ensures forall other :: other != step ==> Status(d, other) == Status(draft, other)
  {
    if step == Submit || draft.None? then draft else Some(MarkCompleted(draft.value, step))
  }

  // -------------------------------------------------------------- navigation

  datatype Wizard = Wizard(index: nat, draft: Option<Draft>)

  predicate InRange(w: Wizard) {
    w.index <= LastStep
  }

  /**
   * handleNext: run the current step's validator; when it passes, mark the
   * step and move one step on, never past the last. An index with no step
   * leaves everything as it is.
   */
  function Next(w: Wizard, tender: Option<TenderInfo>, saveSucceeds: bool): (r: Wizard)
    ensures w.index > LastStep ==> r == w
    ensures InRange(w) ==> InRange(r)
    ensures r.index == w.index || r.index == w.index + 1
    ensures r.index > w.index ==> CanProceed(Steps[w.index], w.draft, tender, saveSucceeds)
    ensures InRange(w) && w.index < LastStep && CanProceed(Steps[w.index], w.draft, tender, saveSucceeds) ==> r.index == w.index + 1
    ensures InRange(w) && !CanProceed(Steps[w.index], w.draft, tender, saveSucceeds) ==> r == w
  {
    if w.index >= |Steps| then w
    else
      var step := Steps[w.index];
      if CanProceed(step, w.draft, tender, saveSucceeds) then
        Wizard(if w.index + 1 < LastStep then w.index + 1 else LastStep, AfterValidation(step, w.draft))
      else w
  }

  /** handleBack: one step back, never below the first. */
  function Back(w: Wizard): (r: Wizard)
    ensures r.index == if w.index == 0 then 0 else w.index - 1
    ensures r.draft == w.draft
    ensures InRange(w) ==> InRange(r)
  {
    w.(index := if w.index == 0 then 0 else w.index - 1)
  }

  /** goToStep: jump to the step's place. */
  function GoToStep(w: Wizard, id: StepId): (r: Wizard)
    ensures InRange(r) && Steps[r.index] == id && r.draft == w.draft
  {
    w.(index := StepIndex(id))
  }

  /** Going back undoes a step forward, and going forward from the last step stays there. */
  lemma BackUndoesNext(w: Wizard, tender: Option<TenderInfo>, saveSucceeds: bool)
    requires InRange(w)
    ensures Next(w, tender, saveSucceeds).index > w.index ==> Back(Next(w, tender, saveSucceeds)).index == w.index
    ensures w.index == LastStep ==> Next(w, tender, saveSucceeds).index == LastStep
  {
  }

  /** Pressing Next once per input, from the first step. */
  function Run(w: Wizard, inputs: seq<(Option<TenderInfo>, bool)>): Wizard
    decreases |inputs|
  {
    if |inputs| == 0 then w else Run(Next(w, inputs[0].0, inputs[0].1), inputs[1..])
  }

  /** However often Next is pressed, the wizard stays on its steps and moves at most one step per press. */
  lemma {:induction false} RunBounded(w: Wizard, inputs: seq<(Option<TenderInfo>, bool)>)
    requires InRange(w)
    ensures Run(w, inputs).index <= w.index + |inputs|
    ensures InRange(Run(w, inputs))
    decreases |inputs|
  {
    if |inputs| > 0 {
      RunBounded(Next(w, inputs[0].0, inputs[0].1), inputs[1..]);
    }
  }

  // ------------------------------------------------------------------ drafts

  /** persistDraft: store the tender's draft, replacing an older one. */
  function PersistDraft(drafts: map<string, Draft>, tenderId: string, draft: Draft): (r: map<string, Draft>)
    ensures tenderId in r && r[tenderId] == draft
    ensures forall k :: k != tenderId ==> (k in r <==> k in drafts) && (k in r ==> r[k] == drafts[k])
  {
    drafts[tenderId := draft]
  }

  /** clearDraft: remove exactly the tender's draft; nothing happens when there is none. */
  function ClearDraft(drafts: map<string, Draft>, tenderId: string): (r: map<string, Draft>)
    ensures tenderId !in r
    ensures tenderId !in drafts ==> r == drafts
    ensures forall k :: k != tenderId ==> (k in r <==> k in drafts) && (k in r ==> r[k] == drafts[k])
  {
    if tenderId !in drafts then drafts else drafts - {tenderId}
  }

  /** Clearing a draft just stored is the same as clearing before storing, and clearing twice is clearing once. */
  lemma ClearUndoesPersist(drafts: map<string, Draft>, tenderId: string, draft: Draft)
    ensures ClearDraft(PersistDraft(drafts, tenderId, draft), tenderId) == ClearDraft(drafts, tenderId)
    ensures ClearDraft(ClearDraft(drafts, tenderId), tenderId) == ClearDraft(drafts, tenderId)
  {
    var a := ClearDraft(PersistDraft(drafts, tenderId, draft), tenderId);
    var b := ClearDraft(drafts, tenderId);
    assert a.Keys == b.Keys;
  }
}

=== FILE: project_cost.dfy ===
/**
 * The project-cost view: how a typed amount is read (Arabic-Indic digits,
 * Arabic and Western separators, white space), how editing an item's actual
 * quantity or unit price recomputes its total, how new default percentages
 * reach the items that still follow the old defaults, which breakdowns are
 * open, the status filter, and the entry of an item that exists only on the
 * actual side. Undo snapshots, the auto-save timer and the clock are outside.
 */
module ProjectCost {
  import opened Wrappers
  import opened Text
  import opened Numbers
  import opened Lists

  // ------------------------------------------------------------- reading input

  /** What an input field hands over: already a number, or the text typed. */
  datatype NumericInput = NumberInput(n: Num) | TextInput(s: string)

  const ArabicThousands: char := '\U{66C}'
  const ArabicDecimal: char := '\U{66B}'

  predicate IsArabicDigit(c: char) {
    '\U{660}' <= c <= '\U{669}'
  }

  /** The first pass drops white space and the Arabic thousands separator. */
  predicate FirstPassKeeps(c: char) {
    !IsSpace(c) && c != ArabicThousands
  }

  predicate NotComma(c: char) {
    c != ','
  }

  /** The characters that survive the last pass: `[0-9\-.]`. */
  predicate NumericChar(c: char) {
    IsDigit(c) || c == '-' || c == '.'
  }

  /** An Arabic-Indic digit becomes the ASCII digit of the same value; any other character stays. */
  function Westernize(c: char): (d: char)
    ensures IsArabicDigit(c) ==> IsDigit(d) && d as int - '0' as int == c as int - 0x660
    ensures !IsArabicDigit(c) ==> d == c
  {
    if IsArabicDigit(c) then (c as int - 0x660 + '0' as int) as char else c
  }

  function WesternDigits(s: string): (r: string)
    ensures |r| == |s|
    ensures forall i :: 0 <= i < |s| ==> r[i] == Westernize(s[i])
  {
    seq(|s|, i requires 0 <= i < |s| => Westernize(s[i]))
  }

  /**
   * Commas: with a point present they are thousands separators and go; as
   * the only separator a comma is the decimal point; otherwise none remain.
   */
  function Commas(s: string): (r: string)
    ensures forall i :: 0 <= i < |r| ==> r[i] != ','
  {
    if '.' in s && ',' in s then KeepChars(s, NotComma)
    else if ',' in s then ReplaceChar(s, ',', '.')
    else KeepChars(s, NotComma)
  }

  /** The first three steps: white space and Arabic thousands separators dropped, Arabic decimal point and digits made Western. */
  function Prepared(s: string): (r: string)
  {
    WesternDigits(ReplaceChar(KeepChars(s, FirstPassKeeps), ArabicDecimal, '.'))
  }

  /** The text `parseFloat` finally reads: only digits, minus signs and points. */
  function Normalize(s: string): (r: string)
    ensures forall i :: 0 <= i < |r| ==> NumericChar(r[i])
  {
    KeepChars(Commas(Prepared(s)), NumericChar)
  }

  /** parseNumericInput: a finite number for every input, 0 when nothing readable was given. */
  function ParseNumericInput(input: NumericInput): (r: real)
    ensures input.NumberInput? ==> r == (if input.n.Fin? then input.n.v else 0.0)
    ensures input == TextInput("") ==> r == 0.0
    ensures input.TextInput? && input.s != "" ==> (r == 0.0 || ParseFloat(Normalize(input.s)) == Fin(r))
  {
    match input
    case NumberInput(n) => if n.Fin? then n.v else 0.0
    case TextInput(s) =>
      if s == "" then 0.0
      else
        match ParseFloat(Normalize(s))
        case Fin(v) => v
        case _ => 0.0
  }

  /** Western digits, minus signs, points and commas: what the first three steps leave alone. */
  predicate Plain(s: string) {
    forall i :: 0 <= i < |s| ==> NumericChar(s[i]) || s[i] == ','
  }

  lemma PreparedPlain(s: string)
    requires Plain(s)
    ensures Prepared(s) == s
  {
    assert KeepChars(s, FirstPassKeeps) == s;
    assert ReplaceChar(s, ArabicDecimal, '.') == s;
  }

  /** Text made only of digits, minus signs and points passes through every step unchanged. */
  lemma NormalizeKeepsPlain(s: string)
    requires forall i :: 0 <= i < |s| ==> NumericChar(s[i])
    ensures Normalize(s) == s
  {
    PreparedPlain(s);
    assert ',' !in s;
    assert Commas(s) == s;
  }

  /** Whatever is typed, reading the normalized text again changes nothing. */
  lemma NormalizeIdempotent(s: string)
    ensures Normalize(Normalize(s)) == Normalize(s)
  {
    NormalizeKeepsPlain(Normalize(s));
  }

  /** `String(i)` for any integer is read back as that integer. */
  lemma IntegersRead(i: int)
    ensures ParseNumericInput(TextInput(IntText(i))) == i as real
  {
    var t := IntText(i);
    if i < 0 {
      assert t == "-" + NatText(-i);
      assert forall k :: 1 <= k < |t| ==> t[k] == NatText(-i)[k - 1];
    }
    NormalizeKeepsPlain(t);
    IntTextRoundTrip(i);
  }

  function ArabicChar(c: char): (d: char)
    requires IsDigit(c)
    ensures IsArabicDigit(d) && Westernize(d) == c
  {
    (c as int - '0' as int + 0x660) as char
  }

  /** A natural number written with Arabic-Indic digits. */
  function ArabicText(n: nat): (r: string)
    ensures |r| == |NatText(n)|
    ensures forall i :: 0 <= i < |r| ==> IsArabicDigit(r[i]) && Westernize(r[i]) == NatText(n)[i]
  {
    var t := NatText(n);
    seq(|t|, i requires 0 <= i < |t| => ArabicChar(t[i]))
  }

  lemma ArabicPrepared(n: nat)
    ensures Prepared(ArabicText(n)) == NatText(n)
  {
    var s := ArabicText(n);
    KeepCharsWhole(s, FirstPassKeeps);
    assert ReplaceChar(s, ArabicDecimal, '.') == s;
  }

  /** A number typed in Arabic-Indic digits is read as its value. */
  lemma ArabicDigitsRead(n: nat)
    ensures ParseNumericInput(TextInput(ArabicText(n))) == n as real
  {
    var t := NatText(n);
    ArabicPrepared(n);
    NormalizeKeepsPlain(t);
    PreparedPlain(t);
    assert Normalize(ArabicText(n)) == t;
    NatTextRoundTrip(n);
  }

  /** Two runs of digits around one separator character. */
  lemma DigitsAround(x: string, sep: char, y: string)
    requires AllDigits(x) && AllDigits(y)
    ensures forall i :: 0 <= i < |x + [sep] + y| ==> IsDigit((x + [sep] + y)[i]) || (x + [sep] + y)[i] == sep
  {
  }

  predicate AllNumeric(s: string) {
    forall i :: 0 <= i < |s| ==> NumericChar(s[i])
  }

  /** Digits, a point, digits. */
  lemma DecimalText(x: string, y: string)
    requires AllDigits(x) && AllDigits(y)
    ensures AllNumeric(x + "." + y) && (x + "." + y)[|x|] == '.'
  {
    DigitsAround(x, '.', y);
  }

  /** Digits and numeric text joined by a comma, and joined directly. */
  lemma CommaJoined(x: string, y: string)
    requires AllDigits(x) && AllNumeric(y)
    ensures Plain(x + [','] + y) && (x + [','] + y)[|x|] == ','
    ensures AllNumeric(x + y)
    ensures forall i :: 0 <= i < |y| ==> (x + [','] + y)[|x| + 1 + i] == y[i]
  {
  }

  /** A lone comma between digits is a decimal comma: "12,5" is read as "12.5". */
  lemma {:induction false} DecimalComma(x: string, y: string)
    requires AllDigits(x) && AllDigits(y)
    ensures Normalize(x + "," + y) == x + "." + y
  {
    var s := x + [','] + y;
    var t := x + "." + y;
    DigitsAround(x, ',', y);
    DecimalText(x, y);
    PreparedPlain(s);
    assert s[|x|] == ',';
    assert '.' !in s;
    assert ReplaceChar(s, ',', '.') == t;
    NormalizeKeepsPlain(t);
  }

  /** On text the first three steps leave alone, only the comma rule and the last filter act. */
  lemma NormalizePlain(s: string)
    requires Plain(s)
    ensures Normalize(s) == KeepChars(Commas(s), NumericChar)
  {
    PreparedPlain(s);
  }

  lemma CommaDropped(x: string, w: string)
    requires AllDigits(x) && AllNumeric(w)
    ensures KeepChars(x + [','] + w, NotComma) == x + w
  {
    assert forall i :: 0 <= i < |x| ==> NotComma(x[i]);
    assert forall i :: 0 <= i < |w| ==> NotComma(w[i]);
    KeepCharsDropOne(x, ',', w, NotComma);
  }

  /** Digits, a comma, then numeric text holding a point: the comma goes. */
  lemma CommaBeforePoint(x: string, w: string, k: nat)
    requires AllDigits(x) && AllNumeric(w) && k < |w| && w[k] == '.'
    ensures Normalize(x + "," + w) == x + w
  {
    CommaJoined(x, w);
    var s := x + [','] + w;
    assert s[|x| + 1 + k] == '.';
    assert ',' in s && '.' in s;
    CommaDropped(x, w);
    assert Commas(s) == x + w;
    NormalizePlain(s);
    KeepCharsWhole(x + w, NumericChar);
  }

  /** With a decimal point present, commas between digits are thousands separators: "1,250.75" is read as "1250.75". */
  lemma ThousandsSeparators(x: string, y: string, z: string)
    requires AllDigits(x) && AllDigits(y) && AllDigits(z)
    ensures Normalize(x + "," + y + "." + z) == x + y + "." + z
  {
    var w := y + "." + z;
    DecimalText(y, z);
    CommaBeforePoint(x, w, |y|);
    assert x + "," + w == x + "," + y + "." + z;
    assert x + w == x + y + "." + z;
  }

  // ----------------------------------------------------------------- items

  /** The additional percentages stored on an item; a field may be missing. */
  datatype Percentages = Percentages(administrative: Option<real>, operational: Option<real>, profit: Option<real>)

  /** The defaults the percentages panel edits: all three fields present. */
  datatype Defaults = Defaults(administrative: real, operational: real, profit: real)

  datatype Actual = Actual(quantity: real, unitPrice: real, totalPrice: real, percentages: Option<Percentages>)

  datatype CostItem = CostItem(id: string, description: string, origin: string, actual: Option<Actual>, isModified: bool)

  /** The position of the first item with the id, or -1. */
  function ItemIndex(items: seq<CostItem>, id: string): (r: int)
    ensures -1 <= r < |items|
    ensures r >= 0 ==> items[r].id == id
    ensures forall j :: 0 <= j < |items| && (r < 0 || j < r) ==> items[j].id != id
  {
    if |items| == 0 then -1
    else if items[0].id == id then 0
    else
      var rest := ItemIndex(items[1..], id);
      if rest < 0 then -1 else rest + 1
  }

  /** Two values closer than the tolerance the view uses for "unchanged". */
  predicate Close(a: real, b: real) {
    Abs(a - b) < 0.0001
  }

  // ------------------------------------------------------------ actual edits

  datatype ActualField = Quantity | UnitPrice

  function FieldValue(a: Actual, field: ActualField): real {
    match field
    case Quantity => a.quantity
    case UnitPrice => a.unitPrice
  }

  /** An actual side with one field set: the total follows as quantity times unit price in cents. */
  function SetField(a: Actual, field: ActualField, v: real): (b: Actual)
    ensures FieldValue(b, field) == v
    ensures forall f :: f != field ==> FieldValue(b, f) == FieldValue(a, f)
    ensures b.quantity * b.unitPrice - 0.005 <= b.totalPrice <= b.quantity * b.unitPrice + 0.005
    ensures IsCents(b.totalPrice)
    ensures b.percentages == a.percentages
  {
    var q := if field == Quantity then v else a.quantity;
    var u := if field == UnitPrice then v else a.unitPrice;
    var total := q * u;
    a.(quantity := q, unitPrice := u, totalPrice := ToFixed2(total))
  }

  /**
   * handleItemActualChange, given the value `ParseNumericInput` read: a
   * change smaller than the tolerance, or to an item that is missing or has
   * no actual side, is ignored; otherwise the first item with the id gets the
   * field set as above and is marked modified, and no other item changes.
   */
  function ActualEdit(items: seq<CostItem>, id: string, field: ActualField, v: real): (r: seq<CostItem>)
    ensures |r| == |items|
    ensures forall j :: 0 <= j < |items| && j != ItemIndex(items, id) ==> r[j] == items[j]
    ensures r != items <==>
      var k := ItemIndex(items, id);
      k >= 0 && items[k].actual.Some? && !Close(FieldValue(items[k].actual.value, field), v)
    ensures r != items ==>
      var k := ItemIndex(items, id);
      r[k] == items[k].(actual := Some(SetField(items[k].actual.value, field, v)), isModified := true)
  {
    var k := ItemIndex(items, id);
    if k < 0 || items[k].actual.None? then items
    else
      var a := items[k].actual.value;
      if Close(FieldValue(a, field), v) then items
      else
        var edited := items[k].(actual := Some(SetField(a, field, v)), isModified := true);
        assert FieldValue(edited.actual.value, field) == v;
        items[k := edited]
  }

  /** Typing the same value again changes nothing: the second edit is within the tolerance. */
  lemma ActualEditIdempotent(items: seq<CostItem>, id: string, field: ActualField, v: real)
    ensures ActualEdit(ActualEdit(items, id, field, v), id, field, v) == ActualEdit(items, id, field, v)
  {
    var once := ActualEdit(items, id, field, v);
    var k := ItemIndex(items, id);
    if once != items {
      assert ItemIndex(once, id) == k by {
        assert once[k].id == id;
        assert forall j :: 0 <= j < k ==> once[j] == items[j];
      }
      assert FieldValue(once[k].actual.value, field) == v;
    }
  }

  // ------------------------------------------------------------ percentages

  /** A stored field read with `?? 0`. */
  function OrZero(x: Option<real>): real {
    x.GetOr(0.0)
  }

  /** Every field of the stored percentages within the tolerance of the defaults, missing fields read as 0. */
  predicate Matches(p: Percentages, d: Defaults) {
    Close(OrZero(p.administrative), d.administrative)
    && Close(OrZero(p.operational), d.operational)
    && Close(OrZero(p.profit), d.profit)
  }

  function AsPercentages(d: Defaults): (p: Percentages)
    ensures Matches(p, d)
  {
    Percentages(Some(d.administrative), Some(d.operational), Some(d.profit))
  }

  predicate SameDefaults(a: Defaults, b: Defaults) {
    Close(a.administrative, b.administrative) && Close(a.operational, b.operational) && Close(a.profit, b.profit)
  }

  /** Percentages an item has chosen for itself: present and not the current defaults. */
  predicate Custom(item: CostItem, current: Defaults) {
    item.actual.Some? && item.actual.value.percentages.Some? && !Matches(item.actual.value.percentages.value, current)
  }

  /**
   * One item under onPercentagesChange. An item without actual data gets a
   * zero actual carrying the new defaults, and is marked modified only when
   * the current defaults are all within the tolerance of 0, which is what
   * its missing percentages read as.
   */
  function ApplyDefaults(item: CostItem, current: Defaults, next: Defaults): (r: CostItem)
    ensures Custom(item, current) ==> r == item
    ensures !Custom(item, current) ==> r.actual.Some? && r.actual.value.percentages == Some(AsPercentages(next))
    ensures item.actual.Some? && !Custom(item, current) ==> r.isModified
    ensures r == item.(actual := r.actual, isModified := r.isModified)
    ensures item.actual.Some? ==> r.actual.Some? && r.actual.value == item.actual.value.(percentages := r.actual.value.percentages)
    ensures item.actual.None? ==>
      r.actual == Some(Actual(0.0, 0.0, 0.0, Some(AsPercentages(next))))
      && (r.isModified <==> item.isModified || Matches(Percentages(None, None, None), current))
  {
    var existing := if item.actual.Some? && item.actual.value.percentages.Some? then item.actual.value.percentages.value else Percentages(None, None, None);
    var matchesPrevious := Matches(existing, current);
    if item.actual.None? then
      item.(actual := Some(Actual(0.0, 0.0, 0.0, Some(AsPercentages(next)))), isModified := item.isModified || matchesPrevious)
    else if item.actual.value.percentages.None? || matchesPrevious then
      item.(actual := Some(item.actual.value.(percentages := Some(AsPercentages(next)))), isModified := true)
    else item
  }

  function ApplyAll(items: seq<CostItem>, current: Defaults, next: Defaults): (r: seq<CostItem>)
    ensures |r| == |items|
    ensures forall i :: 0 <= i < |items| ==> r[i] == ApplyDefaults(items[i], current, next)
  {
    seq(|items|, i requires 0 <= i < |items| => ApplyDefaults(items[i], current, next))
  }

  /** The stored draft the percentages panel works on. */
  datatype CostDraft = CostDraft(defaults: Option<Defaults>, items: seq<CostItem>)

  /**
   * onPercentagesChange: nothing is saved when the new defaults are within the
   * tolerance of the panel's; otherwise the draft stores the new defaults and
   * every item that follows the current defaults (or has none) takes them,
   * while items with percentages of their own keep them.
   */
  function PercentagesChange(panel: Defaults, draft: CostDraft, next: Defaults): (r: Option<CostDraft>)
    ensures r.None? <==> SameDefaults(panel, next)
    ensures r.Some? ==> r.value.defaults == Some(next) && |r.value.items| == |draft.items|
    ensures r.Some? ==>
      var current := draft.defaults.GetOr(panel);
      forall i :: 0 <= i < |draft.items| ==>
        if Custom(draft.items[i], current) then r.value.items[i] == draft.items[i]
        else r.value.items[i].actual.Some? && r.value.items[i].actual.value.percentages == Some(AsPercentages(next))
    ensures r.Some? ==> forall i :: 0 <= i < |draft.items| ==>
      var item := r.value.items[i];
      item == draft.items[i].(actual := item.actual, isModified := item.isModified)
      && (draft.items[i].actual.Some? ==> item.actual.Some? && item.actual.value == draft.items[i].actual.value.(percentages := item.actual.value.percentages))
  {
    if SameDefaults(panel, next) then None
    else
      var current := draft.defaults.GetOr(panel);
      Some(CostDraft(Some(next), ApplyAll(draft.items, current, next)))
  }

  /**
   * After a change every item that followed the defaults follows the new
   * ones, so the next change reaches it again; an item with percentages of
   * its own is left alone by the next change too, unless they happen to
   * equal the defaults just set, which makes it a follower from then on.
   */
  lemma FollowersKeepFollowing(panel: Defaults, draft: CostDraft, next: Defaults, later: Defaults, i: nat)
    requires !SameDefaults(panel, next) && !SameDefaults(next, later)
    requires i < |draft.items|
    ensures var first := PercentagesChange(panel, draft, next).value;
      var second := PercentagesChange(next, first, later).value;
      && (!Custom(draft.items[i], draft.defaults.GetOr(panel)) ==> second.items[i].actual.value.percentages == Some(AsPercentages(later)))
      && (Custom(draft.items[i], draft.defaults.GetOr(panel)) && Custom(draft.items[i], next) ==> second.items[i] == draft.items[i])
  {
    var current := draft.defaults.GetOr(panel);
    var first := PercentagesChange(panel, draft, next).value;
    var second := PercentagesChange(next, first, later).value;
    var item := first.items[i];
    if !Custom(draft.items[i], current) {
      assert item.actual.value.percentages == Some(AsPercentages(next));
      assert !Custom(item, next);
    }
  }

  // ------------------------------------------------------------- breakdowns

  /** toggleBreakdown: the item's breakdown opens when closed and closes when open. */
  function ToggleBreakdown(open: set<string>, id: string): (r: set<string>)
    ensures id in r <==> id !in open
    ensures forall other :: other != id ==> (other in r <==> other in open)
  {
    Toggle(open, id)
  }

  /** Toggling a breakdown twice leaves every breakdown as it was. */
  lemma ToggleBreakdownTwice(open: set<string>, id: string)
    ensures ToggleBreakdown(ToggleBreakdown(open, id), id) == open
  {
    ToggleTwice(open, id);
  }

  // --------------------------------------------------------------- filter

  datatype StatusFilter = AllItems | Completed | Pending

  /** `i.actual?.totalPrice || 0`. */
  function ActualTotal(item: CostItem): real {
    if item.actual.Some? then item.actual.value.totalPrice else 0.0
  }

  predicate IsCompleted(item: CostItem) {
    ActualTotal(item) > 0.0
  }

  predicate IsPending(item: CostItem) {
    ActualTotal(item) == 0.0
  }

  predicate IsNegative(item: CostItem) {
    ActualTotal(item) < 0.0
  }

  /** The status filter of the items table. */
  function FilterByStatus(items: seq<CostItem>, f: StatusFilter): (r: seq<CostItem>)
    ensures f == AllItems ==> r == items
    ensures f == Completed ==> forall x :: x in r <==> x in items && ActualTotal(x) > 0.0
    ensures f == Pending ==> forall x :: x in r <==> x in items && ActualTotal(x) == 0.0
  {
    match f
    case AllItems => items
    case Completed => Filter(items, IsCompleted)
    case Pending => Filter(items, IsPending)
  }

  /**
   * Completed and pending never overlap, and together they miss exactly the
   * items whose actual total is negative, which appear under neither.
   */
  lemma {:induction false} StatusPartition(items: seq<CostItem>)
    ensures |FilterByStatus(items, Completed)| + |FilterByStatus(items, Pending)| + Count(items, IsNegative) == |items|
  {
    CountFilter(items, IsCompleted);
    CountFilter(items, IsPending);
    ThreeWay(items);
  }

  lemma {:induction false} ThreeWay(items: seq<CostItem>)
    ensures Count(items, IsCompleted) + Count(items, IsPending) + Count(items, IsNegative) == |items|
  {
    if |items| > 0 {
      ThreeWay(items[1..]);
    }
  }

  // --------------------------------------------------------- actual-only items

  datatype EntryError = MissingDescription | InvalidAmount

  /**
   * handleSaveActualOnlyItem, given the amount `ParseNumericInput` read: a
   * blank description or an amount that is not positive is refused;
   * otherwise the new item has the trimmed description, quantity 1, the
   * amount in cents as both unit price and total, and the panel's default
   * percentages. The service assigns the id.
   */
  function ActualOnlyItem(description: string, amount: real, defaults: Defaults): (r: Result<CostItem, EntryError>)
    ensures r.Failure? <==> Trim(description) == "" || amount <= 0.0
    ensures r.Failure? ==> (r.error == MissingDescription <==> Trim(description) == "")
    ensures r.Success? ==> r.value.actual.Some?
    ensures r.Success? && r.value.actual.Some? ==>
      var a := r.value.actual.value;
      r.value.description == Trim(description) && r.value.origin == "actual-only"
      && a.quantity == 1.0 && a.unitPrice == a.totalPrice && a.totalPrice >= 0.0
      && amount - 0.005 < a.totalPrice <= amount + 0.005
      && a.percentages == Some(AsPercentages(defaults))
  {
    var d := Trim(description);
    if d == "" then Failure(MissingDescription)
    else if amount <= 0.0 then Failure(InvalidAmount)
    else
      var cents := ToFixed2(amount);
      Success(CostItem("", d, "actual-only", Some(Actual(1.0, cents, cents, Some(AsPercentages(defaults)))), false))
  }
}

=== FILE: quality.dfy ===
/**
 * The quality-assurance service's scoring: which required fields of a
 * document section are missing, the completeness, quality and consistency
 * scores, the estimated fix time, errors grouped by type, the capped
 * validation history, and the e-mail, date and reference validators.
 */
module Quality {
  import opened Wrappers
  import opened Text
  import opened Numbers
  import opened Js
  import opened Lists

  // ------------------------------------------------------- section completeness

  /** A field of a document section as the checker sees it. */
  datatype DocField = DocField(name: string, isPresent: bool, isRequired: bool, value: JsValue)

  /** The first field of the section with the given name. */
  function FindField(fields: Option<seq<DocField>>, name: string): (r: Option<DocField>)
    ensures r.Some? ==> fields.Some? && r.value in fields.value && r.value.name == name
    ensures r.None? && fields.Some? ==> forall f :: f in fields.value ==> f.name != name
    ensures r.Some? ==> exists k :: (0 <= k < |fields.value| && r.value == fields.value[k]
      && (forall j :: 0 <= j < k ==> fields.value[j].name != name))
  {
    if fields.None? then None
    else
      var i := FindIndex(fields.value, (f: DocField) => f.name == name);
      if i < 0 then None else Some(fields.value[i])
  }

  /**
   * A required field is missing when the section has no field of that
   * name, when the field is not present, or when it is required and its
   * value is falsy or empty.
   */
  predicate FieldMissing(fields: Option<seq<DocField>>, name: string) {
    var f := FindField(fields, name);
    f.None? || !f.value.isPresent || (f.value.isRequired && (!Truthy(f.value.value) || f.value.value == Str("")))
  }

  datatype SectionResult = SectionResult(isComplete: bool, completionPercentage: int, completeFields: nat, missingElements: seq<string>)

  /** `Math.round(part / total * 100)`, or 100 when there is no total. */
  function Percent(part: nat, total: nat): (r: int)
    requires part <= total
    ensures 0 <= r <= 100
    ensures part == total ==> r == 100
    ensures part == 0 && total > 0 ==> r == 0
  {
    if total == 0 then 100
    else
      var ratio := part as real / total as real;
      QuotientBounds(part as real, total as real, 1.0);
      RoundWithin(ratio * 100.0, 0, 100);
      if part == total then
        RoundUnique(ratio * 100.0, 100);
        Round(ratio * 100.0)
      else Round(ratio * 100.0)
  }

  /**
   * checkSectionCompleteness: the names of the template's required fields
   * that the section misses, in template order, how many it has, and the
   * rounded percentage complete (100 when nothing is required).
   */
  function CheckSection(fields: Option<seq<DocField>>, required: seq<string>): (r: SectionResult)
    ensures r.completeFields + |r.missingElements| == |required|
    ensures forall n :: n in r.missingElements <==> n in required && FieldMissing(fields, n)
    ensures r.isComplete <==> |r.missingElements| == 0
    ensures 0 <= r.completionPercentage <= 100
    ensures r.isComplete ==> r.completionPercentage == 100
  {
    var missing := Filter(required, n => FieldMissing(fields, n));
    var complete := Count(required, n => !FieldMissing(fields, n));
    CountFilter(required, n => FieldMissing(fields, n));
    CountComplement(required, n => FieldMissing(fields, n), n => !FieldMissing(fields, n));
    SectionResult(|missing| == 0, Percent(complete, |required|), complete, missing)
  }

  /** A section without the only field it requires is incomplete at 0%. */
  lemma AbsentFieldMissing(name: string)
    ensures !CheckSection(Some([]), [name]).isComplete
    ensures CheckSection(Some([]), [name]).completionPercentage == 0
  {
    assert FieldMissing(Some([]), name);
  }

  /** Rounding can report 100% for a section that still misses a field: 199 of 200 rounds up. */
  lemma AlmostCompleteRoundsUp()
    ensures Percent(199, 200) == 100
  {
    RoundUnique(199.0 / 200.0 * 100.0, 100);
  }

  // --------------------------------------------------------- completeness score

  /** One component of the completeness score: the percentage present, 100 when nothing is expected. */
  function Component(part: real, total: real): real {
    if total > 0.0 then part / total * 100.0 else 100.0
  }

  lemma ComponentBounds(part: real, total: real)
    requires 0.0 <= part && (total > 0.0 ==> part <= total)
    ensures 0.0 <= Component(part, total) <= 100.0
    ensures part == total ==> Component(part, total) == 100.0
  {
    if total > 0.0 {
      QuotientBounds(part, total, 1.0);
    }
  }

  /** calculateCompletenessScore: sections, fields and attachments weighted 0.5, 0.3 and 0.2, rounded. */
  function CompletenessScore(completeSections: real, totalSections: real, completeFields: real, totalFields: real,
                             presentAttachments: real, totalAttachments: real): (score: int)
    ensures totalSections <= 0.0 && totalFields <= 0.0 && totalAttachments <= 0.0 ==> score == 100
  {
    var x := Component(completeSections, totalSections) * 0.5
             + Component(completeFields, totalFields) * 0.3
             + Component(presentAttachments, totalAttachments) * 0.2;
    assert totalSections <= 0.0 && totalFields <= 0.0 && totalAttachments <= 0.0 ==> Round(x) == 100 by {
      if totalSections <= 0.0 && totalFields <= 0.0 && totalAttachments <= 0.0 {
        RoundUnique(100.0, 100);
      }
    }
    Round(x)
  }

  /** With counts that never exceed their totals the score lies in [0, 100], and is 100 when everything is there. */
  lemma CompletenessBounds(cs: real, ts: real, cf: real, tf: real, pa: real, ta: real)
    requires 0.0 <= cs && (ts > 0.0 ==> cs <= ts)
    requires 0.0 <= cf && (tf > 0.0 ==> cf <= tf)
    requires 0.0 <= pa && (ta > 0.0 ==> pa <= ta)
    ensures 0 <= CompletenessScore(cs, ts, cf, tf, pa, ta) <= 100
    ensures cs == ts && cf == tf && pa == ta ==> CompletenessScore(cs, ts, cf, tf, pa, ta) == 100
  {
    ComponentBounds(cs, ts);
    ComponentBounds(cf, tf);
    ComponentBounds(pa, ta);
    var x := Component(cs, ts) * 0.5 + Component(cf, tf) * 0.3 + Component(pa, ta) * 0.2;
    RoundWithin(x, 0, 100);
    if cs == ts && cf == tf && pa == ta {
      RoundUnique(x, 100);
    }
  }

  /** With nothing expected at all, a document is complete. */
  lemma NothingExpectedIsComplete()
    ensures CompletenessScore(0.0, 0.0, 0.0, 0.0, 0.0, 0.0) == 100
  {
    RoundUnique(100.0, 100);
  }

  // -------------------------------------------------------------- quality score

  datatype Severity = Critical | Major | Minor | OtherSeverity(name: string)

  datatype Complexity = Simple | Moderate | Complex | Unrated

  /** A quality error: its type, severity and how hard it is to fix. */
  datatype QualityError = QualityError(kind: string, severity: Severity, fixComplexity: Complexity)

  predicate IsCritical(e: QualityError) { e.severity == Critical }
  predicate IsMajor(e: QualityError) { e.severity == Major }
  predicate IsMinor(e: QualityError) { e.severity == Minor }

  /** Penalty points: 10 per critical, 5 per major and 2 per minor error, 1 per warning. */
  function Penalty(errors: seq<QualityError>, warnings: nat): nat {
    Count(errors, IsCritical) * 10 + Count(errors, IsMajor) * 5 + Count(errors, IsMinor) * 2 + warnings
  }

  /** `Math.max(0, Math.round((maxScore - lost) / maxScore * 100))` for a positive maximum. */
  function ShareKept(maxScore: nat, lost: nat): (r: int)
    requires maxScore > 0
    ensures 0 <= r <= 100
    ensures lost == 0 ==> r == 100
    ensures lost >= maxScore ==> r == 0
  {
    var x := (maxScore - lost) as real / maxScore as real * 100.0;
    ScoreAtMost100(maxScore, lost);
    var rounded := Round(x);
    if rounded < 0 then 0 else rounded
  }

  /**
   * calculateQualityScore: the share of the maximum (10 points per check)
   * not lost to penalties, rounded and floored at 0; 100 without checks.
   */
  function QualityScore(errors: seq<QualityError>, warnings: nat, totalChecks: nat): (r: int)
    ensures 0 <= r <= 100
    ensures totalChecks == 0 ==> r == 100
    ensures Penalty(errors, warnings) == 0 ==> r == 100
    ensures totalChecks > 0 && Penalty(errors, warnings) >= totalChecks * 10 ==> r == 0
  {
    if totalChecks * 10 > 0 then ShareKept(totalChecks * 10, Penalty(errors, warnings)) else 100
  }

  lemma ScoreAtMost100(maxScore: nat, lost: nat)
    requires maxScore > 0
    ensures Round((maxScore - lost) as real / maxScore as real * 100.0) <= 100
    ensures lost == 0 ==> Round((maxScore - lost) as real / maxScore as real * 100.0) == 100
    ensures lost >= maxScore ==> Round((maxScore - lost) as real / maxScore as real * 100.0) <= 0
  {
    var m := maxScore as real;
    var x := (maxScore - lost) as real / m;
    if lost <= maxScore {
      QuotientBounds((maxScore - lost) as real, m, 1.0);
    } else {
      assert x < 0.0 by {
        QuotientStrictMonotone((maxScore - lost) as real, 0.0, m);
      }
    }
    RoundMonotone(x * 100.0, 100.0);
    RoundUnique(100.0, 100);
    if lost == 0 {
      assert x == 1.0;
    }
    if lost >= maxScore {
      RoundMonotone(x * 100.0, 0.0);
      RoundUnique(0.0, 0);
    }
  }

  /** Losing more points never keeps a larger share. */
  lemma ShareKeptMonotone(maxScore: nat, a: nat, b: nat)
    requires maxScore > 0 && a <= b
    ensures ShareKept(maxScore, b) <= ShareKept(maxScore, a)
  {
    var m := maxScore as real;
    QuotientMonotone((maxScore - b) as real, (maxScore - a) as real, m);
    RoundMonotone((maxScore - b) as real / m * 100.0, (maxScore - a) as real / m * 100.0);
  }

  /** One more error adds its severity's points and nothing else. */
  lemma PenaltySnoc(errors: seq<QualityError>, e: QualityError, warnings: nat)
    ensures Penalty(errors + [e], warnings) >= Penalty(errors, warnings)
    ensures IsCritical(e) ==> Penalty(errors + [e], warnings) == Penalty(errors, warnings) + 10
  {
    CountSnoc(errors, e, IsCritical);
    CountSnoc(errors, e, IsMajor);
    CountSnoc(errors, e, IsMinor);
  }

  /** One more error never raises the quality score. */
  lemma QualityMonotone(errors: seq<QualityError>, e: QualityError, warnings: nat, totalChecks: nat)
    ensures QualityScore(errors + [e], warnings, totalChecks) <= QualityScore(errors, warnings, totalChecks)
  {
    PenaltySnoc(errors, e, warnings);
    if totalChecks * 10 > 0 {
      ShareKeptMonotone(totalChecks * 10, Penalty(errors, warnings), Penalty(errors + [e], warnings));
    }
  }

  lemma QuotientMonotone(a: real, b: real, d: real)
    requires d > 0.0 && a <= b
    ensures a / d <= b / d
  {
    if a < b {
      QuotientStrictMonotone(a, b, d);
    }
  }

  // ---------------------------------------------------------- consistency score

  /**
   * calculateConsistencyScore as written: `Math.round((totalRules -
   * inconsistencies) / totalRules * 100)`, 100 without rules. One rule can
   * report several inconsistencies, so the count can exceed the rules.
   */
  function ConsistencyScoreAsWritten(totalRules: nat, inconsistencies: nat): (r: int)
    ensures r <= 100
    ensures inconsistencies == 0 ==> r == 100
  {
    if totalRules == 0 then 100
    else
      var x := (totalRules - inconsistencies) as real / totalRules as real * 100.0;
      ScoreAtMost100(totalRules, inconsistencies);
      Round(x)
  }

  /** One rule reporting three inconsistencies scores -200 as written. */
  lemma ConsistencyGoesNegative()
    ensures ConsistencyScoreAsWritten(1, 3) == -200
  {
    RoundUnique(-200.0, -200);
  }

  /** The consistency score floored at 0, like the quality score, so it stays a percentage. */
  function ConsistencyScore(totalRules: nat, inconsistencies: nat): (r: int)
    ensures 0 <= r <= 100
    ensures inconsistencies == 0 ==> r == 100
    ensures totalRules > 0 && inconsistencies >= totalRules ==> r == 0
  {
    if totalRules == 0 then 100 else ShareKept(totalRules, inconsistencies)
  }

  /** Whenever the as-written score is already a percentage, the two agree. */
  lemma ConsistencyAgrees(totalRules: nat, inconsistencies: nat)
    ensures ConsistencyScoreAsWritten(totalRules, inconsistencies) >= 0 ==>
              ConsistencyScore(totalRules, inconsistencies) == ConsistencyScoreAsWritten(totalRules, inconsistencies)
    ensures inconsistencies <= totalRules ==> ConsistencyScoreAsWritten(totalRules, inconsistencies) >= 0
  {
    if totalRules > 0 && inconsistencies <= totalRules {
      QuotientBounds((totalRules - inconsistencies) as real, totalRules as real, 1.0);
      RoundMonotone(0.0, (totalRules - inconsistencies) as real / totalRules as real * 100.0);
      RoundUnique(0.0, 0);
    }
  }

  // ---------------------------------------------------------------- fix time

  function Minutes(c: Complexity): nat {
    match c
    case Simple => 5
    case Moderate => 15
    case Complex => 45
    case Unrated => 0
  }

  /** The minutes the first errors need, added up in list order. */
  function FixTime(errors: seq<QualityError>): nat {
    if |errors| == 0 then 0 else FixTime(errors[..|errors| - 1]) + Minutes(errors[|errors| - 1].fixComplexity)
  }

  predicate IsSimple(e: QualityError) { e.fixComplexity == Simple }
  predicate IsModerate(e: QualityError) { e.fixComplexity == Moderate }
  predicate IsComplex(e: QualityError) { e.fixComplexity == Complex }

  /** calculateEstimatedFixTime: 5, 15 or 45 minutes per simple, moderate or complex error. */
  method EstimatedFixTime(errors: seq<QualityError>) returns (total: nat)
    ensures total == 5 * Count(errors, IsSimple) + 15 * Count(errors, IsModerate) + 45 * Count(errors, IsComplex)
  {
    total := 0;
    var i := 0;
    while i < |errors|
      invariant 0 <= i <= |errors|
      invariant total == FixTime(errors[..i])
    {
      assert errors[..i + 1][..i] == errors[..i];
      total := total + Minutes(errors[i].fixComplexity);
      i := i + 1;
    }
    assert errors[..i] == errors;
    FixTimeCounts(errors);
  }

  /** The fix time is the weighted count of errors by complexity. */
  lemma {:induction false} FixTimeCounts(errors: seq<QualityError>)
    ensures FixTime(errors) == 5 * Count(errors, IsSimple) + 15 * Count(errors, IsModerate) + 45 * Count(errors, IsComplex)
  {
    if |errors| > 0 {
      var init := errors[..|errors| - 1];
      var e := errors[|errors| - 1];
      FixTimeCounts(init);
      assert init + [e] == errors;
      CountSnoc(init, e, IsSimple);
      CountSnoc(init, e, IsModerate);
      CountSnoc(init, e, IsComplex);
    }
  }

  // ------------------------------------------------------------ group by type

  /** `{ [type]: count }`, with its keys in the order they were first seen. */
  type Grouped = seq<(string, nat)>

  function Keys(g: Grouped): seq<string> {
    seq(|g|, i requires 0 <= i < |g| => g[i].0)
  }

  function Total(g: Grouped): nat {
    if |g| == 0 then 0 else g[0].1 + Total(g[1..])
  }

  /** `grouped[key] || 0`: the count recorded under the first entry with that key. */
  function Get(g: Grouped, key: string): nat {
    if |g| == 0 then 0 else if g[0].0 == key then g[0].1 else Get(g[1..], key)
  }

  /** `grouped[key] = (grouped[key] || 0) + 1`. */
  function Bump(g: Grouped, key: string): (r: Grouped)
    ensures Total(r) == Total(g) + 1
    ensures Keys(r) == if key in Keys(g) then Keys(g) else Keys(g) + [key]
  {
    if |g| == 0 then [(key, 1)]
    else if g[0].0 == key then
      var r := [(key, g[0].1 + 1)] + g[1..];
      assert Keys(g) == [key] + Keys(g[1..]);
      assert r[1..] == g[1..];
      assert Keys(r) == [key] + Keys(g[1..]);
      r
    else
      var rest := Bump(g[1..], key);
      var r := [g[0]] + rest;
      assert Keys(g) == [g[0].0] + Keys(g[1..]);
      assert r[1..] == rest;
      assert Keys(r) == [g[0].0] + Keys(rest);
      r
  }

  /** Bumping a key adds one to its count and leaves every other count alone. */
  lemma {:induction false} BumpGet(g: Grouped, key: string, t: string)
    ensures Get(Bump(g, key), t) == Get(g, t) + (if t == key then 1 else 0)
  {
    if |g| > 0 && g[0].0 != key {
      BumpGet(g[1..], key, t);
      assert Bump(g, key)[1..] == Bump(g[1..], key);
    }
  }

  /** The key of every item, in list order. */
  function KeysOf<T>(xs: seq<T>, key: T -> string): (r: seq<string>)
    ensures |r| == |xs|
    ensures forall i :: 0 <= i < |xs| ==> r[i] == key(xs[i])
  {
    seq(|xs|, i requires 0 <= i < |xs| => key(xs[i]))
  }

  /** Counting by key: one entry per key that occurs, the entries adding up to the items. */
  function Group<T>(xs: seq<T>, key: T -> string): (g: Grouped)
    ensures Total(g) == |xs|
    ensures NoDuplicates(Keys(g))
    ensures forall t :: t in Keys(g) <==> t in KeysOf(xs, key)
  {
    if |xs| == 0 then []
    else
      var init := xs[..|xs| - 1];
      var x := xs[|xs| - 1];
      assert KeysOf(xs, key) == KeysOf(init, key) + [key(x)];
      Bump(Group(init, key), key(x))
  }

  /** How many items carry the key `t`. */
  function CountKey<T>(xs: seq<T>, key: T -> string, t: string): nat {
    if |xs| == 0 then 0
    else CountKey(xs[..|xs| - 1], key, t) + (if key(xs[|xs| - 1]) == t then 1 else 0)
  }

  /** Each key's entry counts exactly the items with that key, and an absent key counts 0. */
  lemma {:induction false} GroupCounts<T>(xs: seq<T>, key: T -> string, t: string)
    ensures Get(Group(xs, key), t) == CountKey(xs, key, t)
  {
    if |xs| > 0 {
      var init := xs[..|xs| - 1];
      var x := xs[|xs| - 1];
      var g0 := Group(init, key);
      assert Group(xs, key) == Bump(g0, key(x));
      BumpGet(g0, key(x), t);
      GroupCounts(init, key, t);
    }
  }

  function TypeOf(e: QualityError): string {
    e.kind
  }

  function SeverityName(s: Severity): string {
    match s
    case Critical => "critical"
    case Major => "major"
    case Minor => "minor"
    case OtherSeverity(name) => name
  }

  function SeverityOf(e: QualityError): string {
    SeverityName(e.severity)
  }

  /** groupErrorsByType: `Group` keyed by the error's type. */
  function GroupByType(errors: seq<QualityError>): (g: Grouped)
    ensures Total(g) == |errors|
    ensures forall t :: t in Keys(g) <==> exists i :: 0 <= i < |errors| && errors[i].kind == t
  {
    var g := Group(errors, TypeOf);
    assert forall t :: t in KeysOf(errors, TypeOf) <==> exists i :: 0 <= i < |errors| && errors[i].kind == t by {
      forall t ensures t in KeysOf(errors, TypeOf) <==> exists i :: 0 <= i < |errors| && errors[i].kind == t {
        if t in KeysOf(errors, TypeOf) {
          var i :| 0 <= i < |errors| && KeysOf(errors, TypeOf)[i] == t;
        }
      }
    }
    g
  }

  /** groupErrorsBySeverity: `Group` keyed by the severity's name. */
  function GroupBySeverity(errors: seq<QualityError>): (g: Grouped)
    ensures Total(g) == |errors|
    ensures forall t :: t in Keys(g) <==> exists i :: 0 <= i < |errors| && SeverityOf(errors[i]) == t
  {
    var g := Group(errors, SeverityOf);
    assert forall t :: t in KeysOf(errors, SeverityOf) <==> exists i :: 0 <= i < |errors| && SeverityOf(errors[i]) == t by {
      forall t ensures t in KeysOf(errors, SeverityOf) <==> exists i :: 0 <= i < |errors| && SeverityOf(errors[i]) == t {
        if t in KeysOf(errors, SeverityOf) {
          var i :| 0 <= i < |errors| && KeysOf(errors, SeverityOf)[i] == t;
        }
      }
    }
    g
  }

  // ------------------------------------------------------------------ history

  const MaxHistory: nat := 1000

  /** saveValidationHistory: append the record, then drop the oldest beyond the last 1000. */
  function SaveHistory<T>(history: seq<T>, record: T): (r: seq<T>)
    ensures |r| == if |history| < MaxHistory then |history| + 1 else MaxHistory
    ensures r[|r| - 1] == record
    ensures forall i :: 0 <= i < |r| - 1 ==> r[i] == history[|history| - |r| + 1 + i]
  {
    AppendCapped(history, record, MaxHistory)
  }

  // --------------------------------------------------------------- validators

  /** A character the e-mail pattern's `[^\s@]` accepts. */
  predicate EmailChar(c: char) {
    !IsSpace(c) && c != '@'
  }

  predicate EmailChars(s: string) {
    forall i :: 0 <= i < |s| ==> EmailChar(s[i])
  }

  /**
   * isValidEmail, `/^[^\s@]+@[^\s@]+\.[^\s@]+$/`: one '@' with a
   * non-empty local part before it and, after it, a domain holding a '.'
   * that is neither its first nor its last character.
   */
  function ValidEmail(s: string): (b: bool)
    ensures b ==> |s| >= 5 && '@' in s && forall i :: 0 <= i < |s| ==> !IsSpace(s[i])
  {
    var at := FindIndex(s, (c: char) => c == '@');
    if at <= 0 then false
    else
      var local := s[..at];
      var domain := s[at + 1..];
      EmailChars(local) && EmailChars(domain) && |domain| >= 3
      && exists k :: 1 <= k < |domain| - 1 && domain[k] == '.'
  }

  /**
   * The pattern's own reading: exactly one '@', not first; a '.' at least
   * two places after it and not last; no white space anywhere.
   */
  ghost predicate EmailShape(s: string) {
    exists at, dot ::
      0 < at && at + 1 < dot < |s| - 1 && s[at] == '@' && s[dot] == '.'
      && forall i :: 0 <= i < |s| && i != at ==> EmailChar(s[i])
  }

  /** Every string the split accepts has the pattern's shape. */
  lemma ValidEmailIsShape(s: string)
    requires ValidEmail(s)
    ensures EmailShape(s)
  {
    var at := FindIndex(s, (c: char) => c == '@');
    var domain := s[at + 1..];
    var k :| 1 <= k < |domain| - 1 && domain[k] == '.';
    assert s[at + 1 + k] == '.';
    forall i | 0 <= i < |s| && i != at
      ensures EmailChar(s[i])
    {
      if i < at {
        assert s[i] == s[..at][i];
      } else {
        assert s[i] == domain[i - at - 1];
      }
    }
  }

  /** Every string of the pattern's shape passes the split. */
  lemma ShapeIsValidEmail(s: string)
    requires EmailShape(s)
    ensures ValidEmail(s)
  {
    var at, dot :|
      0 < at && at + 1 < dot < |s| - 1 && s[at] == '@' && s[dot] == '.'
      && forall i :: 0 <= i < |s| && i != at ==> EmailChar(s[i]);
    var found := FindIndex(s, (c: char) => c == '@');
    assert found == at by {
      assert !EmailChar(s[found]);
    }
    var domain := s[at + 1..];
    assert domain[dot - at - 1] == '.';
    assert EmailChars(s[..at]);
    assert EmailChars(domain) by {
      forall j | 0 <= j < |domain| ensures EmailChar(domain[j]) {
        assert domain[j] == s[at + 1 + j];
      }
    }
  }

  predicate Digit(c: char) { '0' <= c <= '9' }

  /** `/^\d{4}-\d{2}-\d{2}$/`: four digits, a dash, two digits, a dash, two digits. */
  predicate DateShape(s: string) {
    |s| == 10 && s[4] == '-' && s[7] == '-'
    && forall i :: 0 <= i < 10 && i != 4 && i != 7 ==> Digit(s[i])
  }

  /**
   * isValidDate: the date pattern, and a date the runtime's `Date.parse`
   * accepts; that parser is the engine's, so it is a parameter here.
   */
  function ValidDate(s: string, parses: string -> bool): (b: bool)
    ensures b ==> |s| == 10 && s[4] == '-' && s[7] == '-'
    ensures !DateShape(s) ==> !b
  {
    DateShape(s) && parses(s)
  }

  /** A reference name character: `[a-zA-Z0-9_-]`. */
  predicate RefChar(c: char) {
    'a' <= c <= 'z' || 'A' <= c <= 'Z' || '0' <= c <= '9' || c == '_' || c == '-'
  }

  /** The longest prefix of reference name characters. */
  function RefRun(s: string): (r: nat)
    ensures r <= |s|
    ensures forall i :: 0 <= i < r ==> RefChar(s[i])
    ensures r < |s| ==> !RefChar(s[r])
  {
    if |s| > 0 && RefChar(s[0]) then 1 + RefRun(s[1..]) else 0
  }

  /**
   * extractReferences, `/ref:([a-zA-Z0-9_-]+)/g` over the serialised
   * content: every 'ref:' followed by at least one name character yields
   * the longest such name, and the search resumes after it.
   */
  function References(s: string): (r: seq<string>)
    ensures forall k :: 0 <= k < |r| ==> |r[k]| > 0 && forall i :: 0 <= i < |r[k]| ==> RefChar(r[k][i])
    decreases |s|
  {
    if |s| < 4 then []
    else if s[..4] == "ref:" && RefRun(s[4..]) > 0 then
      var n := RefRun(s[4..]);
      [s[4..4 + n]] + References(s[4 + n..])
    else References(s[1..])
  }

  /** A text without 'r' holds no references. */
  lemma {:induction false} NoMarkerNoReferences(s: string)
    requires forall i :: 0 <= i < |s| ==> s[i] != 'r'
    ensures References(s) == []
    decreases |s|
  {
    if |s| >= 4 {
      assert s[..4][0] == s[0];
      NoMarkerNoReferences(s[1..]);
    }
  }

  /** A marked name followed by a non-name character is found, then the search goes on after it. */
  lemma ReferenceFound(name: string, rest: string)
    requires |name| > 0 && forall i :: 0 <= i < |name| ==> RefChar(name[i])
    requires |rest| > 0 && !RefChar(rest[0])
    ensures References("ref:" + name + rest) == [name] + References(rest)
  {
    var s := "ref:" + name + rest;
    assert s[..4] == "ref:" && s[4..] == name + rest by {
      assert s == "ref:" + (name + rest);
    }
    RefRunPrefix(name, rest);
    assert s[4..4 + |name|] == name && s[4 + |name|..] == rest by {
      assert s[4..] == name + rest;
    }
    ReferenceStep(s, |name|);
  }

  lemma ReferenceStep(s: string, n: nat)
    requires |s| >= 4 && s[..4] == "ref:" && n > 0 && RefRun(s[4..]) == n
    ensures References(s) == [s[4..4 + n]] + References(s[4 + n..])
  {
  }

  lemma {:induction false} RefRunPrefix(name: string, rest: string)
    requires forall i :: 0 <= i < |name| ==> RefChar(name[i])
    requires |rest| > 0 && !RefChar(rest[0])
    ensures RefRun(name + rest) == |name|
  {
    if |name| > 0 {
      assert (name + rest)[1..] == name[1..] + rest;
      RefRunPrefix(name[1..], rest);
    } else {
      assert name + rest == rest;
    }
  }
}

=== FILE: simplified_cost.dfy ===
/**
 * The simplified project-cost view: each item's actual side carries a cost
 * breakdown in four sections of rows. The view sums the rows, checks the
 * item's total against base plus percentages, recomputes the item from its
 * breakdown, edits, adds and deletes rows, and keeps per-section open flags
 * under `item:section` keys. Logging and the clock are outside.
 */
module SimplifiedCost {
  import opened Wrappers
  import opened Text
  import opened Numbers
  import opened Lists
  import ProjectCost

  // -------------------------------------------------------------- rows

  /** A breakdown row as stored: any of its fields may hold a value of the wrong shape. */
  datatype Row = Row(
    id: Option<string>,
    name: Option<string>,
    unit: Option<string>,
    quantity: Num,
    unitCost: Num,
    totalCost: Option<Num>,
    origin: string)

  datatype Section = Materials | Labor | Equipment | Subcontractors

  datatype Breakdown = Breakdown(materials: seq<Row>, labor: seq<Row>, equipment: seq<Row>, subcontractors: seq<Row>)

  function Rows(b: Breakdown, section: Section): seq<Row> {
    match section
    case Materials => b.materials
    case Labor => b.labor
    case Equipment => b.equipment
    case Subcontractors => b.subcontractors
  }

  function WithRows(b: Breakdown, section: Section, rows: seq<Row>): (r: Breakdown)
    ensures Rows(r, section) == rows
    ensures forall other :: other != section ==> Rows(r, other) == Rows(b, other)
  {
    match section
    case Materials => b.(materials := rows)
    case Labor => b.(labor := rows)
    case Equipment => b.(equipment := rows)
    case Subcontractors => b.(subcontractors := rows)
  }

  /** JavaScript multiplication, with NaN and the infinities. */
  function NumMul(a: Num, b: Num): (r: Num)
    ensures a.Fin? && b.Fin? ==> r == Fin(a.v * b.v)
    ensures a.NaN? || b.NaN? ==> r.NaN?
  {
    if a.Fin? && b.Fin? then Fin(a.v * b.v)
    else match (a, b)
    case (Inf(m), Fin(y)) => if y == 0.0 then NaN else Inf(m != (y < 0.0))
    case (Fin(x), Inf(n)) => if x == 0.0 then NaN else Inf(n != (x < 0.0))
    case (Inf(m), Inf(n)) => Inf(m != n)
    case _ => NaN
  }

  /** `+x.toFixed(2)` on a number: finite values are rounded to cents, the others are kept. */
  function ToFixed2Num(n: Num): (r: Num)
    ensures n.Fin? ==> r.Fin? && n.v - 0.005 <= r.v <= n.v + 0.005 && IsCents(r.v)
    ensures !n.Fin? ==> r == n
  {
    if n.Fin? then Fin(ToFixed2(n.v)) else n
  }

  /** `row.totalCost ?? row.quantity * row.unitCost`. */
  function RowTotal(row: Row): Num {
    match row.totalCost
    case Some(t) => t
    case None => NumMul(row.quantity, row.unitCost)
  }

  /** What a row adds to a sum: its total when finite, otherwise nothing. */
  function Contribution(row: Row): real {
    if RowTotal(row).Fin? then RowTotal(row).v else 0.0
  }

  /** The rows' contributions added left to right. */
  function SumTotals(rows: seq<Row>): real
  {
    if |rows| == 0 then 0.0 else SumTotals(rows[..|rows| - 1]) + Contribution(rows[|rows| - 1])
  }

  /** sumRows: 0 for a missing or empty list, otherwise the sum of the finite row totals. */
  function SumRows(rows: Option<seq<Row>>): (r: real)
    ensures rows.None? || rows.value == [] ==> r == 0.0
    ensures rows.Some? ==> r == SumTotals(rows.value)
  {
    if rows.None? || |rows.value| == 0 then 0.0 else SumTotals(rows.value)
  }

  /** Summing two lists one after the other is summing each and adding. */
  lemma {:induction false} SumTotalsAppend(a: seq<Row>, b: seq<Row>)
    ensures SumTotals(a + b) == SumTotals(a) + SumTotals(b)
    decreases |b|
  {
    if |b| > 0 {
      assert (a + b)[..|a + b| - 1] == a + b[..|b| - 1];
      SumTotalsAppend(a, b[..|b| - 1]);
    } else {
      assert a + b == a;
    }
  }

  /** A row whose total is not finite changes no sum, wherever it stands. */
  lemma SkipsNonFinite(a: seq<Row>, row: Row, b: seq<Row>)
    requires !RowTotal(row).Fin?
    ensures SumRows(Some(a + [row] + b)) == SumRows(Some(a + b))
  {
    SumTotalsAppend(a + [row], b);
    SumTotalsAppend(a, [row]);
    assert [row][..0] == [];
    SumTotalsAppend(a, b);
  }

  /** Rows whose totals are all finite and non-negative sum to a non-negative amount. */
  lemma {:induction false} SumNonNegative(rows: seq<Row>)
    requires forall i :: 0 <= i < |rows| ==> Contribution(rows[i]) >= 0.0
    ensures SumRows(Some(rows)) >= 0.0
  {
    if |rows| > 0 {
      SumNonNegative(rows[..|rows| - 1]);
    }
  }

  // ------------------------------------------------------------- inputs

  /** parseNumericInput here: plain `parseFloat`, with 0 for anything not finite. */
  function ParseInput(s: string): (r: real)
    ensures ParseFloat(s).Fin? ==> r == ParseFloat(s).v
    ensures !ParseFloat(s).Fin? ==> r == 0.0
  {
    match ParseFloat(s)
    case Fin(v) => v
    case _ => 0.0
  }

  /** The text of an integer is read back as that integer. */
  lemma ParseInputIntegers(i: int)
    ensures ParseInput(IntText(i)) == i as real
  {
    IntTextRoundTrip(i);
  }

  /** `parseFloat("Infinity")` is a number but not a finite one, so the input reads as 0. */
  lemma ParseInputInfinity()
    ensures ParseFloat("Infinity") == Inf(false)
    ensures ParseInput("Infinity") == 0.0
  {
    var s := "Infinity";
    assert !IsSpace(s[0]);
    assert TrimStart(s) == s;
    assert s[0..] == s;
    assert IsPrefix(s, s);
    assert SignedDecimal(s) == Some((Inf(false), 8));
  }

  /** The fallback id of a row without one: prefix, index and name, joined by dashes. */
  function FallbackId(prefix: string, index: nat, name: string): string {
    prefix + "-" + NatText(index) + "-" + name
  }

  /**
   * resolveRowId: the row's own id when it is a string that is not blank,
   * trimmed; otherwise a fallback made of the prefix, the row's index and
   * its trimmed name, or `row` when the name is missing or blank.
   */
  function ResolveRowId(row: Row, prefix: string, index: nat): (r: string)
    ensures |r| > 0
    ensures row.id.Some? && Trim(row.id.value) != "" ==> r == Trim(row.id.value)
    ensures row.id.None? || Trim(row.id.value) == "" ==>
      exists name :: r == FallbackId(prefix, index, name) && |name| > 0
  {
    var raw := if row.id.Some? then Trim(row.id.value) else "";
    if |raw| > 0 then raw
    else
      var fallbackName := if row.name.Some? then Trim(row.name.value) else "row";
      var safeName := if |fallbackName| > 0 then fallbackName else "row";
      var r := FallbackId(prefix, index, safeName);
      assert |r| > 0;
      r
  }

  /** Digits never contain a dash. */
  lemma NoDashInDigits(n: nat)
    ensures forall i :: 0 <= i < |NatText(n)| ==> NatText(n)[i] != '-'
  {
  }

  /**
   * Fallback ids for different indices never clash, whatever the names: the
   * index is the run of digits between the prefix and the next dash.
   */
  lemma FallbackIdsDistinct(prefix: string, i: nat, j: nat, a: string, b: string)
    requires i != j
    ensures FallbackId(prefix, i, a) != FallbackId(prefix, j, b)
  {
    var s := FallbackId(prefix, i, a);
    var t := FallbackId(prefix, j, b);
    var p := |prefix| + 1;
    NatTextInjective(i, j);
    NoDashInDigits(i);
    NoDashInDigits(j);
    assert s[p..] == NatText(i) + "-" + a;
    assert t[p..] == NatText(j) + "-" + b;
    DashSplits(NatText(i), NatText(j), a, b);
  }

  /** Two dash-free runs followed by a dash are told apart by where the first dash falls. */
  lemma DashSplits(x: string, y: string, a: string, b: string)
    requires forall k :: 0 <= k < |x| ==> x[k] != '-'
    requires forall k :: 0 <= k < |y| ==> y[k] != '-'
    ensures x + "-" + a == y + "-" + b ==> x == y
  {
    var s := x + "-" + a;
    var t := y + "-" + b;
    assert s[|x|] == '-' && t[|y|] == '-';
    if |x| < |y| {
      assert t[|x|] == y[|x|];
    } else if |y| < |x| {
      assert s[|y|] == x[|y|];
    } else {
      assert s[..|x|] == x && t[..|y|] == y;
    }
  }

  // ------------------------------------------------------------- items

  datatype ActualCost = ActualCost(
    quantity: real,
    unitPrice: real,
    totalPrice: Option<real>,
    percentages: Option<ProjectCost.Percentages>,
    breakdown: Option<Breakdown>)

  datatype Item = Item(id: string, actual: ActualCost, isModified: bool, breakdownDirty: bool)

  /** The four section sums added: the cost before percentages. */
  function Base(b: Breakdown): real {
    SumRows(Some(b.materials)) + SumRows(Some(b.labor)) + SumRows(Some(b.equipment)) + SumRows(Some(b.subcontractors))
  }

  /** The three percentages, each missing one replaced by the corresponding fallback. */
  function Resolved(p: Option<ProjectCost.Percentages>, fallback: ProjectCost.Defaults): (r: ProjectCost.Defaults)
    ensures p.Some? && p.value.administrative.Some? ==> r.administrative == p.value.administrative.value
    ensures p.Some? && p.value.operational.Some? ==> r.operational == p.value.operational.value
    ensures p.Some? && p.value.profit.Some? ==> r.profit == p.value.profit.value
    ensures p.None? ==> r == fallback
  {
    if p.None? then fallback
    else
      ProjectCost.Defaults(
        p.value.administrative.GetOr(fallback.administrative),
        p.value.operational.GetOr(fallback.operational),
        p.value.profit.GetOr(fallback.profit))
  }

  function PctSum(d: ProjectCost.Defaults): real {
    d.administrative + d.operational + d.profit
  }

  const NoDefaults := ProjectCost.Defaults(0.0, 0.0, 0.0)

  /** base + base·a/100 + base·o/100 + base·p/100, as the view adds it up. */
  function Grossed(base: real, pct: ProjectCost.Defaults): (total: real)
    ensures total == base * (1.0 + PctSum(pct) / 100.0)
  {
    base + base * (pct.administrative / 100.0) + base * (pct.operational / 100.0) + base * (pct.profit / 100.0)
  }

  /** Whether a total computed from the breakdown is within 0.01 of the stored total price (missing read as 0). */
  predicate Within(total: real, stored: Option<real>) {
    Abs(total - stored.GetOr(0.0)) <= 0.01
  }

  /**
   * validateCalculationConsistency: without a breakdown the item passes;
   * with one, the total the breakdown and the stored percentages give
   * (missing ones read as 0) must be within 0.01 of the stored total
   * price (missing read as 0).
   */
  function Consistent(actual: ActualCost): (r: bool)
    ensures actual.breakdown.None? ==> r
    ensures actual.breakdown.Some? ==>
      (r <==> Within(Base(actual.breakdown.value) * (1.0 + PctSum(Resolved(actual.percentages, NoDefaults)) / 100.0), actual.totalPrice))
  {
    actual.breakdown.None? || Within(Grossed(Base(actual.breakdown.value), Resolved(actual.percentages, NoDefaults)), actual.totalPrice)
  }

  /** The same check with missing percentages read as the defaults, as the recalculation reads them. */
  function ConsistentWithDefaults(actual: ActualCost, defaults: ProjectCost.Defaults): (r: bool)
    ensures actual.breakdown.None? ==> r
    ensures actual.breakdown.Some? ==>
      (r <==> Within(Base(actual.breakdown.value) * (1.0 + PctSum(Resolved(actual.percentages, defaults)) / 100.0), actual.totalPrice))
  {
    actual.breakdown.None? || Within(Grossed(Base(actual.breakdown.value), Resolved(actual.percentages, defaults)), actual.totalPrice)
  }

  /** The quantity the recalculation keeps: the stored one when positive, else 1. */
  function NormalizedQuantity(q: real): (r: real)
    ensures r > 0.0
    ensures q > 0.0 ==> r == q
  {
    if q > 0.0 then q else 1.0
  }


  /** The actual side priced from a positive base: quantity normalized, total in cents, unit price to four places. */
  function Priced(actual: ActualCost, base: real, defaults: ProjectCost.Defaults): (r: ActualCost)
    ensures var total := Grossed(base, Resolved(actual.percentages, defaults));
      var q := NormalizedQuantity(actual.quantity);
      && r.quantity == q
      && r.totalPrice.Some? && total - 0.005 <= r.totalPrice.value <= total + 0.005
      && total / q - 0.00005 <= r.unitPrice <= total / q + 0.00005
    ensures r.breakdown == actual.breakdown && r.percentages == actual.percentages
  {
    var total := Grossed(base, Resolved(actual.percentages, defaults));
    var q := NormalizedQuantity(actual.quantity);
    actual.(quantity := q, unitPrice := ToFixed4(total / q), totalPrice := Some(ToFixed2(total)))
  }

  /**
   * The view's recalculation from the breakdown: an item without a
   * breakdown is left alone. With one, the flags say modified and no longer
   * dirty; when the base is positive the actual side is priced as above
   * (missing percentages from the defaults); with a base of 0 or less the
   * prices stay.
   */
  function Recalculate(item: Item, defaults: ProjectCost.Defaults): (r: Item)
    ensures item.actual.breakdown.None? ==> r == item
    ensures item.actual.breakdown.Some? ==> r.isModified && !r.breakdownDirty && r.id == item.id
    ensures item.actual.breakdown.Some? && Base(item.actual.breakdown.value) <= 0.0 ==> r.actual == item.actual
    ensures item.actual.breakdown.Some? && Base(item.actual.breakdown.value) > 0.0 ==>
      r.actual == Priced(item.actual, Base(item.actual.breakdown.value), defaults)
  {
    if item.actual.breakdown.None? then item
    else
      var base := Base(item.actual.breakdown.value);
      var flagged := item.(isModified := true, breakdownDirty := false);
      if base > 0.0 then flagged.(actual := Priced(item.actual, base, defaults)) else flagged
  }

  /** An item whose percentages are all stored passes the check right after the recalculation. */
  lemma RecalculatedConsistent(item: Item, defaults: ProjectCost.Defaults)
    requires item.actual.percentages.Some?
    requires var p := item.actual.percentages.value; p.administrative.Some? && p.operational.Some? && p.profit.Some?
    requires item.actual.breakdown.Some? ==> Base(item.actual.breakdown.value) > 0.0
    ensures Consistent(Recalculate(item, defaults).actual)
  {
    assert Resolved(item.actual.percentages, NoDefaults) == Resolved(item.actual.percentages, defaults);
  }

  /** With the defaults read as the recalculation reads them, every recalculated item passes. */
  lemma RecalculatedConsistentWithDefaults(item: Item, defaults: ProjectCost.Defaults)
    requires item.actual.breakdown.Some? ==> Base(item.actual.breakdown.value) > 0.0
    ensures ConsistentWithDefaults(Recalculate(item, defaults).actual, defaults)
  {
  }

  /**
   * The check as written flags an item the recalculation has just priced:
   * an item that stores no percentages, with a base of 100 and a 10%
   * administrative default, is recalculated to a total of 110 while the
   * check expects 100. Read with the defaults, the same item passes.
   */
  lemma MissingPercentagesFlagged(item: Item)
    requires item.actual.percentages.None? && item.actual.breakdown.Some?
    requires Base(item.actual.breakdown.value) == 100.0
    ensures var defaults := ProjectCost.Defaults(10.0, 0.0, 0.0);
      !Consistent(Recalculate(item, defaults).actual) && ConsistentWithDefaults(Recalculate(item, defaults).actual, defaults)
  {
    var defaults := ProjectCost.Defaults(10.0, 0.0, 0.0);
    var r := Recalculate(item, defaults).actual;
    assert Resolved(None, defaults) == defaults;
    assert Resolved(None, NoDefaults) == NoDefaults;
    assert r == Priced(item.actual, 100.0, defaults);
    assert 109.995 < r.totalPrice.value <= 110.005;
    NearAndFar(100.0, 10.0, r.totalPrice);
  }

  lemma NearAndFar(base: real, g: real, stored: Option<real>)
    requires g > 0.02 && stored.Some? && base + g - 0.005 < stored.value <= base + g + 0.005
    ensures !Within(base, stored) && Within(base + g, stored)
  {
  }

  // ------------------------------------------------------------- row edits

  datatype RowField = NameField | UnitField | QuantityField | UnitCostField

  /** The position of the first row whose id is the given string, or -1. */
  function RowIndex(rows: seq<Row>, rowId: string): (r: int)
    ensures -1 <= r < |rows|
    ensures r >= 0 ==> rows[r].id == Some(rowId)
    ensures forall j :: 0 <= j < |rows| && (r < 0 || j < r) ==> rows[j].id != Some(rowId)
  {
    if |rows| == 0 then -1
    else if rows[0].id == Some(rowId) then 0
    else
      var rest := RowIndex(rows[1..], rowId);
      if rest < 0 then -1 else rest + 1
  }

  /** The row pushed when an edit names an id the section does not have. */
  function NewRow(rowId: string): Row {
    Row(Some(rowId), Some("عنصر جديد"), None, Fin(0.0), Fin(0.0), Some(Fin(0.0)), "actual-only")
  }

  /** A quantity or unit cost set: the row total becomes their product in cents. */
  function Costed(row: Row, q: Num, u: Num): (r: Row)
    ensures r.id == row.id && r.quantity == q && r.unitCost == u && r.totalCost.Some?
    ensures q.Fin? && u.Fin? ==> r.totalCost.value.Fin? && q.v * u.v - 0.005 <= r.totalCost.value.v <= q.v * u.v + 0.005
  {
    row.(quantity := q, unitCost := u, totalCost := Some(ToFixed2Num(NumMul(q, u))))
  }

  /** One field of a row set from the text typed; a number edit recomputes the row's total in cents. */
  function SetRowField(row: Row, field: RowField, value: string): (r: Row)
    ensures r.id == row.id
    ensures field == NameField ==> r == row.(name := Some(value))
    ensures field == UnitField ==> r == row.(unit := Some(value))
    ensures field == QuantityField ==> r == Costed(row, Fin(ParseInput(value)), row.unitCost)
    ensures field == UnitCostField ==> r == Costed(row, row.quantity, Fin(ParseInput(value)))
  {
    match field
    case NameField => row.(name := Some(value))
    case UnitField => row.(unit := Some(value))
    case QuantityField => Costed(row, Fin(ParseInput(value)), row.unitCost)
    case UnitCostField => Costed(row, row.quantity, Fin(ParseInput(value)))
  }

  /**
   * handleBreakdownRowChange on one section: the first row with the id is
   * edited in place; when there is none, a new row with that id is pushed
   * first and then edited. No other row changes.
   */
  function EditRow(rows: seq<Row>, rowId: string, field: RowField, value: string): (r: seq<Row>)
    ensures RowIndex(rows, rowId) >= 0 ==>
      var k := RowIndex(rows, rowId);
      |r| == |rows| && r[k] == SetRowField(rows[k], field, value)
      && forall j :: 0 <= j < |rows| && j != k ==> r[j] == rows[j]
    ensures RowIndex(rows, rowId) < 0 ==>
      |r| == |rows| + 1 && r[..|rows|] == rows && r[|rows|] == SetRowField(NewRow(rowId), field, value)
    ensures RowIndex(r, rowId) >= 0
  {
    var k := RowIndex(rows, rowId);
    if k >= 0 then rows[k := SetRowField(rows[k], field, value)]
    else
      var r := rows + [SetRowField(NewRow(rowId), field, value)];
      assert r[|rows|].id == Some(rowId);
      r
  }

  /** handleDeleteBreakdownRow on one section: the first row with the id is removed; with none, nothing happens. */
  function DeleteRow(rows: seq<Row>, rowId: string): (r: seq<Row>)
    ensures RowIndex(rows, rowId) < 0 ==> r == rows
    ensures RowIndex(rows, rowId) >= 0 ==>
      var k := RowIndex(rows, rowId);
      |r| == |rows| - 1
      && (forall j :: 0 <= j < k ==> r[j] == rows[j])
      && (forall j :: k <= j < |r| ==> r[j] == rows[j + 1])
  {
    var k := RowIndex(rows, rowId);
    if k < 0 then rows else rows[..k] + rows[k + 1..]
  }

  /** Deleting the row an edit has just added gives back the section as it was. */
  lemma DeleteUndoesAdd(rows: seq<Row>, rowId: string, field: RowField, value: string)
    requires RowIndex(rows, rowId) < 0
    ensures DeleteRow(EditRow(rows, rowId, field, value), rowId) == rows
  {
    var r := EditRow(rows, rowId, field, value);
    assert RowIndex(r, rowId) == |rows| by {
      assert forall j :: 0 <= j < |rows| ==> r[j] == rows[j];
    }
    assert r[..|rows|] == rows;
  }

  /** The position of the first item with the id, or -1. */
  function ItemIndex(items: seq<Item>, id: string): (r: int)
    ensures -1 <= r < |items|
    ensures r >= 0 ==> items[r].id == id
    ensures forall j :: 0 <= j < |items| && (r < 0 || j < r) ==> items[j].id != id
  {
    if |items| == 0 then -1
    else if items[0].id == id then 0
    else
      var rest := ItemIndex(items[1..], id);
      if rest < 0 then -1 else rest + 1
  }

  /**
   * handleBreakdownRowChange on the draft: nothing changes when the item is
   * missing; an item without a breakdown makes the view throw (None);
   * otherwise the section is edited and the item marked modified with a
   * dirty breakdown.
   */
  function BreakdownRowChange(items: seq<Item>, itemId: string, section: Section, rowId: string, field: RowField, value: string): (r: Option<seq<Item>>)
    ensures ItemIndex(items, itemId) < 0 ==> r == Some(items)
    ensures r.None? <==> ItemIndex(items, itemId) >= 0 && items[ItemIndex(items, itemId)].actual.breakdown.None?
    ensures r.Some? && ItemIndex(items, itemId) >= 0 ==>
      var k := ItemIndex(items, itemId);
      |r.value| == |items| && r.value[k].isModified && r.value[k].breakdownDirty
      && r.value[k].actual.breakdown.Some?
      && Rows(r.value[k].actual.breakdown.value, section) == EditRow(Rows(items[k].actual.breakdown.value, section), rowId, field, value)
      && (forall other :: other != section ==> Rows(r.value[k].actual.breakdown.value, other) == Rows(items[k].actual.breakdown.value, other))
      && (forall j :: 0 <= j < |items| && j != k ==> r.value[j] == items[j])
  {
    var k := ItemIndex(items, itemId);
    if k < 0 then Some(items)
    else if items[k].actual.breakdown.None? then None
    else
      var b := items[k].actual.breakdown.value;
      var edited := WithRows(b, section, EditRow(Rows(b, section), rowId, field, value));
      Some(items[k := items[k].(actual := items[k].actual.(breakdown := Some(edited)), isModified := true, breakdownDirty := true)])
  }

  /**
   * handleDeleteBreakdownRow on the draft: the item's flags change only when
   * a row was removed; a missing item or row leaves the draft as it was.
   */
  function DeleteBreakdownRow(items: seq<Item>, itemId: string, section: Section, rowId: string): (r: Option<seq<Item>>)
    ensures ItemIndex(items, itemId) < 0 ==> r == Some(items)
    ensures r.None? <==> ItemIndex(items, itemId) >= 0 && items[ItemIndex(items, itemId)].actual.breakdown.None?
    ensures r.Some? && ItemIndex(items, itemId) >= 0 ==>
      var k := ItemIndex(items, itemId);
      var rows := Rows(items[k].actual.breakdown.value, section);
      (RowIndex(rows, rowId) < 0 ==> r.value == items)
      && (RowIndex(rows, rowId) >= 0 ==>
        |r.value| == |items| && r.value[k].isModified && r.value[k].breakdownDirty
        && r.value[k].actual.breakdown.Some?
        && Rows(r.value[k].actual.breakdown.value, section) == DeleteRow(rows, rowId)
        && (forall j :: 0 <= j < |items| && j != k ==> r.value[j] == items[j]))
  {
    var k := ItemIndex(items, itemId);
    if k < 0 then Some(items)
    else if items[k].actual.breakdown.None? then None
    else
      var b := items[k].actual.breakdown.value;
      var rows := Rows(b, section);
      if RowIndex(rows, rowId) < 0 then Some(items)
      else
        var edited := WithRows(b, section, DeleteRow(rows, rowId));
        Some(items[k := items[k].(actual := items[k].actual.(breakdown := Some(edited)), isModified := true, breakdownDirty := true)])
  }

  // ------------------------------------------------------------ section keys

  function SectionName(section: Section): (name: string)
    ensures |name| > 0 && forall i :: 0 <= i < |name| ==> name[i] != ':'
  {
    match section
    case Materials => "materials"
    case Labor => "labor"
    case Equipment => "equipment"
    case Subcontractors => "subcontractors"
  }

  /** The open-flag key of one section of one item: `${itemId}:${section}`. */
  function SectionKey(itemId: string, section: Section): string {
    itemId + ":" + SectionName(section)
  }

  lemma SectionNamesDistinct(a: Section, b: Section)
    requires SectionName(a) == SectionName(b)
    ensures a == b
  {
  }

  /**
   * Different items or sections never share a key: section names hold no
   * colon, so the key's last colon separates the two parts.
   */
  lemma SectionKeyInjective(i1: string, s1: Section, i2: string, s2: Section)
    requires SectionKey(i1, s1) == SectionKey(i2, s2)
    ensures i1 == i2 && s1 == s2
  {
    ColonSplit(i1, SectionName(s1), i2, SectionName(s2));
    SectionNamesDistinct(s1, s2);
  }

  /** Joining with a colon is undone by the last colon when the second parts hold none. */
  lemma ColonSplit(i1: string, n1: string, i2: string, n2: string)
    requires forall j :: 0 <= j < |n1| ==> n1[j] != ':'
    requires forall j :: 0 <= j < |n2| ==> n2[j] != ':'
    requires i1 + ":" + n1 == i2 + ":" + n2
    ensures i1 == i2 && n1 == n2
  {
    var k := i1 + ":" + n1;
    assert k[|i1|] == ':' && k[|i2|] == ':';
    assert forall j :: |i1| < j < |k| ==> k[j] == n1[j - |i1| - 1];
    assert forall j :: |i2| < j < |k| ==> k[j] == n2[j - |i2| - 1];
    if |i1| != |i2| {
      assert false;
    }
    assert i1 == k[..|i1|] && i2 == k[..|i2|];
    assert n1 == k[|i1| + 1..] && n2 == k[|i2| + 1..];
  }

  /** toggleBreakdownSection: exactly one section of one item flips. */
  function ToggleSection(open: set<string>, itemId: string, section: Section): (r: set<string>)
    ensures SectionKey(itemId, section) in r <==> SectionKey(itemId, section) !in open
    ensures forall other: string, s: Section :: (other, s) != (itemId, section) ==>
      (SectionKey(other, s) in r <==> SectionKey(other, s) in open)
  {
    var r := Toggle(open, SectionKey(itemId, section));
    assert forall other: string, s: Section :: (other, s) != (itemId, section) ==> SectionKey(other, s) != SectionKey(itemId, section) by {
      forall other: string, s: Section | (other, s) != (itemId, section)
        ensures SectionKey(other, s) != SectionKey(itemId, section)
      {
        if SectionKey(other, s) == SectionKey(itemId, section) {
          SectionKeyInjective(other, s, itemId, section);
        }
      }
    }
    r
  }

  /** Toggling a section twice gives back every flag. */
  lemma ToggleSectionTwice(open: set<string>, itemId: string, section: Section)
    ensures ToggleSection(ToggleSection(open, itemId, section), itemId, section) == open
  {
    ToggleTwice(open, SectionKey(itemId, section));
  }
}

=== FILE: storage.dfy ===
/**
 * The storage layer's pure decisions: which keys are sensitive and which are
 * logged, how values are turned into stored text and back, where a cached
 * entry is flushed to and how the flush is tallied, the legacy-key guard
 * wrapped around the browser's storage, and when storage counts as ready.
 * The storage key constants live in a configuration file outside this
 * model: they are a `StorageKeys` record. The secure store, electron-store
 * and JSON parsing are parameters.
 */
module Storage {
  import opened Wrappers
  import opened Text
  import opened Lists
  import opened Js
  import opened Numbers

  /**
   * The storage key catalogue: the key pricing data is stored under, the
   * sensitive keys, and every key the catalogue names (the "unified" keys).
   */
  datatype StorageKeys = StorageKeys(pricingData: string, sensitive: set<string>, unified: set<string>)

  /** Every sensitive key is one of the catalogue's keys, pricing data among them. */
  predicate WellFormed(keys: StorageKeys) {
    keys.pricingData in keys.sensitive && keys.sensitive <= keys.unified
  }

  predicate IsSensitiveKey(keys: StorageKeys, key: string) {
    key in keys.sensitive
  }

  const BackupPrefix: string := "backup-tender-pricing-"

  /** Audit logging is suppressed for the pricing data key and pricing backups. */
  function ShouldLog(keys: StorageKeys, key: string): (r: bool)
    ensures !r <==> key == keys.pricingData || IsPrefix(BackupPrefix, key)
  {
    if key == keys.pricingData then false
    else if |key| >= |BackupPrefix| && key[..|BackupPrefix|] == BackupPrefix then false
    else true
  }

  /** Every pricing backup key is silent, whatever follows the prefix. */
  lemma BackupsNotLogged(keys: StorageKeys, suffix: string)
    ensures !ShouldLog(keys, BackupPrefix + suffix)
  {
    assert (BackupPrefix + suffix)[..|BackupPrefix|] == BackupPrefix;
  }

  /** Sensitive keys other than pricing data and backups are still logged. */
  lemma SensitiveKeysLogged(keys: StorageKeys, key: string)
    requires IsSensitiveKey(keys, key) && key != keys.pricingData
    requires !IsPrefix(BackupPrefix, key)
    ensures ShouldLog(keys, key)
  {
  }

  // ------------------------------------------------------ stored text

  /**
   * The text a value is stored as: a string is stored as it is, anything
   * else as its JSON text (none for values JSON cannot encode).
   */
  function ToJsonString(v: JsValue): (r: Option<string>)
    ensures v.Str? ==> r == Some(v.s)
    ensures !v.Str? ==> r == Stringify(v)
  {
    if v.Str? then Some(v.s) else Stringify(v)
  }

  /**
   * Reading a stored value back: non-strings pass through with undefined
   * and null read as null; a string is parsed as JSON and kept as it is
   * when it does not parse.
   */
  function ParseStoredValue(v: JsValue, parse: string -> Option<JsValue>): (r: JsValue)
    ensures !v.Str? ==> (r == Null <==> IsNullish(v))
    ensures !v.Str? && !IsNullish(v) ==> r == v
    ensures v.Str? && parse(v.s).None? ==> r == v
    ensures v.Str? && parse(v.s).Some? ==> r == parse(v.s).value
  {
    if !v.Str? then
      if IsNullish(v) then Null else v
    else
      match parse(v.s)
      case Some(x) => x
      case None => v
  }

  /**
   * A JSON parser that reads back what Stringify writes for every value JSON
   * carries without loss. It cannot do so for all values: `NaN`, the
   * infinities and `null` are all written as "null".
   */
  ghost predicate ReadsBack(parse: string -> Option<JsValue>) {
    forall v :: JsonSafe(v) ==> parse(Stringify(v).value) == Some(v)
  }

  /**
   * Storing a value JSON carries without loss and reading it back gives the
   * value, and a string that is not JSON text also comes back unchanged.
   */
  lemma StoredRoundTrip(v: JsValue, parse: string -> Option<JsValue>)
    requires ReadsBack(parse)
    requires v.Str? ==> parse(v.s).None?
    requires !v.Str? ==> JsonSafe(v)
    ensures ToJsonString(v).Some?
    ensures ParseStoredValue(Str(ToJsonString(v).value), parse) == v
  {
    if !v.Str? {
      assert parse(Stringify(v).value) == Some(v);
    }
  }

  /** Stored and read back, a number that is not finite comes back as null. */
  lemma NonFiniteStoredAsNull(n: Num, parse: string -> Option<JsValue>)
    requires ReadsBack(parse)
    requires !n.Fin?
    ensures ToJsonString(Number(n)) == Some("null")
    ensures ParseStoredValue(Str(ToJsonString(Number(n)).value), parse) == Null
  {
    assert JsonSafe(Null);
    assert Stringify(Null) == Some("null");
  }

  /** No parser reads every value back: that is why the round trip is stated for JSON-safe values only. */
  lemma NaNAndNullWrittenAlike()
    ensures Stringify(Number(NaN)) == Stringify(Null)
    ensures !JsonSafe(Number(NaN)) && JsonSafe(Null)
  {
  }

  // ------------------------------------------------------- flushing

  datatype Target = Secure | Electron | Browser
  datatype Status = Persisted | Skipped | Failed

  datatype FlushEntry = FlushEntry(key: string, target: Target, status: Status, error: Option<string>)

  /** Sensitive keys go to the secure store, the rest to electron-store or the browser. */
  function FlushTarget(keys: StorageKeys, key: string, electron: bool): (r: Target)
    ensures r == Secure <==> IsSensitiveKey(keys, key)
    ensures r == Electron <==> !IsSensitiveKey(keys, key) && electron
  {
    if IsSensitiveKey(keys, key) then Secure else if electron then Electron else Browser
  }

  /**
   * What the environment does when one entry is written: the error the
   * encoding throws, whether the browser's storage exists, and the error the
   * write to a target throws.
   */
  datatype Environment = Environment(
    electron: bool,
    localStorageAvailable: bool,
    encodeError: string -> Option<string>,
    writeError: (string, Target) -> Option<string>)

  /** Writing one cached entry to its persistent target. */
  function PersistCachedEntry(keys: StorageKeys, env: Environment, key: string, cached: JsValue): (r: FlushEntry)
    ensures r.key == key && r.target == FlushTarget(keys, key, env.electron)
    ensures cached.Undefined? ==> r.status == Skipped && r.error == Some("no-cached-value")
    ensures r.status == Persisted <==>
      !cached.Undefined? && env.encodeError(key).None? &&
      (r.target == Browser ==> env.localStorageAvailable) && env.writeError(key, r.target).None?
    ensures r.status == Persisted <==> r.error.None?
  {
    var target := FlushTarget(keys, key, env.electron);
    if cached.Undefined? then
      FlushEntry(key, target, Skipped, Some("no-cached-value"))
    else if env.encodeError(key).Some? then
      FlushEntry(key, target, Failed, env.encodeError(key))
    else if target == Browser && !env.localStorageAvailable then
      FlushEntry(key, target, Skipped, Some("local-storage-unavailable"))
    else if env.writeError(key, target).Some? then
      FlushEntry(key, target, Failed, env.writeError(key, target))
    else
      FlushEntry(key, target, Persisted, None)
  }

  datatype FlushStats = FlushStats(
    total: nat, persisted: nat, skipped: nat, errors: nat,
    secure: nat, electron: nat, browser: nat)

  const NoStats := FlushStats(0, 0, 0, 0, 0, 0, 0)

  /** One entry's contribution: skipped entries count towards no target. */
  function Record(stats: FlushStats, e: FlushEntry): FlushStats {
    var s := stats.(total := stats.total + 1);
    var s := match e.status
      case Persisted => s.(persisted := s.persisted + 1)
      case Skipped => s.(skipped := s.skipped + 1)
      case Failed => s.(errors := s.errors + 1);
    if e.status == Skipped then s
    else match e.target
      case Secure => s.(secure := s.secure + 1)
      case Electron => s.(electron := s.electron + 1)
      case Browser => s.(browser := s.browser + 1)
  }

  /** The statistics of a flush, entry by entry in order. */
  function Tally(entries: seq<FlushEntry>): (r: FlushStats)
    ensures r.total == |entries|
    ensures r.total == r.persisted + r.skipped + r.errors
    ensures r.secure + r.electron + r.browser == r.persisted + r.errors
  {
    if entries == [] then NoStats else Record(Tally(entries[..|entries| - 1]), entries[|entries| - 1])
  }

  /** Every entry is counted under exactly one outcome. */
  predicate Balanced(s: FlushStats) {
    s.total == s.persisted + s.skipped + s.errors &&
    s.secure + s.electron + s.browser == s.persisted + s.errors
  }

  /** The number of entries written to one target, successfully or not. */
  function Attempted(entries: seq<FlushEntry>, t: Target): (n: nat)
    ensures n <= |entries|
  {
    if entries == [] then 0
    else
      var last := entries[|entries| - 1];
      Attempted(entries[..|entries| - 1], t) + (if last.status != Skipped && last.target == t then 1 else 0)
  }

  /** Each per-target count is the number of non-skipped entries for that target. */
  lemma {:induction false} TallyTargets(entries: seq<FlushEntry>)
    ensures Tally(entries).secure == Attempted(entries, Secure)
    ensures Tally(entries).electron == Attempted(entries, Electron)
    ensures Tally(entries).browser == Attempted(entries, Browser)
  {
    if entries != [] {
      TallyTargets(entries[..|entries| - 1]);
    }
  }

  function HasStatus(status: Status): FlushEntry -> bool {
    (e: FlushEntry) => e.status == status
  }

  /** The outcome count of one status. */
  function StatusCount(s: FlushStats, status: Status): nat {
    match status
    case Persisted => s.persisted
    case Skipped => s.skipped
    case Failed => s.errors
  }

  /** Recording an entry adds one to its own status's count only. */
  lemma RecordStatus(stats: FlushStats, e: FlushEntry, status: Status)
    ensures StatusCount(Record(stats, e), status) == StatusCount(stats, status) + (if e.status == status then 1 else 0)
  {
  }

  /** Each outcome count is the number of entries with that status. */
  lemma {:induction false} TallyStatuses(entries: seq<FlushEntry>, status: Status)
    ensures StatusCount(Tally(entries), status) == Count(entries, HasStatus(status))
  {
    if entries != [] {
      var init := entries[..|entries| - 1];
      var last := entries[|entries| - 1];
      TallyStatuses(init, status);
      assert Tally(entries) == Record(Tally(init), last);
      RecordStatus(Tally(init), last, status);
      assert entries == init + [last];
      CountSnoc(init, last, HasStatus(status));
      assert HasStatus(status)(last) == (last.status == status);
    }
  }

  /**
   * Flushing the whole cache: every cached entry is written in order and
   * its outcome recorded.
   */
  method FlushCache(keys: StorageKeys, env: Environment, cache: seq<(string, JsValue)>)
    returns (entries: seq<FlushEntry>, stats: FlushStats)
    ensures |entries| == |cache|
    ensures forall i :: 0 <= i < |cache| ==> entries[i] == PersistCachedEntry(keys, env, cache[i].0, cache[i].1)
    ensures stats.total == |cache| && Balanced(stats)
    ensures stats == Tally(entries)
    ensures stats.secure == Attempted(entries, Secure)
    ensures stats.electron == Attempted(entries, Electron)
    ensures stats.browser == Attempted(entries, Browser)
    ensures stats.persisted == Count(entries, HasStatus(Persisted))
    ensures stats.skipped == Count(entries, HasStatus(Skipped))
    ensures stats.errors == Count(entries, HasStatus(Failed))
  {
    entries := [];
    stats := NoStats;
    var i := 0;
    while i < |cache|
      invariant 0 <= i <= |cache| && |entries| == i
      invariant forall j :: 0 <= j < i ==> entries[j] == PersistCachedEntry(keys, env, cache[j].0, cache[j].1)
      invariant stats == Tally(entries)
    {
      var entry := PersistCachedEntry(keys, env, cache[i].0, cache[i].1);
      assert (entries + [entry])[..i] == entries;
      entries := entries + [entry];
      stats := Record(stats, entry);
      i := i + 1;
    }
    TallyTargets(entries);
    TallyStatuses(entries, Persisted);
    TallyStatuses(entries, Skipped);
    TallyStatuses(entries, Failed);
  }

  /** A sensitive key is never written anywhere but the secure store. */
  lemma SensitiveStaysSecure(keys: StorageKeys, env: Environment, key: string, cached: JsValue)
    requires IsSensitiveKey(keys, key)
    ensures PersistCachedEntry(keys, env, key, cached).target == Secure
  {
  }

  // ---------------------------------------------------- legacy guard

  /** Keys of earlier storage layouts that the guard blocks by name. */
  const LegacyKeys: set<string> := {
    "app_tenders", "app_tenders_list", "tenders", "construction_tenders",
    "construction_app_tenders", "app_tenders_old",
    "app_projects", "projects", "construction_projects", "construction_app_projects",
    "app_projects_old",
    "app_clients", "clients", "construction_clients", "construction_app_clients",
    "app_clients_old",
    "pricing", "tender_pricing", "app_pricing", "construction_app_pricing"}

  const LegacyPrefix: string := "construction_app_"

  /** Blocked: the catalogue's own keys, the listed legacy keys and the legacy prefix. */
  predicate IsLegacyKey(keys: StorageKeys, key: string) {
    key in keys.unified || key in LegacyKeys || IsPrefix(LegacyPrefix, key)
  }

  /** Every key under the legacy prefix is blocked. */
  lemma LegacyPrefixBlocked(keys: StorageKeys, suffix: string)
    ensures IsLegacyKey(keys, LegacyPrefix + suffix)
  {
    assert (LegacyPrefix + suffix)[..|LegacyPrefix|] == LegacyPrefix;
  }

  /** The browser's storage behind the guard, with the keys already warned about. */
  datatype Guarded = Guarded(store: map<string, string>, warned: set<string>)

  /**
   * Warning once per key: nothing is logged in production or for a key
   * already warned about; otherwise the key is remembered and logged.
   */
  function LogOnce(production: bool, warned: set<string>, key: string): (r: (bool, set<string>))
    ensures r.0 <==> !production && key !in warned
    ensures r.1 == if r.0 then warned + {key} else warned
    ensures key in r.1 || production
  {
    if production then (false, warned)
    else if key in warned then (false, warned)
    else (true, warned + {key})
  }

  /** A key is logged at most once: the second attempt is silent. */
  lemma LogOnceTwice(production: bool, warned: set<string>, key: string)
    ensures !LogOnce(production, LogOnce(production, warned, key).1, key).0
  {
  }

  datatype Op = SetItem(key: string, value: string) | RemoveItem(key: string)

  /** The browser's own storage operations. */
  function ApplyRaw(store: map<string, string>, op: Op): map<string, string> {
    match op
    case SetItem(k, v) => store[k := v]
    case RemoveItem(k) => store - {k}
  }

  function RunRaw(store: map<string, string>, ops: seq<Op>): map<string, string>
    decreases |ops|
  {
    if ops == [] then store else RunRaw(ApplyRaw(store, ops[0]), ops[1..])
  }

  /** setItem/removeItem behind the guard: a legacy key is only warned about. */
  function Apply(keys: StorageKeys, production: bool, g: Guarded, op: Op): (r: Guarded)
    ensures IsLegacyKey(keys, op.key) ==> r.store == g.store
    ensures !IsLegacyKey(keys, op.key) ==> r == g.(store := ApplyRaw(g.store, op))
  {
    if IsLegacyKey(keys, op.key) then g.(warned := LogOnce(production, g.warned, op.key).1)
    else g.(store := ApplyRaw(g.store, op))
  }

  /** getItem behind the guard: a legacy key always reads as missing. */
  function GetItem(keys: StorageKeys, production: bool, g: Guarded, key: string): (r: (Option<string>, Guarded))
    ensures IsLegacyKey(keys, key) ==> r.0 == None && r.1.store == g.store
    ensures !IsLegacyKey(keys, key) ==> r.1 == g && (r.0 == if key in g.store then Some(g.store[key]) else None)
  {
    if IsLegacyKey(keys, key) then (None, g.(warned := LogOnce(production, g.warned, key).1))
    else (if key in g.store then Some(g.store[key]) else None, g)
  }

  function Run(keys: StorageKeys, production: bool, g: Guarded, ops: seq<Op>): Guarded
    decreases |ops|
  {
    if ops == [] then g else Run(keys, production, Apply(keys, production, g, ops[0]), ops[1..])
  }

  /**
   * Behind the guard, a run of writes does to the store exactly what the
   * unguarded storage does with the legacy-key writes left out.
   */
  lemma {:induction false} GuardFiltersLegacy(keys: StorageKeys, production: bool, g: Guarded, ops: seq<Op>)
    ensures Run(keys, production, g, ops).store == RunRaw(g.store, Filter(ops, (op: Op) => !IsLegacyKey(keys, op.key)))
    decreases |ops|
  {
    if ops != [] {
      GuardFiltersLegacy(keys, production, Apply(keys, production, g, ops[0]), ops[1..]);
    }
  }

  /** No run of writes through the guard adds, changes or removes a legacy key. */
  lemma {:induction false} LegacyKeysUntouched(keys: StorageKeys, production: bool, g: Guarded, ops: seq<Op>, key: string)
    requires IsLegacyKey(keys, key)
    ensures var r := Run(keys, production, g, ops).store;
      (key in r <==> key in g.store) && (key in r ==> r[key] == g.store[key])
    decreases |ops|
  {
    if ops != [] {
      LegacyKeysUntouched(keys, production, Apply(keys, production, g, ops[0]), ops[1..], key);
    }
  }

  /**
   * The guard also covers every catalogue key, so sensitive values never
   * reach the browser's storage under their own names.
   */
  lemma SensitiveKeysBlocked(keys: StorageKeys, key: string)
    requires WellFormed(keys) && IsSensitiveKey(keys, key)
    ensures IsLegacyKey(keys, key)
  {
  }

  /** Pricing data is flushed to the secure store and never audit-logged. */
  lemma PricingDataSecureAndSilent(keys: StorageKeys, env: Environment, cached: JsValue)
    requires WellFormed(keys)
    ensures PersistCachedEntry(keys, env, keys.pricingData, cached).target == Secure
    ensures !ShouldLog(keys, keys.pricingData)
  {
  }

  /** A value written under a key the guard allows reads back unchanged. */
  lemma WriteThenRead(keys: StorageKeys, production: bool, g: Guarded, key: string, value: string)
    requires !IsLegacyKey(keys, key)
    ensures GetItem(keys, production, Apply(keys, production, g, SetItem(key, value)), key).0 == Some(value)
  {
  }

  // ------------------------------------------------------- readiness

  /** Whether the app runs in Electron and whether the cache has been loaded. */
  datatype Readiness = Readiness(electron: bool, cacheInitialized: bool)

  /** Outside Electron storage is ready at once; inside it once the cache is loaded. */
  predicate IsStorageReady(s: Readiness) {
    !s.electron || s.cacheInitialized
  }

  /** Loading the cache; it is never unloaded. */
  function InitializeCache(s: Readiness): (r: Readiness)
    ensures IsStorageReady(r)
    ensures r.electron == s.electron
  {
    s.(cacheInitialized := true)
  }

  /** In Electron, storage is not ready before the cache is loaded. */
  lemma NotReadyBeforeLoad(s: Readiness)
    requires s.electron && !s.cacheInitialized
    ensures !IsStorageReady(s) && IsStorageReady(InitializeCache(s))
  {
  }
}

=== FILE: tender_details.dfy ===
/**
 * The helpers of the tender details page: reading loosely typed numbers,
 * summing resource totals, picking the first present value, normalising a
 * stored totals record, the per-item collapse flags of the pricing sections,
 * the render keys of the quantity table and the readiness rule shown to the
 * user. The rendering itself and the submission service are outside.
 */
module TenderDetails {
  import opened Wrappers
  import opened Numbers
  import opened Text
  import opened Js
  import TenderPricing

  // ---------------------------------------------------------------- toNumber

  /** The characters a numeric string keeps: digits, the point and the minus sign. */
  predicate NumberChar(c: char) {
    IsDigit(c) || c == '.' || c == '-'
  }

  /**
   * toNumber: a finite number as it is; a string stripped to its digits,
   * points and minus signs and read with parseFloat; null for anything else,
   * for an empty remainder and for a remainder that does not read as a
   * finite number.
   */
  function ToNumber(v: JsValue): (r: Option<real>)
    ensures v.Number? ==> (r.Some? <==> v.n.Fin?) && (r.Some? ==> r.value == v.n.v)
    ensures !v.Number? && !v.Str? ==> r.None?
    ensures v.Str? && r.Some? ==> ParseFloat(KeepChars(v.s, NumberChar)) == Fin(r.value)
    ensures v.Str? && KeepChars(v.s, NumberChar) == "" ==> r.None?
  {
    match v
    case Number(n) => if n.Fin? then Some(n.v) else None
    case Str(s) =>
      var cleaned := KeepChars(s, NumberChar);
      if cleaned == "" then None
      else (
        match ParseFloat(cleaned)
        case Fin(x) => Some(x)
        case _ => None)
    case _ => None
  }

  /** Stripping a string that was already stripped changes nothing, so reading it gives the same number. */
  lemma {:induction false} CleanedReadsAlike(s: string)
    ensures ToNumber(Str(KeepChars(s, NumberChar))) == ToNumber(Str(s))
  {
    var t := KeepChars(s, NumberChar);
    KeepCharsWhole(t, NumberChar);
  }

  /** Any characters outside digits, points and minus signs around a number are ignored. */
  lemma NoiseIgnored(x: string, noise: char, y: string)
    requires forall k :: 0 <= k < |x| ==> NumberChar(x[k])
    requires forall k :: 0 <= k < |y| ==> NumberChar(y[k])
    requires !NumberChar(noise)
    ensures ToNumber(Str(x + [noise] + y)) == ToNumber(Str(x + y))
  {
    KeepCharsDropOne(x, noise, y, NumberChar);
    KeepCharsWhole(x + y, NumberChar);
  }

  /** The text of any integer reads back as that integer. */
  lemma IntegersRead(i: int)
    ensures ToNumber(Str(IntText(i))) == Some(i as real)
  {
    IntTextNumberChars(i);
    IntTextRoundTrip(i);
    CleanTextRead(IntText(i));
  }

  lemma IntTextNumberChars(i: int)
    ensures forall k :: 0 <= k < |IntText(i)| ==> NumberChar(IntText(i)[k])
  {
    var t := IntText(i);
    if i < 0 {
      assert t == "-" + NatText(-i);
      assert forall k :: 1 <= k < |t| ==> t[k] == NatText(-i)[k - 1];
    }
  }

  /** Text made only of number characters is read by parseFloat as it stands. */
  lemma CleanTextRead(t: string)
    requires t != "" && forall k :: 0 <= k < |t| ==> NumberChar(t[k])
    requires ParseFloat(t).Fin?
    ensures ToNumber(Str(t)) == Some(ParseFloat(t).v)
  {
    KeepCharsWhole(t, NumberChar);
  }

  /** `toNumber(value) ?? 0`. */
  function NumberOrZero(v: JsValue): real {
    ToNumber(v).GetOr(0.0)
  }

  // ------------------------------------------------------- sumResourceTotals

  /** The totals summed from the last resource back. */
  function SumTotals(totals: seq<JsValue>): real
    decreases |totals|
  {
    if |totals| == 0 then 0.0 else SumTotals(totals[..|totals| - 1]) + NumberOrZero(totals[|totals| - 1])
  }

  /**
   * sumResourceTotals over the resources' `total` fields: 0 for a missing
   * list, otherwise each readable total added and every other one counted
   * as 0.
   */
  function SumResourceTotals(totals: Option<seq<JsValue>>): (r: real)
    ensures totals.None? ==> r == 0.0
    ensures totals.Some? && |totals.value| == 0 ==> r == 0.0
    ensures totals.Some? ==> r == SumTotals(totals.value)
  {
    if totals.None? then 0.0 else SumTotals(totals.value)
  }

  /** Summing two lists one after the other is summing their concatenation. */
  lemma {:induction false} SumTotalsAppend(a: seq<JsValue>, b: seq<JsValue>)
    ensures SumTotals(a + b) == SumTotals(a) + SumTotals(b)
    decreases |b|
  {
    if |b| == 0 {
      assert a + b == a;
    } else {
      var b' := b[..|b| - 1];
      assert (a + b)[..|a + b| - 1] == a + b';
      SumTotalsAppend(a, b');
    }
  }

  /** An unreadable total adds nothing wherever it stands. */
  lemma UnreadableSkipped(a: seq<JsValue>, v: JsValue, b: seq<JsValue>)
    requires ToNumber(v).None?
    ensures SumTotals(a + [v] + b) == SumTotals(a + b)
  {
    SumTotalsAppend(a + [v], b);
    SumTotalsAppend(a, b);
    assert (a + [v])[..|a|] == a;
  }

  /** A list of non-negative totals sums to a non-negative amount. */
  lemma {:induction false} SumTotalsNonNegative(totals: seq<JsValue>)
    requires forall i :: 0 <= i < |totals| ==> NumberOrZero(totals[i]) >= 0.0
    ensures SumTotals(totals) >= 0.0
    decreases |totals|
  {
    if |totals| > 0 {
      SumTotalsNonNegative(totals[..|totals| - 1]);
    }
  }

  // -------------------------------------------------------------- pickNumeric

  /** Neither undefined, null nor the empty string. */
  predicate Present(v: JsValue) {
    !v.Undefined? && !v.Null? && v != Str("")
  }

  /** pickNumeric: the first present value, undefined when there is none. */
  function PickNumeric(values: seq<JsValue>): (r: JsValue)
    ensures Present(r) <==> exists i :: 0 <= i < |values| && Present(values[i])
    ensures !Present(r) ==> r == Undefined
    ensures Present(r) ==> exists i :: 0 <= i < |values| && values[i] == r && forall j :: 0 <= j < i ==> !Present(values[j])
  {
    if |values| == 0 then Undefined
    else if Present(values[0]) then values[0]
    else
      var r := PickNumeric(values[1..]);
      assert forall i :: 1 <= i < |values| ==> values[i] == values[1..][i - 1];
      if Present(r) then
        var i :| 0 <= i < |values[1..]| && values[1..][i] == r && forall j :: 0 <= j < i ==> !Present(values[1..][j]);
        assert values[i + 1] == r;
        r
      else r
  }

  /** Absent values in front change nothing: picking is the same after dropping them. */
  lemma {:induction false} PickSkipsAbsent(absent: seq<JsValue>, rest: seq<JsValue>)
    requires forall i :: 0 <= i < |absent| ==> !Present(absent[i])
    ensures PickNumeric(absent + rest) == PickNumeric(rest)
    decreases |absent|
  {
    if |absent| == 0 {
      assert absent + rest == rest;
    } else {
      assert (absent + rest)[0] == absent[0];
      assert (absent + rest)[1..] == absent[1..] + rest;
      PickSkipsAbsent(absent[1..], rest);
    }
  }

  // ---------------------------------------------------------- normalizeTotals

  /** PRICING_TOTAL_KEYS followed by the VAT rate, in the order the record's keys are written. */
  const TotalKeys: seq<string> := [
    "totalValue", "vatAmount", "totalWithVat", "baseSubtotal", "profit", "administrative",
    "operational", "adminOperational", "profitPercentage", "adminOperationalPercentage",
    "administrativePercentage", "operationalPercentage", "vatRate"]

  /** `typeof value === 'object' && value !== null`: records and arrays alike. */
  predicate IsRecord(v: JsValue) {
    IsObjectLike(v)
  }

  /** One field of the record read with toNumber. */
  function Field(value: JsValue, key: string): Option<real> {
    ToNumber(Prop(value, key))
  }

  /** The readable fields among the keys, each with the number it reads as. */
  function Collect(value: JsValue, keys: seq<string>): (r: map<string, real>)
    ensures forall k :: k in r <==> k in keys && Field(value, k).Some?
    ensures forall k :: k in r ==> Field(value, k) == Some(r[k])
    decreases |keys|
  {
    if |keys| == 0 then map[]
    else
      var rest := Collect(value, keys[1..]);
      match Field(value, keys[0])
      case Some(x) => rest[keys[0] := x]
      case None => rest
  }

  /**
   * normalizeTotals: null for anything that is not a record; otherwise the
   * known keys that read as finite numbers, and null again when none does.
   */
  function NormalizeTotals(value: JsValue): (r: Option<map<string, real>>)
    ensures !IsRecord(value) ==> r.None?
    ensures r.None? <==> !IsRecord(value) || forall k :: k in TotalKeys ==> Field(value, k).None?
    ensures r.Some? ==> |r.value| > 0
    ensures r.Some? ==> forall k :: k in r.value <==> k in TotalKeys && Field(value, k).Some?
    ensures r.Some? ==> forall k :: k in r.value ==> Field(value, k) == Some(r.value[k])
  {
    if !IsRecord(value) then None
    else
      var totals := Collect(value, TotalKeys);
      if |totals| > 0 then Some(totals)
      else
        assert totals == map[];
        None
  }

  /** Normalising a normalised record gives it back: the stored totals are a fixed point. */
  lemma NormalizeTwice(value: JsValue)
    ensures NormalizeTotals(value).Some? ==>
      var m := NormalizeTotals(value).value;
      NormalizeTotals(Obj(Entries(m, TotalKeys))) == Some(m)
  {
    if NormalizeTotals(value).Some? {
      var m := NormalizeTotals(value).value;
      CollectEntries(m, TotalKeys);
    }
  }

  /** Reading back the record written from a map over known keys gives the map. */
  lemma CollectEntries(m: map<string, real>, keys: seq<string>)
    requires forall k :: k in m ==> k in keys
    ensures Collect(Obj(Entries(m, keys)), keys) == m
  {
    var o := Obj(Entries(m, keys));
    forall k | k in keys
      ensures Field(o, k) == (if k in m then Some(m[k]) else None)
    {
      EntriesLookup(m, keys, k);
    }
    var t := Collect(o, keys);
    assert t.Keys == m.Keys;
  }

  /** The record written back from a totals map, one number per key present, in key order. */
  function Entries(m: map<string, real>, keys: seq<string>): seq<(string, JsValue)>
    decreases |keys|
  {
    if |keys| == 0 then []
    else if keys[0] in m then [(keys[0], Number(Fin(m[keys[0]])))] + Entries(m, keys[1..])
    else Entries(m, keys[1..])
  }

  lemma {:induction false} EntriesLookup(m: map<string, real>, keys: seq<string>, k: string)
    requires k in keys
    ensures Lookup(Entries(m, keys), k) == if k in m then Some(Number(Fin(m[k]))) else None
    decreases |keys|
  {
    if keys[0] != k {
      EntriesLookup(m, keys[1..], k);
    } else if k !in m {
      EntriesMissing(m, keys[1..], k);
    }
  }

  lemma {:induction false} EntriesMissing(m: map<string, real>, keys: seq<string>, k: string)
    requires k !in m
    ensures Lookup(Entries(m, keys), k).None?
    decreases |keys|
  {
    if |keys| > 0 {
      EntriesMissing(m, keys[1..], k);
    }
  }

  // ------------------------------------------------------------ toggleCollapse

  /** The collapse flags of one item's four sections. */
  datatype SectionState = SectionState(materials: bool, labor: bool, equipment: bool, subcontractors: bool)

  const DefaultState := SectionState(false, false, false, false)

  function Flag(state: SectionState, section: TenderPricing.Section): bool {
    match section
    case Materials => state.materials
    case Labor => state.labor
    case Equipment => state.equipment
    case Subcontractors => state.subcontractors
  }

  function WithFlag(state: SectionState, section: TenderPricing.Section, b: bool): (r: SectionState)
    ensures Flag(r, section) == b
    ensures forall s :: s != section ==> Flag(r, s) == Flag(state, s)
  {
    match section
    case Materials => state.(materials := b)
    case Labor => state.(labor := b)
    case Equipment => state.(equipment := b)
    case Subcontractors => state.(subcontractors := b)
  }

  /** Whether the section of the item is shown collapsed: an item without flags has none set. */
  function Collapsed(flags: map<string, SectionState>, itemId: string, section: TenderPricing.Section): bool {
    Flag(if itemId in flags then flags[itemId] else DefaultState, section)
  }

  /** toggleCollapse: one section of one item flips; every other flag keeps its value. */
  function ToggleCollapse(flags: map<string, SectionState>, itemId: string, section: TenderPricing.Section): (r: map<string, SectionState>)
    ensures itemId in r && r.Keys == flags.Keys + {itemId}
    ensures Collapsed(r, itemId, section) == !Collapsed(flags, itemId, section)
    ensures forall i, s :: (i, s) != (itemId, section) ==> Collapsed(r, i, s) == Collapsed(flags, i, s)
  {
    var current := if itemId in flags then flags[itemId] else DefaultState;
    flags[itemId := WithFlag(current, section, !Flag(current, section))]
  }

  /** Toggling the same section twice shows every section as it was. */
  lemma ToggleCollapseTwice(flags: map<string, SectionState>, itemId: string, section: TenderPricing.Section)
    ensures var r := ToggleCollapse(ToggleCollapse(flags, itemId, section), itemId, section);
      forall i, s :: Collapsed(r, i, s) == Collapsed(flags, i, s)
  {
  }

  // ---------------------------------------------------------------- readiness

  /** `(n || 0)` for an item count that may be missing. */
  function CountOr0(n: Option<real>): real {
    n.GetOr(0.0)
  }

  /** isPricingCompleted: some items are priced, there are items, and at least as many are priced as there are. */
  predicate PricingCompleted(priced: Option<real>, total: Option<real>) {
    CountOr0(priced) > 0.0 && CountOr0(total) > 0.0 && CountOr0(priced) >= CountOr0(total)
  }

  /** The technical files count as uploaded when the tender says so or the file store holds any for it. */
  predicate TechnicalFilesUploaded(flag: bool, storedFiles: nat) {
    flag || storedFiles > 0
  }

  /** isReadyToSubmit: pricing complete and the technical files uploaded. */
  predicate ReadyToSubmit(priced: Option<real>, total: Option<real>, flag: bool, storedFiles: nat) {
    PricingCompleted(priced, total) && TechnicalFilesUploaded(flag, storedFiles)
  }

  /**
   * Pricing is complete exactly when there are items and every one of them
   * is priced; a tender whose item count is missing is never complete, and
   * a tender whose files are missing is never ready.
   */
  lemma ReadinessRule(priced: real, total: real, flag: bool, storedFiles: nat)
    ensures PricingCompleted(Some(priced), Some(total)) <==> total > 0.0 && priced >= total
    ensures !PricingCompleted(Some(priced), None) && !PricingCompleted(None, Some(total))
    ensures ReadyToSubmit(Some(priced), Some(total), flag, storedFiles) <==>
      total > 0.0 && priced >= total && (flag || storedFiles > 0)
  {
  }

  // ----------------------------------------------------------------- renderKey

  /** `String(item.id ?? item.itemNumber ?? index)`. */
  function Identifier(id: Option<string>, itemNumber: Option<string>, index: nat): (r: string)
    ensures id.Some? ==> r == id.value
    ensures id.None? && itemNumber.Some? ==> r == itemNumber.value
    ensures id.None? && itemNumber.None? ==> r == NatText(index)
  {
    if id.Some? then id.value else if itemNumber.Some? then itemNumber.value else NatText(index)
  }

  /** How often `x` occurs in `s`. */
  function Occurrences(s: seq<string>, x: string): (n: nat)
    ensures n <= |s|
    ensures n == 0 <==> x !in s
  {
    if |s| == 0 then 0 else Occurrences(s[..|s| - 1], x) + (if s[|s| - 1] == x then 1 else 0)
  }

  /** The key of the k-th repeat of a base key. */
  function DupKey(base: string, k: nat): string {
    base + "__dup" + NatText(k)
  }

  /**
   * The properties every plain object inherits from the Object prototype
   * object of the ECMAScript standard, its Annex B additions included. On the
   * `{}` the view counts in, `keyUsage[name]` finds one of these before the
   * name was ever counted.
   */
  const ObjectPrototypeNames: set<string> := {
    "constructor", "hasOwnProperty", "isPrototypeOf", "propertyIsEnumerable",
    "toLocaleString", "toString", "valueOf", "__proto__",
    "__defineGetter__", "__defineSetter__", "__lookupGetter__", "__lookupSetter__"}

  /**
   * The render keys as written: the n-th occurrence of a base key gets the
   * suffix `__dup{n-1}`. For an inherited name `keyUsage[name] ?? 0` is a
   * function or an object, `+ 1` makes a string of it, the occurrence is
   * never `=== 1`, and string minus one is NaN: every occurrence, the first
   * included, gets `{name}__dupNaN`.
   */
  function RenderKeysAsWritten(bases: seq<string>): (r: seq<string>)
    ensures |r| == |bases|
    ensures forall i :: 0 <= i < |bases| && bases[i] !in ObjectPrototypeNames && bases[i] !in bases[..i] ==> r[i] == bases[i]
    ensures forall i :: 0 <= i < |bases| && bases[i] in ObjectPrototypeNames ==> r[i] == bases[i] + "__dupNaN"
  {
    var counts := RunningCounts(bases);
    seq(|bases|, i requires 0 <= i < |bases| => KeyAsWritten(bases[i], counts[i]))
  }

  /**
   * For each row, the number of rows up to and including it with its id:
   * 1 exactly at an id's first occurrence.
   */
  function RunningCounts(bases: seq<string>): (r: seq<nat>)
    ensures |r| == |bases|
    ensures forall i :: 0 <= i < |bases| ==> r[i] == Occurrences(bases[..i + 1], bases[i])
    ensures forall i :: 0 <= i < |bases| ==> r[i] >= 1
    ensures forall i :: 0 <= i < |bases| && bases[i] !in bases[..i] ==> r[i] == 1
  {
    FirstOccurrencesOnce(bases);
    seq(|bases|, i requires 0 <= i < |bases| => OccurrencesUpTo(bases, i))
  }

  /** The number of rows up to and including row i with row i's id. */
  function OccurrencesUpTo(bases: seq<string>, i: nat): (n: nat)
    requires i < |bases|
    ensures n >= 1
  {
    assert bases[..i + 1][i] == bases[i];
    Occurrences(bases[..i + 1], bases[i])
  }

  /** One row's key as written, from its id and the number of rows with that id up to and including it. */
  function KeyAsWritten(base: string, occurrence: nat): string
    requires occurrence >= 1
  {
    if base in ObjectPrototypeNames then base + "__dupNaN"
    else if occurrence == 1 then base
    else DupKey(base, occurrence - 1)
  }

  /** A row whose id has not appeared before is its id's first occurrence. */
  lemma FirstOccurrencesOnce(bases: seq<string>)
    ensures forall i :: 0 <= i < |bases| && bases[i] !in bases[..i] ==> Occurrences(bases[..i + 1], bases[i]) == 1
  {
    forall i | 0 <= i < |bases| && bases[i] !in bases[..i]
      ensures Occurrences(bases[..i + 1], bases[i]) == 1
    {
      assert bases[..i + 1][..i] == bases[..i];
    }
  }

  /** A name whose first letter starts none of the prototype names is not one of them. */
  lemma NotPrototypeName(name: string)
    requires |name| > 0 && name[0] !in "chiptv_"
    ensures name !in ObjectPrototypeNames
  {
  }

  /** Two rows with the id "constructor" both get the key constructor__dupNaN as written; the corrected keys keep the first id and tell the second apart. */
  lemma PrototypeNameKeysCollide()
    ensures RenderKeysAsWritten(["constructor", "constructor"]) == ["constructor__dupNaN", "constructor__dupNaN"]
    ensures RenderKeys(["constructor", "constructor"]) == ["constructor", "constructor__dup1"]
  {
    PrototypeNameKeysAsWritten();
    PrototypeNameKeysCorrected();
  }

  lemma PrototypeNameKeysAsWritten()
    ensures RenderKeysAsWritten(["constructor", "constructor"]) == ["constructor__dupNaN", "constructor__dupNaN"]
  {
    var bases := ["constructor", "constructor"];
    assert bases[..1] == ["constructor"];
    assert ["constructor"][..0] == [];
    assert "constructor" in ObjectPrototypeNames;
    assert "constructor" + "__dupNaN" == "constructor__dupNaN";
    assert RenderKeysAsWritten(["constructor"]) == ["constructor__dupNaN"];
  }

  lemma PrototypeNameKeysCorrected()
    ensures RenderKeys(["constructor", "constructor"]) == ["constructor", "constructor__dup1"]
  {
    var bases := ["constructor", "constructor"];
    assert bases[..1] == ["constructor"];
    assert ["constructor"][..0] == [];
    assert RenderKeys(["constructor"]) == ["constructor"];
    assert Occurrences(["constructor"], "constructor") == 1;
    assert Occurrences(bases, "constructor") == 2;
    assert NatText(1) == "1";
    assert DupKey("constructor", 1) == "constructor__dup1";
    assert Taken(["constructor"]) == {"constructor"};
    assert DupKey("constructor", 1) !in Taken(["constructor"]);
  }

  /** Three rows with ids a, a and a__dup1 get the keys a, a__dup1 and a__dup1: two rows share a key. */
  lemma DuplicateRenderKeys()
    ensures var r := RenderKeysAsWritten(["a", "a", "a__dup1"]);
      |r| == 3 && r[1] == r[2]
  {
    var bases := ["a", "a", "a__dup1"];
    assert bases[..2] == ["a", "a"];
    assert ["a", "a"][..1] == ["a"];
    assert ["a"][..0] == [];
    assert Occurrences(["a", "a"], "a") == 2;
    assert Occurrences(bases[..3], "a__dup1") == 1 by {
      assert bases[..3] == bases;
      assert Occurrences(["a", "a"], "a__dup1") == 0;
    }
    var counts := RunningCounts(bases);
    assert counts[1] == 2 && counts[2] == 1;
    KeysOfA();
  }

  /** The second "a" and the id "a__dup1" both get the key a__dup1. */
  lemma KeysOfA()
    ensures KeyAsWritten("a", 2) == "a__dup1"
    ensures KeyAsWritten("a__dup1", 1) == "a__dup1"
  {
    NotPrototypeName("a");
    NotPrototypeName("a__dup1");
    DupKeyOfA();
  }

  lemma DupKeyOfA()
    ensures DupKey("a", 1) == "a__dup1"
  {
    assert NatText(1) == "1";
  }

  /** Suffix keys of one base are told apart by their number. */
  lemma DupKeyInjective(base: string, j: nat, k: nat)
    requires DupKey(base, j) == DupKey(base, k)
    ensures j == k
  {
    var p := |base| + 5;
    assert DupKey(base, j)[p..] == NatText(j);
    assert DupKey(base, k)[p..] == NatText(k);
    NatTextInjective(j, k);
  }

  /** The suffix keys numbered lo up to, not including, hi. */
  function DupKeys(base: string, lo: nat, hi: nat): set<string>
    decreases hi - lo
  {
    if hi <= lo then {} else DupKeys(base, lo, hi - 1) + {DupKey(base, hi - 1)}
  }

  /** The suffix keys numbered lo up to hi hold no other key: none numbered hi or above. */
  lemma {:induction false} DupKeysBelow(base: string, lo: nat, hi: nat, k: nat)
    requires k >= hi
    ensures DupKey(base, k) !in DupKeys(base, lo, hi)
    decreases hi - lo
  {
    if lo < hi {
      DupKeysBelow(base, lo, hi - 1, k);
      if DupKey(base, hi - 1) == DupKey(base, k) {
        DupKeyInjective(base, hi - 1, k);
      }
    }
  }

  lemma {:induction false} DupKeysCount(base: string, lo: nat, hi: nat)
    requires lo <= hi
    ensures |DupKeys(base, lo, hi)| == hi - lo
    decreases hi - lo
  {
    if lo < hi {
      var prev := DupKeys(base, lo, hi - 1);
      var key := DupKey(base, hi - 1);
      DupKeysCount(base, lo, hi - 1);
      DupKeysBelow(base, lo, hi - 1, hi - 1);
      assert DupKeys(base, lo, hi) == prev + {key};
    }
  }

  /** A subset is no larger than its superset. */
  lemma {:induction false} SubsetSize(a: set<string>, b: set<string>)
    requires a <= b
    ensures |a| <= |b|
    decreases |a|
  {
    if a != {} {
      var x :| x in a;
      SubsetSize(a - {x}, b - {x});
    }
  }

  /**
   * The first free suffix key of a base from number k on, given that the
   * numbers from lo up to k are all taken. There are only as many taken keys
   * as `used` holds, so the search ends.
   */
  function FreeSuffix(base: string, lo: nat, k: nat, used: set<string>): (r: nat)
    requires lo <= k
    requires DupKeys(base, lo, k) <= used
    ensures r >= k && DupKey(base, r) !in used
    decreases |used| - (k - lo)
  {
    DupKeysCount(base, lo, k);
    SubsetSize(DupKeys(base, lo, k), used);
    if DupKey(base, k) !in used then k
    else
      assert DupKeys(base, lo, k + 1) <= used;
      DupKeysCount(base, lo, k + 1);
      SubsetSize(DupKeys(base, lo, k + 1), used);
      FreeSuffix(base, lo, k + 1, used)
  }

  /**
   * The render key of one row, given the keys already given out: the base
   * key when it is still free, otherwise the suffix key for its occurrence,
   * or the next free suffix key after it when that one is taken too.
   */
  function NextKey(base: string, occurrence: nat, used: set<string>): (r: string)
    ensures r !in used
    ensures base !in used ==> r == base
    ensures IsPrefix(base, r)
    ensures occurrence > 1 && DupKey(base, occurrence - 1) !in used && base in used ==> r == DupKey(base, occurrence - 1)
  {
    if base !in used then base
    else
      var start := if occurrence > 1 then occurrence - 1 else 1;
      var k := FreeSuffix(base, start, start, used);
      assert DupKey(base, k)[..|base|] == base;
      DupKey(base, k)
  }

  /** The render keys with every clash resolved. */
  function RenderKeys(bases: seq<string>): (r: seq<string>)
    ensures |r| == |bases|
    decreases |bases|
  {
    if |bases| == 0 then []
    else
      var prior := RenderKeys(bases[..|bases| - 1]);
      var base := bases[|bases| - 1];
      prior + [NextKey(base, Occurrences(bases, base), Taken(prior))]
  }

  /** The keys already given out. */
  function Taken(keys: seq<string>): (r: set<string>)
    ensures forall x :: x in r <==> x in keys
  {
    set i | 0 <= i < |keys| :: keys[i]
  }

  /** The last render key is a key none of the earlier ones took, the base key itself when it is free. */
  lemma RenderKeysStep(bases: seq<string>)
    requires |bases| > 0
    ensures var r := RenderKeys(bases);
      var n := |bases| - 1;
      r[..n] == RenderKeys(bases[..n]) && r[n] !in r[..n] && IsPrefix(bases[n], r[n])
      && (bases[n] !in r[..n] ==> r[n] == bases[n])
  {
    var n := |bases| - 1;
    var prior := RenderKeys(bases[..n]);
    var r := RenderKeys(bases);
    assert r[..n] == prior;
  }

  /** Every render key starts with its row's identifier. */
  lemma {:induction false} RenderKeysPrefixed(bases: seq<string>)
    ensures var r := RenderKeys(bases);
      forall i :: 0 <= i < |r| ==> IsPrefix(bases[i], r[i])
    decreases |bases|
  {
    if |bases| > 0 {
      RenderKeysPrefixed(bases[..|bases| - 1]);
      RenderKeysStep(bases);
      PrefixedExtend(bases, RenderKeys(bases));
    }
  }

  lemma PrefixedExtend(bases: seq<string>, r: seq<string>)
    requires |r| == |bases| > 0
    requires var n := |bases| - 1;
      (forall i :: 0 <= i < n ==> IsPrefix(bases[..n][i], r[..n][i])) && IsPrefix(bases[n], r[n])
    ensures forall i :: 0 <= i < |r| ==> IsPrefix(bases[i], r[i])
  {
    var n := |bases| - 1;
    forall i | 0 <= i < n ensures IsPrefix(bases[i], r[i]) {
      assert bases[..n][i] == bases[i] && r[..n][i] == r[i];
    }
  }

  /** No two render keys are the same. */
  lemma {:induction false} RenderKeysUnique(bases: seq<string>)
    ensures var r := RenderKeys(bases);
      forall i, j :: 0 <= i < j < |r| ==> r[i] != r[j]
    decreases |bases|
  {
    if |bases| > 0 {
      RenderKeysUnique(bases[..|bases| - 1]);
      RenderKeysStep(bases);
      UniqueExtend(RenderKeys(bases));
    }
  }

  lemma UniqueExtend(r: seq<string>)
    requires |r| > 0
    requires var n := |r| - 1;
      (forall i, j :: 0 <= i < j < n ==> r[..n][i] != r[..n][j]) && r[n] !in r[..n]
    ensures forall i, j :: 0 <= i < j < |r| ==> r[i] != r[j]
  {
    var n := |r| - 1;
    forall i, j | 0 <= i < j < |r| ensures r[i] != r[j] {
      assert r[i] == r[..n][i];
      if j < n {
        assert r[j] == r[..n][j];
      }
    }
  }

  /** A row keeps its own identifier as its key unless an earlier key already took it. */
  lemma {:induction false} RenderKeysKeepFree(bases: seq<string>)
    ensures var r := RenderKeys(bases);
      forall i :: 0 <= i < |r| && bases[i] !in r[..i] ==> r[i] == bases[i]
    decreases |bases|
  {
    if |bases| > 0 {
      RenderKeysKeepFree(bases[..|bases| - 1]);
      RenderKeysStep(bases);
      KeepFreeExtend(bases, RenderKeys(bases));
    }
  }

  lemma KeepFreeExtend(bases: seq<string>, r: seq<string>)
    requires |r| == |bases| > 0
    requires var n := |bases| - 1;
      (forall i :: 0 <= i < n && bases[..n][i] !in r[..n][..i] ==> r[..n][i] == bases[..n][i])
      && (bases[n] !in r[..n] ==> r[n] == bases[n])
    ensures forall i :: 0 <= i < |r| && bases[i] !in r[..i] ==> r[i] == bases[i]
  {
    var n := |bases| - 1;
    forall i | 0 <= i < n && bases[i] !in r[..i] ensures r[i] == bases[i] {
      assert bases[..n][i] == bases[i] && r[..n][i] == r[i] && r[..n][..i] == r[..i];
    }
  }

  /** Every render key is distinct, each one starts with its row's identifier, and a first occurrence keeps it unless an earlier key already took it. */
  lemma RenderKeysDistinct(bases: seq<string>)
    ensures var r := RenderKeys(bases);
      (forall i, j :: 0 <= i < j < |r| ==> r[i] != r[j])
      && (forall i :: 0 <= i < |r| ==> IsPrefix(bases[i], r[i]))
      && (forall i :: 0 <= i < |r| && bases[i] !in r[..i] ==> r[i] == bases[i])
  {
    RenderKeysUnique(bases);
    RenderKeysPrefixed(bases);
    RenderKeysKeepFree(bases);
  }

  /**
   * Without clashes with earlier keys the repair keeps a first occurrence's
   * id, and so does the view unless the id is an inherited name.
   */
  lemma FirstOccurrencesAgree(bases: seq<string>, i: nat)
    requires i < |bases| && bases[i] !in bases[..i]
    ensures bases[i] !in RenderKeys(bases)[..i] ==> RenderKeys(bases)[i] == bases[i]
    ensures RenderKeysAsWritten(bases)[i] == bases[i] <==> bases[i] !in ObjectPrototypeNames
  {
    RenderKeysDistinct(bases);
    if bases[i] in ObjectPrototypeNames {
      assert |RenderKeysAsWritten(bases)[i]| > |bases[i]|;
    }
  }
}

=== FILE: tender_pricing.dfy ===
/**
 * The pricing screen of one tender: recognising stored pricing entries,
 * building the bill of quantities (BOQ) from whichever source the tender
 * carries, editing the cost rows of an item's four sections, choosing the
 * description that is persisted for an item, and deriving the tender's
 * status from how many items are priced.
 */
module TenderPricing {
  import opened Wrappers
  import opened Text
  import opened Numbers
  import opened Js
  import opened Lists

  // ------------------------------------------------------------ data model

  /** The four cost sections of an item. */
  datatype Section = Materials | Labor | Equipment | Subcontractors

  /** The view names the screen accepts from its URL or saved state. */
  datatype View = Summary | Pricing | Technical

  /**
   * A cost row. Every editable field holds whatever the form handed over, so
   * it is a JavaScript value; `name`, `hasWaste` and `wastePercentage` are used
   * by material rows only.
   */
  datatype Row = Row(
    id: string,
    description: JsValue,
    unit: JsValue,
    quantity: JsValue,
    price: JsValue,
    total: real,
    name: JsValue,
    hasWaste: JsValue,
    wastePercentage: JsValue)

  /** The editable fields of a row. */
  datatype Field = Description | Unit | Quantity | Price | Name | HasWaste | WastePercentage

  datatype Percentages = Percentages(administrative: real, operational: real, profit: real)

  /** The pricing of one BOQ item. */
  datatype PricingData = PricingData(
    materials: seq<Row>,
    labor: seq<Row>,
    equipment: seq<Row>,
    subcontractors: seq<Row>,
    additionalPercentages: Percentages,
    technicalNotes: string,
    completed: bool)

  /** A normalised BOQ line. */
  datatype QuantityItem = QuantityItem(
    id: string,
    itemNumber: string,
    description: string,
    unit: string,
    quantity: real,
    specifications: string)

  const DefaultUnit := "وحدة"
  const DefaultSpecifications := "حسب المواصفات الفنية"

  // ------------------------------------------------- recognising stored data

  /** Three numeric percentages in a non-null object. */
  predicate HasValidPercentages(p: JsValue) {
    !p.Null? && TypeOf(p) == "object"
    && Prop(p, "administrative").Number?
    && Prop(p, "operational").Number?
    && Prop(p, "profit").Number?
  }

  /** The shape check applied to every pricing record read back from storage. */
  predicate IsPricingData(v: JsValue) {
    Truthy(v) && TypeOf(v) == "object"
    && Prop(v, "materials").Arr?
    && Prop(v, "labor").Arr?
    && Prop(v, "equipment").Arr?
    && Prop(v, "subcontractors").Arr?
    && HasValidPercentages(Prop(v, "additionalPercentages"))
    && Prop(v, "technicalNotes").Str?
  }

  /** A `[key, pricing]` pair of a stored map. */
  predicate IsPricingEntry(e: JsValue) {
    e.Arr? && |e.items| == 2 && e.items[0].Str? && IsPricingData(e.items[1])
  }

  function ParseView(s: string): (r: Option<View>)
    ensures r.Some? <==> s == "summary" || s == "pricing" || s == "technical"
    ensures r == Some(Summary) ==> s == "summary"
  {
    if s == "summary" then Some(Summary)
    else if s == "pricing" then Some(Pricing)
    else if s == "technical" then Some(Technical)
    else None
  }

  function Num(x: real): JsValue {
    Number(Fin(x))
  }

  function EncodeRow(r: Row): JsValue {
    Obj([("id", Str(r.id)), ("description", r.description), ("unit", r.unit),
         ("quantity", r.quantity), ("price", r.price), ("total", Num(r.total)),
         ("name", r.name), ("hasWaste", r.hasWaste), ("wastePercentage", r.wastePercentage)])
  }

  function EncodeRows(rows: seq<Row>): (r: JsValue)
    ensures r.Arr? && |r.items| == |rows|
  {
    Arr(seq(|rows|, i requires 0 <= i < |rows| => EncodeRow(rows[i])))
  }

  function EncodePercentages(p: Percentages): JsValue {
    Obj([("administrative", Num(p.administrative)), ("operational", Num(p.operational)), ("profit", Num(p.profit))])
  }

  /** The record the application stores for an item's pricing. */
  function EncodePricing(d: PricingData): JsValue {
    PricingRecord(EncodeRows(d.materials), EncodeRows(d.labor), EncodeRows(d.equipment),
                  EncodeRows(d.subcontractors), EncodePercentages(d.additionalPercentages),
                  d.technicalNotes, d.completed)
  }

  function PricingRecord(m: JsValue, l: JsValue, e: JsValue, s: JsValue, a: JsValue,
                         notes: string, done: bool): (r: JsValue)
    ensures r.Obj? && |r.fields| == 7
  {
    Obj([("materials", m), ("labor", l), ("equipment", e), ("subcontractors", s),
         ("additionalPercentages", a), ("technicalNotes", Str(notes)), ("completed", Bool(done))])
  }

  /** Whatever the application stores, the guard accepts when it is read back. */
  lemma EncodedPricingAccepted(key: string, d: PricingData)
    ensures IsPricingData(EncodePricing(d))
    ensures IsPricingEntry(Arr([Str(key), EncodePricing(d)]))
  {
    PercentagesAccepted(d.additionalPercentages);
    RecordAccepted(EncodeRows(d.materials), EncodeRows(d.labor), EncodeRows(d.equipment),
                   EncodeRows(d.subcontractors), EncodePercentages(d.additionalPercentages),
                   d.technicalNotes, d.completed);
  }

  /** The guard looks only at the shapes of the properties it names. */
  lemma RecordAccepted(m: JsValue, l: JsValue, e: JsValue, s: JsValue, a: JsValue, notes: string, done: bool)
    requires m.Arr? && l.Arr? && e.Arr? && s.Arr? && HasValidPercentages(a)
    ensures IsPricingData(PricingRecord(m, l, e, s, a, notes, done))
  {
    var f := PricingRecord(m, l, e, s, a, notes, done).fields;
    RecordField(m, l, e, s, a, notes, done, 0);
    RecordField(m, l, e, s, a, notes, done, 1);
    RecordField(m, l, e, s, a, notes, done, 2);
    RecordField(m, l, e, s, a, notes, done, 3);
    RecordField(m, l, e, s, a, notes, done, 4);
    RecordField(m, l, e, s, a, notes, done, 5);
  }

  lemma RecordField(m: JsValue, l: JsValue, e: JsValue, s: JsValue, a: JsValue, notes: string, done: bool, i: nat)
    requires i < 6
    ensures var f := PricingRecord(m, l, e, s, a, notes, done).fields; Lookup(f, f[i].0) == Some(f[i].1)
  {
    var f := PricingRecord(m, l, e, s, a, notes, done).fields;
    LookupFirst(f, f[i].0, i);
  }

  lemma PercentagesAccepted(p: Percentages)
    ensures HasValidPercentages(EncodePercentages(p))
  {
    var f := EncodePercentages(p).fields;
    forall i | 0 <= i < 3 ensures Lookup(f, f[i].0) == Some(f[i].1) {
      LookupFirst(f, f[i].0, i);
    }
    assert f[0].0 == "administrative" && f[1].0 == "operational" && f[2].0 == "profit";
  }

  /** A pair with a non-string key, or with one element too many, is refused. */
  lemma MalformedEntriesRefused(k: JsValue, v: JsValue, extra: JsValue)
    ensures !k.Str? ==> !IsPricingEntry(Arr([k, v]))
    ensures !IsPricingEntry(Arr([k, v, extra]))
  {
  }

  // ------------------------------------------------ building the BOQ items

  /** Text with at least one character. */
  type NonEmptyString = s: string | |s| > 0 witness "-"

  /** `toTrimmedString`: the trimmed text of a value, absent for null, undefined or blank text. */
  function ToTrimmedString(v: JsValue): (r: Option<NonEmptyString>)
    ensures r.None? <==> IsNullish(v) || IsBlank(ToText(v))
    ensures r.Some? ==> !IsSpace(r.value[0]) && !IsSpace(r.value[|r.value| - 1])
  {
    if IsNullish(v) then None
    else
      var t := Trim(ToText(v));
      if |t| > 0 then Some(t) else None
  }

  /** Text that is already trimmed and non-empty comes back as it is. */
  lemma ToTrimmedStringOfTrimmed(s: string)
    requires |s| > 0 && !IsSpace(s[0]) && !IsSpace(s[|s| - 1])
    ensures ToTrimmedString(Str(s)) == Some(s)
  {
    TrimNoOuterSpace(s);
  }

  /**
   * `o1 ?? o2 ?? … ?? fallback`: the first option that is present, else the
   * fallback.
   */
  function FirstPresent(opts: seq<Option<NonEmptyString>>, fallback: string): (r: string)
    ensures |fallback| > 0 ==> |r| > 0
    ensures (forall k :: 0 <= k < |opts| ==> opts[k].None?) ==> r == fallback
    ensures forall k :: (0 <= k < |opts| && opts[k].Some? && forall j :: 0 <= j < k ==> opts[j].None?)
                        ==> r == opts[k].value
  {
    if |opts| == 0 then fallback
    else if opts[0].Some? then opts[0].value
    else
      var r := FirstPresent(opts[1..], fallback);
      assert forall k :: 1 <= k < |opts| ==> opts[k] == opts[1..][k - 1];
      r
  }

  /** `toNumberOr`: finite numbers and numeric strings, otherwise the fallback. */
  function ToNumberOr(v: JsValue, fallback: real): (r: real)
    ensures IsFiniteNumber(v) ==> r == v.n.v
    ensures v.Str? && StringToNumber(v.s).Fin? ==> r == StringToNumber(v.s).v
    ensures !IsFiniteNumber(v) && !(v.Str? && StringToNumber(v.s).Fin?) ==> r == fallback
  {
    if IsFiniteNumber(v) then v.n.v
    else if v.Str? && StringToNumber(v.s).Fin? then StringToNumber(v.s).v
    else fallback
  }

  /**
   * The properties of a raw BOQ entry that normalisation reads, each already
   * passed through `toTrimmedString` (the quantity is kept as it is).
   */
  datatype EntryTexts = EntryTexts(
    id: Option<NonEmptyString>,
    itemId: Option<NonEmptyString>,
    number: Option<NonEmptyString>,
    itemNumber: Option<NonEmptyString>,
    description: Option<NonEmptyString>,
    desc: Option<NonEmptyString>,
    name: Option<NonEmptyString>,
    unit: Option<NonEmptyString>,
    uom: Option<NonEmptyString>,
    specifications: Option<NonEmptyString>,
    spec: Option<NonEmptyString>,
    notes: Option<NonEmptyString>,
    quantity: JsValue)

  /** `toTrimmedString(item[key])` for every key normalisation looks at. */
  function ReadEntry(item: JsValue): EntryTexts {
    EntryTexts(
      ToTrimmedString(Prop(item, "id")),
      ToTrimmedString(Prop(item, "itemId")),
      ToTrimmedString(Prop(item, "number")),
      ToTrimmedString(Prop(item, "itemNumber")),
      ToTrimmedString(Prop(item, "description")),
      ToTrimmedString(Prop(item, "desc")),
      ToTrimmedString(Prop(item, "name")),
      ToTrimmedString(Prop(item, "unit")),
      ToTrimmedString(Prop(item, "uom")),
      ToTrimmedString(Prop(item, "specifications")),
      ToTrimmedString(Prop(item, "spec")),
      ToTrimmedString(Prop(item, "notes")),
      Prop(item, "quantity"))
  }

  /** One raw BOQ entry at position `index`, with every fallback filled in. */
  function NormalizeItem(item: JsValue, index: nat): (r: QuantityItem)
    ensures |r.id| > 0 && |r.itemNumber| > 0 && |r.unit| > 0 && |r.specifications| > 0
  {
    Normalize(ReadEntry(item), index)
  }

  function Normalize(e: EntryTexts, index: nat): (r: QuantityItem)
    ensures |r.id| > 0 && |r.itemNumber| > 0 && |r.unit| > 0 && |r.specifications| > 0
  {
    QuantityItem(
      ItemId(e, index),
      ItemNumber(e, index),
      FirstPresent([e.description, e.desc, e.name], ""),
      FirstPresent([e.unit, e.uom], DefaultUnit),
      ToNumberOr(e.quantity, 1.0),
      FirstPresent([e.specifications, e.spec, e.notes], DefaultSpecifications))
  }

  /** The id falls back from `id` to `itemId` to `number` to `item-` and the 1-based position. */
  function ItemId(e: EntryTexts, index: nat): (r: string)
    ensures |r| > 0
    ensures e.id.Some? ==> r == e.id.value
    ensures e.id.None? && e.itemId.Some? ==> r == e.itemId.value
    ensures e.id.None? && e.itemId.None? && e.number.Some? ==> r == e.number.value
    ensures e.id.None? && e.itemId.None? && e.number.None? ==> r == "item-" + NatText(index + 1)
  {
    var opts := [e.id, e.itemId, e.number];
    assert opts[0] == e.id && opts[1] == e.itemId && opts[2] == e.number;
    FirstPresent(opts, "item-" + NatText(index + 1))
  }

  /**
   * The line number falls back from `itemNumber` to `number` to the
   * 1-based position, zero-padded to two digits.
   */
  function ItemNumber(e: EntryTexts, index: nat): (r: string)
    ensures |r| > 0
    ensures e.itemNumber.Some? ==> r == e.itemNumber.value
    ensures e.itemNumber.None? && e.number.Some? ==> r == e.number.value
    ensures e.itemNumber.None? && e.number.None? ==>
      |r| >= 2 && (index + 1 >= 10 ==> r == NatText(index + 1))
  {
    var opts := [e.itemNumber, e.number];
    assert opts[0] == e.itemNumber && opts[1] == e.number;
    FirstPresent(opts, PadStart2(index + 1))
  }

  /** `Array.isArray(v) ? v : undefined`. */
  function ArrayOf(v: JsValue): (r: Option<seq<JsValue>>)
    ensures r.Some? <==> v.Arr?
    ensures r.Some? ==> r.value == v.items
  {
    if v.Arr? then Some(v.items) else None
  }

  /** The `items` array of a scope object; a string, array or falsy scope has none. */
  function ScopeItems(scope: JsValue): (r: Option<seq<JsValue>>)
    ensures !Truthy(scope) || scope.Str? || scope.Arr? ==> r.None?
  {
    if !Truthy(scope) || scope.Str? || scope.Arr? then None
    else ArrayOf(Prop(scope, "items"))
  }

  /** The quantity sources in priority order. */
  function CandidateSources(tender: JsValue): (r: seq<Option<seq<JsValue>>>)
    ensures |r| == 6
  {
    [ArrayOf(Prop(tender, "quantityTable")),
     ArrayOf(Prop(tender, "quantities")),
     ArrayOf(Prop(tender, "items")),
     ArrayOf(Prop(tender, "boqItems")),
     ArrayOf(Prop(tender, "quantityItems")),
     ScopeItems(Prop(tender, "scope"))]
  }

  predicate NonEmptySource(c: Option<seq<JsValue>>) {
    c.Some? && |c.value| > 0
  }

  /** The first non-empty array among the candidates, or the empty list. */
  function FirstNonEmpty(cands: seq<Option<seq<JsValue>>>): (r: seq<JsValue>)
    ensures r == [] <==> forall k :: 0 <= k < |cands| ==> !NonEmptySource(cands[k])
    ensures r != [] ==> (exists k :: 0 <= k < |cands| && cands[k] == Some(r)
                                    && forall j :: 0 <= j < k ==> !NonEmptySource(cands[j]))
  {
    if |cands| == 0 then []
    else if NonEmptySource(cands[0]) then cands[0].value
    else
      var r := FirstNonEmpty(cands[1..]);
      assert forall k :: 1 <= k < |cands| ==> cands[k] == cands[1..][k - 1];
      FirstNonEmptyShift(cands, r);
      r
  }

  lemma FirstNonEmptyShift(cands: seq<Option<seq<JsValue>>>, r: seq<JsValue>)
    requires |cands| > 0 && !NonEmptySource(cands[0])
    requires r != [] ==> (exists k :: 0 <= k < |cands[1..]| && cands[1..][k] == Some(r)
                                     && forall j :: 0 <= j < k ==> !NonEmptySource(cands[1..][j]))
    ensures r != [] ==> (exists k :: 0 <= k < |cands| && cands[k] == Some(r)
                                    && forall j :: 0 <= j < k ==> !NonEmptySource(cands[j]))
  {
    if r != [] {
      var k :| 0 <= k < |cands[1..]| && cands[1..][k] == Some(r)
        && forall j :: 0 <= j < k ==> !NonEmptySource(cands[1..][j]);
      assert cands[k + 1] == Some(r);
      forall j | 0 <= j < k + 1 ensures !NonEmptySource(cands[j]) {
        if j > 0 {
          assert cands[j] == cands[1..][j - 1];
        }
      }
    }
  }

  /** The lower-cased attachment name, `''` when it has none. */
  function AttachmentName(att: JsValue): string {
    var n := Prop(att, "name");
    if IsNullish(n) then "" else Lower(ToText(n))
  }

  /** An attachment that holds the quantity table: by type, or by a telling name. */
  predicate IsQuantityAttachment(att: JsValue) {
    StrictEquals(Prop(att, "type"), Str("quantity"))
    || Contains(AttachmentName(att), "كمية")
    || Contains(AttachmentName(att), "boq")
    || Contains(AttachmentName(att), "quantity")
  }

  /** The index of the first attachment satisfying IsQuantityAttachment. */
  function FindQuantityAttachment(atts: seq<JsValue>): (r: Option<nat>)
    ensures r.Some? ==> (r.value < |atts| && IsQuantityAttachment(atts[r.value])
                         && forall j :: 0 <= j < r.value ==> !IsQuantityAttachment(atts[j]))
    ensures r.None? ==> forall j :: 0 <= j < |atts| ==> !IsQuantityAttachment(atts[j])
  {
    if |atts| == 0 then None
    else if IsQuantityAttachment(atts[0]) then Some(0)
    else
      match FindQuantityAttachment(atts[1..])
      case None => None
      case Some(k) => Some(k + 1)
  }

  /** The data of the first quantity attachment, when it is an array. */
  function AttachmentItems(attachments: JsValue): seq<JsValue> {
    if !attachments.Arr? then []
    else
      match FindQuantityAttachment(attachments.items)
      case None => []
      case Some(k) => ArrayOf(Prop(attachments.items[k], "data")).GetOr([])
  }

  function RawItem(id: string, number: string, description: string, unit: string,
                   quantity: real, specifications: string): JsValue {
    Obj([("id", Str(id)), ("itemNumber", Str(number)), ("description", Str(description)),
         ("unit", Str(unit)), ("quantity", Num(quantity)), ("specifications", Str(specifications))])
  }

  /** The tender's title (or name) text, `''` when it has neither. */
  function TitleText(tender: JsValue): string {
    var t := Prop(tender, "title");
    var n := Prop(tender, "name");
    if !IsNullish(t) then ToText(t) else if !IsNullish(n) then ToText(n) else ""
  }

  /** Whether the title or a textual scope says the tender is a building job. */
  predicate IsBuildingTender(tender: JsValue) {
    var title := TitleText(tender);
    var scope := Prop(tender, "scope");
    var scopeText := if scope.Str? then scope.s else "";
    Contains(title, "مبنى") || Contains(scopeText, "مبنى")
    || Contains(title, "بناء") || Contains(scopeText, "بناء")
  }

  /** The placeholder BOQ used when the tender carries no quantities at all. */
  function DefaultItems(tender: JsValue): (r: seq<JsValue>)
    ensures |r| == if IsBuildingTender(tender) then 4 else 2
  {
    if IsBuildingTender(tender) then
      [RawItem("default-1", "01", "أعمال الحفر والردم", "م³", 500.0, "حفر وردم للأساسات"),
       RawItem("default-2", "02", "أعمال الخرسانة العادية", "م³", 200.0, "خرسانة عادية درجة 150 كجم/سم²"),
       RawItem("default-3", "03", "أعمال الخرسانة المسلحة", "م³", 300.0, "خرسانة مسلحة درجة 350 كجم/سم²"),
       RawItem("default-4", "04", "أعمال حديد التسليح", "طن", 25.0, "حديد تسليح عادي وعالي المقاومة")]
    else
      [RawItem("default-1", "01", "البند الأول", DefaultUnit, 100.0, DefaultSpecifications),
       RawItem("default-2", "02", "البند الثاني", DefaultUnit, 150.0, DefaultSpecifications)]
  }

  /** The raw BOQ entries: the first non-empty source, else a quantity attachment, else the defaults. */
  function RawQuantityData(tender: JsValue): (r: seq<JsValue>)
    ensures |r| > 0
    ensures FirstNonEmpty(CandidateSources(tender)) != [] ==> r == FirstNonEmpty(CandidateSources(tender))
  {
    var fromSources := FirstNonEmpty(CandidateSources(tender));
    if fromSources != [] then fromSources
    else
      var fromAttachment := AttachmentItems(Prop(tender, "attachments"));
      if fromAttachment != [] then fromAttachment else DefaultItems(tender)
  }

  /** The normalised BOQ of a tender: one item per raw entry, never empty. */
  function QuantityItems(tender: JsValue): (r: seq<QuantityItem>)
    ensures |r| == |RawQuantityData(tender)| > 0
    ensures forall i :: 0 <= i < |r| ==> r[i] == NormalizeItem(RawQuantityData(tender)[i], i)
  {
    var raw := RawQuantityData(tender);
    seq(|raw|, i requires 0 <= i < |raw| => NormalizeItem(raw[i], i))
  }

  /** The quantity table wins over every later source, whatever they hold. */
  lemma QuantityTableFirst(tender: JsValue)
    requires Prop(tender, "quantityTable").Arr? && |Prop(tender, "quantityTable").items| > 0
    ensures RawQuantityData(tender) == Prop(tender, "quantityTable").items
  {
    var c := CandidateSources(tender);
    assert NonEmptySource(c[0]);
    var r := FirstNonEmpty(c);
    var k :| 0 <= k < |c| && c[k] == Some(r) && forall j :: 0 <= j < k ==> !NonEmptySource(c[j]);
    assert k == 0;
  }

  /** A tender with no source and no quantity attachment gets the placeholder lines. */
  lemma NoSourceGivesDefaults(tender: JsValue)
    requires forall k :: 0 <= k < 6 ==> !NonEmptySource(CandidateSources(tender)[k])
    requires AttachmentItems(Prop(tender, "attachments")) == []
    ensures RawQuantityData(tender) == DefaultItems(tender)
  {
    var c := CandidateSources(tender);
    assert FirstNonEmpty(c) == [];
  }

  // ------------------------------------------------------- cost-row editing

  /** `toNonNegativeNumber`: `Number(v)` when finite and not negative, else 0. */
  function NonNegative(v: JsValue): (r: real)
    ensures r >= 0.0
    ensures ToNumber(v).Fin? && ToNumber(v).v >= 0.0 ==> r == ToNumber(v).v
    ensures !(ToNumber(v).Fin? && ToNumber(v).v >= 0.0) ==> r == 0.0
  {
    var n := ToNumber(v);
    if n.Fin? && n.v >= 0.0 then n.v else 0.0
  }

  lemma NonNegativeIdempotent(v: JsValue)
    ensures NonNegative(Num(NonNegative(v))) == NonNegative(v)
  {
  }

  /** `v ?? d`. */
  function Coalesce(v: JsValue, d: JsValue): (r: JsValue)
    ensures !IsNullish(v) ==> r == v
    ensures IsNullish(v) ==> r == d
  {
    if IsNullish(v) then d else v
  }

  /** The waste percentage a material row is charged: within [0, 100], and 0 without waste. */
  function WastePercent(hasWaste: JsValue, wastePercentage: JsValue): (w: real)
    ensures 0.0 <= w <= 100.0
    ensures !Truthy(hasWaste) ==> w == 0.0
  {
    if Truthy(hasWaste) then Clamp(NonNegative(Coalesce(wastePercentage, Num(0.0))), 0.0, 100.0)
    else 0.0
  }

  /**
   * `calculateRowTotal` on sanitised inputs: the amount (quantity times
   * price), times the waste multiplier for materials, rounded to cents.
   */
  function CostOf(section: Section, amount: real, m: real): (t: real)
    requires amount >= 0.0 && 1.0 <= m <= 2.0
    ensures t >= 0.0
    ensures IsCents(t)
    ensures section != Materials || m == 1.0 ==> t == Round2(amount)
  {
    MulNonNegative(amount, m);
    if section == Materials then Round2(amount * m) else Round2(amount)
  }

  /**
   * Waste only ever adds: the material cost is at least the plain cost and at
   * most twice it, up to rounding.
   */
  lemma CostWasteBounds(amount: real, m: real, other: Section)
    requires amount >= 0.0 && 1.0 <= m <= 2.0 && other != Materials
    ensures CostOf(other, amount, m) <= CostOf(Materials, amount, m)
    ensures CostOf(Materials, amount, m) <= 2.0 * CostOf(other, amount, m) + 0.015
  {
    MulMonotone(amount, 1.0, m);
    MulMonotone(amount, m, 2.0);
    RoundedBounds(amount, amount * m);
  }

  lemma RoundedBounds(x: real, y: real)
    requires 0.0 <= x <= y <= 2.0 * x
    ensures Round2(x) <= Round2(y) <= 2.0 * Round2(x) + 0.015
  {
    Round2Monotone(x, y);
  }

  /** `1 + waste/100` with waste, 1 without: between 1 and 2. */
  function Multiplier(hasWaste: JsValue, wastePercentage: JsValue): (m: real)
    ensures 1.0 <= m <= 2.0
    ensures !Truthy(hasWaste) ==> m == 1.0
  {
    if Truthy(hasWaste) then 1.0 + WastePercent(hasWaste, wastePercentage) / 100.0 else 1.0
  }

  /** The total of a row in a section, from its sanitised quantity, price and waste. */
  function RowTotal(section: Section, row: Row): (t: real)
    ensures t >= 0.0
  {
    CostOf(section, Amount(row.quantity, row.price), Multiplier(row.hasWaste, row.wastePercentage))
  }

  /** The sanitised quantity times the sanitised price (a missing price counts as 0). */
  function Amount(quantity: JsValue, price: JsValue): (a: real)
    ensures a >= 0.0
  {
    var q := NonNegative(quantity);
    var p := NonNegative(Coalesce(price, Num(0.0)));
    MulNonNegative(q, p);
    q * p
  }

  /**
   * Waste only ever adds: a material row costs at least what the same row
   * costs in any other section, and at most twice as much up to rounding.
   */
  lemma WasteBounds(row: Row, other: Section)
    requires other != Materials
    ensures RowTotal(other, row) <= RowTotal(Materials, row)
    ensures RowTotal(Materials, row) <= 2.0 * RowTotal(other, row) + 0.015
  {
    CostWasteBounds(Amount(row.quantity, row.price), Multiplier(row.hasWaste, row.wastePercentage), other);
  }

  /** Without waste, a material row costs what any other row costs. */
  lemma NoWasteLikeOtherSections(row: Row, other: Section)
    requires !Truthy(row.hasWaste)
    ensures RowTotal(Materials, row) == RowTotal(other, row)
  {
  }

  /** `recalculateRow`. */
  function Recalculate(section: Section, row: Row): (r: Row)
    ensures r.total == RowTotal(section, r)
    ensures r == row.(total := r.total)
  {
    row.(total := RowTotal(section, row))
  }

  lemma RecalculateIdempotent(section: Section, row: Row)
    ensures Recalculate(section, Recalculate(section, row)) == Recalculate(section, row)
  {
  }

  /** `{ ...row, [field]: value }`. */
  function SetField(row: Row, f: Field, v: JsValue): (r: Row)
    ensures r.id == row.id && r.total == row.total
  {
    match f
    case Description => row.(description := v)
    case Unit => row.(unit := v)
    case Quantity => row.(quantity := v)
    case Price => row.(price := v)
    case Name => row.(name := v)
    case HasWaste => row.(hasWaste := v)
    case WastePercentage => row.(wastePercentage := v)
  }

  /** `sanitizeRowValue`. */
  function Sanitize(section: Section, f: Field, v: JsValue): (r: JsValue)
    ensures f == Quantity || f == Price ==> r == Num(NonNegative(v))
    ensures section == Materials && f == WastePercentage ==>
      r.Number? && r.n.Fin? && 0.0 <= r.n.v <= 100.0
    ensures f != Quantity && f != Price && !(section == Materials && f == WastePercentage) ==> r == v
  {
    if f == Quantity || f == Price then Num(NonNegative(v))
    else if section == Materials && f == WastePercentage then Num(Clamp(NonNegative(v), 0.0, 100.0))
    else v
  }

  /** Sanitising a sanitised value changes nothing. */
  lemma SanitizeIdempotent(section: Section, f: Field, v: JsValue)
    ensures Sanitize(section, f, Sanitize(section, f, v)) == Sanitize(section, f, v)
  {
  }

  /** The edit applied to the row whose id matches. */
  function EditRow(section: Section, row: Row, f: Field, v: JsValue): (r: Row)
    ensures r.id == row.id
    ensures r.total == RowTotal(section, r)
    ensures section == Materials && f == HasWaste && !Truthy(v) ==>
      r.hasWaste == Bool(false) && r.wastePercentage == Num(0.0)
  {
    var sv := Sanitize(section, f, v);
    var next := SetField(row, f, sv);
    var next' := if section == Materials && f == HasWaste && !Truthy(sv)
      then next.(hasWaste := Bool(false), wastePercentage := Num(0.0)) else next;
    Recalculate(section, next')
  }

  function RowsOf(d: PricingData, s: Section): seq<Row> {
    match s
    case Materials => d.materials
    case Labor => d.labor
    case Equipment => d.equipment
    case Subcontractors => d.subcontractors
  }

  /** `mutateSectionRows`: the data with one section's rows replaced. */
  function WithRows(d: PricingData, s: Section, rows: seq<Row>): (r: PricingData)
    ensures RowsOf(r, s) == rows
    ensures forall t :: t != s ==> RowsOf(r, t) == RowsOf(d, t)
    ensures r.additionalPercentages == d.additionalPercentages
    ensures r.technicalNotes == d.technicalNotes && r.completed == d.completed
  {
    match s
    case Materials => d.(materials := rows)
    case Labor => d.(labor := rows)
    case Equipment => d.(equipment := rows)
    case Subcontractors => d.(subcontractors := rows)
  }

  /** `updateRow`: edits every row with the given id in one section and nothing else. */
  function UpdateRow(d: PricingData, s: Section, id: string, f: Field, v: JsValue): (r: PricingData)
    ensures |RowsOf(r, s)| == |RowsOf(d, s)|
    ensures forall i :: 0 <= i < |RowsOf(d, s)| && RowsOf(d, s)[i].id != id ==>
      RowsOf(r, s)[i] == RowsOf(d, s)[i]
    ensures forall i :: 0 <= i < |RowsOf(d, s)| && RowsOf(d, s)[i].id == id ==>
      RowsOf(r, s)[i] == EditRow(s, RowsOf(d, s)[i], f, v)
    ensures forall t :: t != s ==> RowsOf(r, t) == RowsOf(d, t)
    ensures r.additionalPercentages == d.additionalPercentages && r.technicalNotes == d.technicalNotes
  {
    var rows := RowsOf(d, s);
    WithRows(d, s, seq(|rows|, i requires 0 <= i < |rows| =>
      if rows[i].id != id then rows[i] else EditRow(s, rows[i], f, v)))
  }

  /** Every row in every section keeps a total that is never negative. */
  predicate TotalsNonNegative(d: PricingData) {
    forall s: Section, i :: 0 <= i < |RowsOf(d, s)| ==> RowsOf(d, s)[i].total >= 0.0
  }

  lemma UpdatePreservesNonNegativeTotals(d: PricingData, s: Section, id: string, f: Field, v: JsValue)
    requires TotalsNonNegative(d)
    ensures TotalsNonNegative(UpdateRow(d, s, id, f, v))
  {
    var r := UpdateRow(d, s, id, f, v);
    forall t: Section, i | 0 <= i < |RowsOf(r, t)| ensures RowsOf(r, t)[i].total >= 0.0 {
      if t == s && RowsOf(d, s)[i].id == id {
        assert RowsOf(r, t)[i] == EditRow(s, RowsOf(d, s)[i], f, v);
      }
    }
  }

  /** `deleteRow`: drops the rows with the given id from one section. */
  function DeleteRow(d: PricingData, s: Section, id: string): (r: PricingData)
    ensures forall x :: x in RowsOf(r, s) <==> x in RowsOf(d, s) && x.id != id
    ensures forall t :: t != s ==> RowsOf(r, t) == RowsOf(d, t)
  {
    WithRows(d, s, Filter(RowsOf(d, s), (row: Row) => row.id != id))
  }

  /** Deleting an id that no row carries changes nothing. */
  lemma DeleteAbsentIsNoop(d: PricingData, s: Section, id: string)
    requires forall i :: 0 <= i < |RowsOf(d, s)| ==> RowsOf(d, s)[i].id != id
    ensures DeleteRow(d, s, id) == d
  {
    FilterAll(RowsOf(d, s), (row: Row) => row.id != id);
    match s
    case Materials =>
    case Labor =>
    case Equipment =>
    case Subcontractors =>
  }

  /** `createEmptyRow`, with the id (a timestamp in the pricing screen) supplied by the caller. */
  function EmptyRow(s: Section, id: string): (r: Row)
    ensures r.id == id && r.total == 0.0
    ensures NonNegative(r.quantity) == 1.0
    ensures s == Materials ==> !Truthy(r.hasWaste) && r.wastePercentage == Num(10.0)
  {
    if s == Materials then
      Row(id, Str(""), Str(DefaultUnit), Num(1.0), Num(0.0), 0.0, Str(""), Bool(false), Num(10.0))
    else
      Row(id, Str(""), Str(DefaultUnit), Num(1.0), Num(0.0), 0.0, Undefined, Undefined, Undefined)
  }

  /**
   * `addRow`: appends an empty, recalculated row; material and subcontractor
   * rows start with the current item's quantity when an item is selected.
   */
  function AddRow(d: PricingData, s: Section, currentQuantity: Option<real>, id: string): (r: PricingData)
    ensures |RowsOf(r, s)| == |RowsOf(d, s)| + 1
    ensures RowsOf(r, s)[..|RowsOf(d, s)|] == RowsOf(d, s)
    ensures RowsOf(r, s)[|RowsOf(d, s)|].id == id
    ensures RowsOf(r, s)[|RowsOf(d, s)|].total == RowTotal(s, RowsOf(r, s)[|RowsOf(d, s)|])
    ensures forall t :: t != s ==> RowsOf(r, t) == RowsOf(d, t)
  {
    var empty := EmptyRow(s, id);
    var row := if (s == Materials || s == Subcontractors) && currentQuantity.Some?
      then empty.(quantity := Num(currentQuantity.value)) else empty;
    var rows := RowsOf(d, s) + [Recalculate(s, row)];
    assert rows[..|RowsOf(d, s)|] == RowsOf(d, s);
    WithRows(d, s, rows)
  }

  // ---------------------------------------------- the persisted description

  /** `normalizeString`. */
  function NormalizeString(v: JsValue): (r: string)
    ensures IsNullish(v) ==> r == ""
    ensures |r| > 0 ==> !IsSpace(r[0]) && !IsSpace(r[|r| - 1])
  {
    if IsNullish(v) then "" else Trim(ToText(v))
  }

  /** The length of the run of white space at the start of `s`. */
  function SpaceRun(s: string): (n: nat)
    ensures n <= |s|
    ensures forall i :: 0 <= i < n ==> IsSpace(s[i])
    ensures n < |s| ==> !IsSpace(s[n])
  {
    if |s| > 0 && IsSpace(s[0]) then 1 + SpaceRun(s[1..]) else 0
  }

  /** `^word\s*\d+$`: the word, optional white space, then only ASCII digits. */
  predicate IsNumberedLabel(s: string, word: string) {
    IsPrefix(word, s)
    && var rest := s[|word|..];
    var w := SpaceRun(rest);
    w < |rest| && AllDigits(rest[w..])
  }

  /** `غير\s*محدد` anywhere in the text ("not specified"). */
  predicate SaysUnspecified(s: string) {
    exists i :: 0 <= i <= |s| && UnspecifiedAt(s[i..])
  }

  predicate UnspecifiedAt(t: string) {
    IsPrefix("غير", t)
    && var rest := t[|"غير"|..];
    IsPrefix("محدد", rest[SpaceRun(rest)..])
  }

  /** `isMeaningfulDescription`: non-empty, not a bare "item N" label, not "unspecified". */
  predicate IsMeaningful(s: string) {
    |s| > 0 && !IsNumberedLabel(s, "البند") && !IsNumberedLabel(s, "بند") && !SaysUnspecified(s)
  }

  /** The placeholder label for an item: by its number when it has one, else by its id. */
  function FallbackLabel(itemNumber: string, id: string): (r: string)
    ensures |r| > 0
  {
    if itemNumber != "" then "البند " + itemNumber else "البند " + id
  }

  /**
   * The description persisted for a priced item: the upstream text (the
   * canonical description, else the item's own) when it is meaningful, else
   * the specifications when they are, else the label.
   */
  function CanonicalDescription(canonical: JsValue, description: JsValue, specifications: JsValue,
                                itemNumber: string, id: string): (r: string)
    ensures |r| > 0
  {
    ChooseDescription(NormalizeString(Coalesce(canonical, description)), NormalizeString(specifications),
                      itemNumber, id)
  }

  /** The choice among the normalised upstream text, specifications and label. */
  function ChooseDescription(upstream: string, spec: string, itemNumber: string, id: string): (r: string)
    ensures |r| > 0
    ensures IsMeaningful(r) || r == FallbackLabel(itemNumber, id)
    ensures IsMeaningful(upstream) ==> r == upstream
    ensures !IsMeaningful(upstream) && IsMeaningful(spec) ==> r == spec
    ensures !IsMeaningful(upstream) && !IsMeaningful(spec) ==> r == FallbackLabel(itemNumber, id)
  {
    if IsMeaningful(upstream) then upstream
    else if IsMeaningful(spec) then spec
    else FallbackLabel(itemNumber, id)
  }

  /** Choosing again from the chosen text gives the same text. */
  lemma ChooseDescriptionStable(upstream: string, spec: string, itemNumber: string, id: string)
    ensures var r := ChooseDescription(upstream, spec, itemNumber, id);
      ChooseDescription(r, spec, itemNumber, id) == r
  {
  }

  /** A label built from a plain line number is never taken for a meaningful description. */
  lemma NumberLabelNotMeaningful(n: nat)
    ensures !IsMeaningful("البند " + NatText(n))
  {
    NumberLabelMatches(n);
  }

  lemma NumberLabelMatches(n: nat)
    ensures IsNumberedLabel("البند " + NatText(n), "البند")
  {
    var word := "البند";
    assert word + " " + NatText(n) == "البند " + NatText(n);
    DigitsLabel(word, NatText(n));
  }

  /** The word, one space and a run of digits make a numbered label. */
  lemma DigitsLabel(word: string, digits: string)
    requires |digits| > 0 && AllDigits(digits)
    ensures IsNumberedLabel(word + " " + digits, word)
  {
    var s := word + " " + digits;
    assert IsPrefix(word, s) by { assert s[..|word|] == word; }
    var rest := s[|word|..];
    assert rest == " " + digits;
    assert SpaceRun(rest) == 1 by {
      assert IsSpace(rest[0]);
      assert rest[1..] == digits;
      assert !IsSpace(digits[0]) by { assert IsDigit(digits[0]); }
    }
    assert rest[1..] == digits;
  }

  /**
   * Feeding the persisted description back in as the canonical description
   * gives it again: the choice is stable across save and reload.
   */
  lemma CanonicalDescriptionStable(canonical: JsValue, description: JsValue, specifications: JsValue,
                                   itemNumber: string, id: string, other: JsValue)
    requires itemNumber != "" ==> !IsSpace(itemNumber[|itemNumber| - 1])
    requires itemNumber == "" ==> |id| > 0 && !IsSpace(id[|id| - 1])
    ensures var r := CanonicalDescription(canonical, description, specifications, itemNumber, id);
      CanonicalDescription(Str(r), other, specifications, itemNumber, id) == r
  {
    var upstream := NormalizeString(Coalesce(canonical, description));
    var spec := NormalizeString(specifications);
    var r := ChooseDescription(upstream, spec, itemNumber, id);
    ChosenIsTrimmed(upstream, spec, itemNumber, id);
    NormalizeTrimmed(r);
    assert Coalesce(Str(r), other) == Str(r);
    ChooseDescriptionStable(upstream, spec, itemNumber, id);
  }

  /** The chosen text has no white space at either end when its candidates have none. */
  lemma ChosenIsTrimmed(upstream: string, spec: string, itemNumber: string, id: string)
    requires |upstream| > 0 ==> !IsSpace(upstream[0]) && !IsSpace(upstream[|upstream| - 1])
    requires |spec| > 0 ==> !IsSpace(spec[0]) && !IsSpace(spec[|spec| - 1])
    requires itemNumber != "" ==> !IsSpace(itemNumber[|itemNumber| - 1])
    requires itemNumber == "" ==> |id| > 0 && !IsSpace(id[|id| - 1])
    ensures var r := ChooseDescription(upstream, spec, itemNumber, id);
      !IsSpace(r[0]) && !IsSpace(r[|r| - 1])
  {
    if !IsMeaningful(upstream) && !IsMeaningful(spec) {
      FallbackLabelTrimmed(itemNumber, id);
    }
  }

  /** Normalising text without outer white space gives it back. */
  lemma NormalizeTrimmed(s: string)
    requires |s| > 0 && !IsSpace(s[0]) && !IsSpace(s[|s| - 1])
    ensures NormalizeString(Str(s)) == s
  {
    TrimNoOuterSpace(s);
  }

  lemma FallbackLabelTrimmed(itemNumber: string, id: string)
    requires itemNumber != "" ==> !IsSpace(itemNumber[|itemNumber| - 1])
    requires itemNumber == "" ==> |id| > 0 && !IsSpace(id[|id| - 1])
    ensures var r := FallbackLabel(itemNumber, id); !IsSpace(r[0]) && !IsSpace(r[|r| - 1])
  {
    var word := "البند ";
    var tail := if itemNumber != "" then itemNumber else id;
    var r := word + tail;
    assert FallbackLabel(itemNumber, id) == r;
    assert r[0] == word[0];
    assert r[|r| - 1] == tail[|tail| - 1];
  }

  /** The unit price persisted for an item: total over quantity, or the total for a non-positive quantity. */
  function UnitPrice(total: real, quantity: real): (u: real)
    ensures quantity > 0.0 ==> u * quantity == total
    ensures quantity <= 0.0 ==> u == total
  {
    if quantity > 0.0 then total / quantity else total
  }

  // ------------------------------------------------------------ tender status

  datatype TenderStatus = UnderAction | ReadyToSubmit
  datatype ProgressStatus = InProgress | Completed

  datatype StatusUpdate = StatusUpdate(status: TenderStatus, pricingStatus: ProgressStatus, progress: real)

  /** Technical files are present when a stored file names this tender or the tender's flag is set. */
  predicate HasTechnicalFiles(storedFiles: JsValue, tenderId: string, uploadedFlag: JsValue) {
    (storedFiles.Arr? && exists i :: (0 <= i < |storedFiles.items|
                                      && StrictEquals(Prop(storedFiles.items[i], "tenderId"), Str(tenderId))))
    || Truthy(uploadedFlag)
  }

  /**
   * The status rule: completion is the completed share of the items in
   * percent (0 without items), and the tender is ready to submit exactly when
   * completion is 100 and technical files exist.
   */
  function DeriveStatus(completedCount: nat, itemCount: nat, hasFiles: bool): (r: StatusUpdate)
    ensures itemCount == 0 ==> r.progress == 0.0
    ensures r.status == ReadyToSubmit <==> r.progress == 100.0 && hasFiles
    ensures r.status == ReadyToSubmit <==> itemCount > 0 && completedCount == itemCount && hasFiles
    ensures r.pricingStatus == Completed <==> r.status == ReadyToSubmit
    ensures completedCount <= itemCount ==> 0.0 <= r.progress <= 100.0
  {
    var progress := if itemCount > 0 then completedCount as real / itemCount as real * 100.0 else 0.0;
    if progress == 100.0 && hasFiles then StatusUpdate(ReadyToSubmit, Completed, progress)
    else StatusUpdate(UnderAction, InProgress, progress)
  }

  /** How many stored pricing entries are marked completed, whatever item they belong to. */
  function CompletedEntries(pricing: map<string, PricingData>): nat {
    |set k | k in pricing && pricing[k].completed|
  }

  /** The status as the screen computes it: completed entries over the number of items. */
  function StatusAsWritten(items: seq<QuantityItem>, pricing: map<string, PricingData>, hasFiles: bool): (r: StatusUpdate)
    ensures r.status == ReadyToSubmit <==> |items| > 0 && CompletedEntries(pricing) == |items| && hasFiles
  {
    DeriveStatus(CompletedEntries(pricing), |items|, hasFiles)
  }

  /** An item whose own pricing entry is marked completed. */
  predicate ItemCompleted(pricing: map<string, PricingData>, item: QuantityItem) {
    item.id in pricing && pricing[item.id].completed
  }

  /** The status counting only the current items whose own entry is completed. */
  function Status(items: seq<QuantityItem>, pricing: map<string, PricingData>, hasFiles: bool): (r: StatusUpdate)
    ensures 0.0 <= r.progress <= 100.0
  {
    DeriveStatus(Count(items, (it: QuantityItem) => ItemCompleted(pricing, it)), |items|, hasFiles)
  }

  /** Ready to submit exactly when every current item is priced and technical files exist. */
  lemma StatusReadyIffAllPriced(items: seq<QuantityItem>, pricing: map<string, PricingData>, hasFiles: bool)
    ensures Status(items, pricing, hasFiles).status == ReadyToSubmit <==>
      |items| > 0 && hasFiles && forall i :: 0 <= i < |items| ==> ItemCompleted(pricing, items[i])
  {
    var p := (it: QuantityItem) => ItemCompleted(pricing, it);
    var q := (it: QuantityItem) => !ItemCompleted(pricing, it);
    CountComplement(items, p, q);
  }

  /**
   * A completed entry left behind by an item that is no longer in the BOQ
   * counts towards completion: with items a and b, where only a is priced,
   * the tender is reported ready to submit.
   */
  lemma StaleEntryReportsReady()
    ensures var a := QuantityItem("a", "01", "", DefaultUnit, 1.0, DefaultSpecifications);
      var b := QuantityItem("b", "02", "", DefaultUnit, 1.0, DefaultSpecifications);
      var done := PricingData([], [], [], [], Percentages(0.0, 0.0, 0.0), "", true);
      var pricing := map["a" := done, "stale" := done];
      StatusAsWritten([a, b], pricing, true).status == ReadyToSubmit
      && !ItemCompleted(pricing, b)
      && Status([a, b], pricing, true).status == UnderAction
  {
    var a := QuantityItem("a", "01", "", DefaultUnit, 1.0, DefaultSpecifications);
    var b := QuantityItem("b", "02", "", DefaultUnit, 1.0, DefaultSpecifications);
    var done := PricingData([], [], [], [], Percentages(0.0, 0.0, 0.0), "", true);
    var pricing := map["a" := done, "stale" := done];
    assert (set k | k in pricing && pricing[k].completed) == {"a", "stale"};
    StatusReadyIffAllPriced([a, b], pricing, true);
  }

  /** The last status the screen persisted. */
  datatype Snapshot = Snapshot(status: TenderStatus, progress: real, totalValue: real)

  /** A status update is persisted unless it repeats the last one (progress within 0.0001). */
  function ShouldPersist(last: Option<Snapshot>, current: Snapshot): (r: bool)
    ensures last.None? ==> r
    ensures !r <==> (last.Some? && last.value.status == current.status
                     && -0.0001 < last.value.progress - current.progress < 0.0001
                     && last.value.totalValue == current.totalValue)
  {
    !(last.Some? && last.value.status == current.status
      && -0.0001 < last.value.progress - current.progress < 0.0001
      && last.value.totalValue == current.totalValue)
  }

  /** Recomputing an unchanged status is never persisted twice. */
  lemma RepeatNotPersisted(s: Snapshot)
    ensures !ShouldPersist(Some(s), s)
  {
  }
}

=== FILE: text.dfy ===
/**
 * String helpers with JavaScript's semantics: the whitespace set used by
 * `String.prototype.trim` and the regular-expression class `\s`, prefix and
 * substring tests, lower-casing, decimal rendering of naturals, joining and
 * literal replace-all.
 */
module Text {

  /** The characters JavaScript treats as white space or line terminators. */
  predicate IsSpace(c: char) {
    var n := c as int;
    || (0x09 <= n <= 0x0D) || n == 0x20 || n == 0xA0 || n == 0x1680
    || (0x2000 <= n <= 0x200A) || n == 0x2028 || n == 0x2029
    || n == 0x202F || n == 0x205F || n == 0x3000 || n == 0xFEFF
  }

  predicate NoSpace(s: string) {
    forall i :: 0 <= i < |s| ==> !IsSpace(s[i])
  }

  function TrimStart(s: string): (r: string)
    ensures |r| <= |s| && r == s[|s| - |r|..]
    ensures |r| > 0 ==> !IsSpace(r[0])
    ensures forall i :: 0 <= i < |s| - |r| ==> IsSpace(s[i])
  {
    if |s| > 0 && IsSpace(s[0]) then TrimStart(s[1..]) else s
  }

  function TrimEnd(s: string): (r: string)
    ensures |r| <= |s| && r == s[..|r|]
    ensures |r| > 0 ==> !IsSpace(r[|r| - 1])
    ensures forall i :: |r| <= i < |s| ==> IsSpace(s[i])
  {
    if |s| > 0 && IsSpace(s[|s| - 1]) then TrimEnd(s[..|s| - 1]) else s
  }

  /** `String.prototype.trim`. */
  function Trim(s: string): (r: string)
    ensures |r| <= |s|
    ensures |r| > 0 ==> !IsSpace(r[0]) && !IsSpace(r[|r| - 1])
  {
    TrimEnd(TrimStart(s))
  }

  /** A string is blank when it trims to the empty string. */
  predicate IsBlank(s: string) {
    Trim(s) == ""
  }

  lemma BlankIffAllSpace(s: string)
    ensures IsBlank(s) <==> forall i :: 0 <= i < |s| ==> IsSpace(s[i])
  {
    if forall i :: 0 <= i < |s| ==> IsSpace(s[i]) {
      AllSpaceTrimStart(s);
    }
    if IsBlank(s) {
      // a non-empty TrimStart result starts with a non-space, which TrimEnd keeps
      assert TrimStart(s) == "";
    }
  }

  lemma {:induction false} AllSpaceTrimStart(s: string)
    requires forall i :: 0 <= i < |s| ==> IsSpace(s[i])
    ensures TrimStart(s) == ""
  {
    if |s| > 0 {
      AllSpaceTrimStart(s[1..]);
    }
  }

  predicate IsUpperAscii(c: char) { 'A' <= c <= 'Z' }

  /** Lower-casing of one character (ASCII letters; other scripts are left as they are). */
  function LowerChar(c: char): (r: char)
    ensures !IsUpperAscii(r)
    ensures !IsUpperAscii(c) ==> r == c
  {
    if IsUpperAscii(c) then (c as int + 32) as char else c
  }

  function Lower(s: string): (r: string)
    ensures |r| == |s|
    ensures forall i :: 0 <= i < |s| ==> r[i] == LowerChar(s[i])
  {
    seq(|s|, i requires 0 <= i < |s| => LowerChar(s[i]))
  }

  predicate IsPrefix(p: string, s: string) {
    |p| <= |s| && s[..|p|] == p
  }

  predicate IsSuffix(p: string, s: string) {
    |p| <= |s| && s[|s| - |p|..] == p
  }

  /** Lower-casing twice is lower-casing once. */
  lemma LowerIdempotent(s: string)
    ensures Lower(Lower(s)) == Lower(s)
  {
  }

  /** `s.includes(p)`. */
  predicate Contains(s: string, p: string) {
    exists i :: 0 <= i <= |s| - |p| && IsPrefix(p, s[i..])
  }

  /** Case-insensitive `includes`, as the search filters write it: both sides lower-cased. */
  predicate ContainsIgnoringCase(s: string, p: string) {
    Contains(Lower(s), Lower(p))
  }

  lemma EmptyIsContained(s: string)
    ensures Contains(s, "")
  {
    assert IsPrefix("", s[0..]);
  }

  predicate IsDigit(c: char) { '0' <= c <= '9' }

  predicate AllDigits(s: string) {
    forall i :: 0 <= i < |s| ==> IsDigit(s[i])
  }

  function DigitChar(d: nat): (c: char)
    requires d < 10
    ensures IsDigit(c)
  {
    ('0' as int + d) as char
  }

  function DigitValue(c: char): (d: nat)
    requires IsDigit(c)
    ensures d < 10 && DigitChar(d) == c
  {
    c as int - '0' as int
  }

  /** The decimal rendering of a natural number, as `String(n)` writes it. */
  function NatText(n: nat): (r: string)
    ensures |r| > 0 && AllDigits(r)
    ensures |r| > 1 ==> r[0] != '0'
  {
    if n < 10 then [DigitChar(n)] else NatText(n / 10) + [DigitChar(n % 10)]
  }

  /** The value of a string of decimal digits, most significant first. */
  function DigitsValue(s: string): nat
    requires AllDigits(s)
  {
    if |s| == 0 then 0 else DigitsValue(s[..|s| - 1]) * 10 + DigitValue(s[|s| - 1])
  }

  lemma {:induction false} NatTextValue(n: nat)
    ensures DigitsValue(NatText(n)) == n
  {
    if n >= 10 {
      var t := NatText(n);
      assert t[..|t| - 1] == NatText(n / 10);
      NatTextValue(n / 10);
    }
  }

  lemma NatTextInjective(m: nat, n: nat)
    ensures NatText(m) == NatText(n) ==> m == n
  {
    NatTextValue(m);
    NatTextValue(n);
  }

  /** The text of an integer: a minus sign before the digits of a negative value. */
  function IntText(i: int): (r: string)
    ensures |r| > 0
  {
    if i < 0 then "-" + NatText(-i) else NatText(i)
  }

  /** `String(n).padStart(2, '0')`. */
  function PadStart2(n: nat): (r: string)
    ensures |r| >= 2
    ensures n >= 10 ==> r == NatText(n)
  {
    var t := NatText(n);
    if |t| >= 2 then t else "0" + t
  }

  /** `parts.join(sep)`. */
  function Join(parts: seq<string>, sep: string): string {
    if |parts| == 0 then ""
    else if |parts| == 1 then parts[0]
    else parts[0] + sep + Join(parts[1..], sep)
  }

  /** The characters of `s` that satisfy `keep`, in order (a `replace` with a negated class). */
  function KeepChars(s: string, keep: char -> bool): (r: string)
    ensures |r| <= |s|
    ensures forall i :: 0 <= i < |r| ==> keep(r[i])
    ensures (forall i :: 0 <= i < |s| ==> keep(s[i])) ==> r == s
  {
    if |s| == 0 then ""
    else (if keep(s[0]) then [s[0]] else []) + KeepChars(s[1..], keep)
  }

  /** Filtering characters distributes over concatenation. */
  lemma {:induction false} KeepCharsAppend(a: string, b: string, keep: char -> bool)
    ensures KeepChars(a + b, keep) == KeepChars(a, keep) + KeepChars(b, keep)
  {
    if |a| > 0 {
      assert (a + b)[1..] == a[1..] + b;
      KeepCharsAppend(a[1..], b, keep);
    } else {
      assert a + b == b;
    }
  }

  /** Filtering out one rejected character between two runs that are kept whole. */
  lemma KeepCharsDropOne(x: string, c: char, y: string, keep: char -> bool)
    requires forall i :: 0 <= i < |x| ==> keep(x[i])
    requires forall i :: 0 <= i < |y| ==> keep(y[i])
    requires !keep(c)
    ensures KeepChars(x + [c] + y, keep) == x + y
  {
    var xc := x + [c];
    KeepCharsAppend(x, [c], keep);
    KeepCharsWhole(x, keep);
    KeepCharsNone(c, keep);
    assert KeepChars(xc, keep) == x;
    KeepCharsAppend(xc, y, keep);
    KeepCharsWhole(y, keep);
  }

  lemma KeepCharsWhole(x: string, keep: char -> bool)
    requires forall i :: 0 <= i < |x| ==> keep(x[i])
    ensures KeepChars(x, keep) == x
  {
  }

  lemma KeepCharsNone(c: char, keep: char -> bool)
    requires !keep(c)
    ensures KeepChars([c], keep) == []
  {
    assert [c][1..] == [];
  }

  /** `s.replace(/c/g, d)` for a single character. */
  function ReplaceChar(s: string, c: char, d: char): (r: string)
    ensures |r| == |s|
    ensures forall i :: 0 <= i < |s| ==> r[i] == (if s[i] == c then d else s[i])
  {
    seq(|s|, i requires 0 <= i < |s| => if s[i] == c then d else s[i])
  }

  /**
   * Literal global replacement, scanning left to right and never re-examining
   * inserted text: `s.split(pat).join(rep)` for a non-empty pattern.
   */
  function ReplaceAll(s: string, pat: string, rep: string): string
    requires |pat| > 0
    decreases |s|
  {
    if |s| < |pat| then s
    else if s[..|pat|] == pat then rep + ReplaceAll(s[|pat|..], pat, rep)
    else [s[0]] + ReplaceAll(s[1..], pat, rep)
  }

  /** How many times ReplaceAll substitutes: non-overlapping occurrences, left to right. */
  function Occurrences(s: string, pat: string): nat
    requires |pat| > 0
    decreases |s|
  {
    if |s| < |pat| then 0
    else if s[..|pat|] == pat then 1 + Occurrences(s[|pat|..], pat)
    else Occurrences(s[1..], pat)
  }

  lemma {:induction false} ReplaceAllLength(s: string, pat: string, rep: string)
    requires |pat| > 0
    ensures |ReplaceAll(s, pat, rep)| == |s| + Occurrences(s, pat) * (|rep| - |pat|)
    decreases |s|
  {
    if |s| < |pat| {
    } else if s[..|pat|] == pat {
      var rest := s[|pat|..];
      ReplaceAllLength(rest, pat, rep);
      var k := Occurrences(rest, pat);
      assert Occurrences(s, pat) == 1 + k;
      assert |ReplaceAll(s, pat, rep)| == |rep| + |ReplaceAll(rest, pat, rep)|;
      assert |rest| == |s| - |pat|;
      Distribute(k, |rep| - |pat|);
    } else {
      ReplaceAllLength(s[1..], pat, rep);
      assert Occurrences(s, pat) == Occurrences(s[1..], pat);
      assert |ReplaceAll(s, pat, rep)| == 1 + |ReplaceAll(s[1..], pat, rep)|;
    }
  }

  lemma Distribute(k: int, d: int)
    ensures (1 + k) * d == d + k * d
  {
  }

  lemma {:induction false} ReplaceAllAbsent(s: string, pat: string, rep: string)
    requires |pat| > 0
    requires Occurrences(s, pat) == 0
    ensures ReplaceAll(s, pat, rep) == s
    decreases |s|
  {
    if |s| >= |pat| {
      assert s[..|pat|] != pat;
      ReplaceAllAbsent(s[1..], pat, rep);
    }
  }

  lemma {:induction false} ReplaceAllIdentity(s: string, pat: string)
    requires |pat| > 0
    ensures ReplaceAll(s, pat, pat) == s
    decreases |s|
  {
    if |s| < |pat| {
    } else if s[..|pat|] == pat {
      ReplaceAllIdentity(s[|pat|..], pat);
      assert s == pat + s[|pat|..];
    } else {
      ReplaceAllIdentity(s[1..], pat);
      assert s == [s[0]] + s[1..];
    }
  }
  /** Text that cannot start the pattern passes through ReplaceAll untouched. */
  lemma {:induction false} ReplaceAllSkip(p: string, x: string, pat: string, rep: string)
    requires |pat| > 0
    requires forall i :: 0 <= i < |p| ==> p[i] != pat[0]
    ensures ReplaceAll(p + x, pat, rep) == p + ReplaceAll(x, pat, rep)
    decreases |p|
  {
    if |p| > 0 {
      var s := p + x;
      if |s| < |pat| {
        assert ReplaceAll(x, pat, rep) == x;
      } else {
        assert s[..|pat|] != pat by {
          assert s[..|pat|][0] == p[0];
        }
        assert ReplaceAll(s, pat, rep) == [p[0]] + ReplaceAll(s[1..], pat, rep);
        assert s[1..] == p[1..] + x;
        ReplaceAllSkip(p[1..], x, pat, rep);
        assert p == [p[0]] + p[1..];
      }
    } else {
      assert p + x == x;
    }
  }

  /** A pattern at the front is replaced, and the scan resumes after it. */
  lemma ReplaceAllFront(x: string, pat: string, rep: string)
    requires |pat| > 0
    ensures ReplaceAll(pat + x, pat, rep) == rep + ReplaceAll(x, pat, rep)
  {
    var s := pat + x;
    assert s[..|pat|] == pat && s[|pat|..] == x;
  }

  /**
   * Text assembled from pieces that cannot start the pattern, with the
   * pattern between them, becomes the same pieces joined by the replacement.
   */
  lemma {:induction false} ReplaceJoin(parts: seq<string>, pat: string, rep: string)
    requires |pat| > 0
    requires forall k, i :: 0 <= k < |parts| && 0 <= i < |parts[k]| ==> parts[k][i] != pat[0]
    ensures ReplaceAll(Join(parts, pat), pat, rep) == Join(parts, rep)
  {
    if |parts| == 1 {
      ReplaceAllSkip(parts[0], "", pat, rep);
      assert parts[0] + "" == parts[0];
    } else if |parts| > 1 {
      var tail := Join(parts[1..], pat);
      ReplaceJoin(parts[1..], pat, rep);
      ReplaceAllFront(tail, pat, rep);
      ReplaceAllSkip(parts[0], pat + tail, pat, rep);
      assert Join(parts, pat) == parts[0] + (pat + tail);
    }
  }

  /** `s.split(sep)` for a one-character separator: never empty, and no part contains `sep`. */
  function Split(s: string, sep: char): (r: seq<string>)
    ensures |r| >= 1
    ensures forall i, j :: 0 <= i < |r| && 0 <= j < |r[i]| ==> r[i][j] != sep
  {
    if |s| == 0 then [""]
    else
      var rest := Split(s[1..], sep);
      if s[0] == sep then [""] + rest
      else [[s[0]] + rest[0]] + rest[1..]
  }

  /** Joining the parts of a split with the separator gives the text back. */
  lemma {:induction false} JoinSplit(s: string, sep: char)
    ensures Join(Split(s, sep), [sep]) == s
  {
    if |s| > 0 {
      var rest := Split(s[1..], sep);
      JoinSplit(s[1..], sep);
      if s[0] == sep {
        var r := [""] + rest;
        assert Split(s, sep) == r;
        assert r[0] == "" && r[1..] == rest;
        assert Join(r, [sep]) == "" + [sep] + Join(rest, [sep]);
      } else {
        var r := [[s[0]] + rest[0]] + rest[1..];
        assert Split(s, sep) == r;
        JoinHead(rest, [s[0]], [sep]);
      }
      assert s == [s[0]] + s[1..];
    }
  }

  /** Text without the separator splits into itself alone. */
  lemma {:induction false} SplitWithoutSeparator(s: string, sep: char)
    requires forall i :: 0 <= i < |s| ==> s[i] != sep
    ensures Split(s, sep) == [s]
  {
    if |s| > 0 {
      SplitWithoutSeparator(s[1..], sep);
      assert [s[0]] + s[1..] == s;
    }
  }

  /** Text without the separator in front of more text joins the first part of the rest's split. */
  lemma {:induction false} SplitPrefix(p: string, t: string, sep: char)
    requires forall i :: 0 <= i < |p| ==> p[i] != sep
    ensures Split(p + t, sep) == [p + Split(t, sep)[0]] + Split(t, sep)[1..]
  {
    if |p| > 0 {
      var u := Split(t, sep);
      SplitPrefix(p[1..], t, sep);
      assert (p + t)[1..] == p[1..] + t;
      var r := Split(p[1..] + t, sep);
      assert r == [p[1..] + u[0]] + u[1..];
      assert r[0] == p[1..] + u[0] && r[1..] == u[1..];
      assert (p + t)[0] == p[0] != sep;
      assert Split(p + t, sep) == [[p[0]] + r[0]] + r[1..];
      assert [p[0]] + r[0] == p + u[0];
      assert [[p[0]] + r[0]] + r[1..] == [p + u[0]] + u[1..];
    } else {
      var u := Split(t, sep);
      assert p + t == t && p + u[0] == u[0];
      assert u == [u[0]] + u[1..];
    }
  }

  /** Splitting parts joined by a separator none of them holds gives the parts back. */
  lemma {:induction false} SplitJoin(parts: seq<string>, sep: char)
    requires |parts| >= 1
    requires forall k, i :: 0 <= k < |parts| && 0 <= i < |parts[k]| ==> parts[k][i] != sep
    ensures Split(Join(parts, [sep]), sep) == parts
  {
    if |parts| == 1 {
      SplitWithoutSeparator(parts[0], sep);
    } else {
      var rest := Join(parts[1..], [sep]);
      SplitJoin(parts[1..], sep);
      var t := [sep] + rest;
      assert t[1..] == rest;
      assert Split(t, sep) == [""] + parts[1..];
      assert Join(parts, [sep]) == parts[0] + t;
      SplitPrefix(parts[0], t, sep);
      assert parts[0] + "" == parts[0];
    }
  }

  /** A character in neither the parts nor the separator is not in their join. */
  lemma {:induction false} JoinAvoids(parts: seq<string>, sep: string, c: char)
    requires forall i :: 0 <= i < |sep| ==> sep[i] != c
    requires forall k, i :: 0 <= k < |parts| && 0 <= i < |parts[k]| ==> parts[k][i] != c
    ensures forall i :: 0 <= i < |Join(parts, sep)| ==> Join(parts, sep)[i] != c
  {
    if |parts| > 1 {
      JoinAvoids(parts[1..], sep, c);
      var rest := Join(parts[1..], sep);
      assert Join(parts, sep) == parts[0] + sep + rest;
    }
  }

  /** Prepending text to the first part prepends it to the join. */
  lemma JoinHead(parts: seq<string>, p: string, sep: string)
    requires |parts| >= 1
    ensures Join([p + parts[0]] + parts[1..], sep) == p + Join(parts, sep)
  {
    var q := [p + parts[0]] + parts[1..];
    assert q[0] == p + parts[0] && q[1..] == parts[1..];
  }

  /** Lexicographic `a < b` on code units, as JavaScript compares strings. */
  predicate LexLess(a: string, b: string)
    decreases |a|
  {
    if |a| == 0 then |b| > 0
    else if |b| == 0 then false
    else if a[0] != b[0] then a[0] < b[0]
    else LexLess(a[1..], b[1..])
  }

  lemma {:induction false} LexLessIrreflexive(a: string)
    ensures !LexLess(a, a)
    decreases |a|
  {
    if |a| > 0 {
      LexLessIrreflexive(a[1..]);
    }
  }

  lemma {:induction false} LexLessAsymmetric(a: string, b: string)
    ensures LexLess(a, b) ==> !LexLess(b, a)
    decreases |a|
  {
    if |a| > 0 && |b| > 0 && a[0] == b[0] {
      LexLessAsymmetric(a[1..], b[1..]);
    }
  }
}

=== FILE: workflow.dfy ===
/**
 * The task-assignment rule engine of the workflow automation service:
 * dotted field paths, the eight condition operators, the left-to-right
 * AND/OR fold over a rule's conditions, the four assignment actions, the
 * ordering of active rules, the task-list filter, the compliance tally and
 * notification templates.
 */
module Workflow {
  import opened Wrappers
  import opened Text
  import opened Numbers
  import opened Js
  import opened Lists

  // ------------------------------------------------------------ field paths

  /**
   * The value reached by following `path` from `v`, one own property at a
   * time; `undefined` as soon as the current value is not an object or
   * lacks the next segment.
   */
  function GetPath(v: JsValue, path: seq<string>): (r: JsValue)
    ensures |path| == 0 ==> r == v
    ensures |path| > 0 && Get(v, path[0]).None? ==> r.Undefined?
    decreases |path|
  {
    if |path| == 0 then v
    else
      match Get(v, path[0])
      case Some(next) => GetPath(next, path[1..])
      case None => Undefined
  }

  /** Following a path in two legs is following it in one. */
  lemma {:induction false} GetPathAppend(v: JsValue, p: seq<string>, q: seq<string>)
    ensures GetPath(v, p + q) == GetPath(GetPath(v, p), q)
    decreases |p|
  {
    if |q| == 0 {
      assert p + q == p;
    } else if |p| > 0 {
      assert (p + q)[0] == p[0] && (p + q)[1..] == p[1..] + q;
      match Get(v, p[0])
      case Some(next) =>
        GetPathAppend(next, p[1..], q);
        assert GetPath(v, p) == GetPath(next, p[1..]);
        assert GetPath(v, p + q) == GetPath(next, p[1..] + q);
      case None =>
        assert GetPath(v, p) == Undefined;
        assert GetPath(v, p + q) == Undefined;
    } else {
      assert p + q == q;
    }
  }

  /**
   * getFieldValue: split the field name on '.' and walk the segments,
   * stopping with `undefined` at the first one that is missing.
   */
  method FieldValue(field: string, subject: JsValue) returns (value: JsValue)
    ensures value == GetPath(subject, Split(field, '.'))
  {
    var segments := Split(field, '.');
    value := subject;
    var i := 0;
    while i < |segments|
      invariant 0 <= i <= |segments|
      invariant GetPath(value, segments[i..]) == GetPath(subject, segments)
    {
      var next := Get(value, segments[i]);
      if next.None? {
        return Undefined;
      }
      assert segments[i..][1..] == segments[i + 1..];
      value := next.value;
      i := i + 1;
    }
  }

  /** The value a condition's field names, as a function. */
  function FieldOf(field: string, subject: JsValue): JsValue {
    GetPath(subject, Split(field, '.'))
  }

  // ------------------------------------------------------------- conditions

  /** A condition operator; any other name falls through the service's switch. */
  datatype Operator =
    | OpEquals | OpNotEquals | OpContains | OpNotContains
    | OpGreaterThan | OpLessThan | OpIn | OpNotIn
    | OpUnknown(name: string)

  /** The names the switch recognises. */
  function OperatorName(op: Operator): string {
    match op
    case OpEquals => "equals"
    case OpNotEquals => "not_equals"
    case OpContains => "contains"
    case OpNotContains => "not_contains"
    case OpGreaterThan => "greater_than"
    case OpLessThan => "less_than"
    case OpIn => "in"
    case OpNotIn => "not_in"
    case OpUnknown(name) => name
  }

  /** The `case` label an operator name selects. */
  function ParseOperator(name: string): (op: Operator)
    ensures OperatorName(op) == name
    ensures op.OpUnknown? ==> forall k: Operator :: !k.OpUnknown? ==> OperatorName(k) != name
  {
    if name == "equals" then OpEquals
    else if name == "not_equals" then OpNotEquals
    else if name == "contains" then OpContains
    else if name == "not_contains" then OpNotContains
    else if name == "greater_than" then OpGreaterThan
    else if name == "less_than" then OpLessThan
    else if name == "in" then OpIn
    else if name == "not_in" then OpNotIn
    else OpUnknown(name)
  }

  /** Reading back the name of a recognised operator gives the operator. */
  lemma ParseOperatorName(op: Operator)
    requires !op.OpUnknown?
    ensures ParseOperator(OperatorName(op)) == op
  {
  }

  /**
   * One condition of an assignment rule, with its operator already read.
   * An absent `logicalOperator` is the empty string.
   */
  datatype Condition = Condition(field: string, operator: Operator, value: JsValue, logicalOperator: string)

  /** evaluateCondition's switch on the operator, for a field value `x` and the condition's value `v`. */
  function Test(op: Operator, x: JsValue, v: JsValue): (r: bool)
    ensures op.OpUnknown? ==> !r
    ensures (op.OpIn? || op.OpNotIn?) && !v.Arr? ==> !r
    ensures op.OpIn? && v.Arr? ==> (r <==> exists i :: 0 <= i < |v.items| && SameValueZero(v.items[i], x))
  {
    match op
    case OpEquals => StrictEquals(x, v)
    case OpNotEquals => !StrictEquals(x, v)
    case OpContains => Contains(Lower(ToText(x)), Lower(ToText(v)))
    case OpNotContains => !Contains(Lower(ToText(x)), Lower(ToText(v)))
    case OpGreaterThan => NumLess(ToNumber(v), ToNumber(x))
    case OpLessThan => NumLess(ToNumber(x), ToNumber(v))
    case OpIn => v.Arr? && Includes(v.items, x)
    case OpNotIn => v.Arr? && !Includes(v.items, x)
    case OpUnknown(_) => false
  }

  /** 'equals' and 'not_equals' always disagree. */
  lemma EqualsComplement(x: JsValue, v: JsValue)
    ensures Test(OpNotEquals, x, v) == !Test(OpEquals, x, v)
  {
  }

  /** 'contains' and 'not_contains' always disagree. */
  lemma ContainsComplement(x: JsValue, v: JsValue)
    ensures Test(OpNotContains, x, v) == !Test(OpContains, x, v)
  {
  }

  /** 'contains' ignores case: lower-casing either side first changes nothing. */
  lemma ContainsIgnoresCase(x: string, v: string)
    ensures Test(OpContains, Str(Lower(x)), Str(Lower(v))) == Test(OpContains, Str(x), Str(v))
  {
    LowerIdempotent(x);
    LowerIdempotent(v);
  }

  /** For an array value, 'in' and 'not_in' always disagree. */
  lemma InComplement(x: JsValue, v: JsValue)
    requires v.Arr?
    ensures Test(OpNotIn, x, v) == !Test(OpIn, x, v)
  {
  }

  /** 'greater_than' and 'less_than' never both hold. */
  lemma OrderingExclusive(x: JsValue, v: JsValue)
    ensures !(Test(OpGreaterThan, x, v) && Test(OpLessThan, x, v))
  {
    var a, b := ToNumber(x), ToNumber(v);
    assert Test(OpGreaterThan, x, v) == NumLess(b, a);
    assert Test(OpLessThan, x, v) == NumLess(a, b);
    NumLessStrict(a, b);
  }

  /** A missing field (`undefined`, which converts to NaN) is neither greater nor less than anything. */
  lemma MissingFieldUnordered(v: JsValue)
    ensures !Test(OpGreaterThan, Undefined, v) && !Test(OpLessThan, Undefined, v)
  {
    NumLessStrict(ToNumber(Undefined), ToNumber(v));
  }

  function Holds(c: Condition, subject: JsValue): bool {
    Test(c.operator, FieldOf(c.field, subject), c.value)
  }

  /**
   * The connective in force after the first `n` conditions, given their
   * `logicalOperator`s in `ops` ("" when absent): the last one given, and
   * 'and' before any.
   */
  function OpAfter(ops: seq<string>, n: nat): (op: string)
    requires n <= |ops|
  {
    if n == 0 then "and"
    else if ops[n - 1] != "" then ops[n - 1]
    else OpAfter(ops, n - 1)
  }

  /** One step of the fold: 'and' conjoins, every other connective disjoins. */
  function Combine(acc: bool, op: string, b: bool): (r: bool)
    ensures op == "and" ==> (r <==> acc && b)
    ensures op != "and" ==> (r <==> acc || b)
  {
    if op == "and" then acc && b else acc || b
  }

  /**
   * The fold over the first `n` condition results, left to right and with
   * no precedence: each result is combined with the connective in force.
   */
  function FoldUpTo(results: seq<bool>, ops: seq<string>, n: nat): bool
    requires |ops| == |results| && 1 <= n <= |results|
  {
    if n == 1 then results[0]
    else Combine(FoldUpTo(results, ops, n - 1), OpAfter(ops, n - 1), results[n - 1])
  }

  /** The outcome of each condition under the test `holds`. */
  function Results(conds: seq<Condition>, holds: Condition -> bool): (r: seq<bool>)
    ensures |r| == |conds|
    ensures forall i :: 0 <= i < |conds| ==> r[i] == holds(conds[i])
  {
    seq(|conds|, i requires 0 <= i < |conds| => holds(conds[i]))
  }

  function Connectives(conds: seq<Condition>): (r: seq<string>)
    ensures |r| == |conds|
    ensures forall i :: 0 <= i < |conds| ==> r[i] == conds[i].logicalOperator
  {
    seq(|conds|, i requires 0 <= i < |conds| => conds[i].logicalOperator)
  }

  /**
   * evaluateConditions as a definition, for a per-condition test `holds`:
   * true for an empty list, otherwise the fold.
   */
  function FoldConditions(conds: seq<Condition>, holds: Condition -> bool): (r: bool)
    ensures |conds| == 0 ==> r
    ensures |conds| == 1 ==> r == holds(conds[0])
  {
    if |conds| == 0 then true else FoldUpTo(Results(conds, holds), Connectives(conds), |conds|)
  }

  /** Whether a rule's conditions hold for a subject. */
  function Conditions(conds: seq<Condition>, subject: JsValue): bool {
    FoldConditions(conds, c => Holds(c, subject))
  }

  /**
   * evaluateConditions: the loop the service runs, carrying the current
   * connective. The per-condition test is a parameter; the service passes
   * evaluateCondition, which is Holds here.
   */
  method EvaluateConditions(conds: seq<Condition>, holds: Condition -> bool) returns (result: bool)
    ensures result == FoldConditions(conds, holds)
  {
    if |conds| == 0 {
      return true;
    }
    ghost var results := Results(conds, holds);
    ghost var ops := Connectives(conds);
    result := true;
    var op := "and";
    var i := 0;
    while i < |conds|
      invariant 0 <= i <= |conds|
      invariant op == OpAfter(ops, i)
      invariant i >= 1 ==> result == FoldUpTo(results, ops, i)
    {
      var c := conds[i];
      var outcome := holds(c);
      if i == 0 {
        result := outcome;
      } else if op == "and" {
        result := result && outcome;
      } else {
        result := result || outcome;
      }
      if c.logicalOperator != "" {
        op := c.logicalOperator;
      }
      i := i + 1;
    }
  }

  predicate AndOrAbsent(op: string) {
    op == "" || op == "and"
  }

  /** With only 'and' connectives (or none), the fold holds iff every result holds. */
  lemma {:induction false} AllAndIsConjunction(results: seq<bool>, ops: seq<string>, n: nat)
    requires |ops| == |results| && 1 <= n <= |results|
    requires forall i :: 0 <= i < |ops| ==> AndOrAbsent(ops[i])
    ensures FoldUpTo(results, ops, n) <==> forall i :: 0 <= i < n ==> results[i]
  {
    if n > 1 {
      AllAndIsConjunction(results, ops, n - 1);
      AndOpAfter(ops, n - 1);
    }
  }

  lemma {:induction false} AndOpAfter(ops: seq<string>, n: nat)
    requires n <= |ops|
    requires forall i :: 0 <= i < |ops| ==> AndOrAbsent(ops[i])
    ensures OpAfter(ops, n) == "and"
  {
    if n > 0 && ops[n - 1] == "" {
      AndOpAfter(ops, n - 1);
    }
  }

  /** An 'or' connective is any given one other than 'and'. */
  predicate IsOr(op: string) {
    op != "" && op != "and"
  }

  /** When every condition but the last says 'or', the fold holds iff some result holds. */
  lemma {:induction false} AllOrIsDisjunction(results: seq<bool>, ops: seq<string>, n: nat)
    requires |ops| == |results| && 1 <= n <= |results|
    requires forall i :: 0 <= i < |ops| - 1 ==> IsOr(ops[i])
    ensures FoldUpTo(results, ops, n) <==> exists i :: 0 <= i < n && results[i]
  {
    if n > 1 {
      AllOrIsDisjunction(results, ops, n - 1);
      assert IsOr(ops[n - 2]);
      assert OpAfter(ops, n - 1) == ops[n - 2];
    }
  }

  /** A rule whose connectives are all 'and' or absent matches iff all its conditions hold. */
  lemma ConjunctiveRule(conds: seq<Condition>, holds: Condition -> bool)
    requires forall i :: 0 <= i < |conds| ==> AndOrAbsent(conds[i].logicalOperator)
    ensures FoldConditions(conds, holds) <==> forall i :: 0 <= i < |conds| ==> holds(conds[i])
  {
    if |conds| > 0 {
      AllAndIsConjunction(Results(conds, holds), Connectives(conds), |conds|);
    }
  }

  /** A rule whose conditions are chained by 'or' matches iff one of its conditions holds. */
  lemma DisjunctiveRule(conds: seq<Condition>, holds: Condition -> bool)
    requires |conds| > 0
    requires forall i :: 0 <= i < |conds| - 1 ==> IsOr(conds[i].logicalOperator)
    ensures FoldConditions(conds, holds) <==> exists i :: 0 <= i < |conds| && holds(conds[i])
  {
    var results := Results(conds, holds);
    AllOrIsDisjunction(results, Connectives(conds), |conds|);
    if exists i :: 0 <= i < |conds| && results[i] {
      var i :| 0 <= i < |conds| && results[i];
      assert holds(conds[i]);
    }
  }

  // ---------------------------------------------------------------- tasks

  /**
   * A workflow task. `kind` is the JavaScript `type` property; an optional
   * property that is missing or `undefined` is None; `extra` holds the
   * remaining properties, which no rule changes.
   */
  datatype Task = Task(
    id: string,
    title: string,
    status: string,
    priority: Option<string>,
    kind: string,
    assignedTo: Option<string>,
    dueDate: Option<string>,
    tags: seq<string>,
    extra: seq<(string, JsValue)>)

  function OptionalField(key: string, v: Option<string>): seq<(string, JsValue)> {
    match v
    case Some(s) => [(key, Str(s))]
    case None => []
  }

  function StrItems(ss: seq<string>): (r: seq<JsValue>)
    ensures |r| == |ss|
    ensures forall i :: 0 <= i < |ss| ==> r[i] == Str(ss[i])
  {
    seq(|ss|, i requires 0 <= i < |ss| => Str(ss[i]))
  }

  /** The task as the object the condition paths walk. */
  function TaskObject(t: Task): (r: JsValue)
    ensures r.Obj?
    ensures Get(r, "status") == Some(Str(t.status))
  {
    var fields := [("id", Str(t.id)), ("title", Str(t.title)), ("status", Str(t.status)), ("type", Str(t.kind))]
      + OptionalFields(t);
    LookupFirst(fields, "status", 2);
    Obj(fields)
  }

  /** The properties after the four that every task has. */
  function OptionalFields(t: Task): seq<(string, JsValue)> {
    OptionalField("priority", t.priority)
    + OptionalField("assignedTo", t.assignedTo)
    + OptionalField("dueDate", t.dueDate)
    + [("tags", Arr(StrItems(t.tags)))]
    + t.extra
  }

  /** A field name without a dot names one own property. */
  lemma PlainField(key: string, v: JsValue)
    requires forall i :: 0 <= i < |key| ==> key[i] != '.'
    ensures FieldOf(key, v) == Get(v, key).GetOr(Undefined)
  {
    SplitWithoutSeparator(key, '.');
    var path: seq<string> := [key];
    assert path[0] == key && path[1..] == [];
  }

  /** The path "status" reads the task's status. */
  lemma StatusField(t: Task)
    ensures FieldOf("status", TaskObject(t)) == Str(t.status)
  {
    PlainField("status", TaskObject(t));
  }

  /** On two texts, 'equals' is equality of the texts. */
  lemma EqualsOnText(a: string, b: string)
    ensures Test(OpEquals, Str(a), Str(b)) <==> a == b
  {
  }

  /** A condition `status equals s` holds exactly for the tasks whose status is `s`. */
  lemma StatusCondition(t: Task, s: string)
    ensures Holds(Condition("status", OpEquals, Str(s), ""), TaskObject(t)) <==> t.status == s
  {
    StatusField(t);
    EqualsOnText(t.status, s);
  }

  /** The fields no assignment action touches. */
  predicate SameIdentity(a: Task, b: Task) {
    a.id == b.id && a.title == b.title && a.status == b.status && a.kind == b.kind && a.extra == b.extra
  }

  // -------------------------------------------------------------- actions

  /**
   * An assignment action: its type and the parameters it reads. A missing
   * parameter is None.
   */
  datatype Action = Action(
    kind: string,
    userId: Option<string>,
    priority: Option<string>,
    daysFromNow: Option<real>,
    dueDate: Option<string>,
    tag: Option<string>)

  predicate TextTruthy(o: Option<string>) {
    o.Some? && o.value != ""
  }

  predicate DaysTruthy(o: Option<real>) {
    o.Some? && o.value != 0.0
  }

  /**
   * One action of applyActions. `clock(d)` is the ISO text of the date `d`
   * days from now; the clock is outside the model.
   */
  function ApplyAction(a: Action, t: Task, clock: real -> string): (r: Task)
    ensures SameIdentity(t, r)
    ensures a.kind != "assign_to_user" ==> r.assignedTo == t.assignedTo
    ensures a.kind == "assign_to_user" ==> r.assignedTo == a.userId
    ensures a.kind != "set_priority" ==> r.priority == t.priority
    ensures a.kind != "set_due_date" ==> r.dueDate == t.dueDate
    ensures a.kind == "set_due_date" && DaysTruthy(a.daysFromNow) ==> r.dueDate == Some(clock(a.daysFromNow.value))
    ensures a.kind == "set_due_date" && !DaysTruthy(a.daysFromNow) && !TextTruthy(a.dueDate) ==> r.dueDate == t.dueDate
    ensures t.tags <= r.tags && |r.tags| <= |t.tags| + 1
    ensures a.kind == "add_tag" && TextTruthy(a.tag) ==> a.tag.value in r.tags
    ensures forall g :: g in r.tags && g !in t.tags ==> a.tag == Some(g)
    ensures NoDuplicates(t.tags) ==> NoDuplicates(r.tags)
  {
    if a.kind == "assign_to_user" then t.(assignedTo := a.userId)
    else if a.kind == "set_priority" then t.(priority := a.priority)
    else if a.kind == "set_due_date" then
      if DaysTruthy(a.daysFromNow) then t.(dueDate := Some(clock(a.daysFromNow.value)))
      else if TextTruthy(a.dueDate) then t.(dueDate := a.dueDate)
      else t
    else if a.kind == "add_tag" && TextTruthy(a.tag) && a.tag.value !in t.tags then
      t.(tags := t.tags + [a.tag.value])
    else t
  }

  /** Adding the same tag twice is adding it once. */
  lemma AddTagIdempotent(a: Action, t: Task, clock: real -> string)
    requires a.kind == "add_tag"
    ensures ApplyAction(a, ApplyAction(a, t, clock), clock) == ApplyAction(a, t, clock)
  {
  }

  /** applyActions: the actions in order, each on the result of the previous one. */
  function ApplyActions(actions: seq<Action>, t: Task, clock: real -> string): (r: Task)
    ensures SameIdentity(t, r)
    ensures t.tags <= r.tags
    ensures NoDuplicates(t.tags) ==> NoDuplicates(r.tags)
    decreases |actions|
  {
    if |actions| == 0 then t
    else ApplyActions(actions[1..], ApplyAction(actions[0], t, clock), clock)
  }

  // ---------------------------------------------------------------- rules

  datatype Rule = Rule(id: string, isActive: bool, priority: real, conditions: seq<Condition>, actions: seq<Action>)

  predicate IsActive(r: Rule) { r.isActive }

  function RulePriority(r: Rule): real { r.priority }

  /** The rules executeAssignmentRules runs: the active ones, highest priority first. */
  function ActiveByPriority(rules: seq<Rule>): (r: seq<Rule>)
    ensures SortedDesc(r, RulePriority)
    ensures multiset(r) == multiset(Filter(rules, IsActive))
    ensures forall x :: x in r <==> x in rules && x.isActive
  {
    var active := Filter(rules, IsActive);
    var r := SortDesc(active, RulePriority);
    SameMembers(r, active);
    r
  }

  /** Every rule in order; a rule whose conditions hold applies its actions to the running task. */
  function RunRules(ordered: seq<Rule>, t: Task, clock: real -> string): (r: Task)
    ensures SameIdentity(t, r)
    ensures t.tags <= r.tags
    ensures NoDuplicates(t.tags) ==> NoDuplicates(r.tags)
    decreases |ordered|
  {
    if |ordered| == 0 then t
    else
      var rule := ordered[0];
      var next := if Conditions(rule.conditions, TaskObject(t)) then ApplyActions(rule.actions, t, clock) else t;
      RunRules(ordered[1..], next, clock)
  }

  /** The task after the rules, and whether it is written back to the task list. */
  datatype Execution = Execution(task: Task, saved: bool)

  /**
   * executeAssignmentRules, with the write-back decided by comparing the
   * result with the task as it was passed in.
   */
  function ExecuteRules(rules: seq<Rule>, t: Task, clock: real -> string): (r: Execution)
    ensures SameIdentity(t, r.task)
    ensures NoDuplicates(t.tags) ==> NoDuplicates(r.task.tags)
    ensures !r.saved ==> r.task == t
  {
    var u := RunRules(ActiveByPriority(rules), t, clock);
    Execution(u, u != t)
  }

  /**
   * executeAssignmentRules as written. The task is copied with a spread,
   * so the copy shares the input's `tags` array, and add_tag pushes onto
   * that shared array. The final comparison therefore sees the new tags
   * on both sides.
   */
  function ExecuteRulesAsWritten(rules: seq<Rule>, t: Task, clock: real -> string): (r: Execution)
    ensures r.task == ExecuteRules(rules, t, clock).task
    ensures r.saved ==> ExecuteRules(rules, t, clock).saved
  {
    var u := RunRules(ActiveByPriority(rules), t, clock);
    Execution(u, u != t.(tags := u.tags))
  }

  /** Inactive rules make no difference. */
  lemma InactiveRulesIgnored(rules: seq<Rule>, t: Task, clock: real -> string)
    ensures ExecuteRules(Filter(rules, IsActive), t, clock) == ExecuteRules(rules, t, clock)
  {
    var active := Filter(rules, IsActive);
    forall i | 0 <= i < |active| ensures IsActive(active[i]) {
      assert active[i] in active;
    }
    FilterAll(active, IsActive);
  }

  /**
   * A rule that only adds a tag changes the task, yet the write-back as
   * written does not happen, while the corrected comparison saves it.
   */
  lemma TagOnlyChangeNotSaved()
    ensures var rule := Rule("r", true, 1.0, [], [Action("add_tag", None, None, None, None, Some("urgent"))]);
            var t := Task("t", "", "pending", None, "review", None, None, [], []);
            var clock := (d: real) => "";
            ExecuteRules([rule], t, clock).task.tags == ["urgent"]
            && !ExecuteRulesAsWritten([rule], t, clock).saved
            && ExecuteRules([rule], t, clock).saved
  {
    var rule := Rule("r", true, 1.0, [], [Action("add_tag", None, None, None, None, Some("urgent"))]);
    var t := Task("t", "", "pending", None, "review", None, None, [], []);
    var clock := (d: real) => "";
    assert Filter([rule], IsActive) == [rule];
    assert ActiveByPriority([rule]) == [rule];
    var u := ApplyActions(rule.actions, t, clock);
    assert u == t.(tags := ["urgent"]);
    assert RunRules([rule], t, clock) == RunRules([], u, clock);
  }

  // ---------------------------------------------------------- task filter

  /**
   * getTasks' filter object. Arrays are always truthy, so a present array
   * filters even when empty; a text filter filters only when non-empty.
   */
  datatype TaskFilters = TaskFilters(
    status: Option<seq<string>>,
    priority: Option<seq<string>>,
    assignedTo: Option<string>,
    kind: Option<seq<string>>,
    dueDateFrom: Option<string>,
    dueDateTo: Option<string>,
    tags: Option<seq<string>>)

  /** The filter callback: every given criterion in turn, rejecting at the first miss. */
  function KeepTask(t: Task, f: TaskFilters): bool {
    if f.status.Some? && t.status !in f.status.value then false
    else if f.priority.Some? && !(t.priority.Some? && t.priority.value in f.priority.value) then false
    else if TextTruthy(f.assignedTo) && t.assignedTo != f.assignedTo then false
    else if f.kind.Some? && t.kind !in f.kind.value then false
    else if TextTruthy(f.dueDateFrom) && TextTruthy(t.dueDate) && LexLess(t.dueDate.value, f.dueDateFrom.value) then false
    else if TextTruthy(f.dueDateTo) && TextTruthy(t.dueDate) && LexLess(f.dueDateTo.value, t.dueDate.value) then false
    else if f.tags.Some? && !(exists g :: g in f.tags.value && g in t.tags) then false
    else true
  }

  /** Each criterion on its own: what a task must satisfy when that criterion is given. */
  predicate InWindow(t: Task, f: TaskFilters) {
    TextTruthy(t.dueDate) ==>
      (TextTruthy(f.dueDateFrom) ==> !LexLess(t.dueDate.value, f.dueDateFrom.value))
      && (TextTruthy(f.dueDateTo) ==> !LexLess(f.dueDateTo.value, t.dueDate.value))
  }

  predicate SharesTag(t: Task, wanted: seq<string>) {
    exists g :: g in wanted && g in t.tags
  }

  /** getTasks: every task without filters, otherwise the tasks that meet every given criterion. */
  function GetTasks(tasks: seq<Task>, filters: Option<TaskFilters>): (r: seq<Task>)
    ensures filters.None? ==> r == tasks
    ensures |r| <= |tasks|
    ensures forall t :: t in r <==> t in tasks && (filters.Some? ==>
      var f := filters.value;
      (f.status.Some? ==> t.status in f.status.value)
      && (f.priority.Some? ==> t.priority.Some? && t.priority.value in f.priority.value)
      && (TextTruthy(f.assignedTo) ==> t.assignedTo == f.assignedTo)
      && (f.kind.Some? ==> t.kind in f.kind.value)
      && InWindow(t, f)
      && (f.tags.Some? ==> SharesTag(t, f.tags.value)))
  {
    match filters
    case None => tasks
    case Some(f) => Filter(tasks, t => KeepTask(t, f))
  }

  /** A filter object with nothing set keeps every task. */
  lemma EmptyFilterKeepsAll(tasks: seq<Task>)
    ensures GetTasks(tasks, Some(TaskFilters(None, None, None, None, None, None, None))) == tasks
  {
    var f := TaskFilters(None, None, None, None, None, None, None);
    FilterAll(tasks, t => KeepTask(t, f));
  }

  // ------------------------------------------------------------ compliance

  datatype RuleStatus = Passed | Failed | Warning | Skipped

  /** The outcome of one compliance rule; `critical` is its severity being 'critical'. */
  datatype RuleResult = RuleResult(status: RuleStatus, critical: bool)

  datatype ComplianceSummary = ComplianceSummary(
    total: nat, passed: nat, failed: nat, warning: nat, skipped: nat, critical: nat)

  predicate IsPassed(r: RuleResult) { r.status == Passed }
  predicate IsFailed(r: RuleResult) { r.status == Failed }
  predicate IsWarning(r: RuleResult) { r.status == Warning }
  predicate IsSkipped(r: RuleResult) { r.status == Skipped }
  predicate IsCriticalFailure(r: RuleResult) { r.status == Failed && r.critical }

  /** One step of executeComplianceCheck's tally: the counter of the result's status goes up. */
  function AddResult(s: ComplianceSummary, r: RuleResult): ComplianceSummary {
    match r.status
    case Passed => s.(total := s.total + 1, passed := s.passed + 1)
    case Failed => s.(total := s.total + 1, failed := s.failed + 1, critical := s.critical + if r.critical then 1 else 0)
    case Warning => s.(total := s.total + 1, warning := s.warning + 1)
    case Skipped => s.(total := s.total + 1, skipped := s.skipped + 1)
  }

  /** The tally over all results, in order. */
  function Tally(results: seq<RuleResult>): (s: ComplianceSummary)
    ensures s.total == |results|
    ensures s.passed + s.failed + s.warning + s.skipped == s.total
    ensures s.critical <= s.failed
  {
    if |results| == 0 then ComplianceSummary(0, 0, 0, 0, 0, 0)
    else AddResult(Tally(results[..|results| - 1]), results[|results| - 1])
  }

  /**
   * A counter of the tally that goes up by one exactly for the results
   * satisfying `p` counts those results.
   */
  lemma {:induction false} TallyCount(results: seq<RuleResult>, p: RuleResult -> bool, field: ComplianceSummary -> nat)
    requires field(ComplianceSummary(0, 0, 0, 0, 0, 0)) == 0
    requires forall s, r :: field(AddResult(s, r)) == field(s) + if p(r) then 1 else 0
    ensures field(Tally(results)) == Count(results, p)
  {
    if |results| > 0 {
      var init := results[..|results| - 1];
      var r := results[|results| - 1];
      TallyCount(init, p, field);
      assert results == init + [r];
      CountSnoc(init, r, p);
    }
  }

  /** Each counter of the tally counts the results with its status. */
  lemma TallyCounts(results: seq<RuleResult>)
    ensures Tally(results).passed == Count(results, IsPassed)
    ensures Tally(results).failed == Count(results, IsFailed)
    ensures Tally(results).warning == Count(results, IsWarning)
    ensures Tally(results).critical == Count(results, IsCriticalFailure)
  {
    TallyCount(results, IsPassed, (s: ComplianceSummary) => s.passed);
    TallyCount(results, IsFailed, (s: ComplianceSummary) => s.failed);
    TallyCount(results, IsWarning, (s: ComplianceSummary) => s.warning);
    TallyCount(results, IsCriticalFailure, (s: ComplianceSummary) => s.critical);
  }

  /** The compliance score: the rounded percentage of passed rules, 100 with no rules. */
  function ComplianceScore(s: ComplianceSummary): (r: int)
    requires s.passed <= s.total
    ensures 0 <= r <= 100
    ensures s.total == 0 || s.passed == s.total ==> r == 100
    ensures s.total > 0 && s.passed == 0 ==> r == 0
  {
    if s.total > 0 then
      PercentRounds(s.passed, s.total);
      Round(s.passed as real / s.total as real * 100.0)
    else 100
  }

  /** A rounded percentage of a part of a whole lies in [0, 100] and is exact at both ends. */
  lemma PercentRounds(part: nat, whole: nat)
    requires 0 < whole && part <= whole
    ensures 0 <= Round(part as real / whole as real * 100.0) <= 100
    ensures part == whole ==> Round(part as real / whole as real * 100.0) == 100
    ensures part == 0 ==> Round(part as real / whole as real * 100.0) == 0
  {
    var q := part as real / whole as real;
    QuotientBounds(part as real, whole as real, 1.0);
    var x := q * 100.0;
    RoundWithin(x, 0, 100);
    if part == whole {
      SelfQuotient(whole as real);
      RoundUnique(x, 100);
    }
    if part == 0 {
      RoundUnique(x, 0);
    }
  }

  lemma SelfQuotient(w: real)
    requires w > 0.0
    ensures w / w == 1.0
  {
  }

  datatype ComplianceStatus = CompliancePassed | ComplianceWarning | ComplianceFailed

  /** The overall status: failed on any critical issue or failure, else warning on any warning, else passed. */
  function Status(s: ComplianceSummary): (r: ComplianceStatus)
    ensures r == ComplianceFailed <==> s.critical > 0 || s.failed > 0
    ensures r == ComplianceWarning <==> s.critical == 0 && s.failed == 0 && s.warning > 0
    ensures r == CompliancePassed <==> s.critical == 0 && s.failed == 0 && s.warning == 0
  {
    if s.critical > 0 then ComplianceFailed
    else if s.failed > 0 then ComplianceFailed
    else if s.warning > 0 then ComplianceWarning
    else CompliancePassed
  }

  /**
   * The score and status of a compliance run. Critical issues are failures,
   * so the status is failed exactly when some rule failed.
   */
  function Outcome(results: seq<RuleResult>): (r: (int, ComplianceStatus))
    ensures 0 <= r.0 <= 100
    ensures r.1 == ComplianceFailed <==> exists i :: 0 <= i < |results| && results[i].status == Failed
    ensures r.1 == CompliancePassed <==> forall i :: 0 <= i < |results| ==> results[i].status in {Passed, Skipped}
  {
    var s := Tally(results);
    TallyCounts(results);
    assert forall i :: 0 <= i < |results| ==> (IsFailed(results[i]) <==> results[i].status == Failed);
    (ComplianceScore(s), Status(s))
  }

  // ------------------------------------------------------------- templates

  function Placeholder(key: string): (r: string)
    ensures |r| == |key| + 4 && r[0] == '{'
  {
    "{{" + key + "}}"
  }

  /**
   * processTemplate: for each variable in order, every `{{key}}` is replaced
   * by the variable's text.
   */
  function ProcessTemplate(template: string, vars: seq<(string, JsValue)>): (r: string)
    ensures NoBrace(template) ==> r == template
    decreases |vars|
  {
    if |vars| == 0 then template
    else
      var filled := ReplaceAll(template, Placeholder(vars[0].0), ToText(vars[0].1));
      assert NoBrace(template) ==> filled == template by {
        if NoBrace(template) {
          ReplaceAllSkip(template, "", Placeholder(vars[0].0), ToText(vars[0].1));
          assert template + "" == template;
        }
      }
      ProcessTemplate(filled, vars[1..])
  }

  predicate NoBrace(s: string) {
    forall i :: 0 <= i < |s| ==> s[i] != '{'
  }

  /**
   * A template of literal pieces (without '{') around `{{key}}` becomes the
   * pieces around the variable's text.
   */
  lemma FillsEveryPlaceholder(parts: seq<string>, key: string, value: JsValue)
    requires forall k :: 0 <= k < |parts| ==> NoBrace(parts[k])
    ensures ProcessTemplate(Join(parts, Placeholder(key)), [(key, value)]) == Join(parts, ToText(value))
  {
    ReplaceJoin(parts, Placeholder(key), ToText(value));
  }

  /** A template without placeholders comes back unchanged. */
  lemma {:induction false} PlainTemplateUnchanged(template: string, vars: seq<(string, JsValue)>)
    requires NoBrace(template)
    ensures ProcessTemplate(template, vars) == template
    decreases |vars|
  {
    if |vars| > 0 {
      ReplaceAllSkip(template, "", Placeholder(vars[0].0), ToText(vars[0].1));
      assert template + "" == template;
      PlainTemplateUnchanged(template, vars[1..]);
    }
  }
}

=== FILE: wrappers.dfy ===
/** Optional values and results with an error, shared by every module of the model. */
module Wrappers {

  /** A value that may be absent: JavaScript's `undefined`/`null` on a typed field. */
  datatype Option<+T> = None | Some(value: T) {
    function GetOr(default: T): T {
      match this
      case Some(v) => v
      case None => default
    }
  }

  /** The outcome of an operation that ends by throwing or returning an error. */
  datatype Result<+R, +E> = Success(value: R) | Failure(error: E)

  /** `a ?? b` over options: the first present value. */
  function OrElse<T>(a: Option<T>, b: Option<T>): (r: Option<T>)
    ensures a.Some? ==> r == a
    ensures a.None? ==> r == b
  {
    if a.Some? then a else b
  }
}
